=== FILE: README.md ===
# MyModbus core in Dafny

This project models the sequential core of MyModbus, a collection of Modbus
RTU temperature and humidity collectors (C, C++, Go, Python, Java) and a
Node.js web service with a time server. The collectors poll sensors over
serial lines and store readings through a retry-bounded cache. The model
uses pure functions over immutable datatypes and proves properties about
them. It covers:

- **Time service (JavaScript).**
  - `NTPServer`: the 48-byte NTPv4 reply (header layout of section 7.3 and
    timestamp format of section 6 of RFC 5905), stratum, precision and
    reference id per clock source, request counting, start/stop flags and
    status.
  - `TimeSync`: RMC sentence parsing (NMEA 0183), extrapolation of the last
    fix, `syncTime` dispatch per source with the GPS-PPS to GPS degradation,
    PPS pulses and source switching.
  - `TimeSyncMonitor`: the bounded sync history and the health verdict.
- **Modbus RTU framing.** The Modbus CRC-16 (section 6.2.2 of the Modbus
  over Serial Line specification v1.02), the Read Holding Registers request
  and response (section 6.3 of the Modbus Application Protocol v1.1b3),
  exception responses (section 7 of that document), and the C++ and Java
  readers with their multi-port registries.
- **Register encodings.** IPv4 text to two 16-bit registers and back, and
  the baud-rate code table, in the device initialiser and `modbusManager`.
  The manager's client keying, read dispatch and collection filtering are
  also modelled.
- **Alarms and cluster routing.**
  - `AlarmManager`: rules, the per-(device, rule) active/recovered state
    machine, acknowledgement, statistics and the bounded newest-first
    history.
  - `ClusterManager`: the 32-bit string hash, task-node selection, message
    filtering and task distribution.
- **Configuration.** The hand-rolled JSON extractors and defaulting passes
  of the C and C++ loaders, the Go `LoadConfig` defaulting pass, and the Java
  `AppConfig` map parser with the casts that throw on wrong-typed or null
  values and `ConfigLoader`'s fallback on the partly read configuration.
- **Storage.** One shared model of the store-and-forward cache table, used
  by the Go, Python and C cached storages. It is a sequence of rows
  (id, reading, retry count) with the flush, save and statistics
  operations. Also modelled: the storage factories, the C and C++ batch
  writers, and the C++ SQL and InfluxDB escaping.

Everything outside the program is a parameter of the model: clocks, serial
lines, sockets, the NTP client, Redis, database and file outcomes, and
timeouts. Time is an integer count of Unix milliseconds, bytes are `bv8`
and registers are naturals below 65536. JavaScript number behaviour is
written out where the code relies on it: `parseInt` with NaN as `None`,
truncating `%`, `Math.round`, `Date.UTC` and 32-bit `|0` wrapping.

Points where the code behaves in a way a reader might not expect:

- A failed `syncTime` replaces the current time with the local clock,
  leaves `lastSync` alone and emits no event
  (src/time/TimeSync.js:308-314). See `TimeSync.SyncNeverEmitsFailure`.
- The NTP origin timestamp is the request's transmit timestamp re-encoded
  after a round trip through milliseconds, so precision below a
  millisecond is lost
  (Web/src/time/NTPServer.js:134,171). See
  `NtpServer.OriginDropsSubMillisecond`.
- The monitor's staleness is measured from the last record of any kind,
  because failed records also set `lastSyncTime`
  (Web/src/time/TimeSyncMonitor.js:54). The average duration counts only
  successful records with a positive duration
  (Web/src/time/TimeSyncMonitor.js:74). A fresh monitor reports a warning,
  because its success rate is 0 (`SyncMonitor.FreshMonitorWarns`).
- The NTP stratum for non-GPS sources is the configured stratum, which
  defaults to 1. The `ntp` source advertises the reference id `LOCL`.

## Model

| member | source | states |
|---|---|---|
| NtpServer.NewServer | Web/src/time/NTPServer.js:7-22 | an option that is not given falls back to port 123, source "local" and stratum 1; a new server is stopped, has counted no request and has no last request time |
| NtpServer.Stratum | Web/src/time/NTPServer.js:234-242 | the stratum is 1 for "gps" and "gps-pps"; for every other source it is the configured stratum, and 10 only when that is zero |
| NtpServer.Precision | Web/src/time/NTPServer.js:245-256 | the precision is always negative: -20 exactly for "gps-pps", -10 exactly for "gps", and -6 for every other clock source |
| NtpServer.ReferenceId | Web/src/time/NTPServer.js:213-231 | the reference id is four bytes: "GPS" and a zero byte for the two GPS sources, "LOCL" for every other source |
| NtpServer.ToUint8 | Web/src/time/NTPServer.js:150-156 | storing a number into a reply byte keeps it modulo 256, so a negative precision becomes its two's complement |
| NtpServer.ReadI32 | Web/src/time/NTPServer.js:128 | a signed big-endian word is the unsigned reading of the same bytes, less 2^32 when the top bit is set |
| NtpServer.WriteTimestamp | Web/src/time/NTPServer.js:199-210 | writing a time succeeds exactly when the seconds field lands in 0..2^32-1 and the fraction in range (a negative time only on a whole second); a written timestamp is eight bytes |
| NtpServer.WriteTimestampValue | Web/src/time/NTPServer.js:199-210 | for a time from 1970 on, the timestamp is the big-endian seconds since 1900 followed by the millisecond part scaled to a rounded 32-bit binary fraction |
| NtpServer.TimestampRoundTrip | Web/src/time/NTPServer.js:183-210 | for every time from 1970 until the seconds field overflows in 2036, reading back a written timestamp gives the same millisecond time |
| NtpServer.ReadWords | Web/src/time/NTPServer.js:183-196 | reading a timestamp decodes its seconds word and fraction word as big-endian numbers and converts them to Unix milliseconds |
| NtpServer.MillisBack | Web/src/time/NTPServer.js:192-206 | converting a time to seconds and rounded fraction and back to milliseconds loses nothing |
| NtpServer.ParsePacket | Web/src/time/NTPServer.js:120-136 | leap indicator, version and mode are the bit fields 7-6, 5-3 and 2-0 of byte 0 and together rebuild it; stratum, poll and precision are bytes 1 to 3 |
| NtpServer.Layout | Web/src/time/NTPServer.js:140-177 | a reply is 48 bytes: header, eight zero bytes of root delay and dispersion, the reference id, and the reference, origin, receive and transmit timestamps in their slots |
| NtpServer.BuildResponse | Web/src/time/NTPServer.js:139-180 | a reply is built exactly when both the current Date and the request's transmit time can be written (an invalid Date always can), and it is then 48 bytes long |
| NtpServer.HandleRequest | Web/src/time/NTPServer.js:81-117 | a datagram shorter than 48 bytes changes nothing and gets no answer; a longer one increments the request count by one and records its arrival, and gets the reply built for the current Date, valid or not, when one can be built |
| NtpServer.BuildResponseValue | Web/src/time/NTPServer.js:139-180 | the reply lays out the server header, the reference id, the current time three times and the request's transmit time as origin |
| NtpServer.WriteDate | Web/src/time/NTPServer.js:199-210 | a valid Date is written as its NTP timestamp, and an invalid Date as two zero words, never as a range error |
| NtpServer.InvalidTimeReply | Web/src/time/NTPServer.js:139-180 | with an invalid current Date the reference, receive and transmit fields are zero words, and the transmit field reads back as the start of the NTP era |
| NtpServer.InvalidTimeAnsweredWithZeros | Web/src/time/NTPServer.js:81-117 | a well-formed request that arrives while the current Date is invalid is still answered, with zero reference, receive and transmit timestamps |
| NtpServer.ReplyHeader | Web/src/time/NTPServer.js:147-165 | a reply decodes as leap 0, version 4, mode 4, with the source's stratum and precision, the request's poll or 6 when that is 0, zero root delay and dispersion, and the source's reference id |
| NtpServer.ReplyTimestamps | Web/src/time/NTPServer.js:167-177 | the reference, receive and transmit timestamps of a reply all read back as the current time |
| NtpServer.ReplyOrigin | Web/src/time/NTPServer.js:134-171 | the origin timestamp of a reply reads back as the request's transmit time at millisecond precision |
| NtpServer.ReplyDecodes | Web/src/time/NTPServer.js:81-180 | every request of 48 bytes or more whose times are in range is answered with a version 4 server reply whose transmit time is the current time and whose origin is the request's decoded transmit time |
| NtpServer.U32BytesOfRead | Web/src/time/NTPServer.js:184-209 | writing back a word that was read as unsigned gives the same four bytes |
| NtpServer.ReadU32Injective | Web/src/time/NTPServer.js:184-185 | two four-byte words that read as the same number are equal |
| NtpServer.SubMillisecondRoundsDown | Web/src/time/NTPServer.js:193-206 | a fraction below half a millisecond reads as a whole second and is written back with a zero fraction |
| NtpServer.OriginDropsSubMillisecond | Web/src/time/NTPServer.js:183-210 | a request whose transmit fraction is non-zero but below half a millisecond gets an origin with the same seconds word and a zero fraction, so the origin is not a copy of the request's bytes (with lines 134, 171) |
| NtpServer.Start | Web/src/time/NTPServer.js:30-62 | starting a running server changes nothing; otherwise the server runs exactly when the socket reaches the listening state |
| NtpServer.Stop | Web/src/time/NTPServer.js:65-78 | after stopping the server does not run, and its configuration and counters are unchanged |
| NtpServer.UpdateClockSource | Web/src/time/NTPServer.js:283-287 | switching the clock source changes the source and nothing else |
| NtpServer.GetStatus | Web/src/time/NTPServer.js:270-280 | the status reports the running flag, the counters, port and source as they are, the stratum and precision the replies advertise, and a last request time only when one was recorded and is not zero |
| NtpServer.SwitchToGpsAdvertisesStratumOne | Web/src/time/NTPServer.js:236-237 | after switching to "gps" the server advertises stratum 1, precision -10 and reference "GPS", and the request count is unchanged (with lines 250-251, 218-222, 283-287) |
| Calendar.TimeClip | src/time/TimeSync.js:253 | a millisecond count makes a valid date exactly when it lies within 8.64e15 ms of the epoch, and the date then holds that count |
| Calendar.DateUtc | src/time/TimeSync.js:111 | `Date.UTC` of fields one of which is not a number is an invalid date |
| Calendar.DayFromYearStep | src/time/TimeSync.js:108-111 | the first day of the next year follows the first day of a year by that year's 365 or 366 days |
| Calendar.MonthRollover | src/time/TimeSync.js:106-111 | the day after the last day of a month is the first of the next month, and the day after 31 December is 1 January of the next year |
| Calendar.MonthCarry | src/time/TimeSync.js:107-111 | a month number twelve too large means the same month of the following year |
| Calendar.EpochIsDayZero | src/time/TimeSync.js:111 | 1 January 1970 is day zero of the date arithmetic |
| TimeSync.NewManager | src/time/TimeSync.js:5-26 | the source defaults to "local" and the sync interval to one hour; a new manager has no time, no last sync, no GPS port, no GPS or PPS and a zero pulse offset |
| TimeSync.Shift | src/time/TimeSync.js:405-406 | moving a date keeps an invalid date invalid and adds the offset to a valid one |
| TimeSync.RmcFix | src/time/TimeSync.js:84-97 | a sentence yields a fix exactly when it starts with '$', contains "RMC", has at least ten comma fields, has status "A" and non-empty time and date fields |
| TimeSync.FixOfDigits | src/time/TimeSync.js:99-111 | time digits hhmmss (with any fraction after them) and date digits ddmmyy give the instant 20yy-mm-dd hh:mm:ss UTC |
| TimeSync.FixOfNumbers | src/time/TimeSync.js:101-111 | the fix is `Date.UTC` of 2000 plus the year field, the month field less one, and the day, hour, minute and second fields as read |
| TimeSync.ParseNmea | src/time/TimeSync.js:84-126 | a sentence without a fix changes nothing and announces nothing; a fix becomes the current time, the clock becomes the last sync, and one time-updated event carries both |
| TimeSync.ParseTwoDigits | src/time/TimeSync.js:101-108 | a two-digit field reads back as its number |
| TimeSync.RmcRoundTrip | src/time/TimeSync.js:84-111 | a valid RMC sentence assembled from time and date digit groups yields exactly the instant those digits name |
| TimeSync.HandlePpsPulse | src/time/TimeSync.js:251-274 | a pulse always records its nanoseconds as the offset; without a current time nothing else changes; with one, the current time becomes the pulse's whole second, the clock becomes the last sync and a pps-pulse event is emitted |
| TimeSync.GpsTime | src/time/TimeSync.js:318-342 | without GPS the read fails; a fix younger than five seconds is returned as it is; otherwise the next fix from the port (or a timeout) is the answer |
| TimeSync.GpsPpsTime | src/time/TimeSync.js:345-374 | without GPS the read fails; without PPS, without a pulse in time, or without a GPS time the GPS answer stands; otherwise the pulse's second is the time and its nanoseconds the offset |
| TimeSync.SourceTime | src/time/TimeSync.js:281-295 | "gps" takes the GPS reading and "gps-pps" the GPS reading with the pulse correction, "ntp" the NTP reply, and "local" or any other source the local clock; only "gps-pps" can change the pulse offset |
| TimeSync.SyncTime | src/time/TimeSync.js:277-315 | the returned time becomes the current time; a read that succeeds sets the last sync to the clock and emits one time-synced event; a read that fails falls back to the local clock, keeps the last sync and emits nothing; the PPS offset becomes the one the source read gives (0 unless it is GPS with PPS); nothing else changes: source, availability flags, PPS switch, sync interval and GPS client |
| TimeSync.CurrentTime | src/time/TimeSync.js:402-411 | with a current time and a non-zero last sync the answer is the current time moved by the clock time elapsed since the last sync; otherwise it is the local clock |
| TimeSync.SyncedTimeAdvancesWithClock | src/time/TimeSync.js:402-407 | after a successful synchronisation the current time runs at the rate of the local clock from the synchronised instant (with lines 297-298) |
| TimeSync.GpsPpsDegradesToGps | src/time/TimeSync.js:350-353 | on "gps-pps" without PPS or without a pulse, a synchronisation gives the same time, current time and last sync as on "gps", and keeps the pulse offset |
| TimeSync.InitGps | src/time/TimeSync.js:48-81 | a GPS port that opens is kept; one that cannot be created switches the manager to the local source |
| TimeSync.GpsPortEvent | src/time/TimeSync.js:64-74 | the port's open and error events set GPS availability and nothing else |
| TimeSync.InitPps | src/time/TimeSync.js:129-153 | PPS becomes available exactly when the pulse device exists; otherwise nothing changes |
| TimeSync.Init | src/time/TimeSync.js:29-45 | a GPS source whose port fails ends on the local source; a non-GPS source goes straight to one synchronisation |
| TimeSync.SwitchSource | src/time/TimeSync.js:446-467 | the manager after the switch is the one synchronisation round run on the prepared manager, and the events are that round's events followed by the change from the old to the requested source with the resulting time; a GPS source whose port must be opened and fails leaves "local", any other switch leaves the requested source |
| TimeSync.SwitchPrepare | src/time/TimeSync.js:450-458 | the source becomes the requested one, or "local" when a GPS port has to be opened and fails; a GPS client exists afterwards exactly when one existed or a GPS source opened its port, PPS is available exactly when it was or "gps-pps" found the device, and nothing else changes |
| TimeSync.FailedGpsSwitchReadsLocalClock | src/time/TimeSync.js:446-467 | a switch to a GPS source whose port cannot be opened synchronises from the local clock: the current time and the last sync are the clock reading, and the first event reports a "local" sync |
| TimeSync.SwitchToNonGpsTakesEffect | src/time/TimeSync.js:446-460 | switching to "local" or "ntp" always takes effect, and the current time is what that source's synchronisation yields |
| TimeSync.SyncNeverEmitsFailure | src/time/TimeSync.js:300-314 | a synchronisation emits at most one event, exactly when the read succeeds, and it is always time-synced: no sync-failed event is ever emitted |
| TimeSync.GetStatus | src/time/TimeSync.js:433-443 | the status reports the source, the extrapolated current time, the last sync only when it is set and non-zero, the availability flags and pulse offset as they are, and the sync interval |
| TimeSync.StatusAfterSync | src/time/TimeSync.js:433-443 | right after a sync, the status shows the synced time (or an invalid one), the sync's clock as last sync, the offset the source read gave, and the unchanged source and interval (with lines 277-315) |
| SyncMonitor.AverageDuration | Web/src/time/TimeSyncMonitor.js:73-80 | with no successful timed record the previous average stands; otherwise the average is the mean duration of those records rounded to the nearest millisecond |
| SyncMonitor.RecordSync | Web/src/time/TimeSyncMonitor.js:36-70 | a record bumps the sync count and exactly one of the success and failure counts, stamps the clock, defaults the source to "unknown" and the duration to 0, is appended to the history (dropping the oldest beyond 100), and the average is recomputed over the new history |
| SyncMonitor.RecordSyncKeepsValid | Web/src/time/TimeSyncMonitor.js:36-63 | recording keeps the sync count equal to successes plus failures and the history within 100 records |
| SyncMonitor.HistoryKeepsOrder | Web/src/time/TimeSyncMonitor.js:58-63 | the new record is the newest in the history and the older records keep their order, the oldest one dropped when the history was full |
| SyncMonitor.AverageWithinDurations | Web/src/time/TimeSyncMonitor.js:74-78 | the average of timed records is at least 1 and at most the longest of their durations |
| SyncMonitor.SuccessRate | Web/src/time/TimeSyncMonitor.js:86-88 | the success rate is a percentage; it is 0 with no sync or no success and 100 when nothing failed |
| SyncMonitor.RecentHistory | Web/src/time/TimeSyncMonitor.js:89 | the recent history is the last ten records, or all of them when there are fewer |
| SyncMonitor.HealthStatus | Web/src/time/TimeSyncMonitor.js:94-136 | the verdict is error exactly when the last sync is older than twice the interval; otherwise warning exactly when the success rate is below 80 or gps-pps offsets average above 1000 ns; each of the low-rate, stale and PPS issues is listed exactly when it holds, the PPS one with the rounded mean offset, and there is no other issue |
| SyncMonitor.Issues | Web/src/time/TimeSyncMonitor.js:98-127 | the issue list holds one low-rate issue exactly when the rate is below 80, one stale issue exactly when the last sync is too old, one PPS issue carrying the rounded mean offset exactly when a gps-pps source averages above 1000 ns, and nothing else |
| SyncMonitor.FreshMonitorWarns | Web/src/time/TimeSyncMonitor.js:86-104 | a monitor that has recorded nothing reports a warning, because its success rate counts as 0 |
| SyncMonitor.JustRecordedIsNotStale | Web/src/time/TimeSyncMonitor.js:107-115 | right after a record the monitor is never stale and never reports an error (with line 54) |
| SyncMonitor.Reset | Web/src/time/TimeSyncMonitor.js:139-151 | a reset monitor has no counts, no history, no last sync and zero durations |
| SyncMonitor.SyncedData | src/time/TimeSync.js:300-305 | the data of a time-synced event carries its source and pulse offset and never a duration |
| SyncMonitor.ManagerFedMonitor | Web/src/time/TimeSyncMonitor.js:24-30 | a monitor fed only by the time manager's events records only successes, no failure, no timed record and an average of 0 (with lines 36-80) |
| ModbusCrc.Crc | C++/src/sensor_reader.cpp:292-305 | the CRC of no bytes is the initial register 0xFFFF |
| ModbusCrc.CrcAppend | C++/src/sensor_reader.cpp:294-303 | the CRC of a message extended by one byte is that byte folded into the CRC of the message |
| ModbusCrc.WithCrc | C++/src/sensor_reader.cpp:175-177 | a framed message is the message followed by two CRC bytes |
| ModbusCrc.CrcOfFramedIsZero | C++/src/sensor_reader.cpp:175-177 | the CRC over a message with its CRC appended low byte first is zero, which is the receiver's check of the Modbus serial line standard (with lines 292-305) |
| ModbusCrc.CheckValue | Java/src/main/java/com/modbus/sensor/SensorReader.java:143-156 | the CRC of the ASCII digits "123456789" is 0x4B37, the published check value of CRC-16/MODBUS |
| ModbusCrc.Be16RoundTrip | C++/src/sensor_reader.cpp:170-173 | splitting a 16-bit value into high and low bytes and joining them gives it back (with lines 278-279) |
| ModbusCrc.ReadBe16Bytes | C++/src/sensor_reader.cpp:278-281 | joining two bytes and splitting the value gives the same two bytes |
| ModbusCrc.RequestFrame | C++/src/sensor_reader.cpp:167-177 | a request frame is eight bytes |
| ModbusCrc.RequestFrameFields | C++/src/sensor_reader.cpp:167-177 | the frame carries the slave, the function code, the address and the count big-endian, and a CRC that checks |
| ModbusCrc.TwoRegisterResponse | C++/src/sensor_reader.cpp:247-281 | a Read Holding Registers answer with two registers is nine bytes |
| ModbusCrc.TwoRegisterResponseFields | C++/src/sensor_reader.cpp:259-281 | that answer carries the slave, function 0x03, byte count 4, both registers big-endian and the CRC of the first seven bytes |
| CppSensorReader.SendModbusRequest | C++/src/sensor_reader.cpp:163-188 | a request is sent exactly when the port is connected, as an eight-byte frame with the slave, function, address and count and a CRC that checks |
| CppSensorReader.RawDataRequest | C++/src/sensor_reader.cpp:249 | the reader asks function 0x03 for two registers |
| CppSensorReader.CheckResponse | C++/src/sensor_reader.cpp:259-288 | a nine-byte answer is accepted exactly when slave, function 0x03 and byte count 4 match, and then yields its two registers; a wrong slave is reported as such; function 0x83 from the right slave is an exception carrying byte 2; any other function from the right slave is an unknown function; function 0x03 with a byte count other than 4 is a bad byte count |
| CppSensorReader.ReadRawDataAsWritten | C++/src/sensor_reader.cpp:233-289 | as written: not connected and send failure are reported first; an answer shorter than nine bytes is a timeout, and otherwise the first nine bytes are checked |
| CppSensorReader.ExceptionFrame | C++/src/sensor_reader.cpp:264-266 | an exception answer is five bytes: slave, 0x83, the exception code and the CRC |
| CppSensorReader.ExceptionFrameTimesOut | C++/src/sensor_reader.cpp:247-266 | as written, a slave's five-byte exception answer is reported as a timeout, so the exception branch is never reached |
| CppSensorReader.ReadRawData | C++/src/sensor_reader.cpp:233-289 | corrected: not connected and send failure come first, and a success always comes from a nine-byte answer that passes the checks |
| CppSensorReader.ExceptionFrameReported | C++/src/sensor_reader.cpp:264-266 | corrected: a five-byte exception answer is reported as an exception with its code |
| CppSensorReader.CorrectionAgreesOnFullResponses | C++/src/sensor_reader.cpp:254-289 | the corrected reader differs from the written one only on answers shorter than nine bytes |
| CppSensorReader.ReadRawDataRoundTrip | C++/src/sensor_reader.cpp:249-288 | the answer a slave gives for two registers is read back as exactly those two register values |
| CppSensorReader.CrcNeverChecked | C++/src/sensor_reader.cpp:259-288 | the two CRC bytes of an answer never change the result: the reader does not check them |
| CppSensorReader.HumidityRegisterUnused | C++/src/sensor_reader.cpp:233-249 | the humidity register argument never changes the result: humidity is the register after the temperature register |
| CppSensorReader.AddPort | C++/src/sensor_reader.cpp:387-395 | a port is added, disconnected, at the end exactly when fewer than 16 are registered; otherwise nothing changes |
| CppSensorReader.FindPort | C++/src/sensor_reader.cpp:438-450 | the lookup finds the first port with the name, or reports that none has it |
| CppSensorReader.ReadOne | C++/src/sensor_reader.cpp:421-456 | a reading keeps the sensor's name and slave; an unknown port and a disconnected port are reported as such; a connected port gives the result of `readRawData` as written, and values only come from a connected port |
| CppSensorReader.ReadAllSensors | C++/src/sensor_reader.cpp:416-461 | there is one reading per sensor, in order, each the as-written reading of that sensor on its own |
| CppSensorReader.ReadOneCorrected | C++/src/sensor_reader.cpp:421-456 | the same port checks as `ReadOne`, with a connected port giving the result of the corrected `readRawData` |
| CppSensorReader.ReadAllSensorsCorrected | C++/src/sensor_reader.cpp:416-461 | one corrected reading per sensor, in order |
| CppSensorReader.RegistriesAgreeOnFullResponses | C++/src/sensor_reader.cpp:247-266 | when every answer is at least nine bytes long, the registry as written and the corrected one read the same values |
| CppSensorReader.RegistryExceptionAnswer | C++/src/sensor_reader.cpp:263-266 | on a connected port, an exception answer is a timeout for the registry as written and the exception code for the corrected one |
| CppSensorReader.IsPortConnected | C++/src/sensor_reader.cpp:463-470 | a name is connected exactly when its first registration is connected |
| CppSensorReader.DownPortGivesNoValues | C++/src/sensor_reader.cpp:437-470 | a sensor on a port that is not connected never gets values |
| JavaSensorReader.LowBits | Java/src/main/java/com/modbus/sensor/SensorReader.java:134-137 | a Java byte cast keeps the value modulo 256 |
| JavaSensorReader.CreateModbusRequestAsWritten | Java/src/main/java/com/modbus/sensor/SensorReader.java:132-141 | as written, the six-byte request asks function 0x03 for four registers |
| JavaSensorReader.CreateModbusRequest | Java/src/main/java/com/modbus/sensor/SensorReader.java:132-141 | corrected, the request asks for the two registers the decoder reads |
| JavaSensorReader.RequestCarriesRegister | Java/src/main/java/com/modbus/sensor/SensorReader.java:134-137 | the request carries the slave id and the temperature register big-endian |
| JavaSensorReader.CrcBytes | Java/src/main/java/com/modbus/sensor/SensorReader.java:159-163 | the CRC is sent as two bytes |
| JavaSensorReader.SendRequestFrame | Java/src/main/java/com/modbus/sensor/SensorReader.java:158-171 | the frame written to the port is the request with its CRC appended |
| JavaSensorReader.CrcBytesAreStandard | Java/src/main/java/com/modbus/sensor/SensorReader.java:159-163 | the two CRC bytes are its low byte then its high byte, as the Modbus serial line standard orders them |
| JavaSensorReader.ValidateResponse | Java/src/main/java/com/modbus/sensor/SensorReader.java:197-220 | an answer is valid exactly when it has at least five bytes, the slave, function 0x03, byte count 4, and ends with the CRC of the bytes before it |
| JavaSensorReader.CrcClauseIsFraming | Java/src/main/java/com/modbus/sensor/SensorReader.java:214-219 | comparing the received CRC word with the computed one is the same as the answer being its body with the CRC appended |
| JavaSensorReader.SentCrcIsAccepted | Java/src/main/java/com/modbus/sensor/SensorReader.java:158-171 | the CRC word a receiver reads from a sent frame is the CRC of the request (with lines 214-219) |
| JavaSensorReader.ReadResponse | Java/src/main/java/com/modbus/sensor/SensorReader.java:173-195 | fewer than five available bytes give no answer; otherwise every available byte is the answer |
| JavaSensorReader.ReadSensorData | Java/src/main/java/com/modbus/sensor/SensorReader.java:80-130 | a closed port fails; a failed send, an answer under five bytes, an answer that does not validate and a valid answer under seven bytes each give their own failure; a read succeeds exactly when the send succeeds, the answer validates and has seven bytes, and then yields the registers at bytes 3-4 and 5-6 |
| JavaSensorReader.ReadSensorDataRoundTrip | Java/src/main/java/com/modbus/sensor/SensorReader.java:93-122 | the slave's two-register answer is read back as exactly its two register values |
| JavaSensorReader.CorruptCrcRejected | Java/src/main/java/com/modbus/sensor/SensorReader.java:111-115 | an answer whose last two bytes are not its body's CRC is rejected (with lines 214-219) |
| JavaSensorReader.ShortValidFrameThrows | Java/src/main/java/com/modbus/sensor/SensorReader.java:105-127 | a five-byte answer passes validation and then fails with the caught index exception when the registers are read |
| JavaSensorReader.FourRegisterResponse | Java/src/main/java/com/modbus/sensor/SensorReader.java:138-139 | the standard answer to a four-register request is thirteen bytes with byte count 8 |
| JavaSensorReader.AsWrittenRequestAnswerRejected | Java/src/main/java/com/modbus/sensor/SensorReader.java:138-139 | as written, the request asks for four registers and the slave's correct answer to it is rejected because its byte count is not 4 (with lines 210-212) |
| JavaSensorReader.CorrectedRequestAnswerAccepted | Java/src/main/java/com/modbus/sensor/SensorReader.java:117-122 | corrected, the request asks for two registers and the slave's answer yields them (with lines 210-212) |
| JavaSensorReader.EmptyRegistry | Java/src/main/java/com/modbus/sensor/MultiPortReader.java:18-23 | a new registry is consistent and has no reader |
| JavaSensorReader.AddPort | Java/src/main/java/com/modbus/sensor/MultiPortReader.java:25-44 | a port is added exactly when fewer than 16 are registered and the name is new; it goes at the end, closed, and the name maps to its index; otherwise nothing changes |
| JavaSensorReader.AddPortKeepsValid | Java/src/main/java/com/modbus/sensor/MultiPortReader.java:25-44 | adding keeps the lists the same length, at most 16, the names distinct, and the map from names to indices exact |
| JavaSensorReader.ParityChar | Java/src/main/java/com/modbus/sensor/MultiPortReader.java:47-50 | the parity is the first character of the configured parity, or 'N' when there is none |
| JavaAppConfig.DoubleToInt | Java/src/main/java/com/modbus/sensor/MultiPortReader.java:53 | a cast of a double to int stays in the 32-bit range and truncates towards zero within it |
| JavaSensorReader.AddPortConfig | Java/src/main/java/com/modbus/sensor/MultiPortReader.java:46-54 | adding from a configuration adds its name, device and line settings, with the parity character and the timeout in milliseconds |
| JavaSensorReader.IsPortConnected | Java/src/main/java/com/modbus/sensor/MultiPortReader.java:90-93 | a name is connected exactly when it is registered and its reader is open |
| JavaSensorReader.PortCount | Java/src/main/java/com/modbus/sensor/MultiPortReader.java:135-137 | the count is the number of registered ports, never above 16 |
| JavaSensorReader.GetPortName | Java/src/main/java/com/modbus/sensor/MultiPortReader.java:139-144 | an index in range gives that port's name, any other index gives null |
| JavaSensorReader.NameLookupRoundTrip | Java/src/main/java/com/modbus/sensor/MultiPortReader.java:39-40 | the name at an index maps back to that index (with lines 139-144) |
| JavaSensorReader.ReadOne | Java/src/main/java/com/modbus/sensor/MultiPortReader.java:98-129 | a reading keeps the sensor's name; an unknown port and a closed port are reported as such; an open port reads the sensor |
| JavaSensorReader.ReadAllSensors | Java/src/main/java/com/modbus/sensor/MultiPortReader.java:95-133 | there is one reading per sensor, in order, each the reading of that sensor on its own |
| JavaSensorReader.ValuesNeedOpenPort | Java/src/main/java/com/modbus/sensor/MultiPortReader.java:90-118 | a sensor only gets values from a port the registry reports connected |
| DeviceInitializer.Guarded | src/tools/ModbusDeviceInitializer.js:52-96 | a register access goes out unchanged when the device is connected and fails with "not connected" otherwise |
| DeviceInitializer.SetSlaveId | src/tools/ModbusDeviceInitializer.js:99-103 | the new slave id is written unchanged as one register, or the call fails when not connected |
| DeviceInitializer.DisconnectedAccessFails | src/tools/ModbusDeviceInitializer.js:52-96 | reading, writing one register and writing several registers all fail on a device that is not connected |
| DeviceInitializer.BaudCode | src/tools/ModbusDeviceInitializer.js:110-123 | a rate has a code exactly when it is one of the seven supported rates, and the code is its position in the table 2400 to 115200 |
| DeviceInitializer.SetBaudRate | src/tools/ModbusDeviceInitializer.js:106-127 | an unsupported rate is refused before the connection is checked; a supported rate on a connected device writes one register whose code names that rate |
| DeviceInitializer.RateOfCode | src/tools/ModbusDeviceInitializer.js:232-240 | a register value names a rate exactly when it is one of the codes 0 to 6 |
| DeviceInitializer.DecodeBaudRate | src/tools/ModbusDeviceInitializer.js:231-242 | a code 0 to 6 decodes to its rate; any other value is returned as it is |
| DeviceInitializer.BaudRateRoundTrip | src/tools/ModbusDeviceInitializer.js:110-123 | every supported rate encodes to a code that decodes back to the rate (with lines 231-242) |
| DeviceInitializer.BaudCodeRoundTrip | src/tools/ModbusDeviceInitializer.js:110-123 | every code decodes to a rate that encodes back to the code (with lines 231-242) |
| DeviceInitializer.Parts | src/tools/ModbusDeviceInitializer.js:134 | the address text splits at every dot and each part is read with parseInt (a part with no number is NaN) |
| DeviceInitializer.Word | src/tools/ModbusDeviceInitializer.js:142-143 | a NaN operand of a shift or bitwise or counts as 0, and an octet counts as itself |
| DeviceInitializer.Register | src/tools/ModbusDeviceInitializer.js:142-143 | a register holds the first octet in its high byte and the second in its low byte, NaN counting as 0, and fits 16 bits |
| DeviceInitializer.EncodeParts | src/tools/ModbusDeviceInitializer.js:139-143 | the two registers hold octets 1-2 and 3-4, high byte first, each within 16 bits |
| DeviceInitializer.SetAddress | src/tools/ModbusDeviceInitializer.js:130-179 | an address without exactly four parts, or with a number outside 0..255, is refused before the connection is checked; a valid one on a connected device writes its two registers |
| DeviceInitializer.Octets | src/tools/ModbusDeviceInitializer.js:246-249 | decoding takes four bytes, and for 16-bit registers they are the high and low byte of each |
| DeviceInitializer.DecodeIpAddress | src/tools/ModbusDeviceInitializer.js:245-251 | the decoded text reads back, part by part, as exactly the four decoded bytes |
| DeviceInitializer.DottedParts | src/tools/ModbusDeviceInitializer.js:134 | the dotted text of four octets reads back as those four numbers (with line 250) |
| DeviceInitializer.EncodeNumbers | src/tools/ModbusDeviceInitializer.js:135-143 | four octets pass the check and encode as a*256+b and c*256+d |
| DeviceInitializer.NonNumericPartWritesZero | src/tools/ModbusDeviceInitializer.js:134-143 | a part that is not a number passes the range check and is written as a zero byte |
| DeviceInitializer.AddressRoundTrip | src/tools/ModbusDeviceInitializer.js:130-147 | setting a dotted address writes its two registers, and decoding those registers gives the same text (with lines 245-251) |
| DeviceInitializer.DecodePairs | src/tools/ModbusDeviceInitializer.js:245-251 | two registers built from four octets decode to the dotted text of those octets |
| DeviceInitializer.RegisterRoundTrip | src/tools/ModbusDeviceInitializer.js:130-147 | any two 16-bit registers, decoded to text and set again, are written back unchanged (with lines 245-251) |
| DeviceInitializer.WriteValid | src/tools/ModbusDeviceInitializer.js:145-177 | a valid address on a connected device is written as its encoded registers |
| ModbusManager.ClientKey | Web/src/modbusManager.js:10-13 | a TCP device is keyed by "tcp_", its address and its port; every other device by "rtu_", its serial port and its baud rate |
| ModbusManager.KeysSeparateTransports | Web/src/modbusManager.js:11-13 | a TCP device and a serial device never share a key, so they never share a client |
| ModbusManager.GetClient | Web/src/modbusManager.js:10-19 | the client for a known key is the cached one and nothing changes; an unknown key gets a new, closed client distinct from every cached one and is cached under that key |
| ModbusManager.EqualKeysShareClient | Web/src/modbusManager.js:15-18 | two devices with the same key get the same client, and the second lookup changes nothing |
| ModbusManager.DistinctKeysDistinctClients | Web/src/modbusManager.js:15-18 | two devices with different keys get different clients |
| ModbusManager.ConnectDevice | Web/src/modbusManager.js:21-41 | a device gets an open client addressed to its slave id exactly when its client was already open or the connection succeeds |
| ModbusManager.ReadCallOf | Web/src/modbusManager.js:48-62 | the read uses the device's address and count, and reads coils, discrete inputs or input registers for those data types and holding registers for every other type |
| ModbusManager.ReadData | Web/src/modbusManager.js:43-69 | a read yields the first value of the reply exactly when the client connects and the reply is non-empty, and null exactly when the connection or the read fails |
| ModbusManager.EmptyReplyIsSaved | Web/src/modbusManager.js:64 | an empty reply yields undefined rather than null, so the collector still saves it (with line 112) |
| ModbusManager.StartCollection | Web/src/modbusManager.js:79-148 | a failed device query starts nothing; otherwise a device gets a timer exactly when it is enabled and, in a connected cluster, assigned to this node; an id no such device has keeps its timer; an id ends with the interval of the last collected device that has it |
| ModbusManager.StartEach | Web/src/modbusManager.js:88-146 | the loop over the devices keeps every earlier timer and adds or replaces only the timers of collected devices; an id no collected device has keeps its timer unchanged, and every other id ends with the interval of the last collected device that has it |
| ModbusManager.DisabledDeviceSkipped | Web/src/modbusManager.js:89 | a device that is disabled never gets a timer |
| ModbusManager.OtherNodesDeviceSkipped | Web/src/modbusManager.js:92-103 | in a connected cluster a device assigned to another node never gets a timer here |
| ModbusManager.StopCollection | Web/src/modbusManager.js:157-171 | stopping clears every timer and forgets every client, closing exactly the clients that were open |
| ModbusManager.Product | Web/src/modbusManager.js:210-213 | the arithmetic register is high*256+low, and NaN when either part is NaN |
| ModbusManager.ArithmeticEncode | Web/src/modbusManager.js:208-213 | the two registers are the products of parts 1-2 and 3-4 |
| ModbusManager.WriteDeviceIP | Web/src/modbusManager.js:200-222 | an address failing the four-part range check is refused; a valid one is written exactly when the device connects, as its two arithmetic registers |
| ModbusManager.SameEncodingAsInitializer | Web/src/modbusManager.js:210-213 | for four numeric octets the arithmetic encoding equals the initializer's shift-and-or encoding |
| ModbusManager.NonNumericPartDiverges | Web/src/modbusManager.js:203-213 | a non-numeric first part gives a NaN register here where the initializer writes the second octet alone |
| JsNumber.ToInt32 | Web/src/cluster/ClusterManager.js:275-276 | a bitwise operator sees its operand as the 32-bit signed integer congruent to it modulo 2^32 |
| JsNumber.ToInt32Identity | Web/src/cluster/ClusterManager.js:276 | `hash & hash` leaves a value already in 32-bit range unchanged |
| JsNumber.JsRem | Web/src/cluster/ClusterManager.js:224-238 | the JavaScript remainder takes the sign of the dividend: the Euclidean remainder for a non-negative dividend and its negation's remainder, negated, for a negative one |
| JsNumber.RoundDiv | Web/src/time/TimeSyncMonitor.js:78-87 | `Math.round` of a non-negative quotient is the nearest integer, halves rounding up |
| JsNumber.RoundDivBetween | Web/src/time/TimeSyncMonitor.js:78 | a rounded mean of values between two bounds stays between them |
| JsNumber.TrimStart | src/time/TimeSync.js:101-108 | `parseInt` skips exactly the leading white space |
| JsNumber.DigitRun | src/time/TimeSync.js:101-108 | `parseInt` reads the longest run of digits of its radix |
| JsNumber.TakeSign | src/tools/ModbusDeviceInitializer.js:134 | one leading '+' or '-' is consumed, and only '-' makes the number negative |
| JsNumber.TakeRadix | src/tools/ModbusDeviceInitializer.js:134 | a "0x" or "0X" prefix selects radix 16, anything else radix 10 |
| JsNumber.ParseIntNatToString | src/tools/ModbusDeviceInitializer.js:134 | `parseInt` of the decimal text of a natural number gives that number back (with line 250) |
| JsNumber.ParseIntNoDigit | src/tools/ModbusDeviceInitializer.js:134 | text with no digit after the white space and sign parses as NaN |
| JsNumber.ParseIntSign | src/tools/ModbusDeviceInitializer.js:134-135 | a negative result comes only from text whose first non-blank character is '-' |
| JsNumber.ParseInt | src/tools/ModbusDeviceInitializer.js:134 | `parseInt` gives a number only for text that holds a decimal digit, so a text without one is NaN |
| JsNumber.OrBelowShift | src/tools/ModbusDeviceInitializer.js:142-143 | or-ing a value below 2^n into a value shifted left by n is addition |
| JsNumber.ShiftLeft | src/tools/ModbusDeviceInitializer.js:142-143 | `<<` gives a 32-bit signed result, and multiplies by 2^n when the product fits |
| JsNumber.ShiftRight | src/tools/ModbusDeviceInitializer.js:246-248 | `>>` of a non-negative 32-bit value divides by 2^n |
| JsNumber.AndMask | src/tools/ModbusDeviceInitializer.js:246-249 | `& 0xFF` keeps a value below 256, and for a non-negative 32-bit value it is the remainder modulo 256 |
| ClusterManager.ToInt32Congruent | Web/src/cluster/ClusterManager.js:275-276 | numbers congruent modulo 2^32 have the same 32-bit value |
| ClusterManager.HashStep | Web/src/cluster/ClusterManager.js:275-276 | each step of the hash stays a 32-bit signed integer |
| ClusterManager.HashCode | Web/src/cluster/ClusterManager.js:271-279 | the hash is a 32-bit signed integer and the hash of the empty text is 0 |
| ClusterManager.HashStepIsTimes31 | Web/src/cluster/ClusterManager.js:275-276 | shifting left by five and subtracting is multiplying by 31, wrapped to 32 bits |
| ClusterManager.HashCodeIsPolyHash | Web/src/cluster/ClusterManager.js:271-279 | the hash is the polynomial hash with factor 31 of the character codes, reduced to 32 bits after every character, as Java's `String.hashCode` |
| ClusterManager.HashOfOneChar | Web/src/cluster/ClusterManager.js:271-279 | a one-character text hashes to its character code |
| ClusterManager.Workers | Web/src/cluster/ClusterManager.js:213 | the workers are exactly the nodes whose role is "worker" or "both" |
| ClusterManager.LeastLoadedIndex | Web/src/cluster/ClusterManager.js:230-232 | the reduction picks a node of least load (no load counting as 0), and the first such node |
| ClusterManager.FirstMinimumUnique | Web/src/cluster/ClusterManager.js:230-232 | there is only one first node of least load, so the pick is determined |
| ClusterManager.SelectWorker | Web/src/cluster/ClusterManager.js:219-243 | the selected node is a worker; there is none only for round-robin with a negative remainder, where the index is out of range |
| ClusterManager.AssignTask | Web/src/cluster/ClusterManager.js:205-257 | without a connection or without workers the node keeps the task itself and nothing is recorded; otherwise the task goes to a worker and is recorded under "device:<id>"; it fails only for round-robin with a negative remainder |
| ClusterManager.RoundRobinPick | Web/src/cluster/ClusterManager.js:222-226 | round-robin gives a device with a non-negative id the worker at its id modulo the worker count |
| ClusterManager.RoundRobinNegativeFails | Web/src/cluster/ClusterManager.js:224-250 | round-robin fails for a negative id that is not a multiple of the worker count |
| ClusterManager.HashPick | Web/src/cluster/ClusterManager.js:235-239 | hash gives a device the worker at the absolute hash of its decimal id modulo the worker count |
| ClusterManager.LeastLoadedPick | Web/src/cluster/ClusterManager.js:228-233 | least-loaded gives a device the first worker of least load |
| ClusterManager.DefaultPick | Web/src/cluster/ClusterManager.js:241-242 | an unknown strategy gives every device the first worker |
| ClusterManager.TaskKeysDistinct | Web/src/cluster/ClusterManager.js:248 | different devices have different task keys, so one assignment never overwrites another device's record |
| ClusterManager.HandleMessage | Web/src/cluster/ClusterManager.js:187-203 | an unparsable message raises nothing; a broadcast is passed on exactly when it is not from this node; a command exactly when it is addressed to this node or to "all" |
| ClusterManager.OwnBroadcastDropped | Web/src/cluster/ClusterManager.js:191-194 | a node never passes on its own broadcast |
| ClusterManager.TaskDistribution | Web/src/cluster/ClusterManager.js:303-310 | the distribution has exactly the nodes that hold a task, each with the number of tasks it holds |
| ClusterManager.TotalRemove | Web/src/cluster/ClusterManager.js:303-310 | the total of a distribution is one node's count plus the total of the others |
| ClusterManager.TotalBump | Web/src/cluster/ClusterManager.js:307 | counting one more task for a node raises the total by one |
| ClusterManager.DistributionTotal | Web/src/cluster/ClusterManager.js:298-310 | the counts of the distribution add up to the number of tasks |
| AlarmManager.NewManager | Web/src/alarm/AlarmManager.js:3-12 | a new manager is consistent, with no active alarm and an empty history |
| AlarmManager.SetRule | Web/src/alarm/AlarmManager.js:29 | setting a rule in the id-keyed map keeps ids distinct, holds the new rule, drops only the earlier rule with its id, and keeps every other rule |
| AlarmManager.EnabledRules | Web/src/alarm/AlarmManager.js:26-31 | the loaded rules have distinct ids and are all enabled rules of the query |
| AlarmManager.EnabledIdsPresent | Web/src/alarm/AlarmManager.js:27-31 | every id of an enabled rule of the query has a loaded rule |
| AlarmManager.LastEnabledWins | Web/src/alarm/AlarmManager.js:27-31 | of several enabled rules with one id, the last one of the query is the one kept |
| AlarmManager.LoadAlarmRules | Web/src/alarm/AlarmManager.js:21-35 | a failed query changes nothing; a successful one replaces the rules by the enabled rules of its result; consistency is kept |
| AlarmManager.LoadedExactlyEnabled | Web/src/alarm/AlarmManager.js:26-31 | after loading, an id has a rule exactly when some enabled rule of the query has it, and every rule is an enabled rule of the query |
| AlarmManager.EvaluateRule | Web/src/alarm/AlarmManager.js:86-99 | a condition other than the six comparisons never triggers |
| AlarmManager.ConditionsComplement | Web/src/alarm/AlarmManager.js:90-97 | "gt" and "lte", "lt" and "gte", "eq" and "ne" are exact complements, and "gte" is "gt" or "eq" |
| AlarmManager.AddToHistory | Web/src/alarm/AlarmManager.js:121-126 | the new alarm goes first, the older entries follow in order, and the oldest is dropped when 1000 are kept |
| AlarmManager.GetAlarmHistory | Web/src/alarm/AlarmManager.js:134-136 | the history is read newest first, at most 100 entries unless another limit is given; a non-negative limit takes at most that many entries, and a negative limit drops that many from the end, as `slice(0, limit)` does |
| AlarmManager.AlarmKeyInjective | Web/src/alarm/AlarmManager.js:44 | for one device, different rules have different alarm keys |
| AlarmManager.NewAlarm | Web/src/alarm/AlarmManager.js:49-62 | a new alarm is neither acknowledged nor recovered and records the rule, device, value, threshold and trigger time |
| AlarmManager.CheckRule | Web/src/alarm/AlarmManager.js:42-82 | a triggered rule with no active alarm creates one, makes it active under its key, puts it first in the history and announces it; a rule that stops triggering marks its alarm recovered at that time, deactivates it and announces it; every other case changes nothing |
| AlarmManager.DeviceKeys | Web/src/alarm/AlarmManager.js:39-44 | the keys a check can touch are exactly the keys of the device's rules |
| AlarmManager.CheckAlarm | Web/src/alarm/AlarmManager.js:38-83 | checking a value keeps the manager consistent and its rules, and leaves every alarm of other keys as it was; for each rule of the device, its key is active afterwards exactly when the rule fires on the value; an alarm already active stays the same alarm; a new one is built from the rule, device and value and announced by a triggered event; an alarm that stops firing is announced by a recovered event |
| AlarmManager.CheckRules | Web/src/alarm/AlarmManager.js:42-82 | the loop over the device's rules never removes an alarm object and leaves alarms of other keys as they were; with distinct rule ids, each rule of the device has the outcome `CheckAlarm` states: key active exactly when the rule fires, kept alarm, triggered and recovered events |
| AlarmManager.NoRulesNoChange | Web/src/alarm/AlarmManager.js:39-42 | a device without rules never changes the active alarms |
| AlarmManager.AcknowledgeAlarm | Web/src/alarm/AlarmManager.js:139-147 | the answer is true exactly for an active key; then that alarm alone becomes acknowledged and nothing else changes; otherwise nothing changes |
| AlarmManager.AcknowledgementShowsInHistory | Web/src/alarm/AlarmManager.js:64-65 | the history shares the alarm objects, so an acknowledged alarm shows as acknowledged in the history too (with lines 139-143) |
| AlarmManager.ClearAllAlarms | Web/src/alarm/AlarmManager.js:150-152 | clearing empties the active alarms and keeps the history and the rules |
| AlarmManager.ActiveWhere | Web/src/alarm/AlarmManager.js:159-163 | a filter of the active alarms only selects active keys |
| AlarmManager.GetAlarmStats | Web/src/alarm/AlarmManager.js:155-166 | the total is the number of active alarms; each level count is the number of active alarms at that level; the acknowledged and unacknowledged counts are the numbers of active alarms with and without the acknowledgement, and add up to the total |
| AlarmManager.ActiveAtLevel | Web/src/alarm/AlarmManager.js:159-161 | an active key is selected exactly when its alarm has that level |
| AlarmManager.ActiveAcknowledged | Web/src/alarm/AlarmManager.js:162-163 | an active key is selected exactly when its alarm's acknowledgement flag is the one asked for |
| AlarmManager.AcknowledgeMovesOneCount | Web/src/alarm/AlarmManager.js:139-166 | acknowledging an active, unacknowledged alarm moves one count from unacknowledged to acknowledged and leaves the total and the level counts unchanged |
| AlarmManager.ClearedStatsAreZero | Web/src/alarm/AlarmManager.js:150-166 | after clearing every statistic is zero |
| Text.Split | src/tools/ModbusDeviceInitializer.js:134 | `split('.')` gives at least one part, no part holds the separator, and joining the parts with it gives the input back |
| Text.SplitJoin | src/tools/ModbusDeviceInitializer.js:134 | splitting parts that do not hold the separator, once joined, gives exactly those parts |
| Text.NatToString | src/tools/ModbusDeviceInitializer.js:249 | the decimal text of a number is a non-empty digit run with no leading zero, one digit exactly below ten |
| Text.DigitsValueOfNatToString | src/tools/ModbusDeviceInitializer.js:134 | reading the decimal text of a number gives the number back (with line 249) |
| Text.IntToStringInjective | C/src/config.c:105 | different integers have different decimal texts |
| Text.FindFrom | C/src/config.c:64 | `strstr` finds the first match at or after the start, and no match is reported only when none exists |
| Text.FindChar | C/src/config.c:67 | the first occurrence of a character at or after the start, or none when it does not occur |
| Text.Lower | Python/src/data_storage.py:421 | `lower()` keeps the length, maps each ASCII capital to its small letter and keeps every other character |
| Text.LowerIdempotent | Python/src/data_storage.py:421 | lower-casing twice is lower-casing once |
| CNumbers.SkipSpace | C/src/config.c:105 | `atoi` first skips exactly the leading C white space |
| CNumbers.Atoi | C/src/config.c:105 | `atoi` reads the leading signed integer, and 0 when there is none |
| CNumbers.Stoi | C++/src/config.cpp:34-42 | `std::stoi` reads the leading signed integer when it fits 32 bits, and fails (0 after the catch) otherwise |
| CNumbers.Atof | C/src/config.c:121 | `atof` reads the leading decimal number, and 0 when there is none |
| CNumbers.IntegerPrefixOfNumeral | C/src/config.c:105 | the decimal text of any integer, followed by a non-digit, reads back as that integer |
| CNumbers.AtoiOfNumeral | C/src/config.c:105 | `atoi` of an integer's text followed by a non-digit gives the integer back |
| CNumbers.StoiOfNumeral | C++/src/config.cpp:38 | `std::stoi` of an integer's text gives it back exactly when it fits 32 bits |
| CNumbers.RealPrefixOfNumeral | C/src/config.c:121 | `atof` of an integer's text followed by neither a digit nor '.' gives the integer back |
| CNumbers.NoDigitNoInteger | C/src/config.c:105 | text that starts, after white space, with neither a digit nor a sign has no integer: `atoi` gives 0 and `std::stoi` fails |
| StorageTypes.ParseStorageName | C/src/config.c:520-526 | exactly "none", "csv" and "influxdb" select their types; every other text, "sqlite" and the empty text included, selects SQLite |
| StorageTypes.StorageNameInjective | C/src/config.c:510-518 | the display names of the four types differ |
| StorageTypes.ParseLoweredName | C++/src/data_storage.cpp:298-306 | lower-casing a display name gives the configuration spelling of the same type |
| StorageTypes.DisplayNamesParseAsSQLite | C/src/config.c:510-526 | the display names are not configuration spellings: each of them parses as SQLite |
| CConfig.CString | C/src/config.c:27-49 | the text the file gives ends at its first NUL character, and holds none |
| CConfig.Truncate | C/src/config.c:186-187 | `strncpy` into a buffer with a forced final NUL keeps a text shorter than the buffer and cuts a longer one to one less than its size |
| CConfig.SkipBlanks | C/src/config.c:71 | the value starts at the first character after the colon that is not a space or tab |
| CConfig.ScanString | C/src/config.c:76-80 | the value scan stops at a '"' or at the end, stepping over backslash pairs |
| CConfig.ScanRawString | C/src/config.c:76-80 | the scan stops exactly at the closing quote of a body with no bare quote |
| CConfig.ValueStartAfterKey | C/src/config.c:60-71 | for the first occurrence of the quoted key, the value starts after the blanks that follow its colon |
| CConfig.ExtractStringOfEntry | C/src/config.c:60-90 | `json_extract_string` of `"key":"v"` gives v back, whatever came before the key when it holds no quote |
| CConfig.ExtractIntOfEntry | C/src/config.c:92-106 | `json_extract_int` of `"key":n` gives n back |
| CConfig.ExtractString | C/src/config.c:60-90 | a missing key or a text without ':' gives NULL; in a value read, every '"' directly follows a backslash, since escapes are kept as written |
| CConfig.ScanQuotesEscaped | C/src/config.c:76-79 | the value scan stops at the first '"' that no backslash escapes |
| CConfig.StringAt | C/src/config.c:73-89 | a value read from its opening '"' holds a '"' only right after a backslash |
| CConfig.ExtractInt | C/src/config.c:92-106 | a missing key or a text without ':' gives 0, and a negative value needs a '-' in the text |
| CConfig.ExtractFloat | C/src/config.c:108-122 | a missing key or a text without ':' gives 0.0 |
| CConfig.ExtractPortAsWritten | C/src/config.c:151-219 | as written, an array text without '{' leaves the slot as it was; a slot that is set has a positive timeout and a name that fits its buffer |
| CConfig.ExtractPort | C/src/config.c:151-219 | corrected, the same: no '{' leaves the slot alone; a slot that is set has a positive timeout and a name that fits its buffer |
| CConfig.ExtractSensorAsWritten | C/src/config.c:221-280 | as written, an array text without '{' leaves the slot as it was; a slot that is set has its slave id below 256 and its registers below 65536 |
| CConfig.ExtractSensor | C/src/config.c:221-280 | corrected, the same, with the slave id below 256 and the registers below 65536 |
| CConfig.MissingKeyReadsNothing | C/src/config.c:64-68 | without the key, or without a colon after it, the string is absent and the numbers are 0 (with lines 96-100, 112-116) |
| CConfig.UnquotedValueIsNoString | C/src/config.c:73 | a number is not a string value |
| CConfig.ArraySize | C/src/config.c:124-149 | `json_extract_array_size` counts at most one element per character of the text |
| CConfig.CountFlatList | C/src/config.c:134-146 | an array of flat objects counts one element per object |
| CConfig.NestedObjectsCount | C/src/config.c:144 | an object nested inside an element's object is counted as an element too, since only bracket depth is tracked |
| CConfig.FlatObjectsNeverSelected | C/src/config.c:157-218 | as written, no element of an array of flat objects is ever selected, at any index |
| CConfig.NthObject | C/src/config.c:157-218 | the corrected walk selects a text that starts with '{' and ends with '}' |
| CConfig.FlatObjectsSelected | C/src/config.c:157-218 | the corrected walk selects element `index` of an array of flat objects, whole |
| CConfig.PortFromObject | C/src/config.c:184-211 | a port read from an object has a positive timeout, parity 'N' without a "parity" string, and keeps its name and device when the object has none |
| CConfig.SensorFromObject | C/src/config.c:254-272 | the slave id is cast to 8 bits and the registers to 16 bits; name and port are kept when the object has none |
| CConfig.FlatPortsStayZeroAsWritten | C/src/config.c:151-219 | as written, every port of an array of flat objects stays zeroed (with line 313) |
| CConfig.FlatPortsRead | C/src/config.c:151-219 | corrected, port `index` is read from element `index` (with line 313) |
| CConfig.PortNameRead | C/src/config.c:184-189 | a port's name is the object's "name" string cut to the buffer |
| CConfig.OnePortExample | C/src/config.c:151-219 | for `[{"name":"v"}]` the walk as written leaves the name empty, and the corrected walk reads v |
| CConfig.ExtractStringOfObject | C/src/config.c:60-90 | the string value of a one-entry object is read back |
| CConfig.DefaultPort | C/src/config.c:316-330 | the default port runs 9600 baud, 8 data bits, 1 stop bit, parity 'N' and a 1 s timeout |
| CConfig.Positive | C/src/config.c:332-335 | a value that is not positive is replaced by the default, and a positive one is kept (with lines 388-395) |
| CConfig.LoadPorts | C/src/config.c:304-330 | at most MAX_PORTS ports; without a "ports" key, the one default port; every port read has a positive timeout; with walk `AsWritten` each slot is filled by `json_extract_port` as written, with `Corrected` by the corrected walk |
| CConfig.LoadSensors | C/src/config.c:397-409 | at most MAX_SENSORS sensors, and none without a "sensors" key; the walk chooses `json_extract_sensor` as written or corrected |
| CConfig.FlatSensorsStayZeroAsWritten | C/src/config.c:151-219 | as written, every sensor of an array of flat objects stays zeroed (with line 406) |
| CConfig.FlatPortArrayLoads | C/src/config.c:304-330 | for a file holding an array of flat port objects, `config_load` as written keeps one zeroed port per element, and corrected reads port i from element i |
| CConfig.FlatPortsFileLayout | C/src/config.c:304-313 | in such a file the "ports" key, its '[' and the element count are found where they are written |
| CConfig.LoadJson | C/src/config.c:298-415 | a loaded configuration has the cache enabled, positive intervals and batch size, bounded port and sensor lists, SQLite without a "storage_type" string, and the default port without a "ports" key; `LoadJson(json, windows, AsWritten)` is `config_load` as written |
| CConfig.ConfigLoad | C/src/config.c:298-302 | an unreadable file loads nothing; a readable one loads the text up to its first NUL |
| CConfig.TextAfterNulIgnored | C/src/config.c:45 | whatever follows a NUL in the file has no effect |
| CConfig.ReadIntervalDefaults | C/src/config.c:332-335 | the read interval is the file's when positive, and 2 otherwise |
| CConfig.ConfigLoadDefault | C/src/config.c:417-478 | the built-in configuration has one port and three sensors on it with slave ids 1, 2 and 3 |
| CConfig.DefaultsAgree | C/src/config.c:316-335 | a text with no NUL and no quoted key (such as an empty object) loads the same port, interval, storage type, cache settings as the built-in configuration (with lines 417-473) |
| CppConfig.ValueHasNoQuote | C++/src/config.cpp:17-32 | `extractStringValue` gives a text with no '"' |
| CppConfig.QuotedHasNoQuote | C++/src/config.cpp:25-31 | the text between the two quotes after the colon holds no quote |
| CppConfig.IntValue | C++/src/config.cpp:34-42 | `extractIntValue` is a 32-bit integer, and 0 for an empty or missing value |
| CppConfig.StringValue | C++/src/config.cpp:17-32 | a missing key or a text without ':' gives ""; a value that is not empty stands in the text between two '"' |
| CppConfig.ValueAfterKey | C++/src/config.cpp:22-31 | a value that is not empty stands in the text between two '"' |
| CppConfig.QuotedFrom | C++/src/config.cpp:25-31 | the text read stands between two '"' of the input |
| CppConfig.DoubleValue | C++/src/config.cpp:44-52 | `extractDoubleValue` is 0 for an empty or missing value |
| CppConfig.StringOfEntry | C++/src/config.cpp:17-32 | `"key":"v"` reads back as v |
| CppConfig.NumeralValue | C++/src/config.cpp:34-52 | a value that is an integer's text reads as that integer when it fits 32 bits (else 0), and as that number as a double |
| CppConfig.QuotedIntegerRead | C++/src/config.cpp:34-52 | a quoted integer is read back as a number |
| CppConfig.UnquotedIntegerNotRead | C++/src/config.cpp:25-36 | an unquoted integer is not read: its string value is empty and its numbers are 0 |
| CppConfig.UnquotedIntegerReadsNextKey | C++/src/config.cpp:25-31 | after an unquoted number, the string value is the next key's name, because the search for '"' runs past the number |
| CppConfig.MissingKeyReadsNothing | C++/src/config.cpp:19-20 | without the key, the string is empty and the numbers are 0 |
| CppConfig.ArrayContent | C++/src/config.cpp:54-64 | the array text lies between the '[' after the key and the first ']' after it, and holds no ']' |
| CppConfig.ObjectsOf | C++/src/config.cpp:66-85 | each element runs from a '{' to the first '}' after it, with no '}' inside |
| CppConfig.NoBraceNoObjects | C++/src/config.cpp:67 | text without '{' has no element |
| CppConfig.ObjectsOfFlat | C++/src/config.cpp:66-85 | the elements of an array of flat objects are exactly its objects, in order |
| CppConfig.ArrayOfEntry | C++/src/config.cpp:54-64 | `"name":[c]` gives the array text c |
| CppConfig.PortOf | C++/src/config.cpp:73-81 | parity is the first character of the "parity" string, or 'N' when that string is empty or missing |
| CppConfig.ToUint8 | C++/src/config.cpp:111 | `static_cast<uint8_t>` keeps 0 to 255 and wraps negatives modulo 256 |
| CppConfig.ToUint16 | C++/src/config.cpp:112-113 | `static_cast<uint16_t>` keeps 0 to 65535 and wraps negatives modulo 65536 |
| CppConfig.SensorOf | C++/src/config.cpp:109-116 | slave id and registers fit 8 and 16 bits, and an in-range slave id is kept |
| CppConfig.PortsIn | C++/src/config.cpp:54-88 | no ports without a ports array; otherwise one port per element |
| CppConfig.SensorsIn | C++/src/config.cpp:90-123 | no sensors without a sensors array; otherwise one sensor per element |
| CppConfig.FlatPortsRead | C++/src/config.cpp:54-88 | an array of flat port objects gives one port per object, each read from its object |
| CppConfig.FlatSensorsRead | C++/src/config.cpp:90-123 | an array of flat sensor objects gives one sensor per object, each read from its object |
| CppConfig.PortDefaults | C++/src/config.cpp:76-80 | an unquoted baud rate is read as 0, and a port without parity gets 'N' |
| CppConfig.DefaultPort | C++/src/config.cpp:181-194 | the default port runs 9600 baud, 8 data bits, 1 stop bit, parity 'N', a 1 s timeout, and has a name |
| CppConfig.OrDefault | C++/src/config.cpp:210-218 | an empty text is replaced by the default, and any other kept |
| CppConfig.ScaleOrDefault | C++/src/config.cpp:200-201 | a zero scale is replaced, and any other kept |
| CppConfig.SensorDefaults | C++/src/config.cpp:199-205 | a sensor gets scale 0.1 for a zero scale and the first port's name when it has none, and keeps every other field |
| CppConfig.ApplyDefaults | C++/src/config.cpp:177-219 | the result is settled; ports, interval, sensors, storage type and paths are kept where set and defaulted where not; the InfluxDB token, org and bucket are never touched |
| CppConfig.SettledIsFixpoint | C++/src/config.cpp:177-219 | the defaults leave a configuration alone exactly when it is settled |
| CppConfig.ApplyDefaultsIdempotent | C++/src/config.cpp:177-219 | applying the defaults twice is applying them once |
| CppConfig.RawLoad | C++/src/config.cpp:149-160 | the storage type is parsed from the "storage_type" string |
| CppConfig.LoadDefault | C++/src/config.cpp:166-170 | the built-in configuration: the default port, interval 2, no sensors, SQLite on "sensor_data.db", CSV on "sensor_data.csv", InfluxDB at "http://localhost:8086" |
| CppConfig.LoadAsWritten | C++/src/config.cpp:135-164 | as written the loaded configuration is settled and its storage is never `None`; a missing file gives the built-in configuration (with lines 207-209) |
| CppConfig.Load | C++/src/config.cpp:135-164 | corrected, the storage type is exactly what "storage_type" names, "none" included |
| CppConfig.MissingFileIsDefault | C++/src/config.cpp:138-170 | a file that does not open gives the defaults of an empty configuration |
| CppConfig.NoneStorageAsWritten | C++/src/config.cpp:129 | for `{"storage_type":"none"}` the loader as written selects SQLite, the corrected one disables storage (with lines 207-209) |
| CppConfig.LoadAgreesElsewhere | C++/src/config.cpp:135-219 | the corrected loader differs from the one as written only in the storage type, and only for "none" |
| GoConfig.DefaultDevice | Go/src/modbus/config.go:166-171 | the default device is "COM3" on Windows and "/dev/ttyUSB0" elsewhere, never empty |
| GoConfig.DefaultPort | Go/src/modbus/config.go:84-89 | the port added to an empty list already has every per-port default and runs on the default device |
| GoConfig.PortDefaults | Go/src/modbus/config.go:91-108 | every zero or empty port field gets its default, every other field is kept, and name and device never change |
| GoConfig.SensorDefaults | Go/src/modbus/config.go:114-122 | a zero scale becomes 0.1 and every other sensor field is kept |
| GoConfig.StorageDefaults | Go/src/modbus/config.go:124-144 | empty type, paths and address get their defaults, non-positive cache interval and batch size become 10 and 100, and token, org, bucket and the cache switch are kept |
| GoConfig.ApplyDefaults | Go/src/modbus/config.go:84-144 | the result is settled; an empty port list becomes the one default port, each port, sensor and the storage get their own defaults, and a non-zero read interval (negative included) is kept |
| GoConfig.LoadConfig | Go/src/modbus/config.go:72-147 | a read error and a decode error are reported as such, a configuration comes back exactly when both succeed, and it is settled |
| GoConfig.SettledIsFixpoint | Go/src/modbus/config.go:84-144 | the defaults leave a configuration alone exactly when it is settled |
| GoConfig.ApplyDefaultsIdempotent | Go/src/modbus/config.go:84-144 | applying the defaults twice is applying them once |
| GoConfig.SettledFileLoadsUnchanged | Go/src/modbus/config.go:72-147 | a file that already names every setting loads exactly as decoded |
| JavaAppConfig.NewAppConfig | Java/src/main/java/com/modbus/config/AppConfig.java:10-13 | a new configuration has no ports, no sensors, interval 0 and no storage type |
| JavaAppConfig.DefaultPort | Java/src/main/java/com/modbus/config/AppConfig.java:18-30 | the default port runs 9600 baud, 8 data bits, 1 stop bit, parity "N", a 1 s timeout, and has a name |
| JavaAppConfig.DefaultSensor | Java/src/main/java/com/modbus/config/AppConfig.java:43-50 | the default sensor is slave 1 with registers 0 and 1 on the given port |
| JavaAppConfig.LoadDefault | Java/src/main/java/com/modbus/config/AppConfig.java:15-54 | `loadDefault` appends the default port and sensor to what is there, sets interval 2, storage "sqlite" and bucket "sensor-data" |
| JavaAppConfig.CastString | Java/src/main/java/com/modbus/config/AppConfig.java:64-66 | a `(String)` cast passes a string or null through and throws ClassCastException on anything else |
| JavaAppConfig.IntValue | Java/src/main/java/com/modbus/config/AppConfig.java:70-72 | `((Number) v).intValue()` succeeds exactly on numbers, giving the truncating int of the double; null throws NullPointerException and other values ClassCastException |
| JavaAppConfig.DoubleValue | Java/src/main/java/com/modbus/config/AppConfig.java:82-84 | `((Number) v).doubleValue()` succeeds exactly on numbers and gives the number; null throws NullPointerException |
| JavaAppConfig.StringKey | Java/src/main/java/com/modbus/config/AppConfig.java:64-66 | reading a string key succeeds exactly when the key is absent or casts; an absent key keeps the current value |
| JavaAppConfig.IntKey | Java/src/main/java/com/modbus/config/AppConfig.java:70-72 | reading an int key succeeds exactly when the key is absent or holds a number; an absent key keeps the current value |
| JavaAppConfig.RealKey | Java/src/main/java/com/modbus/config/AppConfig.java:82-84 | reading a double key succeeds exactly when the key is absent or holds a number; an absent key keeps the current value |
| JavaAppConfig.PortOf | Java/src/main/java/com/modbus/config/AppConfig.java:62-86 | a port element is read exactly when it is an object all of whose present keys cast; each setting is then the map's value when present and the initial one otherwise; a null element throws NullPointerException |
| JavaAppConfig.SensorOf | Java/src/main/java/com/modbus/config/AppConfig.java:120-144 | a sensor element is read exactly when it is an object all of whose present keys cast; each setting is then the map's value when present and the initial one otherwise; a null element throws NullPointerException |
| JavaAppConfig.ReadList | Java/src/main/java/com/modbus/config/AppConfig.java:62-86 | the for-each loop reads the elements in order: every element before the first throw is read and kept, the loop completes exactly when none throws, and the exception is that of the first element that throws (with lines 120-144) |
| JavaAppConfig.WithStorageField | Java/src/main/java/com/modbus/config/AppConfig.java:93-113 | setting one storage field leaves the other six as they were |
| JavaAppConfig.ApplyStorage | Java/src/main/java/com/modbus/config/AppConfig.java:93-113 | the storage keys are read in order: no exception exactly when every key casts; a field takes the map's value when its key and all before it cast, and keeps its value otherwise |
| JavaAppConfig.ApplyFields | Java/src/main/java/com/modbus/config/AppConfig.java:89-113 | an interval that is not a number throws with nothing changed; otherwise the interval and the storage keys are read, and when all cast, each takes the map's value or keeps its own |
| JavaAppConfig.ApplyMap | Java/src/main/java/com/modbus/config/AppConfig.java:56-145 | the map is read through without exception exactly when every cast succeeds; the ports read before any throw are appended; completed, the sensors are appended and the interval and storage keys overwrite; a bad port throws before interval, storage and sensors are touched |
| JavaAppConfig.ParseFromMap | Java/src/main/java/com/modbus/config/AppConfig.java:56-150 | `parseFromMap` completes exactly when every cast succeeds, and then always leaves at least one port: `loadDefault` runs exactly when the map and the configuration had no port; a throw leaves the partly read configuration without the fallback |
| JavaAppConfig.Load | Java/src/main/java/com/modbus/config/ConfigLoader.java:15-50 | a missing, malformed or null file gives the built-in configuration; a map that throws while being read leaves its partial result, to which `loadDefault` is applied; the result always has a port |
| JavaAppConfig.ParsedPortsAreKept | Java/src/main/java/com/modbus/config/AppConfig.java:56-150 | with every cast succeeding and at least one port in the map, the fresh configuration holds exactly the map's ports, sensors, interval and storage type |
| JavaAppConfig.FallbackOverwrites | Java/src/main/java/com/modbus/config/AppConfig.java:147-149 | with every cast succeeding and no ports, `loadDefault` runs after the map: it adds the default port and a default sensor after the map's sensors, and overwrites the map's interval and storage settings |
| JavaAppConfig.StorageTypeLabel | Java/src/main/java/com/modbus/config/AppConfig.java:169-176 | a missing type cannot be shown, since the `switch` on it throws, and any type other than the four known ones is shown as it is |
| JavaAppConfig.PrintWithoutTypeThrows | Java/src/main/java/com/modbus/config/AppConfig.java:93-95 | a map whose casts succeed, with ports but no "storage_type" leaves the type unset, so `print` fails on its switch (with line 170) |
| JavaAppConfig.WrongTypeKeepsEarlierPorts | Java/src/main/java/com/modbus/config/ConfigLoader.java:42-45 | a port whose "baudrate" is a string throws ClassCastException; the earlier port is kept and `loadDefault` adds the default port and sensor after it (with AppConfig.java:70-72) |
| JavaAppConfig.NullNumberThrows | Java/src/main/java/com/modbus/config/AppConfig.java:70-72 | a null "baudrate" throws NullPointerException |
| JavaAppConfig.FractionalNumberTruncated | Java/src/main/java/com/modbus/config/AppConfig.java:70-72 | Gson's 9600.7 is read as baud rate 9600 by `intValue` |
| CacheQueue.IdsDistinct | Go/src/modbus/data_storage.go:370-380 | in a well-formed table the id (the AUTOINCREMENT primary key) determines the row |
| CacheQueue.Insert | Go/src/modbus/data_storage.go:485-488 | an insert appends one row with the reading and retry count 0 under an id no row had, keeps the table well formed, and keeps every earlier row |
| CacheQueue.InsertAll | Go/src/modbus/data_storage.go:518-526 | inserting a batch appends one untried row per reading, in order, after the rows already there |
| CacheQueue.Eligibles | Go/src/modbus/data_storage.go:419 | the rows the query can select are exactly those with fewer than 10 retries |
| CacheQueue.Selected | Go/src/modbus/data_storage.go:418-421 | the flush takes the eligible rows in id order, as many as the batch size allows, and no more than there are |
| CacheQueue.AttemptedIffSelected | Go/src/modbus/data_storage.go:452-478 | a row is tried by the flush exactly when the query selected it |
| CacheQueue.SettleKeeps | Go/src/modbus/data_storage.go:452-478 | an untried row stays as it is, and a tried row the target refused stays with one more retry |
| CacheQueue.SettleOrigin | Go/src/modbus/data_storage.go:452-478 | every row after settling comes from a row before it: unchanged when untried, with one more retry when tried and refused |
| CacheQueue.SettleAllTaken | Go/src/modbus/data_storage.go:472 | when the target takes every row, all of them are deleted |
| CacheQueue.Flush | Go/src/modbus/data_storage.go:414-479 | a flush never adds rows and never changes the next id |
| CacheQueue.FlushValid | Go/src/modbus/data_storage.go:414-479 | a flush keeps the table well formed |
| CacheQueue.FlushEffect | Go/src/modbus/data_storage.go:452-478 | a row the query did not select, or one with 10 retries, stays; a selected row the target takes is gone; a selected row it refuses stays with one more retry |
| CacheQueue.FlushOrigin | Go/src/modbus/data_storage.go:452-478 | every row after a flush is a row from before, or a selected refused row with one more retry |
| CacheQueue.FlushKeepsRetriesBounded | Go/src/modbus/data_storage.go:419 | retry counts never pass 10, since only rows below 10 are tried (with lines 463-466) |
| CacheQueue.DropSynced | Go/src/modbus/data_storage.go:502-505 | the delete after a target write removes exactly the untried rows with the same reading, and keeps the table well formed |
| CacheQueue.SaveInserted | Go/src/modbus/data_storage.go:485-508 | a save keeps the table well formed |
| CacheQueue.RefusedSaveQueues | Go/src/modbus/data_storage.go:496-500 | a reading the target refuses stays queued as a new untried row |
| CacheQueue.DeliveredSaveDropsCopies | Go/src/modbus/data_storage.go:502-505 | after a delivered save no untried copy of the reading is left, every other row is kept, and no row is added |
| CacheQueue.EarlierCopyDropped | Go/src/modbus/data_storage.go:502-505 | a delivered save also deletes an earlier queued copy of the same reading |
| CacheQueue.PendingCount | Go/src/modbus/data_storage.go:572 | the pending count is at most the row count |
| CacheQueue.FailedCount | Python/src/data_storage.py:178 | the failed count is at most the row count |
| CacheQueue.PendingPlusExhausted | Go/src/modbus/data_storage.go:567-575 | pending rows and exhausted rows together are all rows |
| CacheQueue.FailedPlusUntried | Python/src/data_storage.py:176-179 | failed rows and untried rows together are all rows |
| CacheQueue.FreshRowsCounts | Go/src/modbus/data_storage.go:567-575 | while no row has failed, nothing counts as failed and every row is pending |
| GoStorage.TargetFor | Go/src/modbus/data_storage.go:280-304 | "none" gives no store; "influxdb" and "csv" give their stores; every other type gives SQLite on the configured path |
| GoStorage.KindOf | Go/src/modbus/data_storage.go:16-21 | a built store never has type "none" |
| GoStorage.TargetHasConfiguredKind | Go/src/modbus/data_storage.go:280-304 | a store has the configured type, or SQLite when the type is unknown |
| GoStorage.CacheSettings | Go/src/modbus/data_storage.go:314-326 | an empty cache path becomes "sensor_cache.db", and a non-positive interval and batch size become 10 and 100; set values are kept |
| GoStorage.CreateStorage | Go/src/modbus/data_storage.go:276-332 | "none" gives no store and no error; an open error or a cache error fails; otherwise the configured store, behind the cache exactly when it is enabled, with the cache settings |
| GoStorage.DefaultStorageConfig | Go/src/modbus/data_storage.go:334-342 | the default is SQLite with the cache switched off, and already needs no defaults |
| GoStorage.DefaultStorageIsSettled | Go/src/modbus/config.go:124-144 | the defaults pass leaves the default storage alone, and it builds a plain SQLite store on "sensor_data.db" |
| GoStorage.Save | Go/src/modbus/data_storage.go:481-512 | only a failed cache insert is an error; a refused reading is queued; a delivered one leaves no untried copy and adds no row, and other rows are kept |
| GoStorage.DeliverFrom | Go/src/modbus/data_storage.go:530-543 | the deliveries after a batch insert keep the table well formed |
| GoStorage.DeliverKeeps | Go/src/modbus/data_storage.go:530-543 | a row that is no untried copy of a delivered record survives the deliveries |
| GoStorage.DeliverDrops | Go/src/modbus/data_storage.go:535-538 | no untried copy of a delivered record survives the deliveries |
| GoStorage.DeliverSubset | Go/src/modbus/data_storage.go:530-543 | the deliveries only delete rows |
| GoStorage.SaveBatch | Go/src/modbus/data_storage.go:514-546 | a failed insert is an error that keeps the rows inserted before it (there is no transaction) and delivers nothing; the table stays well formed |
| GoStorage.SaveBatchEffect | Go/src/modbus/data_storage.go:514-546 | after a batch whose inserts all succeed, a delivered record leaves no untried copy, and a record equal to no delivered one stays queued under its new id |
| GoStorage.GetCacheStats | Go/src/modbus/data_storage.go:562-582 | the pending count is at most the total, the total is the row count, and the path is the cache's |
| GoStorage.StatsCountExhausted | Go/src/modbus/data_storage.go:567-575 | the total minus the pending count is the number of rows with 10 retries |
| PyStorage.KindName | Python/src/data_storage.py:404-409 | each back end's key is lower-case and is neither "none" nor "disabled" |
| PyStorage.KindOfName | Python/src/data_storage.py:426-430 | a known key selects its back end, and every other name selects SQLite |
| PyStorage.CreateStorage | Python/src/data_storage.py:411-438 | with `cache_db_path` kept for the cache: "none" and "disabled", in any case, give no storage; every other type gets its back end, behind the cache unless the cache is not wanted or the type is "csv", with the given cache path or "sensor_cache.db" |
| PyStorage.CreateStorageAsWritten | Python/src/data_storage.py:411-438 | a `cache_db_path` keyword makes every type other than "none" and "disabled" fail, because it reaches the back end's constructor; otherwise the same storage as the corrected factory, with the cache on "sensor_cache.db" |
| PyStorage.CachePathNeverUsedAsWritten | Python/src/data_storage.py:431-436 | as written, every cached store the factory builds is on "sensor_cache.db", and asking for SQLite with a cache path fails |
| PyStorage.CreateStorageAgreesWithoutCachePath | Python/src/data_storage.py:411-438 | without a cache path, or for "none" and "disabled", the factory as written and the corrected one build the same storage |
| PyStorage.CreateStorageIgnoresCase | Python/src/data_storage.py:421 | the type name is read without regard to case |
| PyStorage.CreateStorageByName | Python/src/data_storage.py:404-438 | each back end is built from its own key, cached unless it is CSV or the cache is not wanted |
| PyStorage.FlushCache | Python/src/data_storage.py:90-131 | `_flush_cache` waits forever when the caller holds the lock; otherwise it keeps the batch size and a well-formed table |
| PyStorage.Save | Python/src/data_storage.py:133-155 | `save` takes no lock and always returns; a failed insert changes nothing, a refused reading is queued, and a delivered one leaves no untried copy and adds no row, while every other row is kept |
| PyStorage.SaveBatchAsWritten | Python/src/data_storage.py:157-172 | as written, a call made while the lock is held never returns |
| PyStorage.SaveBatchAsWrittenNeverReturns | Python/src/data_storage.py:157-169 | as written, no call returns: `save_batch` holds the lock when its `_flush_cache` asks for it again (with line 91) |
| PyStorage.SaveBatch | Python/src/data_storage.py:157-172 | corrected, the batch returns exactly when the lock was free, and releases it |
| PyStorage.SaveBatchSettlesItems | Python/src/data_storage.py:161-169 | corrected, each new item is queued and then deleted if the flush selects it and the target takes it, kept with one retry if the target refuses it, and left queued if not selected |
| PyStorage.SaveBatchIsInsertThenFlush | Python/src/data_storage.py:161-169 | the corrected batch is the inserts followed by one `_flush_cache` once the lock is free |
| PyStorage.GetCacheStats | Python/src/data_storage.py:174-184 | the failed count is at most the total, which is the row count |
| PyStorage.StatsCountUntried | Python/src/data_storage.py:176-179 | the total minus the failed count is the number of untried rows |
| CStorage.Copy | C/src/data_storage.c:511 | `strncpy` into a zeroed 256-character buffer keeps a shorter path and cuts a longer one to 255 characters |
| CStorage.SettingsOf | C/src/data_storage.c:508-515 | an empty cache path becomes "sensor_cache.db", and a non-positive interval and batch size become 10 and 100; set values are kept |
| CStorage.SettingsKeepValid | C/src/data_storage.c:508-515 | settings already in range come through unchanged |
| CStorage.CachedStorageCreate | C/src/data_storage.c:501-539 | there is a cached store exactly when the cache database opens, and it runs with the derived settings |
| CStorage.StorageCreate | C/src/data_storage.c:282-306 | no store for type none, a back end that does not open, or an enabled cache that does not open; otherwise a store of the configured type, cached exactly when the cache is enabled |
| CStorage.DefaultStorageConfig | C/src/data_storage.c:550-567 | the default is SQLite with the cache enabled, flushing 100 rows every 10 seconds |
| CStorage.DefaultConfigBuildsCachedSQLite | C/src/data_storage.c:282-306 | the default builds a cached SQLite store on "sensor_cache.db" with interval 10 and batch 100 (with lines 550-567) |
| CStorage.FirstFailure | C/src/data_storage.c:65-70 | the first failing position, with every earlier one succeeding, or none when all succeed |
| CStorage.SqliteSaveBatch | C/src/data_storage.c:61-74 | the batch succeeds exactly when every insert does and then appends all records; any failure rolls everything back |
| CStorage.CsvSave | C/src/data_storage.c:143-155 | a line is appended exactly when the file is open |
| CStorage.CsvSaveBatch | C/src/data_storage.c:157-167 | without an open file nothing is written; otherwise every record is appended in order |
| CStorage.CsvBatchIsEachSave | C/src/data_storage.c:157-167 | the batch equals `csv_save` applied record by record, for every batch but an empty one on a missing file |
| CStorage.CachedSave | C/src/data_storage.c:404-437 | false only when the cache insert fails; a refused reading is queued and a delivered one leaves no untried copy; every other row is kept, and a delivered save adds no row |
| CStorage.CachedSaveBatch | C/src/data_storage.c:440-464 | the batch succeeds exactly when every insert does and then appends one untried row per record; a failure rolls back; the table stays well formed |
| CStorage.FlushPass | C/src/data_storage.c:340-401 | a pass keeps the table well formed, never adds rows and never changes the next id |
| CStorage.FlushPassDrainsSmallQueue | C/src/data_storage.c:348-390 | a pass whose target takes everything empties a table that fits one batch when no row has reached 10 retries |
| CppStorage.EscapeString | C++/src/data_storage.cpp:106-113 | the escaped text is one character longer per single quote |
| CppStorage.EscapeStringRoundTrip | C++/src/data_storage.cpp:37-38 | the escaped text is a well-formed SQL literal body that reads back as the input (with lines 106-113) |
| CppStorage.CollapseQuotesRoundTrip | C++/src/data_storage.cpp:106-113 | every well-formed literal body is the escaping of what it reads as |
| CppStorage.EscapeTagValue | C++/src/data_storage.cpp:251-258 | the escaped tag is one character longer per space, comma or '=', and never starts with one |
| CppStorage.EscapeTagRoundTrip | C++/src/data_storage.cpp:251-258 | reading an escaped tag value gives the input back |
| CppStorage.EscapedTagProtected | C++/src/data_storage.cpp:251-258 | every space, comma and '=' of an escaped tag follows a backslash |
| CppStorage.WrittenAllOrNone | C++/src/data_storage.cpp:58-62 | when every write succeeds all records are written, and when none does none is |
| CppStorage.SqliteSaveBatch | C++/src/data_storage.cpp:54-64 | true exactly for an open database, a non-empty batch and every write succeeding; a closed database or empty batch writes nothing; the table keeps its rows and grows by at most the batch |
| CppStorage.SqliteBatchNoEarlyStop | C++/src/data_storage.cpp:57-62 | a failed write does not stop the batch: with the database open, every record whose write succeeds ends up in the table, and nothing else is added |
| CppStorage.FailedFirstWriteStillWritesSecond | C++/src/data_storage.cpp:57-62 | when the first of two writes fails, the second record is still written and the batch answers false |
| CppStorage.Written | C++/src/data_storage.cpp:58-61 | the records written are exactly those whose write succeeds |
| CppStorage.CsvSaveBatch | C++/src/data_storage.cpp:149-168 | an empty batch is true without touching the file; otherwise true exactly when the file opens, with all records appended |
| CppStorage.EmptyBatchAnswers | C++/src/data_storage.cpp:55 | on an empty batch SQLite answers false and CSV true (with line 150) |
| CppStorage.KindOf | C++/src/data_storage.cpp:269-296 | a built store is never of type `None` |
| CppStorage.Create | C++/src/data_storage.cpp:269-296 | no store for `None`, for SQLite that does not initialize, or for InfluxDB when it is not compiled in; otherwise a store of the asked type on the configured path |
| CppStorage.CreatedStoreNamed | C++/src/data_storage.cpp:269-306 | the lower-cased display name of a built store is the configuration spelling of its type |

## Left out

- Socket, serial and process I/O are not modelled, because they are outside the program's logic. This covers the UDP bind and send of `NTPServer`, the serial port, the `ppstest` child process and `/sys/class/pps` polling of `TimeSync`, the NTP client, the Modbus client libraries, and Redis in `ClusterManager`. Their results, including every timeout outcome, are parameters.
- Timers and concurrency are not modelled, because the model is sequential. This covers `setInterval`, EventEmitter wiring, Promise timeouts, flush threads and goroutines. The 10 s GPS fix wait and the 2 s PPS wait are outcome parameters.
- The Go `CachedStorage.Close` self-deadlock is left out for the same reason. `Close` locks the mutex and then calls `flushCache`, which locks it again (Go/src/modbus/data_storage.go:551-554, 415). This is the same pattern as Finding 5.
- The C `THREAD_CREATE` macro passes the thread handle as the start routine (C/src/data_storage.c:22, 526). Thread start-up is not modelled.
- Floating point is not modelled. This covers sensor scaling, including the double scaling of the C++ multi-port reader, the `parseFloat` split of PPS timestamps, Prometheus metrics, and the `%.1f` rounding the C cache uses when it inserts and deletes rows. Readings hold `real` values compared exactly.
- `AlarmManager`'s threshold `parseFloat`, its notifications and its message text are not modelled. Values and thresholds are `real`.
- SQL, InfluxDB and CSV engines and file formats are not modelled. Tables and files are sequences of records. The success of each insert and of each write to a target store is a parameter. In the cache queue, the flush's DELETE and UPDATE and the save's DELETE are taken to succeed. The SQL `LIMIT` with a batch size that is not positive is not modelled, because every flush runs with a positive batch size after defaulting.
- The Go `GetCacheStats` query errors and the Python `close`, `sync_all` and constructor exceptions are not modelled, because they are database failures outside the row model. A Python insert failure inside `save_batch` is left out for the same reason.
- The C union in `get_default_storage_config` is not modelled. Its later InfluxDB and CSV writes overwrite `sqlite.db_path` (C/src/data_storage.c:553-558). The model keeps the back ends' settings in separate fields.
- CConfig.LoadJson keeps each storage path in a field of its own (`sqlitePath`, `influxUrl`, `influxToken`, `influxOrg`, `influxBucket`, `csvPath`), each written only when its key is present and cut to 255 characters (C/src/config.c:345-379). In C/src/config.h:52-70 these buffers are members of a union named `config`, so the file's accesses `config->storage.sqlite.db_path` and so on name a member the struct does not have. The model reads them as the union's members and does not model the overlap, where a later InfluxDB URL or CSV path overwrites the SQLite path.
- The 63-character `strncpy` of sensor names in the C flush worker is not modelled.
- The C `default:` branches of the storage-type switches are not modelled, because the enum's four values are all handled.
- C `atoi` and `atof` and C++ `stoi` and `stod` are read as decimal prefixes. Exponents, hexadecimal, `inf`/`nan` and overflow are not modelled.
- String lengths count Dafny characters, not C bytes or JavaScript UTF-16 code units. Python `lower()` is taken to be ASCII lower-casing.
- C++ `Config config;` leaves its integer and enum fields indeterminate before `load` assigns them. The model starts them at zero and `None`.
- Go YAML decoding and file reading are parameters, as is the JSON map that Java's Gson decodes from the file.
- JavaAppConfig.IntValue: JSON numbers are exact reals, so Gson's rounding of a numeral to the nearest double is not modelled; `intValue`'s truncation and saturation of that double are. The decoded map's shape is a parameter: "ports" and "sensors" that are missing or not lists are `None`, and each list element is an object, null, or some other value.
- `PortConfig.java` is not part of this model. Its fields are taken to start at the Java defaults (null, 0, 0.0).
- Java `MultiPortReader.connectAll` does not type-check (Java/src/main/java/com/modbus/sensor/MultiPortReader.java:72), so it has no model.
- Web UI, HTTP routes, notifications, backups, database adapters, the thin C, Go and Python sensor-reader wrappers, the main programs and the headers are not part of this model. The only exception is the clock-source whitelist of Web/src/server.js:844, which is the precondition of `TimeSync.SwitchSource`.
- The C++ InfluxDB store calls `curl_easy_getinfo` on its CURL handle (C++/src/data_storage.cpp:238) after `curl_easy_cleanup` has released that handle (line 230). This store exists only when built with `ENABLE_INFLUXDB`. `CppStorage.Create` models that build as a flag and does not model the store's writes.
- Wall-clock timestamps of readings and alarms are not modelled. They are not part of any property stated here.

## Findings

| source | as written | input that shows it | evidently intended | confidence | as-written member | corrected member |
|---|---|---|---|---|---|---|
| C++/src/sensor_reader.cpp:247-266 | `readRawData` waits for exactly 9 response bytes before it looks at the function code | a 5-byte exception response (slave, 0x83, code, CRC) never reaches 9 bytes, so it ends as a timeout | an exception response is recognised and its code reported, as the 0x83 branch at lines 263-266 intends | high (not executed) | CppSensorReader.ReadRawDataAsWritten, CppSensorReader.ExceptionFrameTimesOut, CppSensorReader.ReadAllSensors, CppSensorReader.RegistryExceptionAnswer | CppSensorReader.ReadRawData, CppSensorReader.ExceptionFrameReported, CppSensorReader.ReadAllSensorsCorrected, CppSensorReader.RegistriesAgreeOnFullResponses |
| Java/src/main/java/com/modbus/sensor/SensorReader.java:132-141, 210-212 | the request asks for 4 registers, but validation demands byte count 4, which is 2 registers | a device answering the request correctly sends byte count 8, and every such answer is rejected | the request asks for the 2 registers (temperature, humidity) that validation and decoding read | high (not executed) | JavaSensorReader.CreateModbusRequestAsWritten, JavaSensorReader.AsWrittenRequestAnswerRejected | JavaSensorReader.CreateModbusRequest, JavaSensorReader.CorrectedRequestAnswerAccepted |
| C/src/config.c:151-219 | the object walk of `json_extract_port`/`json_extract_sensor` finds each element's '{' (the search starts at the array's '['), then walks from just after that '{' with "inside an object" false, and only enters an object on a nested '{' | `[{"name":"p1"}]`: the flat object is never selected, so every port field stays at its default | the n-th top-level object of the array is selected and its fields are read | high (not executed) | CConfig.ExtractPortAsWritten, CConfig.ExtractSensorAsWritten, CConfig.FlatObjectsNeverSelected, CConfig.FlatPortsStayZeroAsWritten, CConfig.FlatPortArrayLoads (walk AsWritten) | CConfig.ExtractPort, CConfig.ExtractSensor, CConfig.FlatObjectsSelected, CConfig.FlatPortsRead, CConfig.FlatPortArrayLoads (walk Corrected) |
| C++/src/config.cpp:129, 154, 207-209 | "none" parses to `None`, and `applyDefaults` then replaces `None` with SQLite | `{"storage_type":"none"}` loads as SQLite, so storage cannot be turned off | "none" disables storage, as it does in the C, Go, Python and Java loaders | medium (not executed) | CppConfig.LoadAsWritten, CppConfig.NoneStorageAsWritten | CppConfig.Load, CppConfig.LoadAgreesElsewhere |
| Python/src/data_storage.py:157-172, 91 | `save_batch` holds `self.lock` (a non-reentrant `threading.Lock`) while it calls `_flush_cache`, which takes the same lock again | every call whose inserts succeed, an empty list included, blocks on a lock its own thread holds (a failed insert returns from the `except` at line 171 before the flush) | insert the items, then flush once, with the lock taken once | high (not executed) | PyStorage.SaveBatchAsWritten, PyStorage.SaveBatchAsWrittenNeverReturns | PyStorage.SaveBatch, PyStorage.SaveBatchSettlesItems |
| Python/src/data_storage.py:431-436 | `create_storage` passes all its keyword arguments, `cache_db_path` included, to the back end's constructor, and none of the constructors takes that keyword | `create_storage("sqlite", cache_db_path="c.db")` raises `TypeError`, so the `kwargs.get('cache_db_path', ...)` at line 435 never finds a path | the cache path is kept for the cache and only the back end's own settings reach its constructor | high (not executed) | PyStorage.CreateStorageAsWritten, PyStorage.CachePathNeverUsedAsWritten | PyStorage.CreateStorage, PyStorage.CreateStorageAgreesWithoutCachePath |

=== FILE: alarm_manager.dfy ===
/** The web server's alarm engine (`AlarmManager`): enabled rules by id, the
    six threshold conditions, the per-(device, rule) active/recovered state
    machine, acknowledgement, statistics and the bounded newest-first
    history.  The JavaScript objects of an alarm are shared between the
    active table and the history, so acknowledging or recovering an alarm
    shows in the history too; the model keeps this by storing alarms once in
    `objects` and referring to them by position.  Values and thresholds are
    the numbers `parseFloat` yields, as reals. */
module AlarmManager {
  import opened Wrappers
  import opened Text

  const MAX_HISTORY: nat := 1000

  datatype Rule = Rule(
    id: int, name: string, deviceId: int, condition: string, threshold: real,
    level: string, enabled: bool)

  datatype Alarm = Alarm(
    ruleId: int, ruleName: string, deviceId: int, deviceName: string, value: real,
    threshold: real, condition: string, level: string, triggeredAt: int,
    acknowledged: bool, acknowledgedAt: Option<string>, recovered: bool, recoveredAt: Option<int>)

  /** The manager's state: rules in insertion order, every alarm object ever
      created, the active table from key to object, and the history of
      objects, newest first. */
  datatype Manager = Manager(rules: seq<Rule>, objects: seq<Alarm>, active: map<string, nat>, history: seq<nat>)

  datatype Event = AlarmTriggered(alarm: nat) | AlarmRecovered(alarm: nat)

  predicate DistinctIds(rules: seq<Rule>) {
    forall i, j :: 0 <= i < j < |rules| ==> rules[i].id != rules[j].id
  }

  ghost predicate Valid(m: Manager) {
    && DistinctIds(m.rules)
    && (forall k :: k in m.active ==> m.active[k] < |m.objects|)
    && (forall k1, k2 :: k1 in m.active && k2 in m.active && k1 != k2 ==> m.active[k1] != m.active[k2])
    && (forall i :: 0 <= i < |m.history| ==> m.history[i] < |m.objects|)
    && |m.history| <= MAX_HISTORY
  }

  function NewManager(): (m: Manager)
    ensures Valid(m) && |m.active| == 0 && |m.history| == 0
  {
    Manager([], [], map[], [])
  }

  // ------------------------------------------------------------ rules

  /** `Map.prototype.set` on rules keyed by id: an existing id keeps its
      position and takes the new rule; a new id goes to the end. */
  function SetRule(rules: seq<Rule>, r: Rule): (out: seq<Rule>)
    requires DistinctIds(rules)
    ensures DistinctIds(out) && r in out
    ensures forall x :: x in out ==> x == r || (x in rules && x.id != r.id)
    ensures forall x :: x in rules && x.id != r.id ==> x in out
  {
    if |rules| == 0 then [r]
    else if rules[0].id == r.id then
      assert forall x :: x in rules[1..] ==> x.id != r.id by {
        forall x | x in rules[1..] ensures x.id != r.id {
          var i :| 0 <= i < |rules[1..]| && rules[1..][i] == x;
          assert rules[i + 1] == x;
        }
      }
      [r] + rules[1..]
    else
      var rest := SetRule(rules[1..], r);
      assert forall x :: x in rest ==> x.id != rules[0].id by {
        forall x | x in rest ensures x.id != rules[0].id {
          if x != r {
            var i :| 0 <= i < |rules[1..]| && rules[1..][i] == x;
            assert rules[i + 1] == x;
          }
        }
      }
      [rules[0]] + rest
  }

  /** The rule table `loadAlarmRules` builds: cleared, then every enabled
      rule set in order. */
  function EnabledRules(input: seq<Rule>): (rules: seq<Rule>)
    ensures DistinctIds(rules)
    ensures forall x :: x in rules ==> x.enabled && x in input
    decreases |input|
  {
    if |input| == 0 then []
    else
      var prefix := input[..|input| - 1];
      var last := input[|input| - 1];
      var before := EnabledRules(prefix);
      assert forall x :: x in prefix ==> x in input;
      if last.enabled then SetRule(before, last) else before
  }

  /** Every enabled rule's id has an entry in the table. */
  lemma {:induction false} EnabledIdsPresent(input: seq<Rule>, x: Rule)
    requires x in input && x.enabled
    ensures exists y :: y in EnabledRules(input) && y.id == x.id
    decreases |input|
  {
    var prefix := input[..|input| - 1];
    var last := input[|input| - 1];
    if x != last {
      assert x in prefix by {
        var i :| 0 <= i < |input| && input[i] == x;
        assert i < |prefix| && prefix[i] == x;
      }
      EnabledIdsPresent(prefix, x);
      var y :| y in EnabledRules(prefix) && y.id == x.id;
      if last.enabled && y.id == last.id {
        assert last in EnabledRules(input);
      } else {
        assert y in EnabledRules(input);
      }
    } else {
      assert last in EnabledRules(input);
    }
  }

  /** For each id, the table holds the last enabled rule with that id. */
  lemma {:induction false} LastEnabledWins(input: seq<Rule>, i: nat)
    requires i < |input| && input[i].enabled
    requires forall j :: i < j < |input| && input[j].enabled ==> input[j].id != input[i].id
    ensures input[i] in EnabledRules(input)
    decreases |input|
  {
    var prefix := input[..|input| - 1];
    if i < |prefix| {
      assert prefix[i] == input[i];
      forall j | i < j < |prefix| && prefix[j].enabled ensures prefix[j].id != prefix[i].id {
        assert prefix[j] == input[j];
      }
      LastEnabledWins(prefix, i);
    }
  }

  /** `loadAlarmRules`: a failed rule query leaves the table as it was;
      otherwise the table becomes exactly the enabled rules. */
  function LoadAlarmRules(m: Manager, query: Option<seq<Rule>>): (r: Manager)
    ensures query.None? ==> r == m
    ensures query.Some? ==> r == m.(rules := EnabledRules(query.value))
    ensures Valid(m) ==> Valid(r)
  {
    match query
    case None => m
    case Some(input) => m.(rules := EnabledRules(input))
  }

  /** Every enabled rule's id is in the table, every rule in the table is
      enabled and came from the query, and a rule whose id no enabled rule
      carries is absent. */
  lemma LoadedExactlyEnabled(m: Manager, input: seq<Rule>, x: Rule)
    requires x in input
    ensures var rules := LoadAlarmRules(m, Some(input)).rules;
            (x.enabled ==> exists y :: y in rules && y.id == x.id)
            && (forall y :: y in rules ==> y.enabled && y in input)
            && ((forall z :: z in input && z.id == x.id ==> !z.enabled) ==>
                  forall y :: y in rules ==> y.id != x.id)
  {
    if x.enabled {
      EnabledIdsPresent(input, x);
    }
  }

  // ------------------------------------------------------------ conditions

  /** `evaluateRule`: the six comparisons of the value against the
      threshold; any other condition never triggers. */
  function EvaluateRule(rule: Rule, value: real): (triggered: bool)
    ensures rule.condition !in {"gt", "gte", "lt", "lte", "eq", "ne"} ==> !triggered
  {
    match rule.condition
    case "gt" => value > rule.threshold
    case "gte" => value >= rule.threshold
    case "lt" => value < rule.threshold
    case "lte" => value <= rule.threshold
    case "eq" => value == rule.threshold
    case "ne" => value != rule.threshold
    case _ => false
  }

  /** The conditions come in complementary pairs: gt/lte, lt/gte and eq/ne
      trigger on exactly opposite values, and exactly one of lt, eq, gt
      triggers. */
  lemma ConditionsComplement(rule: Rule, value: real)
    ensures EvaluateRule(rule.(condition := "gt"), value) == !EvaluateRule(rule.(condition := "lte"), value)
    ensures EvaluateRule(rule.(condition := "lt"), value) == !EvaluateRule(rule.(condition := "gte"), value)
    ensures EvaluateRule(rule.(condition := "eq"), value) == !EvaluateRule(rule.(condition := "ne"), value)
    ensures EvaluateRule(rule.(condition := "gte"), value)
            == (EvaluateRule(rule.(condition := "gt"), value) || EvaluateRule(rule.(condition := "eq"), value))
  {
  }

  // ------------------------------------------------------------ history

  /** `addToHistory`: the alarm goes to the front, and when the history then
      exceeds its bound the oldest entry is dropped. */
  function AddToHistory(history: seq<nat>, alarm: nat): (h: seq<nat>)
    ensures |h| == if |history| >= MAX_HISTORY then |history| else |history| + 1
    ensures h[0] == alarm && h[1..] == history[..|h| - 1]
  {
    var grown := [alarm] + history;
    if |grown| > MAX_HISTORY then grown[..|grown| - 1] else grown
  }

  /** `getAlarmHistory(limit = 100)`: `slice(0, limit)` of the history, where a
      negative limit counts back from the end. */
  function GetAlarmHistory(m: Manager, limit: int := 100): (r: seq<Alarm>)
    requires Valid(m)
    ensures limit >= 0 ==> |r| == if limit < |m.history| then limit else |m.history|
    ensures limit < 0 ==> |r| == if |m.history| + limit > 0 then |m.history| + limit else 0
    ensures forall i :: 0 <= i < |r| ==> r[i] == m.objects[m.history[i]]
  {
    var end := if limit < 0 then (if |m.history| + limit > 0 then |m.history| + limit else 0)
               else if limit < |m.history| then limit else |m.history|;
    seq(end, i requires 0 <= i < end => m.objects[m.history[i]])
  }

  // ------------------------------------------------------------ checking values

  /** The active-table key of a device and rule: "<deviceId>-<ruleId>". */
  function AlarmKey(deviceId: int, ruleId: int): string {
    IntToString(deviceId) + "-" + IntToString(ruleId)
  }

  /** For one device, distinct rules have distinct keys. */
  lemma AlarmKeyInjective(deviceId: int, r1: int, r2: int)
    requires AlarmKey(deviceId, r1) == AlarmKey(deviceId, r2)
    ensures r1 == r2
  {
    var prefix := IntToString(deviceId) + "-";
    assert AlarmKey(deviceId, r1)[|prefix|..] == IntToString(r1);
    assert AlarmKey(deviceId, r2)[|prefix|..] == IntToString(r2);
    IntToStringInjective(r1, r2);
  }

  /** The alarm object a triggered rule creates. */
  function NewAlarm(rule: Rule, deviceId: int, deviceName: string, value: real, timestamp: int): (a: Alarm)
    ensures !a.acknowledged && !a.recovered && a.ruleId == rule.id && a.deviceId == deviceId
    ensures a.value == value && a.threshold == rule.threshold && a.triggeredAt == timestamp
  {
    Alarm(rule.id, rule.name, deviceId, deviceName, value, rule.threshold, rule.condition, rule.level,
          timestamp, false, None, false, None)
  }

  /** One rule's turn in `checkAlarm`. */
  function CheckRule(m: Manager, rule: Rule, deviceId: int, deviceName: string, value: real, timestamp: int)
    : (r: (Manager, seq<Event>))
    requires Valid(m)
    ensures Valid(r.0) && r.0.rules == m.rules
    ensures var key := AlarmKey(deviceId, rule.id);
            var triggered := EvaluateRule(rule, value);
            && (triggered && key !in m.active ==>
                  var n := |m.objects|;
                  r.0.objects == m.objects + [NewAlarm(rule, deviceId, deviceName, value, timestamp)]
                  && r.0.active == m.active[key := n]
                  && r.0.history == AddToHistory(m.history, n)
                  && r.1 == [AlarmTriggered(n)])
            && (triggered && key in m.active ==> r == (m, []))
            && (!triggered && key in m.active ==>
                  var n := m.active[key];
                  r.0.objects == m.objects[n := m.objects[n].(recovered := true, recoveredAt := Some(timestamp))]
                  && r.0.active == m.active - {key}
                  && r.0.history == m.history
                  && r.1 == [AlarmRecovered(n)])
            && (!triggered && key !in m.active ==> r == (m, []))
  {
    var key := AlarmKey(deviceId, rule.id);
    if EvaluateRule(rule, value) then
      if key in m.active then (m, [])
      else
        var n := |m.objects|;
        (m.(objects := m.objects + [NewAlarm(rule, deviceId, deviceName, value, timestamp)],
            active := m.active[key := n],
            history := AddToHistory(m.history, n)),
         [AlarmTriggered(n)])
    else if key in m.active then
      var n := m.active[key];
      (m.(objects := m.objects[n := m.objects[n].(recovered := true, recoveredAt := Some(timestamp))],
          active := m.active - {key}),
       [AlarmRecovered(n)])
    else (m, [])
  }

  /** The keys `checkAlarm` may touch for a device: those of its own rules. */
  function DeviceKeys(rules: seq<Rule>, deviceId: int): (keys: set<string>)
    ensures forall k :: k in keys <==> exists r :: r in rules && r.deviceId == deviceId && k == AlarmKey(deviceId, r.id)
  {
    set r | r in rules && r.deviceId == deviceId :: AlarmKey(deviceId, r.id)
  }

  /** Going from `m` to `r` leaves every key outside `keys` alone: it is
      active in both or in neither, with the same alarm object. */
  ghost predicate KeepsOtherKeys(m: Manager, keys: set<string>, r: Manager)
    requires Valid(m) && |m.objects| <= |r.objects|
  {
    forall k :: k !in keys ==>
      (k in r.active <==> k in m.active)
      && (k in m.active ==> r.active[k] == m.active[k] && r.objects[m.active[k]] == m.objects[m.active[k]])
  }

  /** What a check of a device's value leaves for one of its rules, going
      from `m` to `r`: the rule's alarm is active afterwards exactly when the
      rule triggers; an alarm that stays active keeps its object; a rule
      that newly triggers gets a new alarm object and announces it; an
      active alarm whose rule no longer triggers announces its recovery. */
  ghost predicate RuleOutcome(m: Manager, x: Rule, deviceId: int, deviceName: string, value: real, timestamp: int,
                              r: (Manager, seq<Event>))
    requires Valid(r.0)
  {
    var key := AlarmKey(deviceId, x.id);
    var triggered := EvaluateRule(x, value);
    && (key in r.0.active <==> triggered)
    && (triggered && key in m.active ==> r.0.active[key] == m.active[key])
    && (triggered && key !in m.active ==>
          |m.objects| <= r.0.active[key]
          && r.0.objects[r.0.active[key]] == NewAlarm(x, deviceId, deviceName, value, timestamp)
          && AlarmTriggered(r.0.active[key]) in r.1)
    && (!triggered && key in m.active ==> AlarmRecovered(m.active[key]) in r.1)
  }

  /** `RuleOutcome` for every rule of the device in `rules`. */
  ghost predicate RulesOutcome(m: Manager, rules: seq<Rule>, deviceId: int, deviceName: string, value: real,
                               timestamp: int, r: (Manager, seq<Event>))
    requires Valid(r.0)
  {
    forall x :: x in rules && x.deviceId == deviceId ==> RuleOutcome(m, x, deviceId, deviceName, value, timestamp, r)
  }

  /** `checkAlarm`: each rule of the device, in table order, takes its turn;
      the events are those of the turns, in order.  Every rule of the device
      ends with its alarm active exactly when it triggers, and the keys of
      other devices' rules are untouched. */
  function CheckAlarm(m: Manager, deviceId: int, deviceName: string, value: real, timestamp: int)
    : (r: (Manager, seq<Event>))
    requires Valid(m)
    ensures Valid(r.0) && r.0.rules == m.rules
    ensures |m.objects| <= |r.0.objects| && KeepsOtherKeys(m, DeviceKeys(m.rules, deviceId), r.0)
    ensures RulesOutcome(m, m.rules, deviceId, deviceName, value, timestamp, r)
  {
    CheckRules(m, m.rules, deviceId, deviceName, value, timestamp)
  }

  function CheckRules(m: Manager, rules: seq<Rule>, deviceId: int, deviceName: string, value: real,
                      timestamp: int): (r: (Manager, seq<Event>))
    requires Valid(m)
    ensures Valid(r.0) && r.0.rules == m.rules
    ensures |m.objects| <= |r.0.objects| && KeepsOtherKeys(m, DeviceKeys(rules, deviceId), r.0)
    ensures DistinctIds(rules) ==> RulesOutcome(m, rules, deviceId, deviceName, value, timestamp, r)
    decreases |rules|
  {
    if |rules| == 0 then (m, [])
    else
      var step := if rules[0].deviceId == deviceId
                  then CheckRule(m, rules[0], deviceId, deviceName, value, timestamp)
                  else (m, []);
      var rest := CheckRules(step.0, rules[1..], deviceId, deviceName, value, timestamp);
      FrameStep(m, rules, deviceId, deviceName, value, timestamp, step, rest);
      if DistinctIds(rules) then
        assert DistinctIds(rules[1..]);
        CheckRulesStep(m, rules, deviceId, deviceName, value, timestamp, step, rest);
        (rest.0, step.1 + rest.1)
      else (rest.0, step.1 + rest.1)
  }

  /** The first rule's turn touches only its own key, so the keys the
      whole list leaves alone are left alone by the first turn and then by
      the rest. */
  lemma FrameStep(m: Manager, rules: seq<Rule>, deviceId: int, deviceName: string, value: real, timestamp: int,
                  step: (Manager, seq<Event>), rest: (Manager, seq<Event>))
    requires Valid(m) && |rules| > 0
    requires step == if rules[0].deviceId == deviceId
                     then CheckRule(m, rules[0], deviceId, deviceName, value, timestamp) else (m, [])
    requires Valid(step.0) && Valid(rest.0)
    requires |step.0.objects| <= |rest.0.objects| && KeepsOtherKeys(step.0, DeviceKeys(rules[1..], deviceId), rest.0)
    ensures |m.objects| <= |rest.0.objects| && KeepsOtherKeys(m, DeviceKeys(rules, deviceId), rest.0)
  {
    assert forall r :: r in rules[1..] ==> r in rules;
    assert DeviceKeys(rules[1..], deviceId) <= DeviceKeys(rules, deviceId);
    assert rules[0].deviceId == deviceId ==> AlarmKey(deviceId, rules[0].id) in DeviceKeys(rules, deviceId);
  }

  /** The first rule's key is none of the later rules' keys. */
  lemma FirstKeyNotLater(rules: seq<Rule>, deviceId: int)
    requires DistinctIds(rules) && |rules| > 0
    ensures AlarmKey(deviceId, rules[0].id) !in DeviceKeys(rules[1..], deviceId)
    ensures forall x :: x in rules[1..] ==> AlarmKey(deviceId, x.id) != AlarmKey(deviceId, rules[0].id)
  {
    forall x | x in rules[1..] ensures AlarmKey(deviceId, x.id) != AlarmKey(deviceId, rules[0].id) {
      var i :| 0 <= i < |rules[1..]| && rules[1..][i] == x;
      assert rules[i + 1] == x;
      if AlarmKey(deviceId, x.id) == AlarmKey(deviceId, rules[0].id) {
        AlarmKeyInjective(deviceId, x.id, rules[0].id);
      }
    }
  }

  /** One step of `CheckRules`: the first rule's turn, then the rest. */
  lemma CheckRulesStep(m: Manager, rules: seq<Rule>, deviceId: int, deviceName: string, value: real, timestamp: int,
                       step: (Manager, seq<Event>), rest: (Manager, seq<Event>))
    requires Valid(m) && DistinctIds(rules) && |rules| > 0
    requires step == if rules[0].deviceId == deviceId
                     then CheckRule(m, rules[0], deviceId, deviceName, value, timestamp) else (m, [])
    requires Valid(step.0) && Valid(rest.0)
    requires |step.0.objects| <= |rest.0.objects| && KeepsOtherKeys(step.0, DeviceKeys(rules[1..], deviceId), rest.0)
    requires RulesOutcome(step.0, rules[1..], deviceId, deviceName, value, timestamp, rest)
    ensures RulesOutcome(m, rules, deviceId, deviceName, value, timestamp, (rest.0, step.1 + rest.1))
  {
    FirstKeyNotLater(rules, deviceId);
    forall x | x in rules && x.deviceId == deviceId
      ensures RuleOutcome(m, x, deviceId, deviceName, value, timestamp, (rest.0, step.1 + rest.1))
    {
      if x == rules[0] {
        FirstRuleOutcome(m, rules[0], deviceId, deviceName, value, timestamp, step, rest);
      } else {
        assert x in rules[1..] by {
          var i :| 0 <= i < |rules| && rules[i] == x;
          assert i > 0 && rules[1..][i - 1] == x;
        }
        LaterRuleOutcome(m, rules[0], x, deviceId, deviceName, value, timestamp, step, rest);
      }
    }
  }

  /** The first rule's outcome survives the later turns, which leave its
      key alone. */
  lemma FirstRuleOutcome(m: Manager, rule: Rule, deviceId: int, deviceName: string, value: real, timestamp: int,
                         step: (Manager, seq<Event>), rest: (Manager, seq<Event>))
    requires Valid(m) && rule.deviceId == deviceId
    requires step == CheckRule(m, rule, deviceId, deviceName, value, timestamp)
    requires Valid(rest.0)
    requires var k := AlarmKey(deviceId, rule.id);
             (k in rest.0.active <==> k in step.0.active)
             && (k in step.0.active ==> rest.0.active[k] == step.0.active[k]
                                        && rest.0.objects[step.0.active[k]] == step.0.objects[step.0.active[k]])
    ensures RuleOutcome(m, rule, deviceId, deviceName, value, timestamp, (rest.0, step.1 + rest.1))
  {
    assert forall e :: e in step.1 ==> e in step.1 + rest.1;
  }

  /** A later rule's outcome from the state after the first turn is its
      outcome from the state before it, since the first turn only touches
      its own key. */
  lemma LaterRuleOutcome(m: Manager, first: Rule, x: Rule, deviceId: int, deviceName: string, value: real,
                         timestamp: int, step: (Manager, seq<Event>), rest: (Manager, seq<Event>))
    requires Valid(m)
    requires step == if first.deviceId == deviceId
                     then CheckRule(m, first, deviceId, deviceName, value, timestamp) else (m, [])
    requires Valid(step.0) && Valid(rest.0)
    requires AlarmKey(deviceId, x.id) != AlarmKey(deviceId, first.id)
    requires |m.objects| <= |step.0.objects|
    requires RuleOutcome(step.0, x, deviceId, deviceName, value, timestamp, rest)
    ensures RuleOutcome(m, x, deviceId, deviceName, value, timestamp, (rest.0, step.1 + rest.1))
  {
    var key := AlarmKey(deviceId, x.id);
    assert (key in step.0.active <==> key in m.active)
           && (key in m.active ==> step.0.active[key] == m.active[key]);
    assert forall e :: e in rest.1 ==> e in step.1 + rest.1;
  }

  /** A value for a device with no rules changes nothing. */
  lemma NoRulesNoChange(m: Manager, deviceId: int, deviceName: string, value: real, timestamp: int)
    requires Valid(m)
    requires forall r :: r in m.rules ==> r.deviceId != deviceId
    ensures CheckAlarm(m, deviceId, deviceName, value, timestamp).0.active == m.active
  {
    assert DeviceKeys(m.rules, deviceId) == {};
  }

  // ------------------------------------------------------------ acknowledging and statistics

  /** `acknowledgeAlarm`: succeeds exactly for an active key, marking that
      alarm object (so its history entry too) acknowledged at `now`. */
  function AcknowledgeAlarm(m: Manager, key: string, now: string): (r: (Manager, bool))
    requires Valid(m)
    ensures Valid(r.0)
    ensures r.1 <==> key in m.active
    ensures !r.1 ==> r.0 == m
    ensures r.1 ==> r.0.active == m.active && r.0.history == m.history && r.0.rules == m.rules
                    && |r.0.objects| == |m.objects|
                    && r.0.objects[m.active[key]].acknowledged
                    && forall i :: 0 <= i < |m.objects| && i != m.active[key] ==> r.0.objects[i] == m.objects[i]
  {
    if key in m.active then
      var n := m.active[key];
      (m.(objects := m.objects[n := m.objects[n].(acknowledged := true, acknowledgedAt := Some(now))]), true)
    else (m, false)
  }

  /** An acknowledged alarm still in the history shows as acknowledged there. */
  lemma AcknowledgementShowsInHistory(m: Manager, key: string, now: string, i: nat)
    requires Valid(m) && key in m.active && i < |m.history| && m.history[i] == m.active[key]
    ensures var h := GetAlarmHistory(AcknowledgeAlarm(m, key, now).0, MAX_HISTORY);
            i < |h| && h[i].acknowledged
  {
  }

  /** `clearAllAlarms`: the active table is emptied; history and alarm
      objects are kept. */
  function ClearAllAlarms(m: Manager): (r: Manager)
    requires Valid(m)
    ensures Valid(r) && |r.active| == 0
    ensures r.history == m.history && r.objects == m.objects && r.rules == m.rules
  {
    m.(active := map[])
  }

  datatype Stats = Stats(total: nat, critical: nat, warning: nat, info: nat, acknowledged: nat, unacknowledged: nat)

  /** The active keys whose alarm satisfies a test. */
  function ActiveWhere(m: Manager, test: Alarm -> bool): (keys: set<string>)
    requires Valid(m)
    ensures keys <= m.active.Keys
    ensures forall k :: k in m.active ==> (k in keys <==> test(m.objects[m.active[k]]))
  {
    set k | k in m.active && test(m.objects[m.active[k]])
  }

  /** The active keys whose alarm has the level. */
  function ActiveAtLevel(m: Manager, level: string): (keys: set<string>)
    requires Valid(m)
    ensures forall k :: k in keys <==> k in m.active && m.objects[m.active[k]].level == level
  {
    ActiveWhere(m, (a: Alarm) => a.level == level)
  }

  /** The active keys whose alarm is, or is not, acknowledged. */
  function ActiveAcknowledged(m: Manager, acknowledged: bool): (keys: set<string>)
    requires Valid(m)
    ensures forall k :: k in keys <==> k in m.active && m.objects[m.active[k]].acknowledged == acknowledged
  {
    ActiveWhere(m, (a: Alarm) => a.acknowledged == acknowledged)
  }

  /** `getAlarmStats` over the active alarms: each count is the number of
      active alarms with that level or acknowledgement.  The active table
      holds each alarm object under one key only, so counting keys counts
      alarms. */
  function GetAlarmStats(m: Manager): (s: Stats)
    requires Valid(m)
    ensures s.total == |m.active|
    ensures s.critical == |ActiveAtLevel(m, "critical")| && s.warning == |ActiveAtLevel(m, "warning")|
            && s.info == |ActiveAtLevel(m, "info")|
    ensures s.acknowledged == |ActiveAcknowledged(m, true)| && s.unacknowledged == |ActiveAcknowledged(m, false)|
    ensures s.acknowledged + s.unacknowledged == s.total
    ensures s.critical + s.warning + s.info <= s.total
  {
    var ack := ActiveAcknowledged(m, true);
    var unack := ActiveAcknowledged(m, false);
    assert ack * unack == {};
    assert ack + unack == m.active.Keys;
    var critical := ActiveAtLevel(m, "critical");
    var warning := ActiveAtLevel(m, "warning");
    var info := ActiveAtLevel(m, "info");
    assert critical * warning == {} && (critical + warning) * info == {};
    assert critical + warning + info <= m.active.Keys;
    LemmaSubsetSize(critical + warning + info, m.active.Keys);
    Stats(|m.active|, |critical|, |warning|, |info|, |ack|, |unack|)
  }

  /** Acknowledging an active alarm that was not acknowledged moves exactly
      one count from unacknowledged to acknowledged; the total and the
      per-level counts stay. */
  lemma AcknowledgeMovesOneCount(m: Manager, key: string, now: string)
    requires Valid(m) && key in m.active && !m.objects[m.active[key]].acknowledged
    ensures var before := GetAlarmStats(m);
            var after := GetAlarmStats(AcknowledgeAlarm(m, key, now).0);
            after.acknowledged == before.acknowledged + 1
            && after.unacknowledged + 1 == before.unacknowledged
            && after.total == before.total && after.critical == before.critical
            && after.warning == before.warning && after.info == before.info
  {
    var m' := AcknowledgeAlarm(m, key, now).0;
    AcknowledgedSets(m, key, now);
    LevelSetKept(m, key, now, "critical");
    LevelSetKept(m, key, now, "warning");
    LevelSetKept(m, key, now, "info");
    assert |ActiveAcknowledged(m', true)| == |ActiveAcknowledged(m, true)| + 1;
    assert |ActiveAcknowledged(m', false)| + 1 == |ActiveAcknowledged(m, false)|;
  }

  /** The acknowledgement sets before and after acknowledging: the key
      moves from the unacknowledged set to the acknowledged one. */
  lemma AcknowledgedSets(m: Manager, key: string, now: string)
    requires Valid(m) && key in m.active && !m.objects[m.active[key]].acknowledged
    ensures var m' := AcknowledgeAlarm(m, key, now).0;
            && ActiveAcknowledged(m', true) == ActiveAcknowledged(m, true) + {key}
            && key !in ActiveAcknowledged(m, true)
            && ActiveAcknowledged(m', false) + {key} == ActiveAcknowledged(m, false)
            && key !in ActiveAcknowledged(m', false)
  {
    assert forall k :: k in m.active && k != key ==> m.active[k] != m.active[key];
  }

  /** Acknowledging leaves every level's set of active keys as it was. */
  lemma LevelSetKept(m: Manager, key: string, now: string, level: string)
    requires Valid(m) && key in m.active
    ensures ActiveAtLevel(AcknowledgeAlarm(m, key, now).0, level) == ActiveAtLevel(m, level)
  {
    assert forall k :: k in m.active && k != key ==> m.active[k] != m.active[key];
  }

  lemma LemmaSubsetSize<T>(a: set<T>, b: set<T>)
    requires a <= b
    ensures |a| <= |b|
  {
    assert b == a + (b - a);
  }

  /** After `clearAllAlarms` every statistic is zero. */
  lemma ClearedStatsAreZero(m: Manager)
    requires Valid(m)
    ensures GetAlarmStats(ClearAllAlarms(m)) == Stats(0, 0, 0, 0, 0, 0)
  {
  }
}

=== FILE: bytes.dfy ===
/** Bytes as `bv8` and the conversions between bytes and integers. */
module Bytes {

  /** A byte converted from a value in 0..255 converts back to that value. */
  lemma ByteBack(n: int)
    requires 0 <= n < 256
    ensures (n as bv8) as int == n
  {
  }

  /** The byte holding a value in 0..255. */
  function ByteOf(x: int): (b: bv8)
    requires 0 <= x < 256
    ensures b as int == x
  {
    ByteBack(x);
    x as bv8
  }

  /** A byte converted to an integer converts back to the same byte. */
  lemma ByteRoundTrip(b: bv8)
    ensures (b as int) as bv8 == b
  {
  }

  /** Bytes with the same value are the same byte. */
  lemma ByteInjective(x: bv8, y: bv8)
    requires x as int == y as int
    ensures x == y
  {
    ByteRoundTrip(x);
    ByteRoundTrip(y);
  }

  /** Four-byte words with the same byte values are the same word. */
  lemma SameWord(r: seq<bv8>, w: seq<bv8>)
    requires |r| == 4 && |w| == 4
    requires r[0] as int == w[0] as int && r[1] as int == w[1] as int
    requires r[2] as int == w[2] as int && r[3] as int == w[3] as int
    ensures r == w
  {
    ByteInjective(r[0], w[0]);
    ByteInjective(r[1], w[1]);
    ByteInjective(r[2], w[2]);
    ByteInjective(r[3], w[3]);
  }

  /** Splitting q * 256 + r into quotient and remainder. */
  lemma DivMod256(q: int, r: int)
    requires 0 <= r < 256
    ensures (q * 256 + r) / 256 == q && (q * 256 + r) % 256 == r
  {
  }

  /** The big-endian unsigned value of two bytes (the register layout of the
      Modbus application protocol). */
  function BE16(hi: bv8, lo: bv8): (v: nat)
    ensures v < 0x1_0000
    ensures v / 256 == hi as int && v % 256 == lo as int
  {
    hi as int * 256 + lo as int
  }
}

=== FILE: c_config.dfy ===
/** The configuration loader of the C port: hand-rolled extraction of keys
    from JSON text (`json_extract_string`, `_int`, `_float`,
    `_array_size`, the object walk of `json_extract_port` and
    `json_extract_sensor`), the defaulting and clamping of `config_load`,
    and `config_load_default`.  Texts are C strings: the file content ends
    at its first NUL, and every `strncpy` into a fixed buffer keeps at most
    the buffer size minus one characters. */
module CConfig {
  import opened Wrappers
  import opened Text
  import opened CNumbers
  import opened StorageTypes

  const MAX_PORTS: nat := 16
  const MAX_SENSORS: nat := 32
  /** Sizes of the `char` buffers of `PortConfig`/`SensorConfig` and of the
      storage paths. */
  const NAME_SIZE: nat := 64
  const PATH_SIZE: nat := 256

  // ------------------------------------------------------------ C strings

  /** The C string held by a buffer: everything before its first NUL. */
  function CString(s: string): (r: string)
    ensures |r| <= |s| && r == s[..|r|]
    ensures '\0' !in r
    ensures |r| < |s| ==> s[|r|] == '\0'
  {
    if |s| == 0 || s[0] == '\0' then "" else [s[0]] + CString(s[1..])
  }

  /** `strncpy(dst, src, size - 1)` into a zeroed buffer of `size` chars. */
  function Truncate(s: string, size: nat): (r: string)
    requires size > 0
    ensures |r| < size
    ensures |s| < size ==> r == s
    ensures |s| >= size ==> r == s[..size - 1]
  {
    if |s| < size then s else s[..size - 1]
  }

  /** The key as searched for: in double quotes. */
  function Quoted(key: string): string {
    "\"" + key + "\""
  }

  /** A key and its value as written in an object: `"key":value`. */
  function Entry(key: string, value: string): string {
    Quoted(key) + ":" + value
  }

  // ------------------------------------------------------------ key extraction

  /** The first position at or after i that is not a space or tab. */
  function SkipBlanks(s: string, i: nat): (r: nat)
    requires i <= |s|
    ensures i <= r <= |s|
    ensures forall k | i <= k < r :: s[k] == ' ' || s[k] == '\t'
    ensures r < |s| ==> s[r] != ' ' && s[r] != '\t'
    decreases |s| - i
  {
    if i < |s| && (s[i] == ' ' || s[i] == '\t') then SkipBlanks(s, i + 1) else i
  }

  /** Where a key's value starts: after the first ':' that follows the key's
      first occurrence, and after spaces and tabs.  None when the key or the
      colon is missing. */
  function ValueStart(json: string, key: string): (r: Option<nat>)
    ensures r.Some? ==> r.value <= |json|
  {
    match FindFrom(json, Quoted(key), 0)
    case None => None
    case Some(k) =>
      match FindChar(json, ':', k)
      case None => None
      case Some(c) => Some(SkipBlanks(json, c + 1))
  }

  /** The scan of a string value from just after its opening quote: a
      backslash skips the character after it, and the scan stops at the
      next quote or the end of the text. */
  function ScanString(s: string, i: nat): (r: nat)
    requires i <= |s|
    ensures i <= r <= |s|
    ensures r < |s| ==> s[r] == '"'
    decreases |s| - i
  {
    if i == |s| || s[i] == '"' then i
    else if s[i] == '\\' && i + 1 < |s| then ScanString(s, i + 2)
    else ScanString(s, i + 1)
  }

  /** `json_extract_string`: None unless the value starts with '"'; the raw
      text up to the next unescaped '"', escapes kept as written. */
  function ExtractString(json: string, key: string): (r: Option<string>)
    ensures FindFrom(json, Quoted(key), 0).None? ==> r.None?
    ensures ':' !in json ==> r.None?
    ensures r.Some? ==> EscapedQuotes(r.value)
  {
    match ValueStart(json, key)
    case None => None
    case Some(v) => StringAt(json, v)
  }

  /** Every '"' of a text directly follows a backslash. */
  predicate EscapedQuotes(v: string) {
    forall i | 0 <= i < |v| :: v[i] == '"' ==> 0 < i && v[i - 1] == '\\'
  }

  /** The string value starting at `v`: None unless there is a '"' there. */
  function StringAt(json: string, v: nat): (r: Option<string>)
    ensures r.Some? ==> EscapedQuotes(r.value)
  {
    if v < |json| && json[v] == '"' then
      var e := ScanString(json, v + 1);
      ScanQuotesEscaped(json, v + 1);
      var body := json[v + 1..e];
      assert forall i | 0 <= i < |body| :: body[i] == json[v + 1 + i];
      Some(body)
    else None
  }

  /** Inside a scanned string body every '"' directly follows a backslash:
      the scan stops at any other. */
  lemma {:induction false} ScanQuotesEscaped(s: string, i: nat)
    requires i <= |s|
    ensures forall j | i <= j < ScanString(s, i) :: s[j] == '"' ==> i < j && s[j - 1] == '\\'
    decreases |s| - i
  {
    if i < |s| && s[i] != '"' {
      if s[i] == '\\' && i + 1 < |s| {
        ScanQuotesEscaped(s, i + 2);
      } else {
        ScanQuotesEscaped(s, i + 1);
      }
    }
  }

  /** `json_extract_int`: `atoi` of the value, 0 without key or colon. */
  function ExtractInt(json: string, key: string): (n: int)
    ensures FindFrom(json, Quoted(key), 0).None? ==> n == 0
    ensures ':' !in json ==> n == 0
    ensures n < 0 ==> '-' in json
  {
    match ValueStart(json, key)
    case None => 0
    case Some(v) =>
      var t := SkipSpace(json[v..]);
      assert Atoi(json[v..]) < 0 ==> json[v + |json[v..]| - |t|] == '-';
      Atoi(json[v..])
  }

  /** `json_extract_float`: `atof` of the value, 0 without key or colon. */
  function ExtractFloat(json: string, key: string): (x: real)
    ensures FindFrom(json, Quoted(key), 0).None? ==> x == 0.0
    ensures ':' !in json ==> x == 0.0
  {
    match ValueStart(json, key)
    case None => 0.0
    case Some(v) => Atof(json[v..])
  }

  /** A string body the value scan reads to its end: no bare '"', and every
      backslash followed by the character it escapes. */
  predicate RawString(v: string)
    decreases |v|
  {
    |v| == 0
    || (v[0] == '\\' && |v| >= 2 && RawString(v[2..]))
    || (v[0] != '\\' && v[0] != '"' && RawString(v[1..]))
  }

  /** Text without backslashes and quotes is a raw string body. */
  lemma {:induction false} PlainIsRaw(v: string)
    requires forall i | 0 <= i < |v| :: v[i] != '\\' && v[i] != '"'
    ensures RawString(v)
    decreases |v|
  {
    if |v| > 0 {
      PlainIsRaw(v[1..]);
    }
  }

  /** The scan stops exactly at the quote that closes a raw string body. */
  lemma {:induction false} ScanRawString(s: string, i: nat, v: string)
    requires RawString(v)
    requires i + |v| < |s| && s[i..i + |v|] == v && s[i + |v|] == '"'
    ensures ScanString(s, i) == i + |v|
    decreases |v|
  {
    if |v| == 0 {
      assert s[i] == '"';
    } else if v[0] == '\\' && |v| >= 2 && RawString(v[2..]) {
      assert s[i] == v[0] && s[i] != '"';
      assert s[i + 2..i + |v|] == v[2..];
      ScanRawString(s, i + 2, v[2..]);
    } else {
      assert s[i] == v[0];
      assert s[i + 1..i + |v|] == v[1..];
      ScanRawString(s, i + 1, v[1..]);
    }
  }

  /** The first occurrence of a pattern, located. */
  lemma FindFromAt(s: string, p: string, i: nat)
    requires MatchAt(s, i, p)
    requires forall k | 0 <= k < i :: !MatchAt(s, k, p)
    ensures FindFrom(s, p, 0) == Some(i)
  {
  }

  /** The first occurrence of a character, located. */
  lemma FindCharAt(s: string, c: char, from: nat, i: nat)
    requires from <= i < |s| && s[i] == c
    requires forall k | from <= k < i :: s[k] != c
    ensures FindChar(s, c, from) == Some(i)
  {
  }

  /** The characters of an entry, by position. */
  lemma EntryLayout(key: string, after: string, e: string)
    requires e == Entry(key, after)
    ensures |e| == |key| + 3 + |after| && e[..|key| + 2] == Quoted(key)
    ensures e[|key| + 2] == ':' && e[|key| + 3..] == after
  {
    assert e[..|key| + 2] == Quoted(key);
  }

  /** An entry for `key` with value text `after` stands at position p and
      runs to the end of the text. */
  predicate EntryAtPos(json: string, p: nat, key: string, after: string) {
    p + |key| + 3 + |after| == |json| && json[p..p + |key| + 2] == Quoted(key)
    && json[p + |key| + 2] == ':' && json[p + |key| + 3..] == after
  }

  /** The characters of a text followed by an entry, by position. */
  lemma EntryAt(open: string, key: string, after: string, json: string)
    requires json == open + Entry(key, after)
    ensures json[..|open|] == open && EntryAtPos(json, |open|, key, after)
  {
    var e := Entry(key, after);
    EntryLayout(key, after, e);
    assert json[|open|..|open| + |key| + 2] == e[..|key| + 2];
    assert json[|open| + |key| + 2] == e[|key| + 2];
    assert json[|open| + |key| + 3..] == e[|key| + 3..];
  }

  /** The characters of a quoted text, by position. */
  lemma QuotedChar(key: string, j: nat)
    requires j < |key| + 2
    ensures Quoted(key)[j] == if j == 0 || j == |key| + 1 then '"' else key[j - 1]
  {
  }

  /** A quoted key at position p with no '"' before it is the first match. */
  lemma KeyAt(json: string, p: nat, key: string, after: string)
    requires EntryAtPos(json, p, key, after) && '"' !in json[..p]
    ensures FindFrom(json, Quoted(key), 0) == Some(p)
  {
    QuotedChar(key, 0);
    forall k | 0 <= k < p ensures !MatchAt(json, k, Quoted(key)) {
      assert json[k] == json[..p][k];
      if k + |key| + 2 <= |json| {
        assert json[k..k + |key| + 2][0] == json[k];
      }
    }
    FindFromAt(json, Quoted(key), p);
  }

  /** The ':' after a key without ':' is the first from the key on. */
  lemma ColonAt(json: string, p: nat, key: string, after: string)
    requires EntryAtPos(json, p, key, after) && ':' !in key
    ensures FindChar(json, ':', p) == Some(p + |key| + 2)
  {
    forall k | p <= k < p + |key| + 2 ensures json[k] != ':' {
      assert json[k] == Quoted(key)[k - p];
      QuotedChar(key, k - p);
    }
    FindCharAt(json, ':', p, p + |key| + 2);
  }

  /** A key preceded by text without '"' is found where it stands, and its
      value starts after the ':' that follows it and any spaces and tabs. */
  lemma ValueStartAfterKey(open: string, key: string, after: string, json: string, colon: nat)
    requires '"' !in open && ':' !in key
    requires json == open + Entry(key, after) && colon == |open| + |key| + 2
    ensures colon < |json| && json[colon + 1..] == after
    ensures ValueStart(json, key) == Some(SkipBlanks(json, colon + 1))
  {
    EntryAt(open, key, after, json);
    KeyAt(json, |open|, key, after);
    ColonAt(json, |open|, key, after);
    ValueStartFound(json, key, |open|, colon);
  }

  /** The value's start once the key and the ':' after it are located. */
  lemma ValueStartFound(json: string, key: string, keyPos: nat, colon: nat)
    requires FindFrom(json, Quoted(key), 0) == Some(keyPos)
    requires FindChar(json, ':', keyPos) == Some(colon)
    ensures ValueStart(json, key) == Some(SkipBlanks(json, colon + 1))
  {
  }

  /** A key whose value is a raw string reads back as that raw text: the
      escapes are not decoded. */
  lemma ExtractStringOfEntry(open: string, key: string, v: string, rest: string)
    requires '"' !in open && ':' !in key && RawString(v)
    ensures ExtractString(open + Entry(key, Quoted(v) + rest), key) == Some(v)
  {
    var after := Quoted(v) + rest;
    var json := open + Entry(key, after);
    var colon := |open| + |key| + 2;
    ValueStartAfterKey(open, key, after, json, colon);
    ExtractAfterColon(json, key, colon, v, rest);
  }

  /** A value that follows the colon as a quoted raw string reads as that
      raw string. */
  lemma ExtractAfterColon(json: string, key: string, colon: nat, v: string, rest: string)
    requires colon < |json| && ValueStart(json, key) == Some(SkipBlanks(json, colon + 1))
    requires json[colon + 1..] == Quoted(v) + rest && RawString(v)
    ensures ExtractString(json, key) == Some(v)
  {
    ExtractQuoted(json, key, colon + 1, v, rest);
  }

  /** A value that is a quoted raw string reads as that raw string. */
  lemma ExtractQuoted(json: string, key: string, p: nat, v: string, rest: string)
    requires p <= |json| && ValueStart(json, key) == Some(SkipBlanks(json, p))
    requires json[p..] == Quoted(v) + rest && RawString(v)
    ensures ExtractString(json, key) == Some(v)
  {
    ScanAfterQuote(json, p, v, rest);
    var e := ScanString(json, p + 1);
    var w := json[p + 1..e];
    assert w == v;
    StringValueAt(json, key, p);
  }

  /** A value starting with '"' reads as the text up to the scan's end. */
  lemma StringValueAt(json: string, key: string, p: nat)
    requires ValueStart(json, key) == Some(p) && p < |json| && json[p] == '"'
    ensures ExtractString(json, key) == Some(json[p + 1..ScanString(json, p + 1)])
  {
  }

  /** Where the text continues with a quoted raw string, the value starts at
      its quote and the scan ends at the closing one. */
  lemma ScanAfterQuote(s: string, p: nat, v: string, rest: string)
    requires p <= |s| && s[p..] == Quoted(v) + rest && RawString(v)
    ensures p < |s| && s[p] == '"' && SkipBlanks(s, p) == p
    ensures ScanString(s, p + 1) == p + 1 + |v| && s[p + 1..p + 1 + |v|] == v
  {
    QuotedLayout(v, rest, Quoted(v) + rest);
    assert s[p] == s[p..][0];
    SliceOfSuffix(s, p, 1, 1 + |v|);
    assert s[p + 1 + |v|] == s[p..][1 + |v|];
    ScanRawString(s, p + 1, v);
    assert s[p + 1..p + 1 + |v|] == v;
    assert s[p] == '"';
    NoBlankAt(s, p);
  }

  /** Skipping blanks at a character that is none stays put. */
  lemma NoBlankAt(s: string, i: nat)
    requires i < |s| && s[i] != ' ' && s[i] != '\t'
    ensures SkipBlanks(s, i) == i
  {
  }

  /** The characters of a quoted text followed by more text. */
  lemma QuotedLayout(v: string, rest: string, t: string)
    requires t == Quoted(v) + rest
    ensures |t| == |v| + 2 + |rest| && t[0] == '"' && t[1..1 + |v|] == v && t[1 + |v|] == '"'
  {
    assert t[1..1 + |v|] == Quoted(v)[1..1 + |v|];
  }

  /** A slice of a suffix is a slice of the whole. */
  lemma SliceOfSuffix(s: string, i: nat, a: nat, b: nat)
    requires i <= |s| && a <= b <= |s| - i
    ensures s[i..][a..b] == s[i + a..i + b]
  {
  }

  /** A key whose value is a written integer reads back as that integer. */
  lemma ExtractIntOfEntry(open: string, key: string, n: int, rest: string)
    requires '"' !in open && ':' !in key && EndsNumber(rest)
    ensures ExtractInt(open + Entry(key, IntToString(n) + rest), key) == n
  {
    var after := IntToString(n) + rest;
    var json := open + Entry(key, after);
    ValueStartAfterKey(open, key, after, json, |open| + |key| + 2);
    var start := |open| + |key| + 3;
    assert json[start] == IntToString(n)[0];
    NoBlankAt(json, start);
    AtoiOfNumeral(n, rest);
  }

  /** Without the key, or without a ':' after it, every extractor reports
      nothing: NULL for strings, 0 for numbers. */
  lemma MissingKeyReadsNothing(json: string, key: string)
    requires FindFrom(json, Quoted(key), 0).None?
             || FindChar(json, ':', FindFrom(json, Quoted(key), 0).value).None?
    ensures ExtractString(json, key).None?
    ensures ExtractInt(json, key) == 0 && ExtractFloat(json, key) == 0.0
  {
  }

  /** A value that does not start with '"' is no string, even when it is
      a number. */
  lemma UnquotedValueIsNoString(open: string, key: string, n: int, rest: string)
    requires '"' !in open && ':' !in key
    ensures ExtractString(open + Entry(key, IntToString(n) + rest), key).None?
  {
    var after := IntToString(n) + rest;
    var json := open + Entry(key, after);
    ValueStartAfterKey(open, key, after, json, |open| + |key| + 2);
    var start := |open| + |key| + 3;
    assert json[start] == IntToString(n)[0];
    assert IntToString(n)[0] == '-' || '0' <= IntToString(n)[0] <= '9';
    NoBlankAt(json, start);
  }

  // ------------------------------------------------------------ arrays

  /** The element count of `json_extract_array_size`, scanning the text
      after the '[': every '{' met while the bracket depth is 1 counts, and
      the scan ends at the ']' that closes the array or at the end. */
  function CountObjects(s: string, depth: nat): (n: nat)
    requires depth >= 1
    ensures n <= |s|
  {
    if |s| == 0 then 0
    else if s[0] == '[' then CountObjects(s[1..], depth + 1)
    else if s[0] == ']' then (if depth == 1 then 0 else CountObjects(s[1..], depth - 1))
    else if s[0] == '{' && depth == 1 then 1 + CountObjects(s[1..], depth)
    else CountObjects(s[1..], depth)
  }

  /** `json_extract_array_size`: 0 without the key or without a '[' after it. */
  function ArraySize(json: string, key: string): (n: nat)
    ensures n <= |json|
  {
    match FindFrom(json, Quoted(key), 0)
    case None => 0
    case Some(k) =>
      match FindChar(json, '[', k)
      case None => 0
      case Some(b) => CountObjects(json[b + 1..], 1)
  }

  /** How often c occurs in s. */
  function Occurrences(s: string, c: char): (n: nat)
    ensures n <= |s|
  {
    if |s| == 0 then 0 else (if s[0] == c then 1 else 0) + Occurrences(s[1..], c)
  }

  /** Text without brackets adds its '{' count at depth 1. */
  lemma {:induction false} CountAcrossFlatText(a: string, t: string)
    requires '[' !in a && ']' !in a
    ensures CountObjects(a + t, 1) == Occurrences(a, '{') + CountObjects(t, 1)
    decreases |a|
  {
    if |a| == 0 {
      assert a + t == t;
    } else {
      assert (a + t)[1..] == a[1..] + t;
      CountAcrossFlatText(a[1..], t);
    }
  }

  /** An empty object closing its element: one more count. */
  lemma ClosedPairCount()
    ensures CountObjects("{}}]", 1) == 1
  {
    var t := "{}}]";
    assert t[1..] == "}}]" && t[1..][1..] == "}]" && t[1..][1..][1..] == "]";
  }

  /** Braces nested inside an element count as elements too: one element
      holding an empty object is counted twice. */
  lemma NestedObjectsCount()
    ensures ArraySize("\"p\":[{\"a\":{}}]", "p") == 2
  {
    var json := "\"p\":[{\"a\":{}}]";
    assert json[0..3] == Quoted("p");
    FindFromAt(json, Quoted("p"), 0);
    FindCharAt(json, '[', 0, 4);
    assert json[5..] == "{\"a\":" + "{}}]";
    CountAcrossFlatText("{\"a\":", "{}}]");
    assert Occurrences("{\"a\":", '{') == 1;
    ClosedPairCount();
  }


  // ------------------------------------------------------------ objects

  /** An object with the given body. */
  function Braced(b: string): string {
    "{" + b + "}"
  }

  /** The element list `{b0},{b1},...` of an array of flat objects,
      followed by the text `rest`. */
  function FlatText(bodies: seq<string>, rest: string): string
    decreases |bodies|
  {
    if |bodies| == 0 then rest
    else Braced(bodies[0]) + (if |bodies| == 1 then rest else [','] + FlatText(bodies[1..], rest))
  }

  /** What follows the first object of a flat list. */
  function FlatAfter(bodies: seq<string>, rest: string): (t: string)
    requires |bodies| > 0
    ensures FlatText(bodies, rest) == Braced(bodies[0]) + t
  {
    if |bodies| == 1 then rest else [','] + FlatText(bodies[1..], rest)
  }

  /** Bodies of flat objects: no braces or brackets inside. */
  predicate FlatBodies(bodies: seq<string>) {
    forall i | 0 <= i < |bodies| :: '{' !in bodies[i] && '}' !in bodies[i] && '[' !in bodies[i] && ']' !in bodies[i]
  }

  /** An array of flat objects counts one element per object. */
  lemma {:induction false} CountFlatList(bodies: seq<string>, rest: string)
    requires FlatBodies(bodies)
    ensures CountObjects(FlatText(bodies, "]" + rest), 1) == |bodies|
    decreases |bodies|
  {
    if |bodies| > 0 {
      var b := bodies[0];
      var head := Braced(b);
      assert '[' !in head && ']' !in head by {
        assert forall k | 0 <= k < |head| :: head[k] == '{' || head[k] == '}' || head[k] in b;
      }
      var tail := FlatAfter(bodies, "]" + rest);
      CountAcrossFlatText(head, tail);
      OccurrencesOfHead(b);
      if |bodies| > 1 {
        FlatBodiesTail(bodies);
        CountFlatList(bodies[1..], rest);
        assert tail[1..] == FlatText(bodies[1..], "]" + rest);
      }
    }
  }

  /** A flat object holds exactly one '{'. */
  lemma OccurrencesOfHead(b: string)
    requires '{' !in b
    ensures Occurrences(Braced(b), '{') == 1
  {
    NoOccurrence(b, '{');
    var head := Braced(b);
    assert head[1..] == b + "}";
    OccurrencesConcat(b, "}", '{');
  }

  lemma {:induction false} NoOccurrence(s: string, c: char)
    requires c !in s
    ensures Occurrences(s, c) == 0
    decreases |s|
  {
    if |s| > 0 {
      NoOccurrence(s[1..], c);
    }
  }

  lemma {:induction false} OccurrencesConcat(a: string, b: string, c: char)
    ensures Occurrences(a + b, c) == Occurrences(a, c) + Occurrences(b, c)
    decreases |a|
  {
    if |a| == 0 {
      assert a + b == b;
    } else {
      assert (a + b)[1..] == a[1..] + b;
      OccurrencesConcat(a[1..], b, c);
    }
  }

  /** The object walk as written in `json_extract_port` and
      `json_extract_sensor`: from just after a '{', with depth 0 and not yet
      "in the object".  A '{' seen outside sets depth 1 and enters; a '}'
      lowers the depth and ends the walk at depth 0 when inside; the walk
      also ends when the depth goes negative or the text ends.  The result is
      the offset where the walk stopped, with the final depth and flag. */
  function WalkAsWritten(t: string, depth: int, inside: bool): (r: (nat, int, bool))
    requires inside ==> depth >= 1
    ensures r.0 <= |t|
    ensures r.1 == 0 && r.2 ==> r.0 < |t| && t[r.0] == '}'
  {
    if |t| == 0 || depth < 0 then (0, depth, inside)
    else if t[0] == '{' && !inside then
      var r := WalkAsWritten(t[1..], 1, true); (r.0 + 1, r.1, r.2)
    else if t[0] == '{' then
      var r := WalkAsWritten(t[1..], depth + 1, inside); (r.0 + 1, r.1, r.2)
    else if t[0] == '}' then
      if depth - 1 == 0 && inside then (0, 0, true)
      else var r := WalkAsWritten(t[1..], depth - 1, inside); (r.0 + 1, r.1, r.2)
    else
      var r := WalkAsWritten(t[1..], depth, inside); (r.0 + 1, r.1, r.2)
  }

  /** The object text the C loop selects for element `index`, as written:
      each round jumps to the next '{' (`strchr`), walks, and extracts only
      in the round `i == index` and only when the walk ended inside at
      depth 0. */
  function NthObjectAsWritten(s: string, index: nat): (r: Option<string>)
    decreases |s|
  {
    if |s| == 0 then None
    else if s[0] != '{' then NthObjectAsWritten(s[1..], index)
    else
      var (e, depth, inside) := WalkAsWritten(s[1..], 0, false);
      if index == 0 then
        (if inside && depth == 0 then Some(s[..e + 2]) else None)
      else NthObjectAsWritten(s[e + 1..], index - 1)
  }

  /** The walk over a flat object body never enters: the closing '}' takes
      the depth to -1 and ends the walk just after it. */
  lemma {:induction false} WalkOverFlatBody(b: string, rest: string)
    requires '{' !in b && '}' !in b
    ensures WalkAsWritten(b + "}" + rest, 0, false) == (|b| + 1, -1, false)
    decreases |b|
  {
    var t := b + "}" + rest;
    if |b| == 0 {
      assert t[0] == '}';
      assert t[1..] == rest;
    } else {
      assert t[1..] == b[1..] + "}" + rest;
      WalkOverFlatBody(b[1..], rest);
    }
  }

  /** The bodies after the first are flat too. */
  lemma FlatBodiesTail(bodies: seq<string>)
    requires FlatBodies(bodies) && |bodies| > 0
    ensures FlatBodies(bodies[1..])
  {
    assert forall i | 0 <= i < |bodies| - 1 :: bodies[1..][i] == bodies[i + 1];
  }

  /** As written, a flat object is walked over and never selected. */
  lemma NthAsWrittenStep(b: string, after: string, index: nat)
    requires '{' !in b && '}' !in b
    ensures NthObjectAsWritten(Braced(b) + after, index)
            == if index == 0 then None else NthObjectAsWritten(after, index - 1)
  {
    var s := Braced(b) + after;
    assert s[1..] == b + "}" + after;
    WalkOverFlatBody(b, after);
    assert s[|b| + 2..] == after;
  }

  /** Both walks skip a character other than '{'. */
  lemma SkipNonBrace(c: char, t: string, index: nat)
    requires c != '{'
    ensures NthObjectAsWritten([c] + t, index) == NthObjectAsWritten(t, index)
    ensures NthObject([c] + t, index) == NthObject(t, index)
  {
    assert ([c] + t)[1..] == t;
  }

  /** As written, the first object of a flat list is walked over. */
  lemma FirstFlatSkipped(bodies: seq<string>, rest: string, index: nat)
    requires |bodies| > 0 && '{' !in bodies[0] && '}' !in bodies[0]
    ensures NthObjectAsWritten(FlatText(bodies, rest), index)
            == if index == 0 then None else NthObjectAsWritten(FlatAfter(bodies, rest), index - 1)
  {
    NthAsWrittenStep(bodies[0], FlatAfter(bodies, rest), index);
  }

  /** As written, nothing is selected from a flat list when nothing is
      selected from its tail, one index lower. */
  lemma FlatStepNone(bodies: seq<string>, rest: string, index: nat)
    requires |bodies| > 1 && index > 0 && '{' !in bodies[0] && '}' !in bodies[0]
    requires NthObjectAsWritten(FlatText(bodies[1..], rest), index - 1).None?
    ensures NthObjectAsWritten(FlatText(bodies, rest), index).None?
  {
    FirstFlatSkipped(bodies, rest, index);
    SkipComma(bodies, rest, index - 1);
  }

  /** Both walks skip the comma after the first object of a list. */
  lemma SkipComma(bodies: seq<string>, rest: string, index: nat)
    requires |bodies| > 1
    ensures NthObjectAsWritten(FlatAfter(bodies, rest), index) == NthObjectAsWritten(FlatText(bodies[1..], rest), index)
    ensures NthObject(FlatAfter(bodies, rest), index) == NthObject(FlatText(bodies[1..], rest), index)
  {
    SkipNonBrace(',', FlatText(bodies[1..], rest), index);
  }

  /** As written, no element of an array of flat objects is ever selected,
      whatever follows the array, as long as no further '{' does. */
  lemma {:induction false} FlatObjectsNeverSelected(bodies: seq<string>, rest: string, index: nat)
    requires FlatBodies(bodies) && '{' !in rest
    ensures NthObjectAsWritten(FlatText(bodies, rest), index).None?
    decreases |bodies|
  {
    if |bodies| == 0 {
      NoBraceNoObject(rest, index);
    } else {
      assert '{' !in bodies[0] && '}' !in bodies[0];
      if index == 0 || |bodies| == 1 {
        FirstFlatSkipped(bodies, rest, index);
        if index > 0 {
          NoBraceNoObject(rest, index - 1);
        }
      } else {
        FlatBodiesTail(bodies);
        FlatObjectsNeverSelected(bodies[1..], rest, index - 1);
        FlatStepNone(bodies, rest, index);
      }
    }
  }

  /** Text without '{' holds no object. */
  lemma {:induction false} NoBraceNoObject(s: string, index: nat)
    requires '{' !in s
    ensures NthObjectAsWritten(s, index).None? && NthObject(s, index).None?
    decreases |s|
  {
    if |s| > 0 {
      NoBraceNoObject(s[1..], index);
    }
  }

  /** The walk as evidently intended: from just after a '{' at depth 1, to
      the offset of the '}' that closes it; None when the text ends first. */
  function CloseOf(t: string, depth: nat): (r: Option<nat>)
    requires depth >= 1
    ensures r.Some? ==> r.value < |t| && t[r.value] == '}'
  {
    if |t| == 0 then None
    else if t[0] == '{' then
      match CloseOf(t[1..], depth + 1)
      case None => None
      case Some(e) => Some(e + 1)
    else if t[0] == '}' then
      if depth == 1 then Some(0)
      else match CloseOf(t[1..], depth - 1)
           case None => None
           case Some(e) => Some(e + 1)
    else
      match CloseOf(t[1..], depth)
      case None => None
      case Some(e) => Some(e + 1)
  }

  /** Element `index` of the object walk, with each object closed by its
      matching brace. */
  function NthObject(s: string, index: nat): (r: Option<string>)
    ensures r.Some? ==> |r.value| >= 2 && r.value[0] == '{' && r.value[|r.value| - 1] == '}'
    decreases |s|
  {
    if |s| == 0 then None
    else if s[0] != '{' then NthObject(s[1..], index)
    else
      match CloseOf(s[1..], 1)
      case None => None
      case Some(e) =>
        if index == 0 then Some(s[..e + 2]) else NthObject(s[e + 1..], index - 1)
  }

  /** A flat body closes at its own '}'. */
  lemma {:induction false} CloseOfFlatBody(b: string, rest: string)
    requires '{' !in b && '}' !in b
    ensures CloseOf(b + "}" + rest, 1) == Some(|b|)
    decreases |b|
  {
    var t := b + "}" + rest;
    if |b| > 0 {
      assert t[1..] == b[1..] + "}" + rest;
      CloseOfFlatBody(b[1..], rest);
    }
  }

  /** Corrected, a flat object is selected in its own round. */
  lemma NthStep(b: string, after: string, index: nat)
    requires '{' !in b && '}' !in b
    ensures NthObject(Braced(b) + after, index)
            == if index == 0 then Some(Braced(b)) else NthObject(after, index - 1)
  {
    var s := Braced(b) + after;
    assert s[1..] == b + "}" + after;
    CloseOfFlatBody(b, after);
    assert s[..|b| + 2] == Braced(b);
    if index > 0 {
      assert s[|b| + 1..] == "}" + after;
      SkipNonBrace('}', after, index - 1);
    }
  }

  /** Corrected, element k of an array of flat objects is the k-th object. */
  lemma {:induction false} FlatObjectsSelected(bodies: seq<string>, rest: string, index: nat)
    requires FlatBodies(bodies) && index < |bodies|
    ensures NthObject(FlatText(bodies, rest), index) == Some(Braced(bodies[index]))
    decreases |bodies|
  {
    var after := FlatAfter(bodies, rest);
    NthStep(bodies[0], after, index);
    if index > 0 {
      var tail := FlatText(bodies[1..], rest);
      assert after == [','] + tail;
      SkipNonBrace(',', tail, index - 1);
      FlatBodiesTail(bodies);
      FlatObjectsSelected(bodies[1..], rest, index - 1);
      var b := bodies[index];
      assert bodies[1..][index - 1] == b;
      assert NthObject(FlatText(bodies, rest), index) == NthObject(after, index - 1);
      assert NthObject(after, index - 1) == NthObject(tail, index - 1);
      assert NthObject(tail, index - 1) == Some(Braced(b));
    }
  }

  // ------------------------------------------------------------ ports and sensors

  datatype Port = Port(name: string, device: string, baudrate: int, dataBits: int, stopBits: int,
                       parity: char, timeout: real)

  datatype Sensor = Sensor(name: string, portName: string, slaveId: nat, tempRegister: nat,
                           humiRegister: nat, tempScale: real, humiScale: real)

  /** A slot of the zeroed `AppConfig` of `config_create`. */
  const ZERO_PORT: Port := Port("", "", 0, 0, 0, '\0', 0.0)
  const ZERO_SENSOR: Sensor := Sensor("", "", 0, 0, 0, 0.0, 0.0)

  /** The port fields read from one object: name and device only when
      present (truncated to their buffers), the three integers always, the
      first character of the parity ('N' without one, NUL for ""), and the
      timeout, non-positive values becoming 1.0. */
  function PortFromObject(obj: string, p: Port): (q: Port)
    ensures q.timeout > 0.0
    ensures ExtractString(obj, "parity").None? ==> q.parity == 'N'
    ensures ExtractString(obj, "name").None? ==> q.name == p.name
    ensures ExtractString(obj, "port").None? ==> q.device == p.device
    ensures |q.name| < NAME_SIZE || q.name == p.name
  {
    var name := match ExtractString(obj, "name") case None => p.name case Some(n) => Truncate(n, NAME_SIZE);
    var device := match ExtractString(obj, "port") case None => p.device case Some(d) => Truncate(d, NAME_SIZE);
    var parity := match ExtractString(obj, "parity") case None => 'N' case Some(s) => if |s| > 0 then s[0] else '\0';
    var timeout := ExtractFloat(obj, "timeout");
    Port(name, device, ExtractInt(obj, "baudrate"), ExtractInt(obj, "data_bits"), ExtractInt(obj, "stop_bits"),
         parity, if timeout <= 0.0 then 1.0 else timeout)
  }

  /** The sensor fields read from one object; the integers are cut to
      `uint8_t` and `uint16_t` as C converts to unsigned types. */
  function SensorFromObject(obj: string, s: Sensor): (q: Sensor)
    ensures q.slaveId < 256 && q.tempRegister < 65536 && q.humiRegister < 65536
    ensures ExtractString(obj, "name").None? ==> q.name == s.name
    ensures ExtractString(obj, "port").None? ==> q.portName == s.portName
  {
    var name := match ExtractString(obj, "name") case None => s.name case Some(n) => Truncate(n, NAME_SIZE);
    var portName := match ExtractString(obj, "port") case None => s.portName case Some(d) => Truncate(d, NAME_SIZE);
    Sensor(name, portName, ExtractInt(obj, "slave_id") % 256, ExtractInt(obj, "temp_reg") % 65536,
           ExtractInt(obj, "humi_reg") % 65536, ExtractFloat(obj, "temp_scale"), ExtractFloat(obj, "humi_scale"))
  }

  /** `json_extract_port` as written: the slot is left as it was unless the
      walk as written selects the element. */
  function ExtractPortAsWritten(arrayText: string, index: nat, p: Port): (q: Port)
    ensures '{' !in arrayText ==> q == p
    ensures q == p || q.timeout > 0.0
    ensures |q.name| < NAME_SIZE || q.name == p.name
  {
    var found := NthObjectAsWritten(arrayText, index);
    assert '{' !in arrayText ==> found.None? by {
      if '{' !in arrayText {
        NoBraceNoObject(arrayText, index);
      }
    }
    match found
    case None => p
    case Some(obj) => PortFromObject(obj, p)
  }

  /** `json_extract_port` with the object walk corrected. */
  function ExtractPort(arrayText: string, index: nat, p: Port): (q: Port)
    ensures '{' !in arrayText ==> q == p
    ensures q == p || q.timeout > 0.0
    ensures |q.name| < NAME_SIZE || q.name == p.name
  {
    var found := NthObject(arrayText, index);
    assert '{' !in arrayText ==> found.None? by {
      if '{' !in arrayText {
        NoBraceNoObject(arrayText, index);
      }
    }
    match found
    case None => p
    case Some(obj) => PortFromObject(obj, p)
  }

  /** `json_extract_sensor` as written: the same walk as the ports'. */
  function ExtractSensorAsWritten(arrayText: string, index: nat, s: Sensor): (q: Sensor)
    ensures '{' !in arrayText ==> q == s
    ensures q == s || (q.slaveId < 256 && q.tempRegister < 65536 && q.humiRegister < 65536)
  {
    var found := NthObjectAsWritten(arrayText, index);
    assert '{' !in arrayText ==> found.None? by {
      if '{' !in arrayText {
        NoBraceNoObject(arrayText, index);
      }
    }
    match found
    case None => s
    case Some(obj) => SensorFromObject(obj, s)
  }

  /** `json_extract_sensor` with the object walk corrected. */
  function ExtractSensor(arrayText: string, index: nat, s: Sensor): (q: Sensor)
    ensures '{' !in arrayText ==> q == s
    ensures q == s || (q.slaveId < 256 && q.tempRegister < 65536 && q.humiRegister < 65536)
  {
    var found := NthObject(arrayText, index);
    assert '{' !in arrayText ==> found.None? by {
      if '{' !in arrayText {
        NoBraceNoObject(arrayText, index);
      }
    }
    match found
    case None => s
    case Some(obj) => SensorFromObject(obj, s)
  }

  /** As written, a port array of flat objects leaves every slot zeroed. */
  lemma FlatPortsStayZeroAsWritten(bodies: seq<string>, rest: string, index: nat)
    requires FlatBodies(bodies) && '{' !in rest
    ensures ExtractPortAsWritten("[" + FlatText(bodies, rest), index, ZERO_PORT) == ZERO_PORT
  {
    FlatObjectsNeverSelected(bodies, rest, index);
    assert ("[" + FlatText(bodies, rest))[1..] == FlatText(bodies, rest);
  }

  /** As written, a sensor array of flat objects leaves every slot zeroed. */
  lemma FlatSensorsStayZeroAsWritten(bodies: seq<string>, rest: string, index: nat)
    requires FlatBodies(bodies) && '{' !in rest
    ensures ExtractSensorAsWritten("[" + FlatText(bodies, rest), index, ZERO_SENSOR) == ZERO_SENSOR
  {
    FlatObjectsNeverSelected(bodies, rest, index);
    assert ("[" + FlatText(bodies, rest))[1..] == FlatText(bodies, rest);
  }

  /** Corrected, slot k of a port array of flat objects is read from the
      k-th object. */
  lemma FlatPortsRead(bodies: seq<string>, rest: string, index: nat)
    requires FlatBodies(bodies) && index < |bodies|
    ensures ExtractPort("[" + FlatText(bodies, rest), index, ZERO_PORT)
            == PortFromObject(Braced(bodies[index]), ZERO_PORT)
  {
    FlatObjectsSelected(bodies, rest, index);
    assert ("[" + FlatText(bodies, rest))[1..] == FlatText(bodies, rest);
  }

  /** Text without backslashes, quotes, braces or brackets. */
  predicate Plain(v: string) {
    forall i | 0 <= i < |v| :: v[i] != '\\' && v[i] != '"' && v[i] != '{' && v[i] != '}' && v[i] != '[' && v[i] != ']'
  }

  /** A one-entry object body of plain texts is flat. */
  lemma PlainEntryFlat(key: string, v: string)
    requires Plain(key) && Plain(v)
    ensures FlatBodies([Entry(key, Quoted(v))])
  {
    var body := Entry(key, Quoted(v));
    assert body == ['"'] + key + ['"', ':', '"'] + v + ['"'];
    forall i | 0 <= i < |body|
      ensures body[i] != '{' && body[i] != '}' && body[i] != '[' && body[i] != ']'
    {
      if 1 <= i < 1 + |key| {
        assert body[i] == key[i - 1];
      } else if 4 + |key| <= i < 4 + |key| + |v| {
        assert body[i] == v[i - 4 - |key|];
      }
    }
  }

  /** The port name is the "name" string, cut to its buffer. */
  lemma PortNameRead(obj: string, p: Port, n: string)
    requires ExtractString(obj, "name") == Some(n)
    ensures PortFromObject(obj, p).name == Truncate(n, NAME_SIZE)
  {
  }

  /** A port object holding only a plain name is read as that name. */
  lemma PortOfNameObject(v: string, p: Port)
    requires Plain(v)
    ensures PortFromObject(Braced(Entry("name", Quoted(v))), p).name == Truncate(v, NAME_SIZE)
  {
    PlainIsRaw(v);
    ExtractStringOfObject("name", v);
    PortNameRead(Braced(Entry("name", Quoted(v))), p, v);
  }

  /** The smallest example: the array `[{"name":"..."}]` of one port
      object with a plain name.  As written the name is never read;
      corrected it is, cut to its buffer. */
  lemma OnePortExample(v: string)
    requires Plain(v)
    ensures var json := "[" + FlatText([Entry("name", Quoted(v))], "]");
            ExtractPortAsWritten(json, 0, ZERO_PORT).name == ""
            && ExtractPort(json, 0, ZERO_PORT).name == Truncate(v, NAME_SIZE)
  {
    var body := Entry("name", Quoted(v));
    PlainEntryFlat("name", v);
    FlatPortsStayZeroAsWritten([body], "]", 0);
    FlatPortsRead([body], "]", 0);
    PortOfNameObject(v, ZERO_PORT);
  }

  /** An object of one string entry reads back that string. */
  lemma ExtractStringOfObject(key: string, v: string)
    requires ':' !in key && RawString(v)
    ensures ExtractString(Braced(Entry(key, Quoted(v))), key) == Some(v)
  {
    assert Braced(Entry(key, Quoted(v))) == "{" + Entry(key, Quoted(v) + "}");
    ExtractStringOfEntry("{", key, v, "}");
  }

  // ------------------------------------------------------------ config_load

  datatype Config = Config(
    ports: seq<Port>,
    sensors: seq<Sensor>,
    readInterval: int,
    storage: StorageKind,
    sqlitePath: string,
    influxUrl: string,
    influxToken: string,
    influxOrg: string,
    influxBucket: string,
    csvPath: string,
    enableCache: bool,
    cacheDbPath: string,
    flushInterval: int,
    batchSize: int,
    loaded: bool)

  /** `config_create`: everything zero. */
  const EMPTY_CONFIG: Config := Config([], [], 0, SQLite, "", "", "", "", "", "", false, "", 0, 0, false)

  /** The port configured when the file names none; the device path is
      "COM3" on Windows and "/dev/ttyUSB0" elsewhere. */
  function DefaultPort(windows: bool): (p: Port)
    ensures p.baudrate == 9600 && p.dataBits == 8 && p.stopBits == 1 && p.parity == 'N' && p.timeout == 1.0
  {
    Port("默认串口", if windows then "COM3" else "/dev/ttyUSB0", 9600, 8, 1, 'N', 1.0)
  }

  /** A buffer written only when the key is present. */
  function Copied(current: string, given: Option<string>, size: nat): string
    requires size > 0
  {
    match given
    case None => current
    case Some(s) => Truncate(s, size)
  }

  /** A configured number, non-positive values replaced by a default. */
  function Positive(v: int, default: int): (r: int)
    requires default > 0
    ensures r > 0
    ensures v > 0 ==> r == v
    ensures v <= 0 ==> r == default
  {
    if v <= 0 then default else v
  }

  /** Which object walk the array readers use: the one config.c has, or
      the corrected one that selects the n-th top-level object. */
  datatype Walk = AsWritten | Corrected

  /** Slot `index` of a port array, read with the given walk. */
  function PortAt(walk: Walk, arrayText: string, index: nat): Port {
    if walk == AsWritten then ExtractPortAsWritten(arrayText, index, ZERO_PORT)
    else ExtractPort(arrayText, index, ZERO_PORT)
  }

  /** Slot `index` of a sensor array, read with the given walk. */
  function SensorAt(walk: Walk, arrayText: string, index: nat): Sensor {
    if walk == AsWritten then ExtractSensorAsWritten(arrayText, index, ZERO_SENSOR)
    else ExtractSensor(arrayText, index, ZERO_SENSOR)
  }

  /** The port list of `config_load`: as many zeroed slots as the array
      counts (at most MAX_PORTS), each filled by `json_extract_port`. */
  function LoadPorts(json: string, windows: bool, walk: Walk): (ps: seq<Port>)
    ensures |ps| <= MAX_PORTS
    ensures FindFrom(json, "\"ports\"", 0).None? ==> ps == [DefaultPort(windows)]
    ensures forall i | 0 <= i < |ps| :: ps[i].timeout > 0.0 || ps[i] == ZERO_PORT
  {
    match FindFrom(json, "\"ports\"", 0)
    case None => [DefaultPort(windows)]
    case Some(k) =>
      match FindChar(json, '[', k)
      case None => []
      case Some(b) =>
        var n := if ArraySize(json, "ports") > MAX_PORTS then MAX_PORTS else ArraySize(json, "ports");
        seq(n, i requires 0 <= i < n => PortAt(walk, json[b..], i))
  }

  /** The sensor list of `config_load`; none without the key. */
  function LoadSensors(json: string, walk: Walk): (ss: seq<Sensor>)
    ensures |ss| <= MAX_SENSORS
    ensures FindFrom(json, "\"sensors\"", 0).None? ==> ss == []
  {
    match FindFrom(json, "\"sensors\"", 0)
    case None => []
    case Some(k) =>
      match FindChar(json, '[', k)
      case None => []
      case Some(b) =>
        var n := if ArraySize(json, "sensors") > MAX_SENSORS then MAX_SENSORS else ArraySize(json, "sensors");
        seq(n, i requires 0 <= i < n => SensorAt(walk, json[b..], i))
  }

  /** The keys `config_load` reads from the JSON text, applied to the
      fresh configuration of `config_create`, with the defaults and clamps.
      `LoadJson(json, windows, AsWritten)` is the function as written. */
  function LoadJson(json: string, windows: bool, walk: Walk): (c: Config)
    ensures c.loaded && c.enableCache
    ensures c.readInterval > 0 && c.flushInterval > 0 && c.batchSize > 0
    ensures |c.ports| <= MAX_PORTS && |c.sensors| <= MAX_SENSORS
    ensures ExtractString(json, "storage_type").None? ==> c.storage == SQLite
    ensures FindFrom(json, "\"ports\"", 0).None? ==> c.ports == [DefaultPort(windows)]
  {
    var storage := match ExtractString(json, "storage_type") case None => SQLite case Some(t) => ParseStorageName(t);
    Config(
      LoadPorts(json, windows, walk),
      LoadSensors(json, walk),
      Positive(ExtractInt(json, "read_interval"), 2),
      storage,
      Copied("", ExtractString(json, "storage_sqlite_path"), PATH_SIZE),
      Copied("", ExtractString(json, "storage_influxdb_url"), PATH_SIZE),
      Copied("", ExtractString(json, "storage_influxdb_token"), PATH_SIZE),
      Copied("", ExtractString(json, "storage_influxdb_org"), PATH_SIZE),
      Copied("", ExtractString(json, "storage_influxdb_bucket"), PATH_SIZE),
      Copied("", ExtractString(json, "storage_csv_path"), PATH_SIZE),
      true,
      Copied("", ExtractString(json, "cache_db_path"), PATH_SIZE),
      Positive(ExtractInt(json, "cache_flush_interval"), 10),
      Positive(ExtractInt(json, "cache_batch_size"), 100),
      true)
  }

  /** `config_load`: None when the file cannot be read; otherwise the keys
      read from the C string of its content. */
  function ConfigLoad(file: Option<string>, windows: bool, walk: Walk): (r: Option<Config>)
    ensures file.None? <==> r.None?
    ensures r.Some? ==> r.value == LoadJson(CString(file.value), windows, walk)
  {
    match file
    case None => None
    case Some(content) => Some(LoadJson(CString(content), windows, walk))
  }

  /** The text `{"ports":[{b0},{b1},...]}` of a port array of flat objects. */
  function FlatPortsFile(bodies: seq<string>): string {
    "{\"ports\":[" + FlatText(bodies, "]}")
  }

  /** A file whose only key is a port array of flat objects: as written,
      `config_load` keeps one zeroed port per element; corrected, port i is
      read from element i. */
  lemma FlatPortArrayLoads(bodies: seq<string>, windows: bool)
    requires FlatBodies(bodies) && |bodies| <= MAX_PORTS
    ensures var written := LoadJson(FlatPortsFile(bodies), windows, AsWritten).ports;
            |written| == |bodies| && forall i | 0 <= i < |written| :: written[i] == ZERO_PORT
    ensures var corrected := LoadJson(FlatPortsFile(bodies), windows, Corrected).ports;
            |corrected| == |bodies|
            && forall i | 0 <= i < |corrected| :: corrected[i] == PortFromObject(Braced(bodies[i]), ZERO_PORT)
  {
    var json := FlatPortsFile(bodies);
    FlatPortsFileLayout(bodies);
    forall i | 0 <= i < |bodies|
      ensures PortAt(AsWritten, json[9..], i) == ZERO_PORT
      ensures PortAt(Corrected, json[9..], i) == PortFromObject(Braced(bodies[i]), ZERO_PORT)
    {
      FlatPortsStayZeroAsWritten(bodies, "]}", i);
      FlatPortsRead(bodies, "]}", i);
    }
  }

  /** Where `config_load` finds the key and the array in such a file, and
      how many elements it counts. */
  lemma FlatPortsFileLayout(bodies: seq<string>)
    requires FlatBodies(bodies)
    ensures var json := FlatPortsFile(bodies);
            FindFrom(json, "\"ports\"", 0) == Some(1) && FindChar(json, '[', 1) == Some(9)
            && json[9..] == "[" + FlatText(bodies, "]}") && ArraySize(json, "ports") == |bodies|
  {
    var t := FlatText(bodies, "]}");
    PortsKeyLayout(t);
    assert "]}" == "]" + "}";
    CountFlatList(bodies, "}");
  }

  /** The key and the '[' of a text `{"ports":[` followed by anything. */
  lemma PortsKeyLayout(t: string)
    ensures var json := "{\"ports\":[" + t;
            FindFrom(json, "\"ports\"", 0) == Some(1) && FindChar(json, '[', 1) == Some(9)
            && json[9..] == "[" + t && ArraySize(json, "ports") == CountObjects(t, 1)
  {
    var json := "{\"ports\":[" + t;
    assert json[1..8] == "\"ports\"" by {
      assert forall k | 1 <= k < 8 :: json[k] == "{\"ports\":["[k];
    }
    assert json[0] == '{';
    FindFromAt(json, "\"ports\"", 1);
    assert Quoted("ports") == "\"ports\"";
    assert forall k | 1 <= k < 9 :: json[k] != '[';
    FindCharAt(json, '[', 1, 9);
    assert json[9..] == "[" + t;
    assert json[10..] == t;
  }

  /** A text read at the first NUL: what follows a NUL is never seen. */
  lemma TextAfterNulIgnored(a: string, b: string, windows: bool, walk: Walk)
    requires '\0' !in a
    ensures ConfigLoad(Some(a + "\0" + b), windows, walk) == ConfigLoad(Some(a), windows, walk)
  {
    assert a + "\0" + b == a + ("\0" + b);
    CStringPrefix(a, "\0" + b);
    CStringPrefix(a, "");
    assert a + "" == a;
  }

  lemma {:induction false} CStringPrefix(a: string, b: string)
    requires '\0' !in a && (|b| == 0 || b[0] == '\0')
    ensures CString(a + b) == a
    decreases |a|
  {
    if |a| > 0 {
      assert (a + b)[1..] == a[1..] + b;
      CStringPrefix(a[1..], b);
    } else {
      assert a + b == b;
    }
  }

  /** A read interval given as a positive number is kept; zero, a negative
      number or a missing key gives 2. */
  lemma ReadIntervalDefaults(json: string, windows: bool, walk: Walk)
    requires '\0' !in json
    ensures var c := ConfigLoad(Some(json), windows, walk).value;
            var given := ExtractInt(json, "read_interval");
            c.readInterval == (if given > 0 then given else 2)
  {
    CStringPrefix(json, "");
    assert json + "" == json;
  }

  /** `config_load_default`: one port, three sensors on it at slaves 1 to 3,
      SQLite with the cache on. */
  function ConfigLoadDefault(windows: bool): (c: Config)
    ensures |c.ports| == 1 && |c.sensors| == 3 && c.loaded && c.enableCache
    ensures forall i | 0 <= i < 3 :: c.sensors[i].portName == c.ports[0].name && c.sensors[i].slaveId == i + 1
  {
    var port := DefaultPort(windows);
    Config([port],
           [Sensor("传感器1", port.name, 1, 0, 1, 0.1, 0.1),
            Sensor("传感器2", port.name, 2, 0, 1, 0.1, 0.1),
            Sensor("传感器3", port.name, 3, 0, 1, 0.1, 0.1)],
           2, SQLite, "sensor_data.db", "http://localhost:8086", "my-token", "my-org", "sensor-data",
           "sensor_data.csv", true, "sensor_cache.db", 10, 100, true)
  }

  /** The defaults of `config_load_default` are the values `config_load`
      falls back to: a text with no key in it, such as "{}", loads them. */
  lemma DefaultsAgree(json: string, windows: bool, walk: Walk)
    requires '\0' !in json && '"' !in json
    ensures var c := ConfigLoad(Some(json), windows, walk).value;
            var d := ConfigLoadDefault(windows);
            c.ports == d.ports && c.readInterval == d.readInterval && c.storage == d.storage
            && c.flushInterval == d.flushInterval && c.batchSize == d.batchSize && c.enableCache == d.enableCache
  {
    CStringPrefix(json, "");
    assert json + "" == json;
    UnquotedNotFound(json, "\"ports\"");
    UnquotedNotFound(json, Quoted("read_interval"));
    UnquotedNotFound(json, Quoted("storage_type"));
    UnquotedNotFound(json, Quoted("cache_flush_interval"));
    UnquotedNotFound(json, Quoted("cache_batch_size"));
  }

  /** A quoted pattern is not found in a text without quotes. */
  lemma UnquotedNotFound(s: string, p: string)
    requires '"' !in s && |p| > 0 && p[0] == '"'
    ensures FindFrom(s, p, 0).None?
  {
  }
}

=== FILE: c_numbers.dfy ===
/** The number readers of the C and C++ standard libraries that the
    configuration loaders use: `atoi` and `atof` (no error reporting: text
    without a number reads as zero) and `std::stoi` and `std::stod` (which
    throw on text without a number, and `stoi` also on a value outside `int`).
    All of them skip leading white space, take an optional sign and read the
    longest decimal prefix; trailing text is ignored. */
module CNumbers {
  import opened Wrappers
  import opened Text
  import opened JsNumber

  const INT_MIN: int := -0x8000_0000
  const INT_MAX: int := 0x7FFF_FFFF

  /** `isspace` in the C locale. */
  predicate IsCSpace(c: char) {
    c == ' ' || c == '\t' || c == '\n' || c == '\U{000B}' || c == '\U{000C}' || c == '\r'
  }

  /** The text after its leading white space. */
  function SkipSpace(s: string): (t: string)
    ensures |t| <= |s| && t == s[|s| - |t|..]
    ensures |t| > 0 ==> !IsCSpace(t[0])
    ensures forall k | 0 <= k < |s| - |t| :: IsCSpace(s[k])
  {
    if |s| > 0 && IsCSpace(s[0]) then SkipSpace(s[1..]) else s
  }

  /** The value of the leading decimal digits of a text (0 without any). */
  function WholeValue(u: string): nat {
    RadixValue(u[..DigitRun(u, 10)], 10)
  }

  /** The leading integer of a text, if it has one: white space, sign, then
      at least one decimal digit. */
  function IntegerPrefix(s: string): (r: Option<int>)
    ensures r.Some? ==> (r.value < 0 ==> TakeSign(SkipSpace(s)).0)
  {
    var t := TakeSign(SkipSpace(s));
    var m: int := WholeValue(t.1);
    if DigitRun(t.1, 10) == 0 then None else Some(if t.0 then -m else m)
  }

  /** `atoi`: the leading integer, or 0 when there is none.  A value outside
      `int` is undefined behaviour in C and is not reduced here. */
  function Atoi(s: string): (v: int)
    ensures IntegerPrefix(s).None? ==> v == 0
    ensures IntegerPrefix(s).Some? ==> v == IntegerPrefix(s).value
  {
    match IntegerPrefix(s)
    case None => 0
    case Some(v) => v
  }

  /** `std::stoi`: the leading integer; None where it throws, that is when
      there is no digit (`invalid_argument`) or the value does not fit in
      `int` (`out_of_range`). */
  function Stoi(s: string): (r: Option<int>)
    ensures r.Some? ==> INT_MIN <= r.value <= INT_MAX
    ensures r.Some? <==> IntegerPrefix(s).Some? && INT_MIN <= IntegerPrefix(s).value <= INT_MAX
    ensures r.Some? ==> r.value == IntegerPrefix(s).value
  {
    match IntegerPrefix(s)
    case None => None
    case Some(v) => if INT_MIN <= v <= INT_MAX then Some(v) else None
  }

  /** 10^n. */
  function Pow10(n: nat): (p: nat)
    ensures p >= 1
  {
    if n == 0 then 1 else 10 * Pow10(n - 1)
  }

  /** An optional fraction: '.' and its digits, as the number of digits
      and their value as an integer. */
  function Fraction(rest: string): (r: (nat, nat))
    ensures (|rest| == 0 || rest[0] != '.') ==> r == (0, 0)
  {
    if |rest| > 0 && rest[0] == '.' then
      var f := DigitRun(rest[1..], 10);
      (f, RadixValue(rest[1..1 + f], 10))
    else (0, 0)
  }

  /** The value of f fraction digits whose integer value is `digits`. */
  function FractionValue(f: nat, digits: nat): real {
    digits as real / Pow10(f) as real
  }

  /** The leading decimal number of a text, if it has one: white space,
      sign, integer digits, then optionally '.' and fraction digits, with at
      least one digit in all. */
  function RealPrefix(s: string): (r: Option<real>)
  {
    var t := TakeSign(SkipSpace(s));
    UnsignedReal(t.0, t.1)
  }

  /** The number after the sign: integer digits and an optional fraction. */
  function UnsignedReal(negative: bool, u: string): (r: Option<real>)
  {
    var n := DigitRun(u, 10);
    var fraction := Fraction(u[n..]);
    if n == 0 && fraction.0 == 0 then None
    else
      var magnitude := WholeValue(u) as real + FractionValue(fraction.0, fraction.1);
      Some(if negative then -magnitude else magnitude)
  }

  /** `atof`: the leading decimal number, or 0.0 when there is none. */
  function Atof(s: string): (v: real)
    ensures RealPrefix(s).None? ==> v == 0.0
    ensures RealPrefix(s).Some? ==> v == RealPrefix(s).value
  {
    match RealPrefix(s)
    case None => 0.0
    case Some(v) => v
  }

  /** `std::stod`: the leading decimal number, None where it throws. */
  function Stod(s: string): Option<real> {
    RealPrefix(s)
  }

  /** A predicate for text that does not continue a number. */
  predicate EndsNumber(rest: string) {
    |rest| == 0 || !('0' <= rest[0] <= '9')
  }

  /** The digit run of a decimal numeral followed by a non-digit stops at the
      end of the numeral. */
  lemma {:induction false} DigitRunOfNumeral(d: string, rest: string)
    requires IsDigits(d) && EndsNumber(rest)
    ensures DigitRun(d + rest, 10) == |d|
    ensures (d + rest)[..|d|] == d
    decreases |d|
  {
    if |d| > 0 {
      assert (d + rest)[1..] == d[1..] + rest;
      DigitRunOfNumeral(d[1..], rest);
    } else {
      assert d + rest == rest;
    }
  }

  /** The sign and digits `IntToString` writes, as the readers take them
      apart again. */
  lemma NumeralParts(n: int, rest: string, t: string, digits: string, u: string)
    requires EndsNumber(rest)
    requires t == IntToString(n) + rest && digits == NatToString(Abs(n)) && u == digits + rest
    ensures TakeSign(SkipSpace(t)) == (n < 0, u)
    ensures DigitRun(u, 10) == |digits| && u[..|digits|] == digits && u[|digits|..] == rest
    ensures RadixValue(digits, 10) == Abs(n) && |digits| > 0
  {
    NumeralSign(n, rest, t, digits, u);
    DigitRunOfNumeral(digits, rest);
    assert u[|digits|..] == rest;
    RadixValueDecimal(digits);
    DigitsValueOfNatToString(Abs(n));
  }

  /** The sign `IntToString` writes is the one the readers take off. */
  lemma NumeralSign(n: int, rest: string, t: string, digits: string, u: string)
    requires t == IntToString(n) + rest && digits == NatToString(Abs(n)) && u == digits + rest
    ensures TakeSign(SkipSpace(t)) == (n < 0, u)
  {
    var s := IntToString(n);
    assert s == (if n < 0 then "-" else "") + digits;
    assert !IsCSpace(t[0]);
    assert SkipSpace(t) == t;
    if n < 0 {
      assert t[1..] == u;
    } else {
      assert t == u;
      assert '0' <= digits[0] <= '9';
    }
  }

  /** The leading integer of a written integer followed by a non-digit is
      that integer. */
  lemma IntegerPrefixOfNumeral(n: int, rest: string)
    requires EndsNumber(rest)
    ensures IntegerPrefix(IntToString(n) + rest) == Some(n)
  {
    var digits := NatToString(Abs(n));
    NumeralParts(n, rest, IntToString(n) + rest, digits, digits + rest);
  }

  /** `atoi` reads back every integer it is given in decimal. */
  lemma AtoiOfNumeral(n: int, rest: string)
    requires EndsNumber(rest)
    ensures Atoi(IntToString(n) + rest) == n
  {
    IntegerPrefixOfNumeral(n, rest);
  }

  /** `stoi` reads back exactly the integers that fit in `int`. */
  lemma StoiOfNumeral(n: int, rest: string)
    requires EndsNumber(rest)
    ensures Stoi(IntToString(n) + rest) == (if INT_MIN <= n <= INT_MAX then Some(n) else None)
  {
    IntegerPrefixOfNumeral(n, rest);
  }

  /** `atof` and `stod` read back an integer written in decimal, when no
      '.' or digit follows it. */
  lemma RealPrefixOfNumeral(n: int, rest: string)
    requires EndsNumber(rest) && (|rest| == 0 || rest[0] != '.')
    ensures RealPrefix(IntToString(n) + rest) == Some(n as real)
    ensures Atof(IntToString(n) + rest) == n as real
  {
    var t := IntToString(n) + rest;
    var digits := NatToString(Abs(n));
    var u := digits + rest;
    NumeralSign(n, rest, t, digits, u);
    WholeOfNumeral(n, rest, u);
  }

  /** The digits of n's magnitude, with no fraction after them, read as the
      magnitude, signed as n is. */
  lemma WholeOfNumeral(n: int, rest: string, u: string)
    requires EndsNumber(rest) && (|rest| == 0 || rest[0] != '.')
    requires u == NatToString(Abs(n)) + rest
    ensures UnsignedReal(n < 0, u) == Some(n as real)
  {
    var digits := NatToString(Abs(n));
    DigitRunOfNumeral(digits, rest);
    assert u[|digits|..] == rest;
    RadixValueDecimal(digits);
    DigitsValueOfNatToString(Abs(n));
    assert WholeValue(u) == Abs(n);
    UnsignedWhole(n < 0, u);
  }

  /** The number after the sign, with integer digits and no fraction. */
  lemma UnsignedWhole(negative: bool, u: string)
    requires DigitRun(u, 10) > 0 && Fraction(u[DigitRun(u, 10)..]) == (0, 0)
    ensures UnsignedReal(negative, u)
            == Some(if negative then -(WholeValue(u) as real) else WholeValue(u) as real)
  {
  }

  /** Text whose first non-space character is neither a sign nor a digit
      reads as no integer, so `atoi` gives 0 and `stoi` throws. */
  lemma NoDigitNoInteger(s: string)
    requires var t := SkipSpace(s); |t| == 0 || !('0' <= t[0] <= '9' || t[0] == '-' || t[0] == '+')
    ensures IntegerPrefix(s).None? && Atoi(s) == 0 && Stoi(s).None?
  {
  }
}

=== FILE: c_storage.dfy ===
/** The storage layer of the C port (`data_storage.c`): the factory
    `storage_create`, the SQLite and CSV batch writers, the cached storage
    and `get_default_storage_config`.  Whether a database or file opens, and
    whether a write succeeds, are parameters; the cache table is the shared
    `CacheQueue` model. */
module CStorage {
  import opened Wrappers
  import opened StorageTypes
  import opened CacheQueue

  /** The size of every path buffer of `StorageConfig` and the storage
      implementations. */
  const PATH_SIZE: nat := 256

  /** `CacheConfig`. */
  datatype CacheConfig = CacheConfig(cacheDbPath: string, flushInterval: int, batchSize: int)

  /** `StorageConfig`, with the back end's settings as separate fields. */
  datatype StorageConfig = StorageConfig(kind: StorageKind, sqlitePath: string, influxUrl: string,
                                         influxToken: string, influxOrg: string, influxBucket: string,
                                         csvPath: string, cache: CacheConfig, enableCache: bool)

  /** The settings a cached storage runs with. */
  datatype CacheSettings = CacheSettings(path: string, flushInterval: int, batchSize: int)

  /** A built storage: a back end on its own or behind the cache. */
  datatype Storage =
    | Plain(kind: StorageKind)
    | Cached(kind: StorageKind, settings: CacheSettings)

  /** `strncpy` into a buffer of `size` characters that was zeroed first. */
  function Copy(s: string, size: nat): (r: string)
    requires size > 0
    ensures |r| < size && |r| <= |s| && r == s[..|r|]
    ensures |s| < size ==> r == s
  {
    if |s| < size then s else s[..size - 1]
  }

  /** The settings `cached_storage_create` derives: "sensor_cache.db" for an
      empty path, 10 for a flush interval and 100 for a batch size that is
      not positive. */
  function SettingsOf(cache: CacheConfig): (s: CacheSettings)
    ensures s.path != "" && s.flushInterval > 0 && s.batchSize > 0
    ensures cache.cacheDbPath != "" ==> s.path == Copy(cache.cacheDbPath, PATH_SIZE)
    ensures cache.flushInterval > 0 ==> s.flushInterval == cache.flushInterval
    ensures cache.batchSize > 0 ==> s.batchSize == cache.batchSize
  {
    CacheSettings(if cache.cacheDbPath == "" then "sensor_cache.db" else Copy(cache.cacheDbPath, PATH_SIZE),
                  if cache.flushInterval > 0 then cache.flushInterval else 10,
                  if cache.batchSize > 0 then cache.batchSize else 100)
  }

  /** Settings that are already in range come through unchanged. */
  lemma SettingsKeepValid(cache: CacheConfig)
    requires 0 < |cache.cacheDbPath| < PATH_SIZE && cache.flushInterval > 0 && cache.batchSize > 0
    ensures SettingsOf(cache) == CacheSettings(cache.cacheDbPath, cache.flushInterval, cache.batchSize)
  {
  }

  /** `cached_storage_create`: `cacheOpens` says whether the cache database
      opens and its table can be created; without it there is no storage. */
  function CachedStorageCreate(config: StorageConfig, kind: StorageKind, cacheOpens: bool): (r: Option<Storage>)
    ensures r.Some? <==> cacheOpens
    ensures r.Some? ==> r.value == Cached(kind, SettingsOf(config.cache))
  {
    if cacheOpens then Some(Cached(kind, SettingsOf(config.cache))) else None
  }

  /** `storage_create`: `targetOpens` says whether the back end could be
      built (the SQLite database opened, the CSV file opened); the cache is
      put in front only when it is enabled and the back end exists. */
  function StorageCreate(config: StorageConfig, targetOpens: bool, cacheOpens: bool): (r: Option<Storage>)
    ensures config.kind == NoStorage ==> r.None?
    ensures r.Some? <==> config.kind != NoStorage && targetOpens && (config.enableCache ==> cacheOpens)
    ensures r.Some? ==> r.value.kind == config.kind && (r.value.Cached? <==> config.enableCache)
    ensures r.Some? && r.value.Cached? ==> r.value.settings == SettingsOf(config.cache)
  {
    if config.kind == NoStorage || !targetOpens then None
    else if config.enableCache then CachedStorageCreate(config, config.kind, cacheOpens)
    else Some(Plain(config.kind))
  }

  /** `get_default_storage_config`: SQLite on "sensor_data.db" with the
      cache enabled on "sensor_cache.db", flushing 100 rows every 10
      seconds. */
  function DefaultStorageConfig(): (c: StorageConfig)
    ensures c.kind == SQLite && c.enableCache
    ensures c.cache.flushInterval == 10 && c.cache.batchSize == 100
  {
    StorageConfig(SQLite, "sensor_data.db", "http://localhost:8086", "my-token", "my-org", "sensor-data", "",
                  CacheConfig("sensor_cache.db", 10, 100), true)
  }

  /** The default configuration builds a cached SQLite store whose cache
      runs with the configured settings, as soon as both databases open. */
  lemma DefaultConfigBuildsCachedSQLite()
    ensures StorageCreate(DefaultStorageConfig(), true, true)
            == Some(Cached(SQLite, CacheSettings("sensor_cache.db", 10, 100)))
  {
    SettingsKeepValid(DefaultStorageConfig().cache);
  }

  /** The first position below `|records|` whose write fails, if any. */
  function FirstFailure(n: nat, ok: nat -> bool, from: nat): (r: Option<nat>)
    requires from <= n
    ensures r.Some? ==> from <= r.value < n && !ok(r.value)
                        && forall k | from <= k < r.value :: ok(k)
    ensures r.None? ==> forall k | from <= k < n :: ok(k)
    decreases n - from
  {
    if from == n then None
    else if !ok(from) then Some(from)
    else FirstFailure(n, ok, from + 1)
  }

  /** `sqlite_save_batch` on the rows of `sensor_data`: the inserts run in
      one transaction, `inserted(k)` says whether the insert of record k
      succeeds, and the first failure rolls every insert back. */
  function SqliteSaveBatch(table: seq<Reading>, records: seq<Reading>, inserted: nat -> bool)
    : (r: (seq<Reading>, bool))
    ensures r.1 <==> forall k | 0 <= k < |records| :: inserted(k)
    ensures r.1 ==> r.0 == table + records
    ensures !r.1 ==> r.0 == table
  {
    match FirstFailure(|records|, inserted, 0)
    case Some(_) => (table, false)
    case None => (table + records, true)
  }

  /** `csv_save`: a line per record, or false when there is no open file. */
  function CsvSave(file: Option<seq<Reading>>, record: Reading): (r: (Option<seq<Reading>>, bool))
    ensures r.1 <==> file.Some?
    ensures r.1 ==> r.0 == Some(file.value + [record])
    ensures !r.1 ==> r.0 == file
  {
    match file
    case None => (None, false)
    case Some(lines) => (Some(lines + [record]), true)
  }

  /** `csv_save_batch`: false when there is no open file, otherwise one
      line per record in order.  Once the file is open `csv_save` cannot
      fail, so the batch never stops early. */
  function CsvSaveBatch(file: Option<seq<Reading>>, records: seq<Reading>): (r: (Option<seq<Reading>>, bool))
    ensures r.1 <==> file.Some?
    ensures r.1 ==> r.0 == Some(file.value + records)
    ensures !r.1 ==> r.0 == file
  {
    if file.None? then (file, false)
    else (Some(file.value + records), true)
  }

  /** The batch is `csv_save` applied to each record in turn, stopping at
      the first failure. */
  function CsvSaveEach(file: Option<seq<Reading>>, records: seq<Reading>): (r: (Option<seq<Reading>>, bool))
    decreases |records|
  {
    if |records| == 0 then (file, true)
    else
      var step := CsvSave(file, records[0]);
      if !step.1 then (step.0, false) else CsvSaveEach(step.0, records[1..])
  }

  /** Writing the batch at once agrees with writing it record by record,
      for every batch that is not empty (an empty batch on a missing file
      is false at once, where the loop would not run). */
  lemma {:induction false} CsvBatchIsEachSave(file: Option<seq<Reading>>, records: seq<Reading>)
    requires |records| > 0 || file.Some?
    ensures CsvSaveBatch(file, records) == CsvSaveEach(file, records)
    decreases |records|
  {
    if |records| > 0 && file.Some? {
      var step := CsvSave(file, records[0]);
      assert step.0.value + records[1..] == file.value + records;
      CsvBatchIsEachSave(step.0, records[1..]);
      assert CsvSaveEach(file, records) == CsvSaveEach(step.0, records[1..]);
    } else if file.Some? {
      assert file.value + records == file.value;
    }
  }

  /** `cached_storage_save`: false only when the cache insert fails; the
      reading is queued and, once the target takes it, its unretried copies
      are deleted. */
  function CachedSave(c: Cache, record: Reading, inserted: bool, delivered: bool): (r: (Cache, bool))
    ensures r.1 <==> inserted
    ensures !inserted ==> r.0 == c
    ensures inserted && !delivered ==> r.0.rows == c.rows + [Row(c.nextId, record, 0)]
    ensures inserted && delivered ==> forall q | q in r.0.rows :: !SyncedCopy(q, record)
    ensures inserted ==> forall q | q in c.rows && !SyncedCopy(q, record) :: q in r.0.rows
    ensures inserted && delivered ==> forall q | q in r.0.rows :: q in c.rows
  {
    if !inserted then (c, false)
    else
      DeliveredSaveDropsCopies(c, record);
      (SaveInserted(c, record, delivered), true)
  }

  /** `cached_storage_save_batch`: the inserts run in one transaction and
      nothing is sent to the target; a failed insert rolls the batch back. */
  function CachedSaveBatch(c: Cache, records: seq<Reading>, inserted: nat -> bool): (r: (Cache, bool))
    ensures r.1 <==> forall k | 0 <= k < |records| :: inserted(k)
    ensures !r.1 ==> r.0 == c
    ensures r.1 ==> |r.0.rows| == |c.rows| + |records| && r.0.rows[..|c.rows|] == c.rows
    ensures r.1 ==> forall k | 0 <= k < |records| ::
                      r.0.rows[|c.rows| + k].reading == records[k] && r.0.rows[|c.rows| + k].retries == 0
    ensures Valid(c) ==> Valid(r.0)
  {
    match FirstFailure(|records|, inserted, 0)
    case Some(_) => (c, false)
    case None => (InsertAll(c, records), true)
  }

  /** One pass of `cached_storage_flush_worker`: the selected rows are
      offered to the target in id order. */
  function FlushPass(c: Cache, settings: CacheSettings, accepted: Row -> bool): (d: Cache)
    requires settings.batchSize > 0
    ensures Valid(c) ==> Valid(d)
    ensures |d.rows| <= |c.rows| && d.nextId == c.nextId
  {
    FlushValidIf(c, settings.batchSize, accepted);
    Flush(c, settings.batchSize, accepted)
  }

  lemma FlushValidIf(c: Cache, batchSize: nat, accepted: Row -> bool)
    ensures Valid(c) ==> Valid(Flush(c, batchSize, accepted))
  {
    if Valid(c) {
      FlushValid(c, batchSize, accepted);
    }
  }

  /** A pass whose target takes every row it is offered empties the table
      when the pending rows fit in one batch and none is exhausted. */
  lemma FlushPassDrainsSmallQueue(c: Cache, settings: CacheSettings)
    requires settings.batchSize > 0 && Valid(c)
    requires |c.rows| <= settings.batchSize && forall r | r in c.rows :: Eligible(r)
    ensures FlushPass(c, settings, (r: Row) => true).rows == []
  {
    KeepAll(c.rows, Eligible);
    assert Selected(c.rows, settings.batchSize) == c.rows;
    SettleAllTaken(c.rows, Attempted(c.rows, settings.batchSize), (r: Row) => true);
  }
}

=== FILE: cache_queue.dfy ===
/** The local cache table that the cached storage of the Go, Python and C
    ports keeps in front of its target store (`data_cache`: an
    auto-increment id, the reading, and a retry count).  All three ports
    share its policy:

    - a save first inserts the reading with retry count 0, then tries the
      target; after a successful target write it deletes every cached row
      with an equal reading and retry count 0;
    - a flush selects at most a batch of rows with retry count below 10, in
      ascending id order, and tries each on the target: success deletes the
      row, failure adds one to its retry count.

    The table is a sequence of rows in id order; the SQL engine is not
    modelled.  The target's answers are parameters. */
module CacheQueue {
  /** Rows at or above this many failed attempts are never tried again. */
  const MAX_RETRIES: nat := 10

  /** The part of a sensor record the cache stores. */
  datatype Reading = Reading(name: string, slaveId: int, temperature: real, humidity: real)

  datatype Row = Row(id: nat, reading: Reading, retries: nat)

  /** The rows in table order and the next id the auto-increment hands out. */
  datatype Cache = Cache(rows: seq<Row>, nextId: nat)

  /** A fresh table: no rows, and SQLite's AUTOINCREMENT starts at 1. */
  const EMPTY: Cache := Cache([], 1)

  /** Ids strictly increase along the rows. */
  predicate Ascending(rows: seq<Row>) {
    forall i, j | 0 <= i < j < |rows| :: rows[i].id < rows[j].id
  }

  /** Every id is below `n`. */
  predicate Below(rows: seq<Row>, n: nat) {
    forall r | r in rows :: r.id < n
  }

  /** A well-formed table: ids in ascending order, all below the next id. */
  predicate Valid(c: Cache) {
    Ascending(c.rows) && Below(c.rows, c.nextId)
  }

  /** In an ascending table a row is determined by its id. */
  lemma {:induction false} IdsDistinct(rows: seq<Row>, a: Row, b: Row)
    requires Ascending(rows) && a in rows && b in rows && a.id == b.id
    ensures a == b
  {
    var i :| 0 <= i < |rows| && rows[i] == a;
    var j :| 0 <= j < |rows| && rows[j] == b;
    assert rows[i].id == rows[j].id;
    assert i == j;
  }

  /** The head of an ascending sequence is below every later row, and the
      rest is ascending. */
  lemma AscendingTail(rows: seq<Row>)
    requires Ascending(rows) && |rows| > 0
    ensures Ascending(rows[1..])
    ensures forall r | r in rows[1..] :: rows[0].id < r.id
  {
    forall r | r in rows[1..] ensures rows[0].id < r.id {
      var k :| 0 <= k < |rows[1..]| && rows[1..][k] == r;
      assert rows[k + 1] == r;
    }
  }

  /** A row below every row of an ascending sequence can go in front. */
  lemma AscendingCons(x: Row, tail: seq<Row>)
    requires Ascending(tail) && forall r | r in tail :: x.id < r.id
    ensures Ascending([x] + tail)
  {
    var s := [x] + tail;
    forall i, j | 0 <= i < j < |s| ensures s[i].id < s[j].id {
      assert s[j] == tail[j - 1];
      if i > 0 {
        assert s[i] == tail[i - 1];
      } else {
        assert tail[j - 1] in tail;
      }
    }
  }

  /** The rows `keep` accepts, in their order. */
  function Keep(rows: seq<Row>, keep: Row -> bool): (kept: seq<Row>)
    ensures |kept| <= |rows|
    ensures forall r | r in kept :: r in rows && keep(r)
    ensures forall r | r in rows && keep(r) :: r in kept
    ensures Ascending(rows) ==> Ascending(kept)
    decreases |rows|
  {
    if |rows| == 0 then []
    else
      var tail := Keep(rows[1..], keep);
      assert forall r | r in rows :: r == rows[0] || r in rows[1..];
      if keep(rows[0]) then
        if Ascending(rows) then
          AscendingTail(rows);
          AscendingCons(rows[0], tail);
          [rows[0]] + tail
        else [rows[0]] + tail
      else
        if Ascending(rows) then AscendingTail(rows); tail else tail
  }

  /** Inserting a reading: it is appended with a fresh id and no retries,
      and every earlier row is kept as it was. */
  function Insert(c: Cache, reading: Reading): (d: Cache)
    ensures Valid(c) ==> Valid(d)
    ensures |d.rows| == |c.rows| + 1 && d.rows[..|c.rows|] == c.rows
    ensures d.rows[|c.rows|].reading == reading && d.rows[|c.rows|].retries == 0
    ensures d.rows[|c.rows|].id !in (set r | r in c.rows :: r.id) || !Valid(c)
    ensures d.nextId > c.nextId
  {
    Cache(c.rows + [Row(c.nextId, reading, 0)], c.nextId + 1)
  }

  /** Inserting several readings, one after another: they get the next
      ids in order. */
  function InsertAll(c: Cache, readings: seq<Reading>): (d: Cache)
    ensures Valid(c) ==> Valid(d)
    ensures |d.rows| == |c.rows| + |readings| && d.rows[..|c.rows|] == c.rows
    ensures forall k | 0 <= k < |readings| ::
              d.rows[|c.rows| + k].reading == readings[k] && d.rows[|c.rows| + k].retries == 0
    ensures d.nextId == c.nextId + |readings|
  {
    var added := seq(|readings|, k requires 0 <= k < |readings| => Row(c.nextId + k, readings[k], 0));
    var d := Cache(c.rows + added, c.nextId + |readings|);
    if Valid(c) then AppendValid(c, added); d else d
  }

  /** Rows numbered on from the next id keep a table well formed. */
  lemma AppendValid(c: Cache, added: seq<Row>)
    requires Valid(c) && forall k | 0 <= k < |added| :: added[k].id == c.nextId + k
    ensures Valid(Cache(c.rows + added, c.nextId + |added|))
  {
    var d := Cache(c.rows + added, c.nextId + |added|);
    forall i, j | 0 <= i < j < |d.rows| ensures d.rows[i].id < d.rows[j].id {
      if i < |c.rows| {
        assert c.rows[i] in c.rows;
      }
    }
    forall r | r in d.rows ensures r.id < d.nextId {
      var i :| 0 <= i < |d.rows| && d.rows[i] == r;
      if i < |c.rows| {
        assert c.rows[i] in c.rows;
      }
    }
  }

  /** A row that a flush may still try. */
  predicate Eligible(r: Row) {
    r.retries < MAX_RETRIES
  }

  /** The eligible rows, in table order. */
  function Eligibles(rows: seq<Row>): (e: seq<Row>)
    ensures forall r | r in e :: r in rows && Eligible(r)
    ensures forall r | r in rows && Eligible(r) :: r in e
    ensures Ascending(rows) ==> Ascending(e)
  {
    Keep(rows, Eligible)
  }

  /** The rows one flush selects: `... WHERE retry_count < 10 ORDER BY id
      LIMIT batchSize`. */
  function Selected(rows: seq<Row>, batchSize: nat): (batch: seq<Row>)
    ensures |batch| <= batchSize && |batch| <= |Eligibles(rows)|
    ensures batch == Eligibles(rows)[..|batch|]
    ensures |batch| == |Eligibles(rows)| || |batch| == batchSize
    ensures forall r | r in batch :: r in rows && Eligible(r)
    ensures Ascending(rows) ==> Ascending(batch)
  {
    var e := Eligibles(rows);
    if |e| <= batchSize then e else e[..batchSize]
  }

  /** The ids a flush tries. */
  function Attempted(rows: seq<Row>, batchSize: nat): set<nat> {
    set r | r in Selected(rows, batchSize) :: r.id
  }

  /** A row after a refused attempt. */
  function Retried(r: Row): (q: Row)
    ensures q.id == r.id && q.reading == r.reading && q.retries == r.retries + 1
  {
    r.(retries := r.retries + 1)
  }

  /** The outcome of trying the rows whose ids are in `tried`: `accepted`
      says which of them the target took. */
  function Settle(rows: seq<Row>, tried: set<nat>, accepted: Row -> bool): (out: seq<Row>)
    ensures |out| <= |rows|
    decreases |rows|
  {
    if |rows| == 0 then []
    else
      var r := rows[0];
      var tail := Settle(rows[1..], tried, accepted);
      if r.id !in tried then [r] + tail
      else if accepted(r) then tail
      else [Retried(r)] + tail
  }

  /** An untried row is kept, and a refused one is kept with one more
      retry. */
  lemma {:induction false} SettleKeeps(rows: seq<Row>, tried: set<nat>, accepted: Row -> bool, r: Row)
    requires r in rows
    ensures r.id !in tried ==> r in Settle(rows, tried, accepted)
    ensures r.id in tried && !accepted(r) ==> Retried(r) in Settle(rows, tried, accepted)
    decreases |rows|
  {
    if rows[0] != r {
      assert r in rows[1..];
      SettleKeeps(rows[1..], tried, accepted, r);
    }
  }

  /** Every row after settling comes from a row before it: unchanged if it
      was not tried, or refused with one more retry. */
  lemma {:induction false} SettleOrigin(rows: seq<Row>, tried: set<nat>, accepted: Row -> bool, q: Row)
    returns (p: Row)
    requires q in Settle(rows, tried, accepted)
    ensures p in rows && p.id == q.id
    ensures if q.id in tried then q == Retried(p) && !accepted(p) else q == p
    decreases |rows|
  {
    var r := rows[0];
    var tail := Settle(rows[1..], tried, accepted);
    if r.id !in tried && q == r {
      p := r;
    } else if r.id in tried && !accepted(r) && q == Retried(r) {
      p := r;
    } else {
      assert q in tail;
      p := SettleOrigin(rows[1..], tried, accepted, q);
    }
  }

  /** When every row is tried and taken, none is left. */
  lemma {:induction false} SettleAllTaken(rows: seq<Row>, tried: set<nat>, accepted: Row -> bool)
    requires forall r | r in rows :: r.id in tried && accepted(r)
    ensures Settle(rows, tried, accepted) == []
    decreases |rows|
  {
    if |rows| > 0 {
      assert rows[0] in rows;
      assert forall r | r in rows[1..] :: r in rows;
      SettleAllTaken(rows[1..], tried, accepted);
    }
  }

  /** Settling keeps the ids ascending. */
  lemma {:induction false} SettleAscending(rows: seq<Row>, tried: set<nat>, accepted: Row -> bool)
    requires Ascending(rows)
    ensures Ascending(Settle(rows, tried, accepted))
    decreases |rows|
  {
    if |rows| > 0 {
      var r := rows[0];
      var tail := Settle(rows[1..], tried, accepted);
      AscendingTail(rows);
      SettleAscending(rows[1..], tried, accepted);
      forall q | q in tail ensures r.id < q.id {
        var p := SettleOrigin(rows[1..], tried, accepted, q);
      }
      if r.id !in tried {
        AscendingCons(r, tail);
      } else if !accepted(r) {
        AscendingCons(Retried(r), tail);
      }
    }
  }

  /** One flush: the selected rows are tried on the target in id order;
      `accepted` says which of them it took. */
  function Flush(c: Cache, batchSize: nat, accepted: Row -> bool): (d: Cache)
    ensures d.nextId == c.nextId && |d.rows| <= |c.rows|
  {
    Cache(Settle(c.rows, Attempted(c.rows, batchSize), accepted), c.nextId)
  }

  /** In a well-formed table a row is tried exactly when it is selected. */
  lemma AttemptedIffSelected(c: Cache, batchSize: nat, r: Row)
    requires Valid(c) && r in c.rows
    ensures r.id in Attempted(c.rows, batchSize) <==> r in Selected(c.rows, batchSize)
  {
    if r.id in Attempted(c.rows, batchSize) {
      var s :| s in Selected(c.rows, batchSize) && s.id == r.id;
      IdsDistinct(c.rows, s, r);
    }
  }

  /** A flush keeps the table well formed. */
  lemma FlushValid(c: Cache, batchSize: nat, accepted: Row -> bool)
    requires Valid(c)
    ensures Valid(Flush(c, batchSize, accepted))
  {
    var tried := Attempted(c.rows, batchSize);
    SettleAscending(c.rows, tried, accepted);
    forall q | q in Flush(c, batchSize, accepted).rows ensures q.id < c.nextId {
      var p := SettleOrigin(c.rows, tried, accepted, q);
    }
  }

  /** What a flush does to each row of a well-formed table: a row it does
      not select (every row with 10 or more retries among them) is kept as
      it was, a selected row the target took is gone, and one it refused is
      kept with one more retry. */
  lemma FlushEffect(c: Cache, batchSize: nat, accepted: Row -> bool, r: Row)
    requires Valid(c) && r in c.rows
    ensures r !in Selected(c.rows, batchSize) ==> r in Flush(c, batchSize, accepted).rows
    ensures !Eligible(r) ==> r in Flush(c, batchSize, accepted).rows
    ensures r in Selected(c.rows, batchSize) && accepted(r) ==>
              forall q | q in Flush(c, batchSize, accepted).rows :: q.id != r.id
    ensures r in Selected(c.rows, batchSize) && !accepted(r) ==>
              Retried(r) in Flush(c, batchSize, accepted).rows
  {
    var tried := Attempted(c.rows, batchSize);
    AttemptedIffSelected(c, batchSize, r);
    SettleKeeps(c.rows, tried, accepted, r);
    if r.id in tried && accepted(r) {
      forall q | q in Flush(c, batchSize, accepted).rows ensures q.id != r.id {
        var p := SettleOrigin(c.rows, tried, accepted, q);
        if q.id == r.id {
          IdsDistinct(c.rows, p, r);
        }
      }
    }
  }

  /** Every row after a flush was in the table before, unchanged or, if the
      target refused it, with one more retry. */
  lemma FlushOrigin(c: Cache, batchSize: nat, accepted: Row -> bool, q: Row) returns (p: Row)
    requires Valid(c) && q in Flush(c, batchSize, accepted).rows
    ensures p in c.rows && p.id == q.id
    ensures q == p || (p in Selected(c.rows, batchSize) && !accepted(p) && q == Retried(p))
  {
    var tried := Attempted(c.rows, batchSize);
    p := SettleOrigin(c.rows, tried, accepted, q);
    if q.id in tried {
      var s :| s in Selected(c.rows, batchSize) && s.id == q.id;
      IdsDistinct(c.rows, s, p);
    }
  }

  /** Retry counts never pass the limit: a flush keeps every count at most
      10, because only rows below 10 are tried. */
  lemma FlushKeepsRetriesBounded(c: Cache, batchSize: nat, accepted: Row -> bool)
    requires Valid(c) && forall r | r in c.rows :: r.retries <= MAX_RETRIES
    ensures forall q | q in Flush(c, batchSize, accepted).rows :: q.retries <= MAX_RETRIES
  {
    forall q | q in Flush(c, batchSize, accepted).rows ensures q.retries <= MAX_RETRIES {
      var p := FlushOrigin(c, batchSize, accepted, q);
    }
  }

  /** Whether a row is one a successful target write removes: an equal
      reading (name, slave id, temperature and humidity) with no retries. */
  predicate SyncedCopy(q: Row, reading: Reading) {
    q.reading == reading && q.retries == 0
  }

  /** The rows the delete keeps. */
  function Unsynced(reading: Reading): Row -> bool {
    (q: Row) => !SyncedCopy(q, reading)
  }

  /** The delete after a successful target write. */
  function DropSynced(c: Cache, reading: Reading): (d: Cache)
    ensures d.nextId == c.nextId
    ensures forall q | q in d.rows :: q in c.rows && !SyncedCopy(q, reading)
    ensures forall q | q in c.rows && !SyncedCopy(q, reading) :: q in d.rows
    ensures Valid(c) ==> Valid(d)
  {
    Cache(Keep(c.rows, Unsynced(reading)), c.nextId)
  }

  /** A cached save once the insert succeeded: the row stays queued when
      the target write fails; otherwise every unretried copy of the reading
      is deleted. */
  function SaveInserted(c: Cache, reading: Reading, delivered: bool): (d: Cache)
    ensures Valid(c) ==> Valid(d)
  {
    var e := Insert(c, reading);
    if delivered then DropSynced(e, reading) else e
  }

  /** A refused target write leaves the new row queued behind the others. */
  lemma RefusedSaveQueues(c: Cache, reading: Reading)
    ensures SaveInserted(c, reading, false).rows == c.rows + [Row(c.nextId, reading, 0)]
  {
  }

  /** After a delivered save no unretried copy of the reading is left,
      every other row is still there, and no row was added. */
  lemma DeliveredSaveDropsCopies(c: Cache, reading: Reading)
    ensures forall q | q in SaveInserted(c, reading, true).rows :: !SyncedCopy(q, reading)
    ensures forall q | q in c.rows && !SyncedCopy(q, reading) :: q in SaveInserted(c, reading, true).rows
    ensures forall q | q in SaveInserted(c, reading, true).rows :: q in c.rows
  {
    var e := Insert(c, reading);
    assert forall q | q in c.rows :: q in e.rows;
    assert forall q | q in e.rows && !SyncedCopy(q, reading) :: q in c.rows;
  }

  /** The delete is not limited to the new row: a reading whose own target
      write failed earlier, and that no flush has tried yet, is removed by a
      later successful save of an equal reading, although the target got
      it only once. */
  lemma EarlierCopyDropped(reading: Reading)
    ensures var once := SaveInserted(EMPTY, reading, false);
            once.rows == [Row(1, reading, 0)]
            && SaveInserted(once, reading, true).rows == []
  {
    var once := SaveInserted(EMPTY, reading, false);
    KeepNone(Insert(once, reading).rows, Unsynced(reading));
  }

  /** A row a flush no longer tries. */
  predicate Exhausted(r: Row) {
    !Eligible(r)
  }

  /** A row with at least one failed attempt. */
  predicate HasFailed(r: Row) {
    r.retries > 0
  }

  /** A row with no failed attempt. */
  predicate Untried(r: Row) {
    r.retries == 0
  }

  /** The number of rows a flush may still try (Go's `pending_count`). */
  function PendingCount(c: Cache): (n: nat)
    ensures n <= |c.rows|
  {
    |Keep(c.rows, Eligible)|
  }

  /** The number of rows with at least one failed attempt (Python's
      `failed_count`). */
  function FailedCount(c: Cache): (n: nat)
    ensures n <= |c.rows|
  {
    |Keep(c.rows, HasFailed)|
  }

  /** Splitting rows by a test and its negation loses none and counts none
      twice. */
  lemma {:induction false} KeepSplit(rows: seq<Row>, keep: Row -> bool, drop: Row -> bool)
    requires forall r | r in rows :: drop(r) == !keep(r)
    ensures |Keep(rows, keep)| + |Keep(rows, drop)| == |rows|
    decreases |rows|
  {
    if |rows| > 0 {
      assert forall r | r in rows[1..] :: r in rows;
      KeepSplit(rows[1..], keep, drop);
    }
  }

  /** The pending rows and the exhausted ones make up the table. */
  lemma PendingPlusExhausted(c: Cache)
    ensures PendingCount(c) + |Keep(c.rows, Exhausted)| == |c.rows|
  {
    KeepSplit(c.rows, Eligible, Exhausted);
  }

  /** The failed rows and the untried ones make up the table. */
  lemma FailedPlusUntried(c: Cache)
    ensures FailedCount(c) + |Keep(c.rows, Untried)| == |c.rows|
  {
    KeepSplit(c.rows, HasFailed, Untried);
  }

  /** A table of fresh rows has nothing failed and everything pending. */
  lemma FreshRowsCounts(c: Cache)
    requires forall r | r in c.rows :: r.retries == 0
    ensures FailedCount(c) == 0 && PendingCount(c) == |c.rows|
  {
    KeepAll(c.rows, Eligible);
    KeepNone(c.rows, HasFailed);
  }

  lemma {:induction false} KeepAll(rows: seq<Row>, keep: Row -> bool)
    requires forall r | r in rows :: keep(r)
    ensures Keep(rows, keep) == rows
    decreases |rows|
  {
    if |rows| > 0 {
      assert forall r | r in rows[1..] :: r in rows;
      KeepAll(rows[1..], keep);
    }
  }

  lemma {:induction false} KeepNone(rows: seq<Row>, keep: Row -> bool)
    requires forall r | r in rows :: !keep(r)
    ensures Keep(rows, keep) == []
    decreases |rows|
  {
    if |rows| > 0 {
      assert forall r | r in rows[1..] :: r in rows;
      KeepNone(rows[1..], keep);
    }
  }
}

=== FILE: calendar.dfy ===
/** The ECMAScript date arithmetic behind `Date.UTC` and `new Date(ms)`:
    proleptic Gregorian days counted from 1 January 1970, month numbers that
    overflow into the following years, and the time-value clip at
    8.64e15 ms (sections 21.4.1.3 to 21.4.1.31 of ECMA-262). */
module Calendar {
  import opened Wrappers

  const MS_PER_DAY: int := 86_400_000
  const MAX_TIME_VALUE: int := 8_640_000_000_000_000

  /** A JavaScript Date: a time value in Unix milliseconds, or an invalid date
      (its time value is NaN). */
  datatype JsDate = Valid(ms: int) | Invalid

  /** TimeClip: time values beyond 8.64e15 ms either side of the epoch are NaN. */
  function TimeClip(t: int): (d: JsDate)
    ensures d.Valid? <==> -MAX_TIME_VALUE <= t <= MAX_TIME_VALUE
    ensures d.Valid? ==> d.ms == t
  {
    if -MAX_TIME_VALUE <= t <= MAX_TIME_VALUE then Valid(t) else Invalid
  }

  predicate IsLeapYear(y: int) {
    y % 4 == 0 && (y % 100 != 0 || y % 400 == 0)
  }

  function DaysInYear(y: int): int {
    if IsLeapYear(y) then 366 else 365
  }

  /** DayFromYear: the day number of 1 January of year `y`, by the closed
      formula of ECMA-262 (floor division throughout). */
  function DayFromYear(y: int): int {
    365 * (y - 1970) + (y - 1969) / 4 - (y - 1901) / 100 + (y - 1601) / 400
  }

  /** The lengths of the months, January first. */
  function DaysInMonth(m: int, leap: bool): (d: int)
    requires 0 <= m < 12
    ensures 28 <= d <= 31
  {
    if m == 1 then (if leap then 29 else 28)
    else if m == 3 || m == 5 || m == 8 || m == 10 then 30
    else 31
  }

  /** The day in the year on which month `m` starts, January being 0. */
  function DaysBeforeMonth(m: int, leap: bool): (d: int)
    requires 0 <= m < 12
    ensures 0 <= d <= 335
  {
    var table := [0, 31, 59, 90, 120, 151, 181, 212, 243, 273, 304, 334];
    table[m] + if leap && m >= 2 then 1 else 0
  }

  /** MakeDay: the day number of day `date` of month `month` of `year`,
      where a month outside 0..11 carries into the year by floor division
      and a day outside the month simply counts on. */
  function MakeDay(year: int, month: int, date: int): int {
    var ym := year + month / 12;
    var mn := month % 12;
    DayFromYear(ym) + DaysBeforeMonth(mn, IsLeapYear(ym)) + date - 1
  }

  /** MakeTime on whole numbers. */
  function MakeTime(hours: int, minutes: int, seconds: int): int {
    hours * 3_600_000 + minutes * 60_000 + seconds * 1000
  }

  /** `Date.UTC(year, month, day, hours, minutes, seconds)`; a NaN argument
      (None) gives NaN, and years 0..99 mean 1900..1999. */
  function DateUtc(year: Option<int>, month: Option<int>, day: Option<int>,
                   hours: Option<int>, minutes: Option<int>, seconds: Option<int>): (d: JsDate)
    ensures (year.None? || month.None? || day.None? || hours.None? || minutes.None? || seconds.None?) ==> d == Invalid
  {
    if year.None? || month.None? || day.None? || hours.None? || minutes.None? || seconds.None? then Invalid
    else
      var y := if 0 <= year.value <= 99 then 1900 + year.value else year.value;
      TimeClip(MakeDay(y, month.value, day.value) * MS_PER_DAY
               + MakeTime(hours.value, minutes.value, seconds.value))
  }

  /** The three floor-division terms of DayFromYear each step by one exactly
      when their divisor divides the year. */
  lemma LeapTerms(y: int)
    ensures (y - 1968) / 4 - (y - 1969) / 4 == (if y % 4 == 0 then 1 else 0)
    ensures (y - 1900) / 100 - (y - 1901) / 100 == (if y % 100 == 0 then 1 else 0)
    ensures (y - 1600) / 400 - (y - 1601) / 400 == (if y % 400 == 0 then 1 else 0)
  {
    FloorStep4(y - 1969, y);
    FloorStep100(y - 1901, y);
    FloorStep400(y - 1601, y);
  }

  /** One step of floor division by 4: going from a to a + 1 raises the
      quotient by one exactly when 4 divides a + 1, which it does exactly
      when it divides y, a year that many fours away. */
  lemma FloorStep4(a: int, y: int)
    requires y == a + 1 + 4 * 492
    ensures (a + 1) / 4 - a / 4 == (if y % 4 == 0 then 1 else 0)
  {
  }

  /** The same for 100, with y a multiple of 100 away from a + 1. */
  lemma FloorStep100(a: int, y: int)
    requires y == a + 1 + 100 * 19
    ensures (a + 1) / 100 - a / 100 == (if y % 100 == 0 then 1 else 0)
  {
  }

  /** The same for 400, with y a multiple of 400 away from a + 1. */
  lemma FloorStep400(a: int, y: int)
    requires y == a + 1 + 400 * 4
    ensures (a + 1) / 400 - a / 400 == (if y % 400 == 0 then 1 else 0)
  {
  }

  /** The closed formula counts 366 days for leap years and 365 otherwise:
      consecutive New Years lie exactly DaysInYear apart. */
  lemma DayFromYearStep(y: int)
    ensures DayFromYear(y + 1) - DayFromYear(y) == DaysInYear(y)
  {
    LeapTerms(y);
    DivisorChain(y);
    YearLength(y, (y - 1968) / 4 - (y - 1969) / 4, (y - 1900) / 100 - (y - 1901) / 100,
               (y - 1600) / 400 - (y - 1601) / 400);
  }

  /** 365 days plus the three leap corrections is the length of the year. */
  lemma YearLength(y: int, d4: int, d100: int, d400: int)
    requires d4 == (if y % 4 == 0 then 1 else 0)
    requires d100 == (if y % 100 == 0 then 1 else 0)
    requires d400 == (if y % 400 == 0 then 1 else 0)
    requires y % 400 == 0 ==> y % 100 == 0
    requires y % 100 == 0 ==> y % 4 == 0
    ensures 365 + d4 - d100 + d400 == DaysInYear(y)
  {
  }

  /** A year divisible by 400 is divisible by 100, and one divisible by 100
      is divisible by 4. */
  lemma DivisorChain(y: int)
    ensures y % 400 == 0 ==> y % 100 == 0
    ensures y % 100 == 0 ==> y % 4 == 0
  {
    if y % 400 == 0 {
      var k := y / 400;
      assert y == 100 * (4 * k);
      MultipleMod(4 * k);
    }
    if y % 100 == 0 {
      var k := y / 100;
      assert y == 4 * (25 * k);
    }
  }

  /** A multiple of 100 leaves no remainder. */
  lemma MultipleMod(k: int)
    ensures (100 * k) % 100 == 0
  {
  }

  /** The month-start table agrees with the month lengths: each month starts
      where the previous one ends, and December ends the year. */
  lemma MonthTable(m: int, leap: bool)
    requires 0 <= m < 12
    ensures m < 11 ==> DaysBeforeMonth(m + 1, leap) == DaysBeforeMonth(m, leap) + DaysInMonth(m, leap)
    ensures m == 11 ==> DaysBeforeMonth(m, leap) + DaysInMonth(m, leap) == (if leap then 366 else 365)
  {
  }

  /** The day after the last day of a month is the first of the next month,
      across the year boundary too. */
  lemma {:induction false} MonthRollover(year: int, month: int)
    requires 0 <= month < 12
    ensures MakeDay(year, month, DaysInMonth(month, IsLeapYear(year)) + 1)
            == if month < 11 then MakeDay(year, month + 1, 1) else MakeDay(year + 1, 0, 1)
  {
    if month < 11 {
      NextMonth(year, month);
    } else {
      NextYear(year);
    }
  }

  /** The day after the last day of January to November. */
  lemma NextMonth(year: int, month: int)
    requires 0 <= month < 11
    ensures MakeDay(year, month, DaysInMonth(month, IsLeapYear(year)) + 1) == MakeDay(year, month + 1, 1)
  {
    MakeDayInYear(year, month, DaysInMonth(month, IsLeapYear(year)) + 1);
    MakeDayInYear(year, month + 1, 1);
    MonthTable(month, IsLeapYear(year));
  }

  /** The day after 31 December is 1 January of the next year. */
  lemma NextYear(year: int)
    ensures MakeDay(year, 11, DaysInMonth(11, IsLeapYear(year)) + 1) == MakeDay(year + 1, 0, 1)
  {
    MakeDayInYear(year, 11, DaysInMonth(11, IsLeapYear(year)) + 1);
    MakeDayInYear(year + 1, 0, 1);
    MonthTable(11, IsLeapYear(year));
    DayFromYearStep(year);
  }

  /** Within the year's twelve months, MakeDay is the year's first day plus
      the month's start plus the day. */
  lemma MakeDayInYear(year: int, month: int, date: int)
    requires 0 <= month < 12
    ensures MakeDay(year, month, date) == DayFromYear(year) + DaysBeforeMonth(month, IsLeapYear(year)) + date - 1
  {
    assert month / 12 == 0 && month % 12 == month;
  }

  /** Month numbers beyond December carry into the next year. */
  lemma MonthCarry(year: int, month: int, date: int)
    ensures MakeDay(year, month + 12, date) == MakeDay(year + 1, month, date)
  {
    assert (month + 12) / 12 == month / 12 + 1;
    assert (month + 12) % 12 == month % 12;
  }

  /** The Unix epoch is day 0. */
  lemma EpochIsDayZero()
    ensures MakeDay(1970, 0, 1) == 0
  {
  }
}

=== FILE: cluster.dfy ===
/** The cluster manager of the web service: the string hash used for device
    placement, the choice of a worker node for a device under each
    allocation strategy, the filtering of messages arriving on the two
    publish/subscribe channels, and the per-node count of assigned tasks.
    The node list and the task table, which live in Redis, are parameters. */
module ClusterManager {
  import opened Wrappers
  import opened Text
  import opened JsNumber

  // ------------------------------------------------------------ hashCode

  /** Two integers congruent modulo 2^32 wrap to the same signed 32-bit value. */
  lemma ToInt32Congruent(x: int, y: int)
    requires (x - y) % TWO32 == 0
    ensures ToInt32(x) == ToInt32(y)
  {
    var rx, ry := ToInt32(x), ToInt32(y);
    var q1, q2, q3 := (rx - x) / TWO32, (x - y) / TWO32, (ry - y) / TWO32;
    assert rx - x == TWO32 * q1;
    assert x - y == TWO32 * q2;
    assert ry - y == TWO32 * q3;
    assert rx - ry == TWO32 * (q1 + q2 - q3);
  }

  /** One step of `hashCode`: `hash = ((hash << 5) - hash) + char`, then
      `hash = hash & hash`, which wraps the sum to 32 bits. */
  function HashStep(h: int, c: int): (r: int)
    ensures -TWO31 <= r < TWO31
  {
    ToInt32(ShiftLeft(h, 5) - h + c)
  }

  /** `hashCode(str)`: the step folded over the UTF-16 code units from 0. */
  function HashCode(s: string): (h: int)
    ensures -TWO31 <= h < TWO31
    ensures s == "" ==> h == 0
  {
    if |s| == 0 then 0 else HashStep(HashCode(s[..|s| - 1]), s[|s| - 1] as int)
  }

  /** The usual description of the hash: h := (31 * h + c) wrapped to 32 bits. */
  function PolyHash(s: string): int {
    if |s| == 0 then 0 else ToInt32(31 * PolyHash(s[..|s| - 1]) + s[|s| - 1] as int)
  }

  /** The shift-and-subtract step is the multiply-by-31 step. */
  lemma HashStepIsTimes31(h: int, c: int)
    requires -TWO31 <= h < TWO31
    ensures HashStep(h, c) == ToInt32(31 * h + c)
  {
    ToInt32Identity(h);
    assert Pow2(5) == 32;
    assert ShiftLeft(h, 5) == ToInt32(h * 32);
    var shifted := ToInt32(h * 32);
    assert (shifted - h * 32) % TWO32 == 0;
    ToInt32Congruent(shifted - h + c, 31 * h + c);
  }

  /** `hashCode` agrees with the multiply-by-31 hash on every string. */
  lemma {:induction false} HashCodeIsPolyHash(s: string)
    ensures HashCode(s) == PolyHash(s)
  {
    if |s| > 0 {
      var prefix := s[..|s| - 1];
      HashCodeIsPolyHash(prefix);
      HashStepIsTimes31(HashCode(prefix), s[|s| - 1] as int);
    }
  }

  /** The hash of a one-character string is its code unit. */
  lemma HashOfOneChar(c: char)
    ensures HashCode([c]) == c as int
  {
    assert [c][..0] == "";
    assert ShiftLeft(0, 5) == 0;
    ToInt32Identity(c as int);
  }

  // ------------------------------------------------------------ nodes

  /** A node entry of `cluster:nodes`: its id (the hash key), its role and its
      reported load, which may be missing. */
  datatype Node = Node(id: string, role: string, load: Option<real>)

  /** Nodes that take collection work: role "worker" or "both". */
  predicate IsWorker(n: Node) {
    n.role == "worker" || n.role == "both"
  }

  /** `nodes.filter(n => n.role === 'worker' || n.role === 'both')`. */
  function Workers(nodes: seq<Node>): (ws: seq<Node>)
    ensures |ws| <= |nodes|
    ensures forall w | w in ws :: IsWorker(w) && w in nodes
    ensures forall n | n in nodes && IsWorker(n) :: n in ws
  {
    if |nodes| == 0 then []
    else
      var rest := Workers(nodes[..|nodes| - 1]);
      var last := nodes[|nodes| - 1];
      assert nodes == nodes[..|nodes| - 1] + [last];
      if IsWorker(last) then rest + [last] else rest
  }

  /** `node.load || 0`: a missing (or zero) load counts as 0. */
  function LoadOf(n: Node): real {
    match n.load
    case None => 0.0
    case Some(l) => l
  }

  /** The `reduce` of the least-loaded strategy: it starts from the first node
      and replaces the running minimum only by a strictly smaller load, so the
      first node of minimal load wins. */
  function LeastLoadedIndex(ws: seq<Node>): (i: nat)
    requires |ws| > 0
    ensures i < |ws|
    ensures forall k | 0 <= k < |ws| :: LoadOf(ws[i]) <= LoadOf(ws[k])
    ensures forall k | 0 <= k < i :: LoadOf(ws[k]) > LoadOf(ws[i])
  {
    if |ws| == 1 then 0
    else
      var j := LeastLoadedIndex(ws[..|ws| - 1]);
      assert forall k | 0 <= k < |ws| - 1 :: ws[..|ws| - 1][k] == ws[k];
      if LoadOf(ws[|ws| - 1]) < LoadOf(ws[j]) then |ws| - 1 else j
  }

  /** At most one index is a first minimum, so the least-loaded choice is
      determined by the loads alone. */
  lemma FirstMinimumUnique(ws: seq<Node>, i: nat, j: nat)
    requires i < |ws| && j < |ws|
    requires forall k | 0 <= k < |ws| :: LoadOf(ws[i]) <= LoadOf(ws[k])
    requires forall k | 0 <= k < i :: LoadOf(ws[k]) > LoadOf(ws[i])
    requires forall k | 0 <= k < |ws| :: LoadOf(ws[j]) <= LoadOf(ws[k])
    requires forall k | 0 <= k < j :: LoadOf(ws[k]) > LoadOf(ws[j])
    ensures i == j
  {
    assert LoadOf(ws[i]) == LoadOf(ws[j]);
  }

  // ------------------------------------------------------------ assignTask

  /** The worker a strategy selects, or None where the source reads past the
      worker list: a negative device id makes `deviceId % n` negative, the
      element is `undefined`, and reading its `id` throws. */
  function SelectWorker(strategy: string, ws: seq<Node>, deviceId: int): (r: Option<Node>)
    requires |ws| > 0
    ensures r.Some? ==> r.value in ws
    ensures r.None? <==> strategy == "round-robin" && JsRem(deviceId, |ws|) < 0
  {
    if strategy == "round-robin" then
      var index := JsRem(deviceId, |ws|);
      if index < 0 then None else Some(ws[index])
    else if strategy == "least-loaded" then
      Some(ws[LeastLoadedIndex(ws)])
    else if strategy == "hash" then
      Some(ws[Abs(HashCode(IntToString(deviceId))) % |ws|])
    else
      Some(ws[0])
  }

  /** The `cluster:tasks` field of a device. */
  function TaskKey(deviceId: int): string {
    "device:" + IntToString(deviceId)
  }

  /** The node a device was given, and the task table after the record. */
  datatype Assignment = Assignment(nodeId: string, tasks: map<string, string>)

  /** `assignTask`: standalone (not connected) or without worker nodes the
      device stays on this node and nothing is recorded; otherwise the
      strategy's worker is recorded under the device's key and returned.
      None is the rejected promise of an undefined round-robin pick. */
  function AssignTask(connected: bool, nodeId: string, strategy: string, nodes: seq<Node>,
                      deviceId: int, tasks: map<string, string>): (r: Option<Assignment>)
    ensures !connected || Workers(nodes) == [] ==> r == Some(Assignment(nodeId, tasks))
    ensures connected && r.Some? && Workers(nodes) != [] ==>
              exists n | n in nodes :: IsWorker(n) && r.value == Assignment(n.id, tasks[TaskKey(deviceId) := n.id])
    ensures r.None? <==> connected && Workers(nodes) != [] && strategy == "round-robin"
                         && JsRem(deviceId, |Workers(nodes)|) < 0
  {
    if !connected then Some(Assignment(nodeId, tasks))
    else
      var ws := Workers(nodes);
      if |ws| == 0 then Some(Assignment(nodeId, tasks))
      else
        match SelectWorker(strategy, ws, deviceId)
        case None => None
        case Some(n) => Some(Assignment(n.id, tasks[TaskKey(deviceId) := n.id]))
  }

  /** Round-robin places a device with a non-negative id on worker id mod n. */
  lemma RoundRobinPick(nodeId: string, nodes: seq<Node>, deviceId: nat, tasks: map<string, string>)
    requires Workers(nodes) != []
    ensures var ws := Workers(nodes);
            AssignTask(true, nodeId, "round-robin", nodes, deviceId, tasks)
              == Some(Assignment(ws[deviceId % |ws|].id, tasks[TaskKey(deviceId) := ws[deviceId % |ws|].id]))
  {
  }

  /** Round-robin with a negative id that is not a multiple of the worker
      count reads an undefined worker. */
  lemma RoundRobinNegativeFails(nodeId: string, nodes: seq<Node>, deviceId: int, tasks: map<string, string>)
    requires Workers(nodes) != [] && deviceId < 0 && (-deviceId) % |Workers(nodes)| != 0
    ensures AssignTask(true, nodeId, "round-robin", nodes, deviceId, tasks).None?
  {
  }

  /** The hash strategy places a device by the hash of its decimal text. */
  lemma HashPick(nodeId: string, nodes: seq<Node>, deviceId: int, tasks: map<string, string>)
    requires Workers(nodes) != []
    ensures var ws := Workers(nodes);
            var w := ws[Abs(PolyHash(IntToString(deviceId))) % |ws|];
            AssignTask(true, nodeId, "hash", nodes, deviceId, tasks) == Some(Assignment(w.id, tasks[TaskKey(deviceId) := w.id]))
  {
    HashCodeIsPolyHash(IntToString(deviceId));
  }

  /** Least-loaded picks a worker no other worker undercuts, and no earlier
      worker matches. */
  lemma LeastLoadedPick(nodeId: string, nodes: seq<Node>, deviceId: int, tasks: map<string, string>)
    requires Workers(nodes) != []
    ensures var ws := Workers(nodes);
            exists i | 0 <= i < |ws| ::
              AssignTask(true, nodeId, "least-loaded", nodes, deviceId, tasks) == Some(Assignment(ws[i].id, tasks[TaskKey(deviceId) := ws[i].id]))
              && (forall k | 0 <= k < |ws| :: LoadOf(ws[i]) <= LoadOf(ws[k]))
              && (forall k | 0 <= k < i :: LoadOf(ws[k]) > LoadOf(ws[i]))
  {
    var ws := Workers(nodes);
    var i := LeastLoadedIndex(ws);
    assert AssignTask(true, nodeId, "least-loaded", nodes, deviceId, tasks) == Some(Assignment(ws[i].id, tasks[TaskKey(deviceId) := ws[i].id]));
  }

  /** Any other strategy name picks the first worker. */
  lemma DefaultPick(nodeId: string, strategy: string, nodes: seq<Node>, deviceId: int, tasks: map<string, string>)
    requires Workers(nodes) != []
    requires strategy != "round-robin" && strategy != "least-loaded" && strategy != "hash"
    ensures var w := Workers(nodes)[0];
            AssignTask(true, nodeId, strategy, nodes, deviceId, tasks) == Some(Assignment(w.id, tasks[TaskKey(deviceId) := w.id]))
  {
  }

  /** Different devices are recorded under different keys, so an assignment
      never overwrites another device's record. */
  lemma TaskKeysDistinct(a: int, b: int)
    requires a != b
    ensures TaskKey(a) != TaskKey(b)
  {
    if TaskKey(a) == TaskKey(b) {
      assert TaskKey(a)[7..] == IntToString(a);
      assert TaskKey(b)[7..] == IntToString(b);
      IntToStringInjective(a, b);
    }
  }

  // ------------------------------------------------------------ handleMessage

  /** The channels the manager subscribes to. */
  const BROADCAST: string := "cluster:broadcast"
  const COMMAND: string := "cluster:command"

  /** The fields of a parsed message the filter reads; `to` is absent from
      broadcasts. */
  datatype Message = Message(from: Option<string>, to: Option<string>)

  /** The event `handleMessage` emits. */
  datatype Event = Broadcast(msg: Message) | Command(msg: Message)

  /** `handleMessage`: `parsed` is None when `JSON.parse` throws, which is
      caught and logged.  Broadcasts are delivered unless this node sent
      them; commands only when addressed to this node or to "all"; other
      channels are ignored. */
  function HandleMessage(nodeId: string, channel: string, parsed: Option<Message>): (e: Option<Event>)
    ensures parsed.None? ==> e.None?
    ensures e.Some? ==> parsed.Some? && e.value.msg == parsed.value
    ensures e.Some? && e.value.Broadcast? <==>
              channel == BROADCAST && parsed.Some? && parsed.value.from != Some(nodeId)
    ensures e.Some? && e.value.Command? <==>
              channel == COMMAND && parsed.Some? && (parsed.value.to == Some(nodeId) || parsed.value.to == Some("all"))
  {
    match parsed
    case None => None
    case Some(msg) =>
      if channel == BROADCAST then
        if msg.from != Some(nodeId) then Some(Broadcast(msg)) else None
      else if channel == COMMAND then
        if msg.to == Some(nodeId) || msg.to == Some("all") then Some(Command(msg)) else None
      else None
  }

  /** A node never receives its own broadcast, whatever else it says. */
  lemma OwnBroadcastDropped(nodeId: string, to: Option<string>)
    ensures HandleMessage(nodeId, BROADCAST, Some(Message(Some(nodeId), to))).None?
  {
  }

  // ------------------------------------------------------------ getTaskDistribution

  /** How many of the tasks are on the node. */
  function CountOf(nodeIds: seq<string>, id: string): nat {
    if |nodeIds| == 0 then 0
    else CountOf(nodeIds[..|nodeIds| - 1], id) + (if nodeIds[|nodeIds| - 1] == id then 1 else 0)
  }

  /** `getTaskDistribution`: the `nodeId` of every task record, counted per
      node, in the order `Object.values` lists them. */
  function TaskDistribution(nodeIds: seq<string>): (d: map<string, nat>)
    ensures d.Keys == set i | 0 <= i < |nodeIds| :: nodeIds[i]
    ensures forall id | id in d :: d[id] == CountOf(nodeIds, id) && d[id] > 0
    ensures forall id | id !in d :: CountOf(nodeIds, id) == 0
  {
    if |nodeIds| == 0 then map[]
    else
      var prefix := nodeIds[..|nodeIds| - 1];
      var id := nodeIds[|nodeIds| - 1];
      var d := TaskDistribution(prefix);
      assert forall i | 0 <= i < |prefix| :: prefix[i] == nodeIds[i];
      assert (set i | 0 <= i < |nodeIds| :: nodeIds[i]) == (set i | 0 <= i < |prefix| :: prefix[i]) + {id};
      d[id := (if id in d then d[id] else 0) + 1]
  }

  /** The sum of a map's counts. */
  ghost function Total(d: map<string, nat>): nat
    decreases d.Keys
  {
    if d == map[] then 0
    else
      var k :| k in d;
      assert (d - {k}).Keys < d.Keys;
      d[k] + Total(d - {k})
  }

  /** The total does not depend on which key is taken out first. */
  lemma {:induction false} TotalRemove(d: map<string, nat>, k: string)
    requires k in d
    ensures Total(d) == d[k] + Total(d - {k})
    decreases d.Keys
  {
    assert d != map[];
    var j :| j in d && Total(d) == d[j] + Total(d - {j});
    if j != k {
      var dj, dk := d - {j}, d - {k};
      assert dj.Keys < d.Keys && dk.Keys < d.Keys;
      TotalRemove(dj, k);
      TotalRemove(dk, j);
      assert dj - {k} == dk - {j};
    }
  }

  /** Raising one count by one raises the total by one. */
  lemma TotalBump(d: map<string, nat>, k: string)
    ensures Total(d[k := (if k in d then d[k] else 0) + 1]) == Total(d) + 1
  {
    var e := d[k := (if k in d then d[k] else 0) + 1];
    TotalRemove(e, k);
    if k in d {
      TotalRemove(d, k);
      assert e - {k} == d - {k};
    } else {
      assert e - {k} == d;
    }
  }

  /** The counts of the distribution add up to the number of tasks. */
  lemma {:induction false} DistributionTotal(nodeIds: seq<string>)
    ensures Total(TaskDistribution(nodeIds)) == |nodeIds|
  {
    if |nodeIds| > 0 {
      var prefix := nodeIds[..|nodeIds| - 1];
      DistributionTotal(prefix);
      TotalBump(TaskDistribution(prefix), nodeIds[|nodeIds| - 1]);
    }
  }
}

=== FILE: cpp_config.dfy ===
/** The JSON configuration loader of the C++ port (`Config::load`,
    `Config::loadDefault`, `Config::applyDefaults` and the extractors in
    their anonymous namespace).  The extractors search the raw text: a value
    is the text between the first two '"' after the ':' that follows the
    key, numbers are that text read by `std::stoi`/`std::stod`, an array is
    the text up to its first ']', and an element is the text from a '{' to
    the next '}'. */
module CppConfig {
  import opened Wrappers
  import opened Text
  import opened CNumbers
  import opened JsNumber
  import opened StorageTypes
  import CConfig

  // ------------------------------------------------------------ values

  /** `extractStringValue`: the text between the first '"' at or after the
      first ':' that follows the quoted key, and the next '"'; "" when any
      of the four searches fails.  There is no escape handling, so the
      value never holds a '"'. */
  function StringValue(json: string, key: string): (v: string)
    ensures FindFrom(json, CConfig.Quoted(key), 0).None? ==> v == ""
    ensures ':' !in json ==> v == ""
    ensures v != "" ==> exists i :: QuotedAt(json, i, v)
  {
    match FindFrom(json, CConfig.Quoted(key), 0)
    case None => ""
    case Some(keyPos) => ValueAfterKey(json, keyPos)
  }

  /** The value for a key found at keyPos: the quoted text at or after the
      first ':' from there. */
  function ValueAfterKey(json: string, keyPos: nat): (v: string)
    ensures v != "" ==> exists i :: QuotedAt(json, i, v)
  {
    match FindChar(json, ':', keyPos)
    case None => ""
    case Some(colon) => QuotedFrom(json, colon)
  }

  /** The text between the first '"' at or after `from` and the next one;
      "" without two of them. */
  function QuotedFrom(s: string, from: nat): (v: string)
    ensures v != "" ==> exists i :: QuotedAt(s, i, v)
  {
    match FindChar(s, '"', from)
    case None => ""
    case Some(open) =>
      match FindChar(s, '"', open + 1)
      case None => ""
      case Some(close) =>
        assert QuotedAt(s, open + 1, s[open + 1..close]);
        s[open + 1..close]
  }

  /** `v` stands in `s` at offset `i` between two '"'. */
  predicate QuotedAt(s: string, i: int, v: string) {
    0 < i && i + |v| < |s| && s[i - 1] == '"' && s[i + |v|] == '"' && s[i..i + |v|] == v
  }

  /** Without escape handling a value never holds a '"'. */
  lemma ValueHasNoQuote(json: string, key: string)
    ensures '"' !in StringValue(json, key)
  {
    match FindFrom(json, CConfig.Quoted(key), 0)
    case None =>
    case Some(keyPos) =>
      match FindChar(json, ':', keyPos)
      case None =>
      case Some(colon) => QuotedHasNoQuote(json, colon);
  }

  /** The quoted text holds no '"'. */
  lemma QuotedHasNoQuote(s: string, from: nat)
    ensures '"' !in QuotedFrom(s, from)
  {
    match FindChar(s, '"', from)
    case None =>
    case Some(open) =>
      match FindChar(s, '"', open + 1)
      case None =>
      case Some(close) =>
        var v := s[open + 1..close];
        forall k | 0 <= k < |v| ensures v[k] != '"' {
          assert v[k] == s[open + 1 + k];
        }
  }

  /** `extractIntValue`: the value read by `std::stoi`, 0 for an empty value
      and wherever `stoi` throws. */
  function IntValue(json: string, key: string): (n: int)
    ensures INT_MIN <= n <= INT_MAX
    ensures StringValue(json, key) == "" ==> n == 0
  {
    var v := StringValue(json, key);
    if v == "" then 0
    else match Stoi(v)
      case None => 0
      case Some(n) => n
  }

  /** `extractDoubleValue`: the value read by `std::stod`, 0.0 for an empty
      value and wherever `stod` throws. */
  function DoubleValue(json: string, key: string): (x: real)
    ensures StringValue(json, key) == "" ==> x == 0.0
  {
    var v := StringValue(json, key);
    if v == "" then 0.0
    else match Stod(v)
      case None => 0.0
      case Some(x) => x
  }

  /** A written integer holds no '"'. */
  lemma NumeralHasNoQuote(n: int)
    ensures '"' !in IntToString(n)
  {
    var s := IntToString(n);
    var d := NatToString(Abs(n));
    assert IsDigits(d);
    if n < 0 {
      assert s == "-" + d;
      assert forall k | 0 <= k < |s| :: s[k] == '-' || s[k] == d[k - 1];
    } else {
      assert s == d;
    }
  }

  /** The first occurrence of a character is the same from any start
      before it that skips none. */
  lemma FindCharSkip(s: string, c: char, from: nat, i: nat)
    requires from <= i <= |s|
    requires forall k | from <= k < i :: s[k] != c
    ensures FindChar(s, c, from) == FindChar(s, c, i)
  {
    match FindChar(s, c, i)
    case Some(j) =>
      CConfig.FindCharAt(s, c, from, j);
    case None =>
  }

  /** The quoted text is the same from any start before it that skips no
      '"'. */
  lemma QuotedFromSkip(s: string, from: nat, i: nat)
    requires from <= i <= |s|
    requires forall k | from <= k < i :: s[k] != '"'
    ensures QuotedFrom(s, from) == QuotedFrom(s, i)
  {
    FindCharSkip(s, '"', from, i);
  }

  /** A quoted text without '"' at position p is the quoted text from p. */
  lemma QuotedFromAt(s: string, p: nat, v: string, rest: string)
    requires p <= |s| && s[p..] == CConfig.Quoted(v) + rest && '"' !in v
    ensures QuotedFrom(s, p) == v
  {
    CConfig.QuotedLayout(v, rest, CConfig.Quoted(v) + rest);
    assert s[p] == s[p..][0];
    CConfig.SliceOfSuffix(s, p, 1, 1 + |v|);
    assert s[p + 1 + |v|] == s[p..][1 + |v|];
    CConfig.FindCharAt(s, '"', p, p);
    forall k | p + 1 <= k < p + 1 + |v| ensures s[k] != '"' {
      assert s[k] == v[k - p - 1];
    }
    CConfig.FindCharAt(s, '"', p + 1, p + 1 + |v|);
    QuotedFromFound(s, p, p + 1 + |v|);
  }

  /** The quoted text once both quotes are located. */
  lemma QuotedFromFound(s: string, open: nat, close: nat)
    requires FindChar(s, '"', open) == Some(open)
    requires FindChar(s, '"', open + 1) == Some(close)
    ensures QuotedFrom(s, open) == s[open + 1..close]
  {
  }

  /** Without a '"' from `from` on, the quoted text is "". */
  lemma NoQuoteNoText(s: string, from: nat)
    requires forall k | from <= k < |s| :: s[k] != '"'
    ensures QuotedFrom(s, from) == ""
  {
  }

  /** A key preceded by text without '"' is found, and its value is the
      quoted text from the ':' after it. */
  lemma KeyAndColon(open: string, key: string, after: string, json: string, colon: nat)
    requires '"' !in open && ':' !in key
    requires json == open + CConfig.Entry(key, after) && colon == |open| + |key| + 2
    ensures colon < |json| && json[colon] == ':' && json[colon + 1..] == after
    ensures StringValue(json, key) == QuotedFrom(json, colon)
  {
    CConfig.EntryAt(open, key, after, json);
    CConfig.KeyAt(json, |open|, key, after);
    CConfig.ColonAt(json, |open|, key, after);
    KeyValueAt(json, key, |open|, colon);
  }

  /** The value once the key and its colon are located. */
  lemma KeyValueAt(json: string, key: string, keyPos: nat, colon: nat)
    requires FindFrom(json, CConfig.Quoted(key), 0) == Some(keyPos)
    requires FindChar(json, ':', keyPos) == Some(colon)
    ensures StringValue(json, key) == QuotedFrom(json, colon)
  {
  }

  /** A quoted value without '"' reads back as itself. */
  lemma StringOfEntry(open: string, key: string, v: string, rest: string)
    requires '"' !in open && ':' !in key && '"' !in v
    ensures StringValue(open + CConfig.Entry(key, CConfig.Quoted(v) + rest), key) == v
  {
    var after := CConfig.Quoted(v) + rest;
    var json := open + CConfig.Entry(key, after);
    var colon := |open| + |key| + 2;
    KeyAndColon(open, key, after, json, colon);
    QuotedAfterColon(json, colon, v, rest);
  }

  /** A ':' right before a quoted text without '"': the quoted text from
      the ':' is that text. */
  lemma QuotedAfterColon(s: string, colon: nat, v: string, rest: string)
    requires colon < |s| && s[colon] == ':' && s[colon + 1..] == CConfig.Quoted(v) + rest && '"' !in v
    ensures QuotedFrom(s, colon) == v
  {
    QuotedFromSkip(s, colon, colon + 1);
    QuotedFromAt(s, colon + 1, v, rest);
  }

  /** A value that is a written integer is read as that integer. */
  lemma NumeralValue(json: string, key: string, n: int)
    requires StringValue(json, key) == IntToString(n)
    ensures IntValue(json, key) == if INT_MIN <= n <= INT_MAX then n else 0
    ensures DoubleValue(json, key) == n as real
  {
    var s := IntToString(n);
    assert s + "" == s;
    StoiOfNumeral(n, "");
    RealPrefixOfNumeral(n, "");
    assert s != "" by {
      assert |s| > 0;
    }
    assert Stoi(s) == (if INT_MIN <= n <= INT_MAX then Some(n) else None);
    assert Stod(s) == Some(n as real);
  }

  /** An integer written in quotes is read back, when it fits in `int`. */
  lemma QuotedIntegerRead(open: string, key: string, n: int, rest: string)
    requires '"' !in open && ':' !in key
    ensures IntValue(open + CConfig.Entry(key, CConfig.Quoted(IntToString(n)) + rest), key)
            == if INT_MIN <= n <= INT_MAX then n else 0
    ensures DoubleValue(open + CConfig.Entry(key, CConfig.Quoted(IntToString(n)) + rest), key) == n as real
  {
    NumeralHasNoQuote(n);
    StringOfEntry(open, key, IntToString(n), rest);
    NumeralValue(open + CConfig.Entry(key, CConfig.Quoted(IntToString(n)) + rest), key, n);
  }

  /** An integer written without quotes, with no '"' after it, is not read:
      the value is "" and the number 0. */
  lemma UnquotedIntegerNotRead(open: string, key: string, n: int, rest: string)
    requires '"' !in open && ':' !in key && '"' !in rest
    ensures var json := open + CConfig.Entry(key, IntToString(n) + rest);
            StringValue(json, key) == "" && IntValue(json, key) == 0 && DoubleValue(json, key) == 0.0
  {
    var after := IntToString(n) + rest;
    var json := open + CConfig.Entry(key, after);
    var colon := |open| + |key| + 2;
    KeyAndColon(open, key, after, json, colon);
    NumeralHasNoQuote(n);
    assert '"' !in after;
    forall k | colon <= k < |json| ensures json[k] != '"' {
      if k > colon {
        assert json[k] == after[k - colon - 1];
      }
    }
    NoQuoteNoText(json, colon);
  }

  /** An integer written without quotes, followed by another entry, reads
      as the NAME of the next key: `{"baudrate":9600,"parity":"E"}` gives
      "parity" for "baudrate". */
  lemma UnquotedIntegerReadsNextKey(open: string, key: string, n: int, next: string, more: string)
    requires '"' !in open && ':' !in key && '"' !in next
    ensures StringValue(open + CConfig.Entry(key, IntToString(n) + ("," + (CConfig.Quoted(next) + more))), key) == next
  {
    NumeralHasNoQuote(n);
    UnquotedTextReadsNextKey(open, key, IntToString(n), next, more);
  }

  /** The same for any unquoted value text without '"'. */
  lemma UnquotedTextReadsNextKey(open: string, key: string, num: string, next: string, more: string)
    requires '"' !in open && ':' !in key && '"' !in num && '"' !in next
    ensures StringValue(open + CConfig.Entry(key, num + ("," + (CConfig.Quoted(next) + more))), key) == next
  {
    var after := num + ("," + (CConfig.Quoted(next) + more));
    var json := open + CConfig.Entry(key, after);
    var colon := |open| + |key| + 2;
    KeyAndColon(open, key, after, json, colon);
    NextKeyAfterColon(json, colon, num, next, more);
  }

  /** A ':' right before a numeral, a ',' and a quoted text: the quoted text
      from the ':' is that text. */
  lemma NextKeyAfterColon(s: string, colon: nat, num: string, next: string, more: string)
    requires colon < |s| && s[colon] == ':' && s[colon + 1..] == num + ("," + (CConfig.Quoted(next) + more))
    requires '"' !in num && '"' !in next
    ensures QuotedFrom(s, colon) == next
  {
    QuoteAfterNumeral(s, colon + 1, num, next, more);
    QuotedFromSkip(s, colon, colon + 1);
  }

  /** A numeral and a ',' before a quoted text: the quoted text from the
      numeral on is that text. */
  lemma QuoteAfterNumeral(s: string, i: nat, num: string, next: string, more: string)
    requires i <= |s| && s[i..] == num + ("," + (CConfig.Quoted(next) + more))
    requires '"' !in num && '"' !in next
    ensures QuotedFrom(s, i) == next
  {
    var after := s[i..];
    var p := i + |num| + 1;
    assert after[|num| + 1..] == CConfig.Quoted(next) + more;
    assert s[p..] == after[|num| + 1..];
    forall k | i <= k < p ensures s[k] != '"' {
      if k < p - 1 {
        assert s[k] == after[k - i] == num[k - i];
      } else {
        assert s[k] == after[|num|] == ',';
      }
    }
    QuotedFromSkip(s, i, p);
    QuotedFromAt(s, p, next, more);
  }

  /** Without the quoted key every extractor reports nothing. */
  lemma MissingKeyReadsNothing(json: string, key: string)
    requires FindFrom(json, CConfig.Quoted(key), 0).None?
    ensures StringValue(json, key) == "" && IntValue(json, key) == 0 && DoubleValue(json, key) == 0.0
  {
  }

  // ------------------------------------------------------------ arrays

  /** The text of a named array: from after the first '[' that follows the
      quoted name up to the first ']' after it; None when any search
      fails. */
  function ArrayContent(json: string, name: string): (r: Option<string>)
    ensures r.Some? ==> ']' !in r.value
  {
    match FindFrom(json, CConfig.Quoted(name), 0)
    case None => None
    case Some(start) =>
      match FindChar(json, '[', start)
      case None => None
      case Some(open) =>
        match FindChar(json, ']', open)
        case None => None
        case Some(close) => Some(json[open + 1..close])
  }

  /** An element as the loader cuts it: from a '{' to the first '}' after
      it, braces included. */
  predicate ObjectText(o: string) {
    |o| >= 2 && o[0] == '{' && o[|o| - 1] == '}' && '}' !in o[..|o| - 1]
  }

  /** The elements of an array's text in order: each from a '{' to the
      next '}', the search going on after that '}'; a '{' without a '}'
      after it ends the list.  The loop's index into the text is the
      suffix still to be searched. */
  function ObjectsOf(t: string): (objs: seq<string>)
    ensures forall i | 0 <= i < |objs| :: ObjectText(objs[i])
    decreases |t|
  {
    if |t| == 0 then []
    else if t[0] != '{' then ObjectsOf(t[1..])
    else match FindChar(t, '}', 0)
      case None => []
      case Some(e) => [t[..e + 1]] + ObjectsOf(t[e + 1..])
  }

  /** A text without '{' holds no element. */
  lemma {:induction false} NoBraceNoObjects(t: string)
    requires '{' !in t
    ensures ObjectsOf(t) == []
    decreases |t|
  {
    if |t| > 0 {
      NoBraceNoObjects(t[1..]);
    }
  }

  /** An object without '}' inside is cut whole, and the search goes on
      after it. */
  lemma ObjectsHead(b: string, after: string)
    requires '}' !in b
    ensures ObjectsOf(CConfig.Braced(b) + after) == [CConfig.Braced(b)] + ObjectsOf(after)
  {
    var t := CConfig.Braced(b) + after;
    var e := |b| + 1;
    assert t[..e + 1] == CConfig.Braced(b);
    assert t[e + 1..] == after;
    forall k | 0 <= k < e ensures t[k] != '}' {
      if k > 0 {
        assert t[k] == b[k - 1];
      }
    }
    CConfig.FindCharAt(t, '}', 0, e);
  }

  /** The element list of an array of flat objects is its objects, one per
      '{', in order. */
  lemma {:induction false} ObjectsOfFlat(bodies: seq<string>, rest: string)
    requires CConfig.FlatBodies(bodies) && '{' !in rest
    ensures ObjectsOf(CConfig.FlatText(bodies, rest))
            == seq(|bodies|, i requires 0 <= i < |bodies| => CConfig.Braced(bodies[i]))
    decreases |bodies|
  {
    if |bodies| == 0 {
      NoBraceNoObjects(rest);
    } else {
      var after := CConfig.FlatAfter(bodies, rest);
      ObjectsHead(bodies[0], after);
      if |bodies| == 1 {
        NoBraceNoObjects(rest);
      } else {
        CConfig.FlatBodiesTail(bodies);
        ObjectsOfFlat(bodies[1..], rest);
        assert after[1..] == CConfig.FlatText(bodies[1..], rest);
      }
    }
  }

  /** A flat list holds no character that neither its bodies nor its
      tail hold, apart from braces and commas. */
  lemma {:induction false} FlatTextLacks(bodies: seq<string>, rest: string, c: char)
    requires c != '{' && c != '}' && c != ','
    requires forall i | 0 <= i < |bodies| :: c !in bodies[i]
    requires c !in rest
    ensures c !in CConfig.FlatText(bodies, rest)
    decreases |bodies|
  {
    if |bodies| > 0 {
      var head := CConfig.Braced(bodies[0]);
      assert c !in head by {
        assert forall k | 0 <= k < |head| :: head[k] == '{' || head[k] == '}' || head[k] in bodies[0];
      }
      if |bodies| > 1 {
        FlatTextLacks(bodies[1..], rest, c);
      }
    }
  }

  /** An array written after text without '"', whose elements hold no ']',
      has exactly those elements as its text. */
  lemma ArrayOfEntry(open: string, name: string, c: string, tail: string)
    requires '"' !in open && '[' !in name && ']' !in c
    ensures ArrayContent(open + CConfig.Entry(name, "[" + c + "]" + tail), name) == Some(c)
  {
    var after := "[" + c + "]" + tail;
    var json := open + CConfig.Entry(name, after);
    var v := |open| + |name| + 3;
    BracketLayout(c, tail, after);
    CConfig.EntryAt(open, name, after, json);
    CConfig.KeyAt(json, |open|, name, after);
    NoBracketInKey(json, |open|, name, after);
    BracketsAfter(json, v, after, c);
    ArrayAfterKey(json, name, |open|, v, c);
  }

  /** The array text once the key is located at `keyPos` and the elements
      stand between the first '[' after it and the ']' that follows them. */
  lemma ArrayAfterKey(json: string, name: string, keyPos: nat, open: nat, c: string)
    requires FindFrom(json, CConfig.Quoted(name), 0) == Some(keyPos)
    requires keyPos <= open && open + 1 + |c| < |json| && json[open] == '['
    requires forall k | keyPos <= k < open :: json[k] != '['
    requires json[open + 1..open + 1 + |c|] == c && json[open + 1 + |c|] == ']' && ']' !in c
    ensures ArrayContent(json, name) == Some(c)
  {
    BracketedAt(json, open, c);
    ArrayFound(json, name, keyPos, open, open + 1 + |c|);
  }

  /** The array text once the key is located and the first '[' after it
      is at `open`. */
  lemma ArrayFound(json: string, name: string, keyPos: nat, open: nat, close: nat)
    requires FindFrom(json, CConfig.Quoted(name), 0) == Some(keyPos)
    requires keyPos <= open < |json| && json[open] == '['
    requires forall k | keyPos <= k < open :: json[k] != '['
    requires FindChar(json, ']', open) == Some(close)
    ensures ArrayContent(json, name) == Some(json[open + 1..close])
  {
    CConfig.FindCharAt(json, '[', keyPos, open);
  }

  /** Between a key without '[' and the character after its colon there is
      no '['. */
  lemma NoBracketInKey(json: string, p: nat, name: string, after: string)
    requires CConfig.EntryAtPos(json, p, name, after) && '[' !in name
    ensures forall k | p <= k <= p + |name| + 2 :: json[k] != '['
  {
    forall k | p <= k <= p + |name| + 2 ensures json[k] != '[' {
      if k < p + |name| + 2 {
        assert json[k] == CConfig.Quoted(name)[k - p];
        CConfig.QuotedChar(name, k - p);
      }
    }
  }

  /** The value text's brackets at position i of the whole text. */
  lemma BracketsAfter(s: string, i: nat, after: string, c: string)
    requires i <= |s| && s[i..] == after
    requires |c| + 2 <= |after| && after[0] == '[' && after[1..1 + |c|] == c && after[1 + |c|] == ']'
    ensures i + 1 + |c| < |s| && s[i] == '[' && s[i + 1..i + 1 + |c|] == c && s[i + 1 + |c|] == ']'
  {
    assert s[i] == after[0];
    assert s[i + 1 + |c|] == after[1 + |c|];
    CConfig.SliceOfSuffix(s, i, 1, 1 + |c|);
  }

  /** Elements without ']' between a '[' at i and a ']': that ']' is the
      first after i. */
  lemma BracketedAt(s: string, i: nat, c: string)
    requires i + 1 + |c| < |s| && s[i] == '[' && s[i + 1..i + 1 + |c|] == c && s[i + 1 + |c|] == ']'
    requires ']' !in c
    ensures FindChar(s, ']', i) == Some(i + 1 + |c|)
  {
    forall k | i < k < i + 1 + |c| ensures s[k] != ']' {
      assert s[k] == s[i + 1..i + 1 + |c|][k - i - 1];
    }
    CConfig.FindCharAt(s, ']', i, i + 1 + |c|);
  }

  /** The characters of an array text followed by more text. */
  lemma BracketLayout(c: string, tail: string, t: string)
    requires t == "[" + c + "]" + tail
    ensures |t| == |c| + 2 + |tail| && t[0] == '[' && t[1..1 + |c|] == c && t[1 + |c|] == ']'
  {
    assert t[1..1 + |c|] == ("[" + c)[1..];
  }

  // ------------------------------------------------------------ ports and sensors

  datatype PortConfig = PortConfig(name: string, device: string, baudrate: int, dataBits: int,
                                   stopBits: int, parity: char, timeout: real)

  /** `slave_id` is a `uint8_t` and the registers are `uint16_t`. */
  datatype SensorConfig = SensorConfig(name: string, slaveId: nat, tempRegister: nat, humiRegister: nat,
                                       tempScale: real, humiScale: real, portName: string)

  /** The port read from one element: every field from its key, the
      parity as the first character of its value, 'N' when it is empty. */
  function PortOf(obj: string): (p: PortConfig)
    ensures p.parity == 'N' || p.parity in StringValue(obj, "parity")
    ensures StringValue(obj, "parity") == "" ==> p.parity == 'N'
    ensures StringValue(obj, "parity") != "" ==> p.parity == StringValue(obj, "parity")[0]
  {
    var parity := StringValue(obj, "parity");
    PortConfig(StringValue(obj, "name"), StringValue(obj, "port"), IntValue(obj, "baudrate"),
               IntValue(obj, "data_bits"), IntValue(obj, "stop_bits"),
               if parity == "" then 'N' else parity[0], DoubleValue(obj, "timeout"))
  }

  /** `static_cast<uint8_t>`: the value modulo 2^8. */
  function ToUint8(n: int): (r: nat)
    ensures r < 256
    ensures 0 <= n < 256 ==> r == n
    ensures -256 <= n < 0 ==> r == n + 256
  {
    n % 256
  }

  /** `static_cast<uint16_t>`: the value modulo 2^16. */
  function ToUint16(n: int): (r: nat)
    ensures r < 65536
    ensures 0 <= n < 65536 ==> r == n
    ensures -65536 <= n < 0 ==> r == n + 65536
  {
    n % 65536
  }

  /** The sensor read from one element; the slave id and registers are cut
      to their unsigned widths. */
  function SensorOf(obj: string): (s: SensorConfig)
    ensures s.slaveId < 256 && s.tempRegister < 65536 && s.humiRegister < 65536
    ensures 0 <= IntValue(obj, "slave_id") < 256 ==> s.slaveId == IntValue(obj, "slave_id")
  {
    SensorConfig(StringValue(obj, "name"), ToUint8(IntValue(obj, "slave_id")),
                 ToUint16(IntValue(obj, "temp_reg")), ToUint16(IntValue(obj, "humi_reg")),
                 DoubleValue(obj, "temp_scale"), DoubleValue(obj, "humi_scale"), StringValue(obj, "port_name"))
  }

  /** `extractPortArray`: one port per element of the "ports" array, in
      order; none without the array. */
  function PortsIn(json: string): (ps: seq<PortConfig>)
    ensures ArrayContent(json, "ports").None? ==> ps == []
    ensures ArrayContent(json, "ports").Some? ==> |ps| == |ObjectsOf(ArrayContent(json, "ports").value)|
  {
    match ArrayContent(json, "ports")
    case None => []
    case Some(c) =>
      var objs := ObjectsOf(c);
      seq(|objs|, i requires 0 <= i < |objs| => PortOf(objs[i]))
  }

  /** `extractSensorArray`: one sensor per element of the "sensors" array,
      in order. */
  function SensorsIn(json: string): (ss: seq<SensorConfig>)
    ensures ArrayContent(json, "sensors").None? ==> ss == []
    ensures ArrayContent(json, "sensors").Some? ==> |ss| == |ObjectsOf(ArrayContent(json, "sensors").value)|
  {
    match ArrayContent(json, "sensors")
    case None => []
    case Some(c) =>
      var objs := ObjectsOf(c);
      seq(|objs|, i requires 0 <= i < |objs| => SensorOf(objs[i]))
  }

  /** A "ports" array of flat objects gives one port per object, in
      order, each read from its own object. */
  lemma FlatPortsRead(open: string, bodies: seq<string>, tail: string)
    requires '"' !in open && CConfig.FlatBodies(bodies)
    ensures var ps := PortsIn(open + CConfig.Entry("ports", "[" + CConfig.FlatText(bodies, "") + "]" + tail));
            |ps| == |bodies| && forall i | 0 <= i < |bodies| :: ps[i] == PortOf(CConfig.Braced(bodies[i]))
  {
    var c := CConfig.FlatText(bodies, "");
    FlatTextLacks(bodies, "", ']');
    ArrayOfEntry(open, "ports", c, tail);
    ObjectsOfFlat(bodies, "");
  }

  /** A "sensors" array of flat objects gives one sensor per object, in
      order. */
  lemma FlatSensorsRead(open: string, bodies: seq<string>, tail: string)
    requires '"' !in open && CConfig.FlatBodies(bodies)
    ensures var ss := SensorsIn(open + CConfig.Entry("sensors", "[" + CConfig.FlatText(bodies, "") + "]" + tail));
            |ss| == |bodies| && forall i | 0 <= i < |bodies| :: ss[i] == SensorOf(CConfig.Braced(bodies[i]))
  {
    var c := CConfig.FlatText(bodies, "");
    FlatTextLacks(bodies, "", ']');
    ArrayOfEntry(open, "sensors", c, tail);
    ObjectsOfFlat(bodies, "");
  }

  /** A port element without a "parity" key gets 'N', and one whose baud
      rate is written without quotes (and is its last entry) gets 0. */
  lemma PortDefaults(n: int)
    ensures PortOf("{" + CConfig.Entry("baudrate", IntToString(n) + "}")).baudrate == 0
    ensures PortOf("{" + CConfig.Entry("baudrate", IntToString(n) + "}")).parity == 'N'
  {
    var obj := "{" + CConfig.Entry("baudrate", IntToString(n) + "}");
    UnquotedIntegerNotRead("{", "baudrate", n, "}");
    NumeralHasNoQuote(n);
    assert '"' !in IntToString(n) + "}";
    QuotesOfEntry("{", "baudrate", IntToString(n) + "}", obj);
    NoParityKey(obj);
  }

  /** The only '"' of an entry whose parts hold none are its key's quotes. */
  lemma QuotesOfEntry(open: string, key: string, v: string, obj: string)
    requires obj == open + CConfig.Entry(key, v) && '"' !in open && '"' !in key && '"' !in v
    ensures forall k | 0 <= k < |obj| :: obj[k] != '"' || k == |open| || k == |open| + |key| + 1
  {
    CConfig.EntryAt(open, key, v, obj);
    forall k | 0 <= k < |obj| ensures obj[k] != '"' || k == |open| || k == |open| + |key| + 1 {
      if k < |open| {
        assert obj[k] == obj[..|open|][k];
      } else if k < |open| + |key| + 2 {
        assert obj[k] == obj[|open|..|open| + |key| + 2][k - |open|];
        CConfig.QuotedChar(key, k - |open|);
      } else if k > |open| + |key| + 2 {
        assert obj[k] == obj[|open| + |key| + 3..][k - |open| - |key| - 3];
      }
    }
  }

  /** Text holding '"' only at positions 1 and 10 holds no quoted
      "parity". */
  lemma NoParityKey(obj: string)
    requires forall k | 0 <= k < |obj| :: obj[k] != '"' || k == 1 || k == 10
    ensures FindFrom(obj, CConfig.Quoted("parity"), 0).None?
  {
    var q := CConfig.Quoted("parity");
    assert |q| == 8 && q[0] == '"' && q[7] == '"';
    forall k | 0 <= k <= |obj| ensures !MatchAt(obj, k, q) {
      if k + 8 <= |obj| {
        assert obj[k..k + 8][0] == obj[k] && obj[k..k + 8][7] == obj[k + 7];
      }
    }
  }

  // ------------------------------------------------------------ the configuration

  datatype AppConfig = AppConfig(
    ports: seq<PortConfig>,
    readInterval: int,
    sensors: seq<SensorConfig>,
    storage: StorageKind,
    sqlitePath: string,
    influxUrl: string,
    influxToken: string,
    influxOrg: string,
    influxBucket: string,
    csvPath: string)

  /** A configuration before any field is set: no ports or sensors, zero
      interval, storage type `None`, empty paths. */
  const EMPTY_APP: AppConfig := AppConfig([], 0, [], NoStorage, "", "", "", "", "", "")

  /** The port put in an empty list: "COM1" on Windows, "ttyUSB0" on
      "/dev/ttyUSB0" elsewhere, 9600 baud 8N1, one second. */
  function DefaultPort(windows: bool): (p: PortConfig)
    ensures p.baudrate == 9600 && p.dataBits == 8 && p.stopBits == 1 && p.parity == 'N' && p.timeout == 1.0
    ensures p.name != ""
  {
    if windows then PortConfig("COM1", "COM1", 9600, 8, 1, 'N', 1.0)
    else PortConfig("ttyUSB0", "/dev/ttyUSB0", 9600, 8, 1, 'N', 1.0)
  }

  /** The text, or the default when it is empty. */
  function OrDefault(s: string, default: string): (r: string)
    requires default != ""
    ensures r != "" && (s != "" ==> r == s)
  {
    if s == "" then default else s
  }

  /** The scale, or 0.1 when it is zero. */
  function ScaleOrDefault(x: real): (r: real)
    ensures r != 0.0 && (x != 0.0 ==> r == x)
  {
    if x == 0.0 then 0.1 else x
  }

  /** The sensor defaults given the name of the first port. */
  function SensorDefaults(s: SensorConfig, firstPort: string): (t: SensorConfig)
    ensures SensorSettled(t, firstPort)
    ensures t.name == s.name && t.slaveId == s.slaveId
    ensures t.tempRegister == s.tempRegister && t.humiRegister == s.humiRegister
    ensures s.tempScale != 0.0 ==> t.tempScale == s.tempScale
    ensures s.humiScale != 0.0 ==> t.humiScale == s.humiScale
    ensures s.portName != "" ==> t.portName == s.portName
  {
    s.(tempScale := ScaleOrDefault(s.tempScale), humiScale := ScaleOrDefault(s.humiScale),
       portName := if s.portName == "" then firstPort else s.portName)
  }

  /** A sensor the defaults leave alone: non-zero scales, and a port name
      unless the first port has none either. */
  predicate SensorSettled(s: SensorConfig, firstPort: string) {
    s.tempScale != 0.0 && s.humiScale != 0.0 && (s.portName == "" ==> firstPort == "")
  }

  /** A configuration the defaults leave alone. */
  predicate Settled(c: AppConfig) {
    c.ports != [] && c.readInterval != 0
    && (forall i | 0 <= i < |c.sensors| :: SensorSettled(c.sensors[i], c.ports[0].name))
    && c.storage != NoStorage
    && c.sqlitePath != "" && c.csvPath != "" && c.influxUrl != ""
  }

  /** `Config::applyDefaults`: a default port in an empty list, interval 2
      for 0, scale 0.1 for a zero scale, the first port's name for a
      sensor without one, SQLite for `None`, and default SQLite and CSV
      paths and InfluxDB address for empty ones.  Every other field is
      kept. */
  function ApplyDefaults(c: AppConfig, windows: bool): (d: AppConfig)
    ensures Settled(d)
    ensures c.ports != [] ==> d.ports == c.ports
    ensures c.ports == [] ==> d.ports == [DefaultPort(windows)]
    ensures c.readInterval != 0 ==> d.readInterval == c.readInterval
    ensures |d.sensors| == |c.sensors|
    ensures forall i | 0 <= i < |c.sensors| ::
              d.sensors[i] == SensorDefaults(c.sensors[i], d.ports[0].name)
    ensures c.storage != NoStorage ==> d.storage == c.storage
    ensures c.sqlitePath != "" ==> d.sqlitePath == c.sqlitePath
    ensures c.csvPath != "" ==> d.csvPath == c.csvPath
    ensures c.influxUrl != "" ==> d.influxUrl == c.influxUrl
    ensures d.influxToken == c.influxToken && d.influxOrg == c.influxOrg && d.influxBucket == c.influxBucket
  {
    var ports := if c.ports == [] then [DefaultPort(windows)] else c.ports;
    var first := ports[0].name;
    c.(ports := ports,
       readInterval := if c.readInterval == 0 then 2 else c.readInterval,
       sensors := seq(|c.sensors|, i requires 0 <= i < |c.sensors| => SensorDefaults(c.sensors[i], first)),
       storage := if c.storage == NoStorage then SQLite else c.storage,
       sqlitePath := OrDefault(c.sqlitePath, "sensor_data.db"),
       csvPath := OrDefault(c.csvPath, "sensor_data.csv"),
       influxUrl := OrDefault(c.influxUrl, "http://localhost:8086"))
  }

  /** The configurations the defaults leave unchanged are exactly the
      settled ones. */
  lemma SettledIsFixpoint(c: AppConfig, windows: bool)
    ensures ApplyDefaults(c, windows) == c <==> Settled(c)
  {
    var d := ApplyDefaults(c, windows);
    if Settled(c) {
      forall i | 0 <= i < |c.sensors| ensures d.sensors[i] == c.sensors[i] {
        assert SensorSettled(c.sensors[i], c.ports[0].name);
      }
      assert d.sensors == c.sensors;
    }
  }

  /** Applying the defaults twice is applying them once. */
  lemma ApplyDefaultsIdempotent(c: AppConfig, windows: bool)
    ensures ApplyDefaults(ApplyDefaults(c, windows), windows) == ApplyDefaults(c, windows)
  {
    SettledIsFixpoint(ApplyDefaults(c, windows), windows);
  }

  /** The fields read from a file, before the defaults. */
  function RawLoad(json: string): (c: AppConfig)
    ensures c.storage == ParseStorageName(StringValue(json, "storage_type"))
  {
    AppConfig(PortsIn(json), IntValue(json, "read_interval"), SensorsIn(json),
              ParseStorageName(StringValue(json, "storage_type")),
              StringValue(json, "storage_sqlite_path"), StringValue(json, "storage_influxdb_url"),
              StringValue(json, "storage_influxdb_token"), StringValue(json, "storage_influxdb_org"),
              StringValue(json, "storage_influxdb_bucket"), StringValue(json, "storage_csv_path"))
  }

  /** `Config::loadDefault`: the defaults of an empty configuration. */
  function LoadDefault(windows: bool): (c: AppConfig)
    ensures c.ports == [DefaultPort(windows)] && c.readInterval == 2 && c.sensors == []
    ensures c.storage == SQLite && c.sqlitePath == "sensor_data.db" && c.csvPath == "sensor_data.csv"
    ensures c.influxUrl == "http://localhost:8086" && c.influxToken == "" && c.influxOrg == "" && c.influxBucket == ""
  {
    ApplyDefaults(EMPTY_APP, windows)
  }

  /** `Config::load` as written, given the file's text or None when it
      cannot be opened: the defaults pass turns the type `None`, which
      "none" selects, into SQLite, so no file can switch storage off. */
  function LoadAsWritten(file: Option<string>, windows: bool): (c: AppConfig)
    ensures Settled(c) && c.storage != NoStorage
    ensures file.None? ==> c == LoadDefault(windows)
  {
    match file
    case None => LoadDefault(windows)
    case Some(json) => ApplyDefaults(RawLoad(json), windows)
  }

  /** `Config::load` with the type "none" kept: the defaults pass still
      gives SQLite to the unset type of `loadDefault`, but a type read from
      the file stays as read. */
  function Load(file: Option<string>, windows: bool): (c: AppConfig)
    ensures file.None? ==> c == LoadDefault(windows)
    ensures file.Some? ==> c.storage == ParseStorageName(StringValue(file.value, "storage_type"))
  {
    match file
    case None => LoadDefault(windows)
    case Some(json) =>
      var raw := RawLoad(json);
      ApplyDefaults(raw, windows).(storage := raw.storage)
  }

  /** A missing file gives the defaults of an empty configuration, and
      loading twice-defaulted text changes nothing more. */
  lemma MissingFileIsDefault(windows: bool)
    ensures Load(None, windows) == ApplyDefaults(EMPTY_APP, windows)
    ensures LoadAsWritten(None, windows) == ApplyDefaults(EMPTY_APP, windows)
  {
  }

  /** The file `{"storage_type":"none"}` as written selects SQLite; with
      the type kept it selects no storage. */
  lemma NoneStorageAsWritten(windows: bool)
    ensures LoadAsWritten(Some(CConfig.Entry("storage_type", CConfig.Quoted("none"))), windows).storage == SQLite
    ensures Load(Some(CConfig.Entry("storage_type", CConfig.Quoted("none"))), windows).storage == NoStorage
  {
    var json := CConfig.Entry("storage_type", CConfig.Quoted("none"));
    assert json == "" + CConfig.Entry("storage_type", CConfig.Quoted("none") + "");
    StringOfEntry("", "storage_type", "none", "");
  }

  /** The two loaders differ only in the storage type, and only for "none". */
  lemma LoadAgreesElsewhere(json: string, windows: bool)
    ensures Load(Some(json), windows).(storage := SQLite) == LoadAsWritten(Some(json), windows).(storage := SQLite)
    ensures StringValue(json, "storage_type") != "none" ==> Load(Some(json), windows) == LoadAsWritten(Some(json), windows)
  {
  }
}

=== FILE: cpp_sensor_reader.dfy ===
/** The C++ Modbus RTU reader (`SensorReader::Impl`) and its registry of up
    to sixteen named serial ports (`MultiPortReader`).  The serial line is an
    input: whether the 8-byte write went through, and the bytes that arrive
    before the read times out. */
module CppSensorReader {
  import opened Wrappers
  import opened ModbusCrc

  /** Why a read produced no values; each constructor stands for one of the
      reader's error messages. */
  datatype ReadError =
    | NotConnected
    | SendFailed
    | ResponseTimeout
    | SlaveMismatch
    | ExceptionResponse(code: bv8)
    | UnknownFunction
    | BadByteCount
    | PortNotConnected(port: string)
    | PortNotFound(port: string)

  /** The two raw register values of a successful read, before scaling. */
  datatype Raw = Raw(temperature: bv16, humidity: bv16)

  /** One exchange on the serial line: whether `write` sent all 8 bytes, and
      the bytes that arrived within the read timeout. */
  datatype Line = Line(writeOk: bool, received: seq<bv8>)

  /** `sendModbusRequest`: nothing is sent on a closed port; otherwise the
      frame [slave, function, address, count, CRC] goes out. */
  function SendModbusRequest(connected: bool, slave: bv8, func: bv8, address: bv16, count: bv16): (frame: Option<seq<bv8>>)
    ensures frame.Some? <==> connected
    ensures frame.Some? ==>
              |frame.value| == 8 && frame.value[0] == slave && frame.value[1] == func
              && ReadBe16(frame.value[2], frame.value[3]) == address
              && ReadBe16(frame.value[4], frame.value[5]) == count
              && Crc(frame.value) == 0
  {
    RequestFrameFields(slave, func, address, count);
    if connected then Some(RequestFrame(slave, func, address, count)) else None
  }

  /** The request `readRawData` sends: Read Holding Registers, two registers
      from the temperature register. */
  function RawDataRequest(slave: bv8, tempReg: bv16): (frame: seq<bv8>)
    ensures |frame| == 8 && frame[1] == 0x03 && ReadBe16(frame[4], frame[5]) == 2
  {
    RequestFrameFields(slave, 0x03, tempReg, 2);
    RequestFrame(slave, 0x03, tempReg, 2)
  }

  /** The checks `readRawData` applies to a complete 9-byte response, in the
      order the reader makes them.  The CRC bytes 7 and 8 are not looked at. */
  function CheckResponse(slave: bv8, r: seq<bv8>): (res: Result<Raw, ReadError>)
    requires |r| >= 9
    ensures res.Success? <==> r[0] == slave && r[1] == 0x03 && r[2] == 4
    ensures res.Success? ==> res.value == Raw(ReadBe16(r[3], r[4]), ReadBe16(r[5], r[6]))
    ensures res == Failure(SlaveMismatch) <==> r[0] != slave
    ensures res.Failure? && res.error.ExceptionResponse? <==> r[0] == slave && r[1] == 0x83
    ensures res.Failure? && res.error.ExceptionResponse? ==> res.error.code == r[2]
    ensures res == Failure(UnknownFunction) <==> r[0] == slave && r[1] != 0x03 && r[1] != 0x83
    ensures res == Failure(BadByteCount) <==> r[0] == slave && r[1] == 0x03 && r[2] != 4
  {
    if r[0] != slave then Failure(SlaveMismatch)
    else if r[1] != 0x03 then
      (if r[1] == 0x83 then Failure(ExceptionResponse(r[2])) else Failure(UnknownFunction))
    else if r[2] != 4 then Failure(BadByteCount)
    else Success(Raw(ReadBe16(r[3], r[4]), ReadBe16(r[5], r[6])))
  }

  /** `readRawData` as written: it always waits for 9 bytes, the length of a
      normal two-register response, before looking at any of them. */
  function ReadRawDataAsWritten(connected: bool, slave: bv8, tempReg: bv16, humiReg: bv16, line: Line): (res: Result<Raw, ReadError>)
    ensures !connected ==> res == Failure(NotConnected)
    ensures connected && !line.writeOk ==> res == Failure(SendFailed)
    ensures connected && line.writeOk ==>
              res == if |line.received| < 9 then Failure(ResponseTimeout) else CheckResponse(slave, line.received[..9])
  {
    if !connected then Failure(NotConnected)
    else if !line.writeOk then Failure(SendFailed)
    else if |line.received| < 9 then Failure(ResponseTimeout)
    else CheckResponse(slave, line.received[..9])
  }

  /** The exception response of section 7 of the Modbus Application Protocol
      specification for function 0x03: slave, 0x83, exception code, CRC.  It
      is five bytes long. */
  function ExceptionFrame(slave: bv8, code: bv8): (frame: seq<bv8>)
    ensures |frame| == 5 && frame[0] == slave && frame[1] == 0x83 && frame[2] == code
  {
    WithCrc([slave, 0x83, code])
  }

  /** The exception branch of the reader as written cannot be reached by a
      device that answers with a well-formed exception response: the five
      bytes never make up the nine the reader waits for, and the read ends in
      a timeout. */
  lemma ExceptionFrameTimesOut(slave: bv8, code: bv8, tempReg: bv16, humiReg: bv16)
    ensures ReadRawDataAsWritten(true, slave, tempReg, humiReg, Line(true, ExceptionFrame(slave, code)))
            == Failure(ResponseTimeout)
  {
  }

  /** `readRawData` with the exception response read at its own length: once
      five bytes are in and byte 1 is 0x83 the answer is complete; any other
      answer is read to nine bytes and checked as before. */
  function ReadRawData(connected: bool, slave: bv8, tempReg: bv16, humiReg: bv16, line: Line): (res: Result<Raw, ReadError>)
    ensures !connected ==> res == Failure(NotConnected)
    ensures connected && !line.writeOk ==> res == Failure(SendFailed)
    ensures res.Success? ==> |line.received| >= 9 && res == CheckResponse(slave, line.received[..9])
  {
    if !connected then Failure(NotConnected)
    else if !line.writeOk then Failure(SendFailed)
    else if |line.received| < 5 then Failure(ResponseTimeout)
    else if line.received[1] == 0x83 then
      (if line.received[0] != slave then Failure(SlaveMismatch) else Failure(ExceptionResponse(line.received[2])))
    else if |line.received| < 9 then Failure(ResponseTimeout)
    else CheckResponse(slave, line.received[..9])
  }

  /** The corrected reader reports the exception code of a well-formed
      exception response. */
  lemma ExceptionFrameReported(slave: bv8, code: bv8, tempReg: bv16, humiReg: bv16)
    ensures ReadRawData(true, slave, tempReg, humiReg, Line(true, ExceptionFrame(slave, code)))
            == Failure(ExceptionResponse(code))
  {
  }

  /** Whenever nine bytes arrive, the corrected reader and the reader as
      written give the same result. */
  lemma CorrectionAgreesOnFullResponses(connected: bool, slave: bv8, tempReg: bv16, humiReg: bv16, line: Line)
    requires |line.received| >= 9
    ensures ReadRawData(connected, slave, tempReg, humiReg, line)
            == ReadRawDataAsWritten(connected, slave, tempReg, humiReg, line)
  {
  }

  /** A normal response from the addressed slave is decoded to the register
      values the slave encoded. */
  lemma ReadRawDataRoundTrip(slave: bv8, tempReg: bv16, humiReg: bv16, temperature: bv16, humidity: bv16)
    ensures ReadRawData(true, slave, tempReg, humiReg, Line(true, TwoRegisterResponse(slave, temperature, humidity)))
            == Success(Raw(temperature, humidity))
  {
    TwoRegisterResponseFields(slave, temperature, humidity);
    assert TwoRegisterResponse(slave, temperature, humidity)[..9] == TwoRegisterResponse(slave, temperature, humidity);
  }

  /** The reader never inspects the CRC: a response whose two CRC bytes are
      replaced by anything gives the same result. */
  lemma CrcNeverChecked(connected: bool, slave: bv8, tempReg: bv16, humiReg: bv16, writeOk: bool,
                        received: seq<bv8>, lo: bv8, hi: bv8)
    requires |received| == 9
    ensures ReadRawData(connected, slave, tempReg, humiReg, Line(writeOk, received))
            == ReadRawData(connected, slave, tempReg, humiReg, Line(writeOk, received[..7] + [lo, hi]))
  {
    var other := received[..7] + [lo, hi];
    assert other[..9][..7] == received[..9][..7];
  }

  /** The humidity register argument plays no part: the values come from the
      two registers starting at the temperature register. */
  lemma HumidityRegisterUnused(connected: bool, slave: bv8, tempReg: bv16, h1: bv16, h2: bv16, line: Line)
    ensures ReadRawData(connected, slave, tempReg, h1, line) == ReadRawData(connected, slave, tempReg, h2, line)
  {
  }

  // ------------------------------------------------------------ registry

  /** One registered port: its name and whether its reader is connected. */
  datatype Port = Port(name: string, device: string, connected: bool)

  /** A sensor to read: slave address, registers and the name of its port. */
  datatype Sensor = Sensor(name: string, slave: bv8, tempReg: bv16, humiReg: bv16, portName: string)

  /** One entry of `readAllSensors`' result. */
  datatype Reading = Reading(name: string, slave: bv8, result: Result<Raw, ReadError>)

  const MAX_PORTS: nat := 16

  /** `addPort`: refuses once 16 ports are registered; a repeated name is
      accepted and shadowed by the earlier port. */
  function AddPort(ports: seq<Port>, name: string, device: string): (r: (seq<Port>, bool))
    ensures r.1 <==> |ports| < 16
    ensures r.1 ==> r.0 == ports + [Port(name, device, false)]
    ensures !r.1 ==> r.0 == ports
  {
    if |ports| >= 16 then (ports, false) else (ports + [Port(name, device, false)], true)
  }

  /** The first port registered under `name`, as the linear scans find it. */
  function FindPort(ports: seq<Port>, name: string): (i: Option<nat>)
    ensures i.Some? ==> i.value < |ports| && ports[i.value].name == name
                        && forall j :: 0 <= j < i.value ==> ports[j].name != name
    ensures i.None? ==> forall j :: 0 <= j < |ports| ==> ports[j].name != name
  {
    if |ports| == 0 then None
    else if ports[0].name == name then Some(0)
    else match FindPort(ports[1..], name)
      case None => None
      case Some(k) => Some(k + 1)
  }

  /** `readAllSensors` for one sensor, as written: a connected port reads
      through `readRawData` as written. */
  function ReadOne(ports: seq<Port>, s: Sensor, line: Line): (r: Reading)
    ensures r.name == s.name && r.slave == s.slave
    ensures FindPort(ports, s.portName).None? ==> r.result == Failure(PortNotFound(s.portName))
    ensures FindPort(ports, s.portName).Some? && !ports[FindPort(ports, s.portName).value].connected
            ==> r.result == Failure(PortNotConnected(s.portName))
    ensures FindPort(ports, s.portName).Some? && ports[FindPort(ports, s.portName).value].connected
            ==> r.result == ReadRawDataAsWritten(true, s.slave, s.tempReg, s.humiReg, line)
    ensures r.result.Success? ==> FindPort(ports, s.portName).Some? && ports[FindPort(ports, s.portName).value].connected
  {
    match FindPort(ports, s.portName)
    case None => Reading(s.name, s.slave, Failure(PortNotFound(s.portName)))
    case Some(i) =>
      if ports[i].connected then Reading(s.name, s.slave, ReadRawDataAsWritten(true, s.slave, s.tempReg, s.humiReg, line))
      else Reading(s.name, s.slave, Failure(PortNotConnected(s.portName)))
  }

  /** `MultiPortReader::readAllSensors` as written: one reading per sensor,
      in order. */
  function ReadAllSensors(ports: seq<Port>, sensors: seq<Sensor>, lines: seq<Line>): (rs: seq<Reading>)
    requires |lines| == |sensors|
    ensures |rs| == |sensors|
    ensures forall k :: 0 <= k < |sensors| ==> rs[k] == ReadOne(ports, sensors[k], lines[k])
  {
    if |sensors| == 0 then []
    else [ReadOne(ports, sensors[0], lines[0])] + ReadAllSensors(ports, sensors[1..], lines[1..])
  }

  /** `readAllSensors` for one sensor with the corrected `readRawData`. */
  function ReadOneCorrected(ports: seq<Port>, s: Sensor, line: Line): (r: Reading)
    ensures r.name == s.name && r.slave == s.slave
    ensures FindPort(ports, s.portName).None? ==> r.result == Failure(PortNotFound(s.portName))
    ensures FindPort(ports, s.portName).Some? && !ports[FindPort(ports, s.portName).value].connected
            ==> r.result == Failure(PortNotConnected(s.portName))
    ensures FindPort(ports, s.portName).Some? && ports[FindPort(ports, s.portName).value].connected
            ==> r.result == ReadRawData(true, s.slave, s.tempReg, s.humiReg, line)
  {
    match FindPort(ports, s.portName)
    case None => Reading(s.name, s.slave, Failure(PortNotFound(s.portName)))
    case Some(i) =>
      if ports[i].connected then Reading(s.name, s.slave, ReadRawData(true, s.slave, s.tempReg, s.humiReg, line))
      else Reading(s.name, s.slave, Failure(PortNotConnected(s.portName)))
  }

  /** `readAllSensors` with the corrected `readRawData`. */
  function ReadAllSensorsCorrected(ports: seq<Port>, sensors: seq<Sensor>, lines: seq<Line>): (rs: seq<Reading>)
    requires |lines| == |sensors|
    ensures |rs| == |sensors|
    ensures forall k :: 0 <= k < |sensors| ==> rs[k] == ReadOneCorrected(ports, sensors[k], lines[k])
  {
    if |sensors| == 0 then []
    else [ReadOneCorrected(ports, sensors[0], lines[0])] + ReadAllSensorsCorrected(ports, sensors[1..], lines[1..])
  }

  /** The two registries read the same values whenever every answer is at
      least nine bytes long. */
  lemma RegistriesAgreeOnFullResponses(ports: seq<Port>, sensors: seq<Sensor>, lines: seq<Line>)
    requires |lines| == |sensors|
    requires forall k :: 0 <= k < |lines| ==> |lines[k].received| >= 9
    ensures ReadAllSensors(ports, sensors, lines) == ReadAllSensorsCorrected(ports, sensors, lines)
  {
    var w := ReadAllSensors(ports, sensors, lines);
    var c := ReadAllSensorsCorrected(ports, sensors, lines);
    forall k | 0 <= k < |sensors| ensures w[k] == c[k] {
      var s := sensors[k];
      CorrectionAgreesOnFullResponses(true, s.slave, s.tempReg, s.humiReg, lines[k]);
    }
  }

  /** On a registered, connected port a slave's exception answer is a
      timeout for the registry as written and the exception code for the
      corrected one. */
  lemma RegistryExceptionAnswer(ports: seq<Port>, s: Sensor, code: bv8)
    requires FindPort(ports, s.portName).Some? && ports[FindPort(ports, s.portName).value].connected
    ensures ReadOne(ports, s, Line(true, ExceptionFrame(s.slave, code))).result == Failure(ResponseTimeout)
    ensures ReadOneCorrected(ports, s, Line(true, ExceptionFrame(s.slave, code))).result
            == Failure(ExceptionResponse(code))
  {
    ExceptionFrameTimesOut(s.slave, code, s.tempReg, s.humiReg);
    ExceptionFrameReported(s.slave, code, s.tempReg, s.humiReg);
  }

  /** `isPortConnected`: the connection flag of the first port with that
      name, and false for an unknown name. */
  function IsPortConnected(ports: seq<Port>, name: string): (b: bool)
    ensures b <==> exists i :: 0 <= i < |ports| && ports[i].name == name && ports[i].connected
                              && forall j :: 0 <= j < i ==> ports[j].name != name
  {
    match FindPort(ports, name)
    case None => false
    case Some(i) => ports[i].connected
  }

  /** A sensor on a port that `isPortConnected` reports as down never gets
      values. */
  lemma DownPortGivesNoValues(ports: seq<Port>, s: Sensor, line: Line)
    requires !IsPortConnected(ports, s.portName)
    ensures ReadOne(ports, s, line).result.Failure?
  {
  }
}

=== FILE: cpp_storage.dfy ===
/** The storage layer of the C++ port (`data_storage.cpp`): the SQL string
    escaping of `SQLiteStorage`, the tag escaping of `InfluxDBStorage`, the
    two `saveBatch` writers and `StorageFactory`.  Whether a database opens
    or a write succeeds is a parameter; the stores are sequences of the
    records they hold. */
module CppStorage {
  import opened Wrappers
  import opened StorageTypes
  import CppConfig
  import Text

  /** The part of a `SensorRecord` the stores keep. */
  datatype Record = Record(sensorName: string, slaveId: int, temperature: real, humidity: real)

  const QUOTE: char := '\''

  /** The number of single quotes in a text. */
  function QuoteCount(s: string): nat {
    if |s| == 0 then 0 else (if s[0] == QUOTE then 1 else 0) + QuoteCount(s[1..])
  }

  /** `escapeString`: every single quote doubled, every other character
      copied, in order. */
  function EscapeString(s: string): (r: string)
    ensures |r| == |s| + QuoteCount(s)
  {
    if |s| == 0 then ""
    else (if s[0] == QUOTE then [QUOTE, QUOTE] else [s[0]]) + EscapeString(s[1..])
  }

  /** Text in which single quotes only come in adjacent pairs, as in an SQL
      string literal's body. */
  predicate QuotesPaired(t: string)
    decreases |t|
  {
    if |t| == 0 then true
    else if t[0] == QUOTE then |t| >= 2 && t[1] == QUOTE && QuotesPaired(t[2..])
    else QuotesPaired(t[1..])
  }

  /** Reading an SQL string literal's body: each doubled quote stands for
      one quote. */
  function CollapseQuotes(t: string): (s: string)
    ensures |s| <= |t|
    decreases |t|
  {
    if |t| == 0 then ""
    else if |t| >= 2 && t[0] == QUOTE && t[1] == QUOTE then [QUOTE] + CollapseQuotes(t[2..])
    else [t[0]] + CollapseQuotes(t[1..])
  }

  /** The escaped text is a well-formed literal body, and reading it gives
      the input back. */
  lemma {:induction false} EscapeStringRoundTrip(s: string)
    ensures QuotesPaired(EscapeString(s))
    ensures CollapseQuotes(EscapeString(s)) == s
    decreases |s|
  {
    if |s| > 0 {
      var rest := EscapeString(s[1..]);
      EscapeStringRoundTrip(s[1..]);
      if s[0] == QUOTE {
        assert EscapeString(s) == [QUOTE, QUOTE] + rest;
        assert ([QUOTE, QUOTE] + rest)[2..] == rest;
      } else {
        assert EscapeString(s) == [s[0]] + rest;
        assert ([s[0]] + rest)[1..] == rest;
      }
    }
  }

  /** Every well-formed literal body is the escaping of what it reads as,
      so escaping loses nothing and adds nothing. */
  lemma {:induction false} CollapseQuotesRoundTrip(t: string)
    requires QuotesPaired(t)
    ensures EscapeString(CollapseQuotes(t)) == t
    decreases |t|
  {
    if |t| > 0 {
      if t[0] == QUOTE {
        CollapseQuotesRoundTrip(t[2..]);
        var c := CollapseQuotes(t[2..]);
        assert ([QUOTE] + c)[1..] == c;
        assert t == [QUOTE, QUOTE] + t[2..];
      } else {
        CollapseQuotesRoundTrip(t[1..]);
        var c := CollapseQuotes(t[1..]);
        assert ([t[0]] + c)[1..] == c;
        assert t == [t[0]] + t[1..];
      }
    }
  }

  /** The characters `escapeTagValue` protects. */
  predicate TagSpecial(c: char) {
    c == ' ' || c == ',' || c == '='
  }

  /** The number of protected characters in a text. */
  function SpecialCount(s: string): nat {
    if |s| == 0 then 0 else (if TagSpecial(s[0]) then 1 else 0) + SpecialCount(s[1..])
  }

  /** `escapeTagValue`: a backslash before every space, comma and '=', and
      every character copied in order. */
  function EscapeTagValue(s: string): (r: string)
    ensures |r| == |s| + SpecialCount(s)
    ensures |r| > 0 ==> !TagSpecial(r[0])
  {
    if |s| == 0 then ""
    else (if TagSpecial(s[0]) then ['\\', s[0]] else [s[0]]) + EscapeTagValue(s[1..])
  }

  /** Reading a tag value: a backslash before a protected character stands
      for that character. */
  function UnescapeTagValue(t: string): (s: string)
    ensures |s| <= |t|
    decreases |t|
  {
    if |t| == 0 then ""
    else if |t| >= 2 && t[0] == '\\' && TagSpecial(t[1]) then [t[1]] + UnescapeTagValue(t[2..])
    else [t[0]] + UnescapeTagValue(t[1..])
  }

  /** Reading an escaped tag value gives the input back; a backslash of the
      input is never taken for an escape, because what follows it in the
      output is never a protected character. */
  lemma {:induction false} EscapeTagRoundTrip(s: string)
    ensures UnescapeTagValue(EscapeTagValue(s)) == s
    decreases |s|
  {
    if |s| > 0 {
      var rest := EscapeTagValue(s[1..]);
      EscapeTagRoundTrip(s[1..]);
      if TagSpecial(s[0]) {
        assert EscapeTagValue(s) == ['\\', s[0]] + rest;
        assert (['\\', s[0]] + rest)[2..] == rest;
      } else {
        assert EscapeTagValue(s) == [s[0]] + rest;
        assert ([s[0]] + rest)[1..] == rest;
      }
    }
  }

  /** Every space, comma or '=' of a text follows a backslash. */
  predicate Protected(r: string) {
    forall i | 0 <= i < |r| && TagSpecial(r[i]) :: i > 0 && r[i - 1] == '\\'
  }

  /** The escaped value has no unprotected separator. */
  lemma {:induction false} EscapedTagProtected(s: string)
    ensures Protected(EscapeTagValue(s))
    decreases |s|
  {
    if |s| > 0 {
      var rest := EscapeTagValue(s[1..]);
      EscapedTagProtected(s[1..]);
      var head := if TagSpecial(s[0]) then ['\\', s[0]] else [s[0]];
      var r := head + rest;
      assert r == EscapeTagValue(s);
      assert |rest| > 0 ==> !TagSpecial(rest[0]);
      assert !TagSpecial(head[0]) && (|head| == 2 ==> head[0] == '\\');
      forall i | 0 <= i < |r| && TagSpecial(r[i]) ensures i > 0 && r[i - 1] == '\\' {
        if i < |head| {
          assert r[i] == head[i];
          assert i == 1;
        } else {
          var j := i - |head|;
          assert r[i] == rest[j];
          assert Protected(rest);
          assert j > 0 && rest[j - 1] == '\\';
          assert r[i - 1] == rest[j - 1];
        }
      }
    }
  }

  /** The records of a batch whose writes succeed, in order: `saved(k)`
      says whether record `from + k` was written. */
  function Written(records: seq<Record>, saved: nat -> bool, from: nat): (w: seq<Record>)
    requires from <= |records|
    ensures |w| <= |records| - from
    ensures forall k | from <= k < |records| && saved(k) :: records[k] in w
    ensures forall x | x in w :: exists k | from <= k < |records| && saved(k) :: x == records[k]
    decreases |records| - from
  {
    if from == |records| then []
    else
      var head := if saved(from) then [records[from]] else [];
      var rest := Written(records, saved, from + 1);
      assert forall x | x in head + rest :: x in head || x in rest;
      head + rest
  }

  /** When every write succeeds, every record is written; when none does,
      none is. */
  lemma {:induction false} WrittenAllOrNone(records: seq<Record>, saved: nat -> bool, from: nat)
    requires from <= |records|
    ensures (forall k | from <= k < |records| :: saved(k)) ==> Written(records, saved, from) == records[from..]
    ensures (forall k | from <= k < |records| :: !saved(k)) ==> Written(records, saved, from) == []
    decreases |records| - from
  {
    if from < |records| {
      WrittenAllOrNone(records, saved, from + 1);
      assert records[from..] == [records[from]] + records[from + 1..];
    }
  }

  /** `SQLiteStorage::saveBatch`: false for a closed database or an empty
      batch; otherwise every record is tried (there is no transaction and
      no early stop) and the result is true iff every write succeeded. */
  function SqliteSaveBatch(dbOpen: bool, table: seq<Record>, records: seq<Record>, saved: nat -> bool)
    : (r: (seq<Record>, bool))
    ensures r.1 <==> dbOpen && |records| > 0 && forall k | 0 <= k < |records| :: saved(k)
    ensures !dbOpen || |records| == 0 ==> r.0 == table
    ensures r.1 ==> r.0 == table + records
    ensures |table| <= |r.0| <= |table| + |records| && r.0[..|table|] == table
  {
    if !dbOpen || |records| == 0 then (table, false)
    else
      WrittenAllOrNone(records, saved, 0);
      (table + Written(records, saved, 0), forall k | 0 <= k < |records| :: saved(k))
  }

  /** A batch some of whose writes fail is still tried to the end: on an
      open database every record whose write succeeds is added after the
      old rows, wherever the failures are, and only such records are. */
  lemma SqliteBatchNoEarlyStop(table: seq<Record>, records: seq<Record>, saved: nat -> bool)
    requires |records| > 0
    ensures var added := SqliteSaveBatch(true, table, records, saved).0[|table|..];
            && (forall k | 0 <= k < |records| && saved(k) :: records[k] in added)
            && (forall x | x in added :: exists k | 0 <= k < |records| && saved(k) :: x == records[k])
  {
    var r := SqliteSaveBatch(true, table, records, saved).0;
    assert r[|table|..] == Written(records, saved, 0);
  }

  /** The smallest case: the first of two writes fails, the second is still
      made, and the batch answers false. */
  lemma FailedFirstWriteStillWritesSecond(table: seq<Record>, a: Record, b: Record)
    ensures SqliteSaveBatch(true, table, [a, b], k => k == 1) == (table + [b], false)
  {
    var saved: nat -> bool := k => k == 1;
    var records := [a, b];
    assert Written(records, saved, 2) == [];
    assert Written(records, saved, 1) == [b];
    assert Written(records, saved, 0) == [b];
    assert !saved(0);
  }

  /** `CSVStorage::saveBatch`: `opens` says whether the file opens for
      appending.  An empty batch is true without opening the file; otherwise
      all records are appended, or false when the file does not open. */
  function CsvSaveBatch(file: seq<Record>, records: seq<Record>, opens: bool): (r: (seq<Record>, bool))
    ensures |records| == 0 ==> r == (file, true)
    ensures |records| > 0 ==> (r.1 <==> opens)
    ensures r.1 ==> r.0 == file + records
    ensures !r.1 ==> r.0 == file
  {
    if |records| == 0 then (file, true)
    else if !opens then (file, false)
    else (file + records, true)
  }

  /** The two writers disagree on an empty batch: SQLite reports failure
      and CSV success, whatever the state of the database or file. */
  lemma EmptyBatchAnswers(dbOpen: bool, table: seq<Record>, opens: bool, saved: nat -> bool)
    ensures !SqliteSaveBatch(dbOpen, table, [], saved).1
    ensures CsvSaveBatch(table, [], opens).1
  {
  }

  /** A store `StorageFactory::create` builds. */
  datatype Store =
    | SQLiteStore(dbPath: string)
    | CsvStore(filePath: string)
    | InfluxStore(url: string, token: string, org: string, bucket: string)

  /** The storage type of a store. */
  function KindOf(s: Store): (t: StorageKind)
    ensures t != NoStorage
  {
    match s
    case SQLiteStore(_) => SQLite
    case CsvStore(_) => CSV
    case InfluxStore(_, _, _, _) => InfluxDB
  }

  /** `StorageFactory::create`: `sqliteInitializes` says whether
      `initialize` succeeds, and `influxCompiled` whether the program was
      built with `ENABLE_INFLUXDB`. */
  function Create(kind: StorageKind, config: CppConfig.AppConfig, sqliteInitializes: bool, influxCompiled: bool)
    : (r: Option<Store>)
    ensures r.None? <==> kind == NoStorage || (kind == SQLite && !sqliteInitializes)
                         || (kind == InfluxDB && !influxCompiled)
    ensures r.Some? ==> KindOf(r.value) == kind
    ensures r.Some? && r.value.SQLiteStore? ==> r.value.dbPath == config.sqlitePath
    ensures r.Some? && r.value.CsvStore? ==> r.value.filePath == config.csvPath
  {
    match kind
    case SQLite => if sqliteInitializes then Some(SQLiteStore(config.sqlitePath)) else None
    case CSV => Some(CsvStore(config.csvPath))
    case InfluxDB =>
      if influxCompiled
      then Some(InfluxStore(config.influxUrl, config.influxToken, config.influxOrg, config.influxBucket))
      else None
    case NoStorage => None
  }

  /** The display name of a built store names its type: lower-cased, it is
      the configuration spelling of that type. */
  lemma CreatedStoreNamed(kind: StorageKind, config: CppConfig.AppConfig, sqliteInitializes: bool, influxCompiled: bool)
    requires Create(kind, config, sqliteInitializes, influxCompiled).Some?
    ensures var s := Create(kind, config, sqliteInitializes, influxCompiled).value;
            ParseStorageName(Text.Lower(StorageName(KindOf(s)))) == kind
  {
    ParseLoweredName(kind);
  }
}

=== FILE: device_init.dfy ===
/** The register encodings of the device initializer tool
    (`ModbusDeviceInitializer`): dotted IPv4 text to two 16-bit holding
    registers and back, the baud-rate code table, and the connection guard in
    front of every register access.  The Modbus client is not modelled: an
    operation that gets past its checks yields the request it hands to the
    client.  A part of the dotted text that `parseInt` cannot read is NaN,
    written `None`. */
module DeviceInitializer {
  import opened Wrappers
  import opened Text
  import opened JsNumber

  /** What reaches the Modbus client. */
  datatype Request =
    | ReadRegisters(address: int, count: int)
    | WriteRegister(address: int, value: int)
    | WriteRegisters(address: int, values: seq<int>)

  datatype InitError = NotConnected | InvalidAddress | UnsupportedBaudRate(rate: int)

  // ------------------------------------------------------------ connection guard

  /** Every register access first refuses when no connection was made. */
  function Guarded(connected: bool, req: Request): (r: Result<Request, InitError>)
    ensures r.Success? <==> connected
    ensures r.Success? ==> r.value == req
    ensures r.Failure? ==> r.error == NotConnected
  {
    if !connected then Failure(NotConnected) else Success(req)
  }

  function ReadHoldingRegisters(connected: bool, address: int, count: int): Result<Request, InitError> {
    Guarded(connected, ReadRegisters(address, count))
  }

  function WriteSingleRegister(connected: bool, address: int, value: int): Result<Request, InitError> {
    Guarded(connected, WriteRegister(address, value))
  }

  function WriteMultipleRegisters(connected: bool, address: int, values: seq<int>): Result<Request, InitError> {
    Guarded(connected, WriteRegisters(address, values))
  }

  /** `setSlaveId`: the new id goes out unchanged as one register write. */
  function SetSlaveId(connected: bool, register: int, slaveId: int): (r: Result<Request, InitError>)
    ensures connected ==> r == Success(WriteRegister(register, slaveId))
    ensures !connected ==> r == Failure(NotConnected)
  {
    WriteSingleRegister(connected, register, slaveId)
  }

  /** Reads, single writes and multiple writes all fail on a device that was
      never connected, whatever their arguments. */
  lemma DisconnectedAccessFails(address: int, count: int, value: int, values: seq<int>)
    ensures ReadHoldingRegisters(false, address, count) == Failure(NotConnected)
    ensures WriteSingleRegister(false, address, value) == Failure(NotConnected)
    ensures WriteMultipleRegisters(false, address, values) == Failure(NotConnected)
  {
  }

  // ------------------------------------------------------------ baud rates

  /** The supported rates; a rate's position is its device code. */
  const BAUD_RATES: seq<int> := [2400, 4800, 9600, 19200, 38400, 57600, 115200]

  /** The `baudRateMap` lookup of `setBaudRate`. */
  function BaudCode(rate: int): (code: Option<int>)
    ensures code.Some? <==> rate in BAUD_RATES
    ensures code.Some? ==> 0 <= code.value < |BAUD_RATES| && BAUD_RATES[code.value] == rate
  {
    if rate == 2400 then Some(0)
    else if rate == 4800 then Some(1)
    else if rate == 9600 then Some(2)
    else if rate == 19200 then Some(3)
    else if rate == 38400 then Some(4)
    else if rate == 57600 then Some(5)
    else if rate == 115200 then Some(6)
    else None
  }

  /** `setBaudRate`: an unsupported rate is refused before the connection is
      looked at; a supported one writes its code. */
  function SetBaudRate(connected: bool, register: int, rate: int): (r: Result<Request, InitError>)
    ensures rate !in BAUD_RATES ==> r == Failure(UnsupportedBaudRate(rate))
    ensures rate in BAUD_RATES && !connected ==> r == Failure(NotConnected)
    ensures rate in BAUD_RATES && connected ==>
              r.Success? && r.value.WriteRegister? && r.value.address == register
              && 0 <= r.value.value < |BAUD_RATES| && BAUD_RATES[r.value.value] == rate
  {
    match BaudCode(rate)
    case None => Failure(UnsupportedBaudRate(rate))
    case Some(code) => WriteSingleRegister(connected, register, code)
  }

  /** The reverse table of `decodeBaudRate`. */
  function RateOfCode(value: int): (rate: Option<int>)
    ensures rate.Some? <==> 0 <= value < |BAUD_RATES|
  {
    if value == 0 then Some(2400)
    else if value == 1 then Some(4800)
    else if value == 2 then Some(9600)
    else if value == 3 then Some(19200)
    else if value == 4 then Some(38400)
    else if value == 5 then Some(57600)
    else if value == 6 then Some(115200)
    else None
  }

  /** `decodeBaudRate`: `map[value] || value`, the table's rate when there is
      one and it is truthy (all are), otherwise the register value itself. */
  function DecodeBaudRate(value: int): (rate: int)
    ensures 0 <= value < |BAUD_RATES| ==> rate == BAUD_RATES[value]
    ensures !(0 <= value < |BAUD_RATES|) ==> rate == value
  {
    var mapped := RateOfCode(value);
    if mapped.Some? && mapped.value != 0 then mapped.value else value
  }

  /** Decoding the code written for a supported rate gives that rate back. */
  lemma BaudRateRoundTrip(rate: int)
    requires rate in BAUD_RATES
    ensures BaudCode(rate).Some? && DecodeBaudRate(BaudCode(rate).value) == rate
  {
  }

  /** Every code 0..6 decodes to a supported rate whose code it is. */
  lemma BaudCodeRoundTrip(code: int)
    requires 0 <= code < |BAUD_RATES|
    ensures BaudCode(DecodeBaudRate(code)) == Some(code)
  {
  }

  // ------------------------------------------------------------ dotted addresses

  /** `xs.map(f)`. */
  function MapEach<A, B>(f: A -> B, xs: seq<A>): (ys: seq<B>)
    ensures |ys| == |xs|
    ensures forall i :: 0 <= i < |xs| ==> ys[i] == f(xs[i])
  {
    seq(|xs|, i requires 0 <= i < |xs| => f(xs[i]))
  }

  /** Mapping over four elements gives the four images. */
  lemma MapFour<A, B>(f: A -> B, x0: A, x1: A, x2: A, x3: A)
    ensures MapEach(f, [x0, x1, x2, x3]) == [f(x0), f(x1), f(x2), f(x3)]
  {
    var ys := MapEach(f, [x0, x1, x2, x3]);
    assert ys[0] == f(x0) && ys[1] == f(x1) && ys[2] == f(x2) && ys[3] == f(x3);
  }

  /** `text.split('.').map(p => parseInt(p))`. */
  function Parts(text: string): (parts: seq<Option<int>>)
    ensures |parts| == |Split(text, '.')|
    ensures forall i :: 0 <= i < |parts| ==> parts[i] == ParseInt(Split(text, '.')[i])
  {
    MapEach(ParseInt, Split(text, '.'))
  }

  /** `p < 0 || p > 255`: both comparisons are false for NaN. */
  predicate OutOfRange(p: Option<int>) {
    p.Some? && (p.value < 0 || p.value > 255)
  }

  /** The validation shared by `setIPAddress`, `setSubnetMask` and
      `setGateway`: exactly four parts, none of them a number outside 0..255. */
  predicate ValidParts(parts: seq<Option<int>>) {
    |parts| == 4 && forall i :: 0 <= i < 4 ==> !OutOfRange(parts[i])
  }

  /** An operand of a bitwise operator: ToInt32 of the number, 0 for NaN. */
  function Word(p: Option<int>): (w: int)
    ensures p.None? ==> w == 0
    ensures p.Some? && 0 <= p.value <= 255 ==> w == p.value
  {
    match p
    case None => 0
    case Some(v) =>
      if 0 <= v <= 255 then ToInt32Identity(v); ToInt32(v) else ToInt32(v)
  }

  /** `(hi << 8) | lo` for two parts that passed validation. */
  function Register(hi: Option<int>, lo: Option<int>): (reg: int)
    requires !OutOfRange(hi) && !OutOfRange(lo)
    ensures reg == hi.GetOr(0) * 256 + lo.GetOr(0)
    ensures 0 <= reg < 65536
  {
    var high := Word(hi);
    var low := Word(lo);
    assert 0 <= high <= 255 && 0 <= low <= 255;
    Pow2Byte();
    assert high * 256 < TWO31;
    var shifted := ShiftLeft(high, 8);
    assert shifted == high * 256;
    OrBelowShift(high, low, 8);
    NatOr(shifted, low)
  }

  /** The two registers of four validated parts. */
  function EncodeParts(p: seq<Option<int>>): (regs: seq<int>)
    requires ValidParts(p)
    ensures regs == [p[0].GetOr(0) * 256 + p[1].GetOr(0), p[2].GetOr(0) * 256 + p[3].GetOr(0)]
    ensures forall i :: 0 <= i < 2 ==> 0 <= regs[i] < 65536
  {
    [Register(p[0], p[1]), Register(p[2], p[3])]
  }

  /** `setIPAddress`, `setSubnetMask` and `setGateway`, which differ only in
      their messages: validate, encode two registers, then write them through
      the connection guard. */
  function SetAddress(connected: bool, register: int, text: string): (r: Result<Request, InitError>)
    ensures !ValidParts(Parts(text)) ==> r == Failure(InvalidAddress)
    ensures ValidParts(Parts(text)) && !connected ==> r == Failure(NotConnected)
    ensures ValidParts(Parts(text)) && connected ==> r == Success(WriteRegisters(register, EncodeParts(Parts(text))))
  {
    var parts := Parts(text);
    if !ValidParts(parts) then Failure(InvalidAddress)
    else WriteMultipleRegisters(connected, register, EncodeParts(parts))
  }

  /** A register value of an array, with a missing element (undefined)
      converting to 0 in a bitwise operator. */
  function Element(registers: seq<int>, i: nat): int {
    if i < |registers| then registers[i] else 0
  }

  /** The dotted text of four octets. */
  function Dotted(a: nat, b: nat, c: nat, d: nat): string {
    Join([NatToString(a), NatToString(b), NatToString(c), NatToString(d)], '.')
  }

  /** The four bytes `decodeIPAddress` extracts: `(r >> 8) & 0xFF` and
      `r & 0xFF` of each register; for register values they are the high and
      low byte. */
  function Octets(registers: seq<int>): (o: seq<nat>)
    ensures |o| == 4 && forall i :: 0 <= i < 4 ==> o[i] < 256
    ensures 0 <= Element(registers, 0) < 65536 && 0 <= Element(registers, 1) < 65536 ==>
              o == [Element(registers, 0) / 256, Element(registers, 0) % 256,
                    Element(registers, 1) / 256, Element(registers, 1) % 256]
  {
    var r0 := Element(registers, 0);
    var r1 := Element(registers, 1);
    BytesOfWord(r0);
    BytesOfWord(r1);
    [AndMask(ShiftRight(r0, 8), 8), AndMask(r0, 8), AndMask(ShiftRight(r1, 8), 8), AndMask(r1, 8)]
  }

  /** The two byte masks of a value are bytes, and of a register value its
      high and low byte. */
  lemma BytesOfWord(r: int)
    ensures AndMask(ShiftRight(r, 8), 8) < 256 && AndMask(r, 8) < 256
    ensures 0 <= r < 65536 ==> AndMask(ShiftRight(r, 8), 8) == r / 256 && AndMask(r, 8) == r % 256
  {
    Pow2Byte();
    if 0 <= r < 65536 {
      assert 0 <= r / 256 < 256;
    }
  }

  /** `decodeIPAddress`: the four bytes in decimal, joined with dots.  The
      text reads back, part by part, as exactly those bytes. */
  function DecodeIpAddress(registers: seq<int>): (text: string)
    ensures var o := Octets(registers);
            Parts(text) == [Some(o[0]), Some(o[1]), Some(o[2]), Some(o[3])]
  {
    var o := Octets(registers);
    DottedParts(o[0], o[1], o[2], o[3]);
    Dotted(o[0], o[1], o[2], o[3])
  }

  /** Dotted text splits into the four decimal renderings. */
  lemma SplitDotted(a: nat, b: nat, c: nat, d: nat)
    ensures Split(Dotted(a, b, c, d), '.') == [NatToString(a), NatToString(b), NatToString(c), NatToString(d)]
  {
    var pieces := [NatToString(a), NatToString(b), NatToString(c), NatToString(d)];
    forall i | 0 <= i < 4 ensures '.' !in pieces[i] {
      assert IsDigits(pieces[i]);
    }
    SplitJoin(pieces, '.');
  }

  /** Dotted text splits into the four decimal renderings, each read back as
      its number. */
  lemma DottedParts(a: nat, b: nat, c: nat, d: nat)
    requires a < 256 && b < 256 && c < 256 && d < 256
    ensures Parts(Dotted(a, b, c, d)) == [Some(a), Some(b), Some(c), Some(d)]
  {
    SplitDotted(a, b, c, d);
    MapFour(ParseInt, NatToString(a), NatToString(b), NatToString(c), NatToString(d));
    ParseIntNatToString(a);
    ParseIntNatToString(b);
    ParseIntNatToString(c);
    ParseIntNatToString(d);
  }

  /** Four numeric parts in 0..255 pass validation and encode to their
      byte pairs. */
  lemma EncodeNumbers(p: seq<Option<int>>, a: int, b: int, c: int, d: int)
    requires p == [Some(a), Some(b), Some(c), Some(d)]
    requires 0 <= a < 256 && 0 <= b < 256 && 0 <= c < 256 && 0 <= d < 256
    ensures ValidParts(p) && EncodeParts(p) == [a * 256 + b, c * 256 + d]
  {
  }

  /** A part `parseInt` cannot read (NaN) passes the range check, since
      both comparisons with NaN are false, and is shifted in as 0. */
  lemma NonNumericPartWritesZero(b: int, c: int)
    requires 0 <= b < 256 && 0 <= c < 256
    ensures ValidParts([None, Some(b), Some(c), None])
    ensures EncodeParts([None, Some(b), Some(c), None]) == [b, c * 256]
  {
  }

  /** Writing a dotted address and decoding the registers gives the text
      back, for every four octets. */
  lemma AddressRoundTrip(a: nat, b: nat, c: nat, d: nat, register: int)
    requires a < 256 && b < 256 && c < 256 && d < 256
    ensures var text := Dotted(a, b, c, d);
            SetAddress(true, register, text) == Success(WriteRegisters(register, [a * 256 + b, c * 256 + d]))
            && DecodeIpAddress([a * 256 + b, c * 256 + d]) == text
  {
    var text := Dotted(a, b, c, d);
    DottedParts(a, b, c, d);
    EncodeNumbers(Parts(text), a, b, c, d);
    WriteValid(register, text);
    DecodePairs(a, b, c, d);
  }

  /** Decoding the registers of four bytes gives their dotted text. */
  lemma DecodePairs(a: nat, b: nat, c: nat, d: nat)
    requires a < 256 && b < 256 && c < 256 && d < 256
    ensures DecodeIpAddress([a * 256 + b, c * 256 + d]) == Dotted(a, b, c, d)
  {
    var regs := [a * 256 + b, c * 256 + d];
    assert Element(regs, 0) == a * 256 + b && Element(regs, 1) == c * 256 + d;
    PairBytes(a, b, a * 256 + b);
    PairBytes(c, d, c * 256 + d);
    assert Octets(regs) == [a, b, c, d];
  }

  /** A register value built from two bytes splits back into them. */
  lemma PairBytes(hi: nat, lo: nat, r: int)
    requires hi < 256 && lo < 256 && r == hi * 256 + lo
    ensures 0 <= r < 65536 && r / 256 == hi && r % 256 == lo
  {
  }

  /** The other direction: decoding two register values and writing the
      text writes the same two values. */
  lemma RegisterRoundTrip(r0: int, r1: int, register: int)
    requires 0 <= r0 < 65536 && 0 <= r1 < 65536
    ensures SetAddress(true, register, DecodeIpAddress([r0, r1])) == Success(WriteRegisters(register, [r0, r1]))
  {
    var text := DecodeIpAddress([r0, r1]);
    assert Element([r0, r1], 0) == r0 && Element([r0, r1], 1) == r1;
    var o := Octets([r0, r1]);
    assert o == [r0 / 256, r0 % 256, r1 / 256, r1 % 256];
    EncodeBytePairs(Parts(text), r0, r1);
    WriteValid(register, text);
  }

  /** The parts holding the high and low bytes of two register values
      encode back to those values. */
  lemma EncodeBytePairs(p: seq<Option<int>>, r0: int, r1: int)
    requires 0 <= r0 < 65536 && 0 <= r1 < 65536
    requires p == [Some(r0 / 256), Some(r0 % 256), Some(r1 / 256), Some(r1 % 256)]
    ensures ValidParts(p) && EncodeParts(p) == [r0, r1]
  {
    EncodeNumbers(p, r0 / 256, r0 % 256, r1 / 256, r1 % 256);
  }

  /** A connected write of text that passes validation sends its encoding. */
  lemma WriteValid(register: int, text: string)
    requires ValidParts(Parts(text))
    ensures SetAddress(true, register, text) == Success(WriteRegisters(register, EncodeParts(Parts(text))))
  {
  }
}

=== FILE: go_config.dfy ===
/** The YAML configuration loader of the Go port (`LoadConfig` and
    `getDefaultPort`).  Reading the file and decoding YAML are library
    calls: the model takes the outcome of the read and the decoder as
    parameters and states what the loader does with them, which is to
    report either failure or to fill in the defaults. */
module GoConfig {
  import opened Wrappers

  datatype PortConfig = PortConfig(name: string, device: string, baudrate: int, dataBits: int,
                                   stopBits: int, parity: string, timeout: real)

  /** `SlaveID` is a `uint8` and the registers are `uint16` in the source;
      the YAML decoder enforces those ranges. */
  datatype SensorConfig = SensorConfig(name: string, port: string, slaveId: nat, tempRegister: nat,
                                       humiRegister: nat, tempScale: real, humiScale: real)

  datatype CacheConfig = CacheConfig(enabled: bool, dbPath: string, flushInterval: int, batchSize: int)

  datatype StorageConfig = StorageConfig(kind: string, sqlitePath: string, influxUrl: string,
                                         influxToken: string, influxOrg: string, influxBucket: string,
                                         csvPath: string, cache: CacheConfig)

  datatype Config = Config(ports: seq<PortConfig>, readInterval: int, sensors: seq<SensorConfig>,
                           storage: StorageConfig)

  /** Why loading failed: the file could not be read, or its YAML could
      not be decoded. */
  datatype LoadError = ReadFailed(cause: string) | ParseFailed(cause: string)

  /** The storage type constants of the Go port. */
  const STORAGE_SQLITE: string := "sqlite"

  /** `getDefaultPort`: "COM3" on Windows, "/dev/ttyUSB0" elsewhere. */
  function DefaultDevice(windows: bool): (d: string)
    ensures d != ""
  {
    if windows then "COM3" else "/dev/ttyUSB0"
  }

  /** The name of the port put in an empty list: "串口1" ("serial port 1"). */
  const DEFAULT_PORT_NAME: string := "\U{4E32}\U{53E3}1"

  /** The port put in an empty list. */
  function DefaultPort(windows: bool): (p: PortConfig)
    ensures PortSettled(p)
    ensures p.device == DefaultDevice(windows) && p.name == DEFAULT_PORT_NAME
  {
    PortConfig(DEFAULT_PORT_NAME, DefaultDevice(windows), 9600, 8, 1, "N", 1.0)
  }

  /** A port the defaults leave alone: every defaulted field set. */
  predicate PortSettled(p: PortConfig) {
    p.baudrate != 0 && p.dataBits != 0 && p.stopBits != 0 && p.parity != "" && p.timeout != 0.0
  }

  /** The per-port defaults: 9600 baud, 8 data bits, 1 stop bit, parity
      "N" and one second for the fields that are zero or empty. */
  function PortDefaults(p: PortConfig): (q: PortConfig)
    ensures PortSettled(q)
    ensures q.name == p.name && q.device == p.device
    ensures p.baudrate != 0 ==> q.baudrate == p.baudrate
    ensures p.dataBits != 0 ==> q.dataBits == p.dataBits
    ensures p.stopBits != 0 ==> q.stopBits == p.stopBits
    ensures p.parity != "" ==> q.parity == p.parity
    ensures p.timeout != 0.0 ==> q.timeout == p.timeout
  {
    p.(baudrate := if p.baudrate == 0 then 9600 else p.baudrate,
       dataBits := if p.dataBits == 0 then 8 else p.dataBits,
       stopBits := if p.stopBits == 0 then 1 else p.stopBits,
       parity := if p.parity == "" then "N" else p.parity,
       timeout := if p.timeout == 0.0 then 1.0 else p.timeout)
  }

  /** A sensor the defaults leave alone: both scales non-zero. */
  predicate SensorSettled(s: SensorConfig) {
    s.tempScale != 0.0 && s.humiScale != 0.0
  }

  /** The per-sensor defaults: 0.1 for a zero scale. */
  function SensorDefaults(s: SensorConfig): (t: SensorConfig)
    ensures SensorSettled(t)
    ensures t.name == s.name && t.port == s.port && t.slaveId == s.slaveId
    ensures t.tempRegister == s.tempRegister && t.humiRegister == s.humiRegister
    ensures s.tempScale != 0.0 ==> t.tempScale == s.tempScale
    ensures s.humiScale != 0.0 ==> t.humiScale == s.humiScale
  {
    s.(tempScale := if s.tempScale == 0.0 then 0.1 else s.tempScale,
       humiScale := if s.humiScale == 0.0 then 0.1 else s.humiScale)
  }

  /** Storage settings the defaults leave alone. */
  predicate StorageSettled(s: StorageConfig) {
    s.kind != "" && s.sqlitePath != "" && s.influxUrl != "" && s.csvPath != ""
    && s.cache.dbPath != "" && s.cache.flushInterval > 0 && s.cache.batchSize > 0
  }

  /** The storage defaults: SQLite for an empty type, default paths and
      address for empty ones, and a flush interval of 10 and a batch size
      of 100 for values that are not positive. */
  function StorageDefaults(s: StorageConfig): (t: StorageConfig)
    ensures StorageSettled(t)
    ensures s.kind != "" ==> t.kind == s.kind
    ensures s.sqlitePath != "" ==> t.sqlitePath == s.sqlitePath
    ensures s.influxUrl != "" ==> t.influxUrl == s.influxUrl
    ensures s.csvPath != "" ==> t.csvPath == s.csvPath
    ensures s.cache.dbPath != "" ==> t.cache.dbPath == s.cache.dbPath
    ensures s.cache.flushInterval > 0 ==> t.cache.flushInterval == s.cache.flushInterval
    ensures s.cache.batchSize > 0 ==> t.cache.batchSize == s.cache.batchSize
    ensures t.influxToken == s.influxToken && t.influxOrg == s.influxOrg && t.influxBucket == s.influxBucket
    ensures t.cache.enabled == s.cache.enabled
  {
    s.(kind := if s.kind == "" then STORAGE_SQLITE else s.kind,
       sqlitePath := if s.sqlitePath == "" then "sensor_data.db" else s.sqlitePath,
       influxUrl := if s.influxUrl == "" then "http://localhost:8086" else s.influxUrl,
       csvPath := if s.csvPath == "" then "sensor_data.csv" else s.csvPath,
       cache := s.cache.(dbPath := if s.cache.dbPath == "" then "sensor_cache.db" else s.cache.dbPath,
                         flushInterval := if s.cache.flushInterval <= 0 then 10 else s.cache.flushInterval,
                         batchSize := if s.cache.batchSize <= 0 then 100 else s.cache.batchSize))
  }

  /** A configuration the defaults leave alone. */
  predicate Settled(c: Config) {
    c.ports != [] && c.readInterval != 0
    && (forall i | 0 <= i < |c.ports| :: PortSettled(c.ports[i]))
    && (forall i | 0 <= i < |c.sensors| :: SensorSettled(c.sensors[i]))
    && StorageSettled(c.storage)
  }

  /** The defaults pass of `LoadConfig`: one default port for an empty
      list, then the per-port defaults, interval 2 for 0 (a negative
      interval is kept), the sensor scales and the storage defaults. */
  function ApplyDefaults(c: Config, windows: bool): (d: Config)
    ensures Settled(d)
    ensures c.ports == [] ==> d.ports == [DefaultPort(windows)]
    ensures c.ports != [] ==> |d.ports| == |c.ports|
                              && forall i | 0 <= i < |c.ports| :: d.ports[i] == PortDefaults(c.ports[i])
    ensures c.readInterval != 0 ==> d.readInterval == c.readInterval
    ensures |d.sensors| == |c.sensors|
    ensures forall i | 0 <= i < |c.sensors| :: d.sensors[i] == SensorDefaults(c.sensors[i])
    ensures d.storage == StorageDefaults(c.storage)
  {
    var listed := if c.ports == [] then [DefaultPort(windows)] else c.ports;
    Config(seq(|listed|, i requires 0 <= i < |listed| => PortDefaults(listed[i])),
           if c.readInterval == 0 then 2 else c.readInterval,
           seq(|c.sensors|, i requires 0 <= i < |c.sensors| => SensorDefaults(c.sensors[i])),
           StorageDefaults(c.storage))
  }

  /** `LoadConfig`, given the outcome of reading the file and the YAML
      decoder: a read error and a decode error are reported as such, and a
      decoded configuration gets its defaults. */
  function LoadConfig(read: Result<string, string>, decode: string -> Result<Config, string>, windows: bool)
    : (r: Result<Config, LoadError>)
    ensures read.Failure? ==> r == Failure(ReadFailed(read.error))
    ensures read.Success? && decode(read.value).Failure? ==> r == Failure(ParseFailed(decode(read.value).error))
    ensures r.Success? <==> read.Success? && decode(read.value).Success?
    ensures r.Success? ==> Settled(r.value)
  {
    match read
    case Failure(e) => Failure(ReadFailed(e))
    case Success(data) =>
      match decode(data)
      case Failure(e) => Failure(ParseFailed(e))
      case Success(c) => Success(ApplyDefaults(c, windows))
  }

  /** The configurations the defaults leave unchanged are exactly the
      settled ones. */
  lemma SettledIsFixpoint(c: Config, windows: bool)
    ensures ApplyDefaults(c, windows) == c <==> Settled(c)
  {
    var d := ApplyDefaults(c, windows);
    if Settled(c) {
      forall i | 0 <= i < |c.ports| ensures d.ports[i] == c.ports[i] {
        assert PortSettled(c.ports[i]);
      }
      forall i | 0 <= i < |c.sensors| ensures d.sensors[i] == c.sensors[i] {
        assert SensorSettled(c.sensors[i]);
      }
      assert d.ports == c.ports;
      assert d.sensors == c.sensors;
    }
  }

  /** Applying the defaults twice is applying them once. */
  lemma ApplyDefaultsIdempotent(c: Config, windows: bool)
    ensures ApplyDefaults(ApplyDefaults(c, windows), windows) == ApplyDefaults(c, windows)
  {
    SettledIsFixpoint(ApplyDefaults(c, windows), windows);
  }

  /** Loading a file whose decoded configuration is already settled gives
      that configuration back unchanged. */
  lemma SettledFileLoadsUnchanged(data: string, decode: string -> Result<Config, string>, windows: bool)
    requires decode(data).Success? && Settled(decode(data).value)
    ensures LoadConfig(Success(data), decode, windows) == Success(decode(data).value)
  {
    SettledIsFixpoint(decode(data).value, windows);
  }
}

=== FILE: go_storage.dfy ===
/** The storage factory and the cached storage of the Go port
    (`StorageFactory.CreateStorage`, `GetDefaultStorageConfig` and
    `CachedStorage`).  Opening a database or a file is a library call whose
    error the model takes as a parameter; the cache table is the shared
    `CacheQueue` model, and the target's answers are parameters too. */
module GoStorage {
  import opened Wrappers
  import opened CacheQueue
  import GoConfig

  const STORAGE_INFLUXDB: string := "influxdb"
  const STORAGE_CSV: string := "csv"
  const STORAGE_NONE: string := "none"

  /** The back ends the factory can build. */
  datatype Backend =
    | SQLiteStore(dbPath: string)
    | InfluxStore(url: string, token: string, org: string, bucket: string)
    | CsvStore(filePath: string)

  /** A back end on its own, or behind the cache with its settings. */
  datatype Storage =
    | Plain(target: Backend)
    | Cached(target: Backend, cacheDbPath: string, flushInterval: int, batchSize: int)

  /** The back end a storage type selects: none for "none", and SQLite for
      every type the factory does not know. */
  function TargetFor(config: GoConfig.StorageConfig): (b: Option<Backend>)
    ensures b.None? <==> config.kind == STORAGE_NONE
    ensures b.Some? ==> (b.value.InfluxStore? <==> config.kind == STORAGE_INFLUXDB)
    ensures b.Some? ==> (b.value.CsvStore? <==> config.kind == STORAGE_CSV)
    ensures b.Some? && b.value.SQLiteStore? ==> b.value.dbPath == config.sqlitePath
    ensures b.Some? && b.value.CsvStore? ==> b.value.filePath == config.csvPath
  {
    if config.kind == GoConfig.STORAGE_SQLITE then Some(SQLiteStore(config.sqlitePath))
    else if config.kind == STORAGE_INFLUXDB then
      Some(InfluxStore(config.influxUrl, config.influxToken, config.influxOrg, config.influxBucket))
    else if config.kind == STORAGE_CSV then Some(CsvStore(config.csvPath))
    else if config.kind == STORAGE_NONE then None
    else Some(SQLiteStore(config.sqlitePath))
  }

  /** The type name of a back end. */
  function KindOf(b: Backend): (kind: string)
    ensures kind != STORAGE_NONE
  {
    match b
    case SQLiteStore(_) => GoConfig.STORAGE_SQLITE
    case InfluxStore(_, _, _, _) => STORAGE_INFLUXDB
    case CsvStore(_) => STORAGE_CSV
  }

  /** The back end the factory picks has the configured type, or is SQLite
      when the type is unknown. */
  lemma TargetHasConfiguredKind(config: GoConfig.StorageConfig)
    requires config.kind != STORAGE_NONE
    ensures var kind := KindOf(TargetFor(config).value);
            kind == config.kind
            || (kind == GoConfig.STORAGE_SQLITE
                && config.kind != STORAGE_INFLUXDB && config.kind != STORAGE_CSV)
  {
  }

  /** Whether building the back end opens a database or a file, and so can
      fail; the InfluxDB client is built without contacting the server. */
  predicate Opens(b: Backend) {
    !b.InfluxStore?
  }

  /** The cache settings the factory uses: "sensor_cache.db" for an empty
      path, 10 for a flush interval and 100 for a batch size that is not
      positive. */
  function CacheSettings(cache: GoConfig.CacheConfig): (s: (string, int, int))
    ensures s.0 != "" && s.1 > 0 && s.2 > 0
    ensures cache.dbPath != "" ==> s.0 == cache.dbPath
    ensures cache.flushInterval > 0 ==> s.1 == cache.flushInterval
    ensures cache.batchSize > 0 ==> s.2 == cache.batchSize
  {
    (if cache.dbPath == "" then "sensor_cache.db" else cache.dbPath,
     if cache.flushInterval <= 0 then 10 else cache.flushInterval,
     if cache.batchSize <= 0 then 100 else cache.batchSize)
  }

  /** `CreateStorage`.  `openError` is what opening the SQLite database or
      the CSV file reports, and `cacheError` what opening the cache
      database reports.  "none" gives no storage and no error; the cache
      is put in front only when it is enabled. */
  function CreateStorage(config: GoConfig.StorageConfig, openError: Option<string>, cacheError: Option<string>)
    : (r: Result<Option<Storage>, string>)
    ensures config.kind == STORAGE_NONE ==> r == Success(None)
    ensures r.Success? && r.value.None? ==> config.kind == STORAGE_NONE
    ensures r.Success? && r.value.Some? ==>
              Some(r.value.value.target) == TargetFor(config)
              && (r.value.value.Cached? <==> config.cache.enabled)
    ensures r.Success? && r.value.Some? && r.value.value.Cached? ==>
              var s := CacheSettings(config.cache);
              r.value.value.cacheDbPath == s.0 && r.value.value.flushInterval == s.1
              && r.value.value.batchSize == s.2
    ensures r.Failure? <==>
              config.kind != STORAGE_NONE
              && ((Opens(TargetFor(config).value) && openError.Some?)
                  || (config.cache.enabled && cacheError.Some?))
  {
    match TargetFor(config)
    case None => Success(None)
    case Some(target) =>
      if Opens(target) && openError.Some? then Failure(openError.value)
      else if config.cache.enabled then
        var s := CacheSettings(config.cache);
        if cacheError.Some? then Failure(cacheError.value)
        else Success(Some(Cached(target, s.0, s.1, s.2)))
      else Success(Some(Plain(target)))
  }

  /** `GetDefaultStorageConfig`. */
  function DefaultStorageConfig(): (c: GoConfig.StorageConfig)
    ensures c.kind == GoConfig.STORAGE_SQLITE && !c.cache.enabled
    ensures GoConfig.StorageSettled(c)
  {
    GoConfig.StorageConfig(GoConfig.STORAGE_SQLITE, "sensor_data.db", "http://localhost:8086", "my-token",
                           "my-org", "sensor-data", "sensor_data.csv",
                           GoConfig.CacheConfig(false, "sensor_cache.db", 10, 100))
  }

  /** The default settings are a fixed point of the loader's storage
      defaults, and they build a plain SQLite store on "sensor_data.db". */
  lemma DefaultStorageIsSettled(openError: Option<string>)
    ensures GoConfig.StorageDefaults(DefaultStorageConfig()) == DefaultStorageConfig()
    ensures openError.None? ==>
              CreateStorage(DefaultStorageConfig(), openError, None) == Success(Some(Plain(SQLiteStore("sensor_data.db"))))
  {
  }

  /** What `CachedStorage.Save` and `SaveBatch` return: the cache table
      afterwards, and whether an error was returned. */
  datatype SaveResult = SaveResult(cache: Cache, failed: bool)

  /** `CachedStorage.Save`: `inserted` says whether the cache insert
      succeeded and `delivered` whether the target took the record.  Only a
      failed insert is an error; a refused target write leaves the row
      queued for the flush. */
  function Save(c: Cache, record: Reading, inserted: bool, delivered: bool): (r: SaveResult)
    ensures r.failed <==> !inserted
    ensures !inserted ==> r.cache == c
    ensures inserted && !delivered ==> r.cache.rows == c.rows + [Row(c.nextId, record, 0)]
    ensures inserted && delivered ==> forall q | q in r.cache.rows :: !SyncedCopy(q, record)
    ensures inserted ==> forall q | q in c.rows && !SyncedCopy(q, record) :: q in r.cache.rows
    ensures inserted && delivered ==> forall q | q in r.cache.rows :: q in c.rows
  {
    if !inserted then SaveResult(c, true)
    else
      DeliveredSaveDropsCopies(c, record);
      SaveResult(SaveInserted(c, record, delivered), false)
  }

  /** The target writes of `SaveBatch`, from record `i` on: `delivered(k)`
      says whether the target took record k. */
  function DeliverFrom(c: Cache, records: seq<Reading>, delivered: nat -> bool, i: nat): (d: Cache)
    requires i <= |records|
    ensures Valid(c) ==> Valid(d)
    decreases |records| - i
  {
    if i == |records| then c
    else
      var next := if delivered(i) then DropSynced(c, records[i]) else c;
      DeliverFrom(next, records, delivered, i + 1)
  }

  /** A row survives the target writes unless a delivered record from `i`
      on has its reading and the row has no retries. */
  lemma {:induction false} DeliverKeeps(c: Cache, records: seq<Reading>, delivered: nat -> bool, i: nat, q: Row)
    requires i <= |records| && q in c.rows
    requires forall k | i <= k < |records| && delivered(k) :: !SyncedCopy(q, records[k])
    ensures q in DeliverFrom(c, records, delivered, i).rows
    decreases |records| - i
  {
    if i < |records| {
      var next := if delivered(i) then DropSynced(c, records[i]) else c;
      DeliverKeeps(next, records, delivered, i + 1, q);
    }
  }

  /** After the target writes no unretried copy of a delivered record is
      left. */
  lemma {:induction false} DeliverDrops(c: Cache, records: seq<Reading>, delivered: nat -> bool, i: nat, k: nat)
    requires i <= k < |records| && delivered(k)
    ensures forall q | q in DeliverFrom(c, records, delivered, i).rows :: !SyncedCopy(q, records[k])
    decreases |records| - i
  {
    var next := if delivered(i) then DropSynced(c, records[i]) else c;
    if i < k {
      DeliverDrops(next, records, delivered, i + 1, k);
    } else {
      DeliverSubset(next, records, delivered, i + 1);
    }
  }

  /** The target writes only delete rows. */
  lemma {:induction false} DeliverSubset(c: Cache, records: seq<Reading>, delivered: nat -> bool, i: nat)
    requires i <= |records|
    ensures forall q | q in DeliverFrom(c, records, delivered, i).rows :: q in c.rows
    decreases |records| - i
  {
    if i < |records| {
      var next := if delivered(i) then DropSynced(c, records[i]) else c;
      DeliverSubset(next, records, delivered, i + 1);
    }
  }

  /** `CachedStorage.SaveBatch`: `failedInsert` is the position of the
      first cache insert that fails, if any.  Such a failure returns an
      error at once, leaving the earlier records queued (there is no
      transaction) and trying none on the target.  Otherwise every record
      is queued and then offered to the target in order. */
  function SaveBatch(c: Cache, records: seq<Reading>, failedInsert: Option<nat>, delivered: nat -> bool)
    : (r: SaveResult)
    ensures Valid(c) ==> Valid(r.cache)
    ensures r.failed <==> failedInsert.Some? && failedInsert.value < |records|
    ensures r.failed ==> r.cache == InsertAll(c, records[..failedInsert.value])
  {
    if failedInsert.Some? && failedInsert.value < |records| then
      SaveResult(InsertAll(c, records[..failedInsert.value]), true)
    else
      SaveResult(DeliverFrom(InsertAll(c, records), records, delivered, 0), false)
  }

  /** A batch whose inserts all succeed: an unretried copy of a delivered
      record is gone, and the row of a record is still queued when no
      delivered record has its reading. */
  lemma SaveBatchEffect(c: Cache, records: seq<Reading>, delivered: nat -> bool, k: nat)
    requires k < |records|
    ensures var r := SaveBatch(c, records, None, delivered);
            !r.failed
            && (delivered(k) ==> forall q | q in r.cache.rows :: !SyncedCopy(q, records[k]))
            && ((forall j | 0 <= j < |records| && delivered(j) :: records[j] != records[k]) ==>
                  Row(c.nextId + k, records[k], 0) in r.cache.rows)
  {
    var e := InsertAll(c, records);
    if delivered(k) {
      DeliverDrops(e, records, delivered, 0, k);
    }
    if forall j | 0 <= j < |records| && delivered(j) :: records[j] != records[k] {
      var q := e.rows[|c.rows| + k];
      assert q == Row(c.nextId + k, records[k], 0);
      assert q in e.rows;
      DeliverKeeps(e, records, delivered, 0, q);
    }
  }

  /** `GetCacheStats`: the row count, the rows a flush may still try, and
      the cache path. */
  datatype CacheStats = CacheStats(totalRecords: nat, pendingCount: nat, cacheDbPath: string)

  function GetCacheStats(c: Cache, cacheDbPath: string): (s: CacheStats)
    ensures s.pendingCount <= s.totalRecords && s.totalRecords == |c.rows|
    ensures s.cacheDbPath == cacheDbPath
  {
    CacheStats(|c.rows|, PendingCount(c), cacheDbPath)
  }

  /** The rows the stats leave out of the pending count are exactly the
      exhausted ones. */
  lemma StatsCountExhausted(c: Cache, cacheDbPath: string)
    ensures var s := GetCacheStats(c, cacheDbPath);
            s.totalRecords - s.pendingCount == |Keep(c.rows, Exhausted)|
  {
    PendingPlusExhausted(c);
  }
}

=== FILE: java_config.dfy ===
/** The Java port's configuration (`AppConfig` and `ConfigLoader`): the JSON
    map decoded by Gson read into the configuration cast by cast, the
    exception a wrong-typed or null value throws part-way, the built-in
    defaults the loader falls back on, and the storage-type label `print`
    shows.  Java `null` is `None`; a field nobody sets keeps Java's default
    (null, 0, 0.0). */
module JavaAppConfig {
  import opened Wrappers

  datatype PortConfig = PortConfig(
    name: Option<string>, port: Option<string>, baudrate: int, dataBits: int,
    stopBits: int, parity: Option<string>, timeout: real)

  datatype SensorConfig = SensorConfig(
    name: Option<string>, slaveId: int, tempReg: int, humiReg: int,
    tempScale: real, humiScale: real, portName: Option<string>)

  datatype StorageConfig = StorageConfig(
    storageType: Option<string>, sqlitePath: Option<string>, influxdbUrl: Option<string>,
    influxdbToken: Option<string>, influxdbOrg: Option<string>, influxdbBucket: Option<string>,
    csvPath: Option<string>)

  datatype ModbusConfig = ModbusConfig(ports: seq<PortConfig>, readInterval: int, sensors: seq<SensorConfig>)

  datatype AppConfig = AppConfig(modbus: ModbusConfig, storage: StorageConfig)

  /** A value of the map Gson decodes, as far as `parseFromMap` looks at
      it.  Gson decodes every JSON number as a double; a boolean, list or
      object where a scalar is expected is `JOther`. */
  datatype Json = JNull | JNumber(number: real) | JString(text: string) | JOther

  /** One element of the "ports" or "sensors" list: an object with its
      keys, JSON null, or anything else. */
  datatype Element = Obj(fields: map<string, Json>) | NullElement | OtherElement

  /** The exceptions a read of the map can throw. */
  datatype Thrown = ClassCast | NullPointer

  /** The top-level map handed to `parseFromMap`.  "ports" and "sensors"
      are `Some` when present and lists (`instanceof List`); every other
      key is in `fields`. */
  datatype ConfigMap = ConfigMap(ports: Option<seq<Element>>, fields: map<string, Json>, sensors: Option<seq<Element>>)

  const EMPTY_STORAGE := StorageConfig(None, None, None, None, None, None, None)

  /** `new AppConfig()`: no ports, no sensors, every field at Java's default. */
  function NewAppConfig(): (c: AppConfig)
    ensures |c.modbus.ports| == 0 && |c.modbus.sensors| == 0 && c.modbus.readInterval == 0
    ensures c.storage.storageType.None?
  {
    AppConfig(ModbusConfig([], 0, []), EMPTY_STORAGE)
  }

  /** The default port of `loadDefault`; its name and device depend on
      whether the operating system's name contains "win". */
  function DefaultPort(windows: bool): (p: PortConfig)
    ensures p.baudrate == 9600 && p.dataBits == 8 && p.stopBits == 1
    ensures p.parity == Some("N") && p.timeout == 1.0 && p.name.Some?
  {
    if windows then PortConfig(Some("COM1"), Some("COM1"), 9600, 8, 1, Some("N"), 1.0)
    else PortConfig(Some("ttyUSB0"), Some("/dev/ttyUSB0"), 9600, 8, 1, Some("N"), 1.0)
  }

  /** The default sensor of `loadDefault`, bound to the default port. */
  function DefaultSensor(portName: Option<string>): (s: SensorConfig)
    ensures s.portName == portName && s.slaveId == 1 && s.tempReg == 0 && s.humiReg == 1
  {
    SensorConfig(Some("传感器1"), 1, 0, 1, 0.1, 0.1, portName)
  }

  const DEFAULT_STORAGE := StorageConfig(Some("sqlite"), Some("sensor_data.db"), Some("http://localhost:8086"),
                                         Some(""), Some(""), Some("sensor-data"), Some("sensor_data.csv"))

  /** `loadDefault`: appends the default port and sensor, and overwrites the
      read interval and every storage field. */
  function LoadDefault(c: AppConfig, windows: bool): (r: AppConfig)
    ensures r.modbus.ports == c.modbus.ports + [DefaultPort(windows)]
    ensures r.modbus.sensors == c.modbus.sensors + [DefaultSensor(DefaultPort(windows).name)]
    ensures r.modbus.readInterval == 2
    ensures r.storage.storageType == Some("sqlite") && r.storage.influxdbBucket == Some("sensor-data")
  {
    var port := DefaultPort(windows);
    AppConfig(ModbusConfig(c.modbus.ports + [port], 2, c.modbus.sensors + [DefaultSensor(port.name)]),
              DEFAULT_STORAGE)
  }

  /** Java's `(int)` of a double, which `Number.intValue` of a Double also
      is: truncation toward zero, saturating at the int range. */
  function DoubleToInt(x: real): (n: int)
    ensures -0x8000_0000 <= n <= 0x7FFF_FFFF
    ensures -0x8000_0000 as real <= x <= 0x7FFF_FFFF as real ==> (n as real) - 1.0 < x < (n as real) + 1.0
    ensures 0.0 <= x <= 0x7FFF_FFFF as real ==> n as real <= x
  {
    if x >= 0x7FFF_FFFF as real then 0x7FFF_FFFF
    else if x <= -0x8000_0000 as real then -0x8000_0000
    else if x >= 0.0 then x.Floor
    else -((-x).Floor)
  }

  /** `(String) v`: null casts to null, anything but a string throws. */
  function CastString(v: Json): (r: Result<Option<string>, Thrown>)
    ensures r.Success? <==> v.JNull? || v.JString?
    ensures v.JString? ==> r == Success(Some(v.text))
    ensures v.JNull? ==> r == Success(None)
  {
    match v
    case JNull => Success(None)
    case JString(t) => Success(Some(t))
    case _ => Failure(ClassCast)
  }

  /** `((Number) v).intValue()`: a non-number fails the cast, and null the
      call. */
  function IntValue(v: Json): (r: Result<int, Thrown>)
    ensures r.Success? <==> v.JNumber?
    ensures v.JNumber? ==> r.value == DoubleToInt(v.number)
    ensures v.JNull? ==> r == Failure(NullPointer)
  {
    match v
    case JNumber(x) => Success(DoubleToInt(x))
    case JNull => Failure(NullPointer)
    case _ => Failure(ClassCast)
  }

  /** `((Number) v).doubleValue()`. */
  function DoubleValue(v: Json): (r: Result<real, Thrown>)
    ensures r.Success? <==> v.JNumber?
    ensures v.JNumber? ==> r.value == v.number
    ensures v.JNull? ==> r == Failure(NullPointer)
  {
    match v
    case JNumber(x) => Success(x)
    case JNull => Failure(NullPointer)
    case _ => Failure(ClassCast)
  }

  /** A key whose value a `(String)` cast accepts, or an absent key. */
  predicate StringOk(m: map<string, Json>, key: string) {
    key !in m || m[key].JNull? || m[key].JString?
  }

  /** A key whose value a `(Number)` cast accepts, or an absent key. */
  predicate NumberOk(m: map<string, Json>, key: string) {
    key !in m || m[key].JNumber?
  }

  /** `if (m.containsKey(key)) field = (String) m.get(key)`. */
  function StringKey(m: map<string, Json>, key: string, current: Option<string>): (r: Result<Option<string>, Thrown>)
    ensures r.Success? <==> StringOk(m, key)
    ensures key !in m ==> r == Success(current)
  {
    if key in m then CastString(m[key]) else Success(current)
  }

  /** `if (m.containsKey(key)) field = ((Number) m.get(key)).intValue()`. */
  function IntKey(m: map<string, Json>, key: string, current: int): (r: Result<int, Thrown>)
    ensures r.Success? <==> NumberOk(m, key)
    ensures key !in m ==> r == Success(current)
  {
    if key in m then IntValue(m[key]) else Success(current)
  }

  /** The same with `doubleValue()`. */
  function RealKey(m: map<string, Json>, key: string, current: real): (r: Result<real, Thrown>)
    ensures r.Success? <==> NumberOk(m, key)
    ensures key !in m ==> r == Success(current)
  {
    if key in m then DoubleValue(m[key]) else Success(current)
  }

  /** The value a string field holds after its key is read. */
  function StringRead(m: map<string, Json>, key: string, current: Option<string>): Option<string>
    requires StringOk(m, key)
  {
    if key !in m then current else if m[key].JString? then Some(m[key].text) else None
  }

  /** The value an int field holds after its key is read. */
  function IntRead(m: map<string, Json>, key: string, current: int): int
    requires NumberOk(m, key)
  {
    if key !in m then current else DoubleToInt(m[key].number)
  }

  /** The value a double field holds after its key is read. */
  function RealRead(m: map<string, Json>, key: string, current: real): real
    requires NumberOk(m, key)
  {
    if key !in m then current else m[key].number
  }

  /** A port object every cast of which succeeds. */
  predicate PortFits(e: Element) {
    e.Obj? && StringOk(e.fields, "name") && StringOk(e.fields, "port") && NumberOk(e.fields, "baudrate")
    && NumberOk(e.fields, "data_bits") && NumberOk(e.fields, "stop_bits") && StringOk(e.fields, "parity")
    && NumberOk(e.fields, "timeout")
  }

  /** One pass of the ports loop: a `new PortConfig()` with the present keys
      set in turn; a failed cast throws before the port is added. */
  function PortOf(e: Element): (r: Result<PortConfig, Thrown>)
    ensures r.Success? <==> PortFits(e)
    ensures e.NullElement? ==> r == Failure(NullPointer)
    ensures r.Success? ==>
              var m := e.fields;
              && r.value.name == StringRead(m, "name", None) && r.value.port == StringRead(m, "port", None)
              && r.value.baudrate == IntRead(m, "baudrate", 0) && r.value.dataBits == IntRead(m, "data_bits", 0)
              && r.value.stopBits == IntRead(m, "stop_bits", 0) && r.value.parity == StringRead(m, "parity", None)
              && r.value.timeout == RealRead(m, "timeout", 0.0)
  {
    match e
    case NullElement => Failure(NullPointer)
    case OtherElement => Failure(ClassCast)
    case Obj(m) =>
      var name :- StringKey(m, "name", None);
      var port :- StringKey(m, "port", None);
      var baudrate :- IntKey(m, "baudrate", 0);
      var dataBits :- IntKey(m, "data_bits", 0);
      var stopBits :- IntKey(m, "stop_bits", 0);
      var parity :- StringKey(m, "parity", None);
      var timeout :- RealKey(m, "timeout", 0.0);
      Success(PortConfig(name, port, baudrate, dataBits, stopBits, parity, timeout))
  }

  /** A sensor object every cast of which succeeds. */
  predicate SensorFits(e: Element) {
    e.Obj? && StringOk(e.fields, "name") && NumberOk(e.fields, "slave_id") && NumberOk(e.fields, "temp_reg")
    && NumberOk(e.fields, "humi_reg") && NumberOk(e.fields, "temp_scale") && NumberOk(e.fields, "humi_scale")
    && StringOk(e.fields, "port_name")
  }

  /** One pass of the sensors loop, in the same way. */
  function SensorOf(e: Element): (r: Result<SensorConfig, Thrown>)
    ensures r.Success? <==> SensorFits(e)
    ensures e.NullElement? ==> r == Failure(NullPointer)
    ensures r.Success? ==>
              var m := e.fields;
              && r.value.name == StringRead(m, "name", None) && r.value.slaveId == IntRead(m, "slave_id", 0)
              && r.value.tempReg == IntRead(m, "temp_reg", 0) && r.value.humiReg == IntRead(m, "humi_reg", 0)
              && r.value.tempScale == RealRead(m, "temp_scale", 0.0)
              && r.value.humiScale == RealRead(m, "humi_scale", 0.0)
              && r.value.portName == StringRead(m, "port_name", None)
  {
    match e
    case NullElement => Failure(NullPointer)
    case OtherElement => Failure(ClassCast)
    case Obj(m) =>
      var name :- StringKey(m, "name", None);
      var slaveId :- IntKey(m, "slave_id", 0);
      var tempReg :- IntKey(m, "temp_reg", 0);
      var humiReg :- IntKey(m, "humi_reg", 0);
      var tempScale :- RealKey(m, "temp_scale", 0.0);
      var humiScale :- RealKey(m, "humi_scale", 0.0);
      var portName :- StringKey(m, "port_name", None);
      Success(SensorConfig(name, slaveId, tempReg, humiReg, tempScale, humiScale, portName))
  }

  /** A for-each loop over a list: the elements are read in order until one
      throws; `r.0` holds what was read before that, `r.1` the exception. */
  function ReadList<T>(es: seq<Element>, read: Element -> Result<T, Thrown>): (r: (seq<T>, Option<Thrown>))
    ensures |r.0| <= |es|
    ensures forall i | 0 <= i < |r.0| :: read(es[i]) == Success(r.0[i])
    ensures r.1.None? <==> |r.0| == |es|
    ensures r.1.Some? ==> read(es[|r.0|]) == Failure(r.1.value)
    decreases |es|
  {
    if |es| == 0 then ([], None)
    else
      match read(es[0])
      case Failure(x) => ([], Some(x))
      case Success(v) =>
        var rest := ReadList(es[1..], read);
        ([v] + rest.0, rest.1)
  }

  /** The list under "ports", or none. */
  function PortList(d: ConfigMap): seq<Element> {
    if d.ports.Some? then d.ports.value else []
  }

  /** The list under "sensors", or none. */
  function SensorList(d: ConfigMap): seq<Element> {
    if d.sensors.Some? then d.sensors.value else []
  }

  /** The storage keys, in the order `parseFromMap` reads them. */
  const STORAGE_KEYS: seq<string> := ["storage_type", "storage_sqlite_path", "storage_influxdb_url",
                                      "storage_influxdb_token", "storage_influxdb_org",
                                      "storage_influxdb_bucket", "storage_csv_path"]

  /** The storage field a key sets. */
  function StorageField(s: StorageConfig, i: nat): Option<string>
    requires i < 7
  {
    match i
    case 0 => s.storageType
    case 1 => s.sqlitePath
    case 2 => s.influxdbUrl
    case 3 => s.influxdbToken
    case 4 => s.influxdbOrg
    case 5 => s.influxdbBucket
    case _ => s.csvPath
  }

  /** One storage field set, the others kept. */
  function WithStorageField(s: StorageConfig, i: nat, v: Option<string>): (r: StorageConfig)
    requires i < 7
    ensures StorageField(r, i) == v
    ensures forall j | 0 <= j < 7 && j != i :: StorageField(r, j) == StorageField(s, j)
  {
    match i
    case 0 => s.(storageType := v)
    case 1 => s.(sqlitePath := v)
    case 2 => s.(influxdbUrl := v)
    case 3 => s.(influxdbToken := v)
    case 4 => s.(influxdbOrg := v)
    case 5 => s.(influxdbBucket := v)
    case _ => s.(csvPath := v)
  }

  /** Every storage key from position `from` up to `to` casts. */
  predicate StorageKeysOk(m: map<string, Json>, from: nat, to: nat)
    requires to <= 7
  {
    forall k | from <= k < to :: StringOk(m, STORAGE_KEYS[k])
  }

  /** The storage keys from position `i` on, read in turn until one throws:
      a field is set when its key and every key before it cast, and is kept
      otherwise. */
  function ApplyStorage(s: StorageConfig, m: map<string, Json>, i: nat): (r: (StorageConfig, Option<Thrown>))
    requires i <= 7
    ensures r.1.None? <==> StorageKeysOk(m, i, 7)
    ensures forall j | 0 <= j < i :: StorageField(r.0, j) == StorageField(s, j)
    ensures forall j | i <= j < 7 && StorageKeysOk(m, i, j + 1) ::
              StorageField(r.0, j) == StringRead(m, STORAGE_KEYS[j], StorageField(s, j))
    ensures forall j | i <= j < 7 && !StorageKeysOk(m, i, j + 1) :: StorageField(r.0, j) == StorageField(s, j)
    decreases 7 - i
  {
    if i == 7 then (s, None)
    else
      match StringKey(m, STORAGE_KEYS[i], StorageField(s, i))
      case Failure(x) =>
        StorageKeysBreak(m, i);
        (s, Some(x))
      case Success(v) =>
        var next := WithStorageField(s, i, v);
        var r := ApplyStorage(next, m, i + 1);
        StorageKeysStep(m, i);
        r
  }

  /** A key that does not cast breaks every run of keys through it. */
  lemma StorageKeysBreak(m: map<string, Json>, i: nat)
    requires i < 7 && !StringOk(m, STORAGE_KEYS[i])
    ensures forall j | i < j <= 7 :: !StorageKeysOk(m, i, j)
  {
  }

  /** Keys from i on cast exactly when key i does and those from i + 1 do. */
  lemma StorageKeysStep(m: map<string, Json>, i: nat)
    requires i < 7
    ensures forall j | i < j <= 7 :: StorageKeysOk(m, i, j) <==> StringOk(m, STORAGE_KEYS[i]) && StorageKeysOk(m, i + 1, j)
  {
  }

  /** A map every cast of which succeeds. */
  predicate MapFits(d: ConfigMap) {
    && (forall i | 0 <= i < |PortList(d)| :: PortFits(PortList(d)[i]))
    && NumberOk(d.fields, "read_interval")
    && StorageKeysOk(d.fields, 0, 7)
    && (forall i | 0 <= i < |SensorList(d)| :: SensorFits(SensorList(d)[i]))
  }

  /** How `parseFromMap` ends: normally, or with an exception that leaves
      the configuration as far as it got. */
  datatype Outcome = Completed(config: AppConfig) | Threw(partial: AppConfig, error: Thrown)

  /** The read interval, then the storage keys: an interval that does not
      cast throws before any storage key is read. */
  function ApplyFields(c: AppConfig, m: map<string, Json>): (r: (AppConfig, Option<Thrown>))
    ensures r.1.None? <==> NumberOk(m, "read_interval") && StorageKeysOk(m, 0, 7)
    ensures r.0.modbus.ports == c.modbus.ports && r.0.modbus.sensors == c.modbus.sensors
    ensures !NumberOk(m, "read_interval") ==> r.0 == c
    ensures r.1.None? ==>
              && r.0.modbus.readInterval == IntRead(m, "read_interval", c.modbus.readInterval)
              && forall j | 0 <= j < 7 :: StorageField(r.0.storage, j) == StringRead(m, STORAGE_KEYS[j], StorageField(c.storage, j))
  {
    match IntKey(m, "read_interval", c.modbus.readInterval)
    case Failure(x) => (c, Some(x))
    case Success(interval) =>
      var (storage, storageError) := ApplyStorage(c.storage, m, 0);
      (c.(modbus := c.modbus.(readInterval := interval), storage := storage), storageError)
  }

  /** The ports, the read interval, the storage keys and the sensors, read
      in that order. */
  function ApplyMap(c: AppConfig, d: ConfigMap): (r: Outcome)
    ensures r.Completed? <==> MapFits(d)
    ensures var ps := c.modbus.ports + ReadList(PortList(d), PortOf).0;
            (r.Completed? ==> r.config.modbus.ports == ps) && (r.Threw? ==> r.partial.modbus.ports == ps)
    ensures r.Completed? ==>
              && |r.config.modbus.ports| == |c.modbus.ports| + |PortList(d)|
              && r.config.modbus.sensors == c.modbus.sensors + ReadList(SensorList(d), SensorOf).0
              && |r.config.modbus.sensors| == |c.modbus.sensors| + |SensorList(d)|
              && r.config.modbus.readInterval == IntRead(d.fields, "read_interval", c.modbus.readInterval)
              && forall j | 0 <= j < 7 ::
                   StorageField(r.config.storage, j) == StringRead(d.fields, STORAGE_KEYS[j], StorageField(c.storage, j))
    ensures (exists i | 0 <= i < |PortList(d)| :: !PortFits(PortList(d)[i])) ==>
              && r.Threw?
              && r.partial.modbus.sensors == c.modbus.sensors && r.partial.modbus.readInterval == c.modbus.readInterval
              && r.partial.storage == c.storage
  {
    var (ports, portError) := ReadList(PortList(d), PortOf);
    var c1 := c.(modbus := c.modbus.(ports := c.modbus.ports + ports));
    if portError.Some? then Threw(c1, portError.value)
    else
      var (c2, fieldError) := ApplyFields(c1, d.fields);
      if fieldError.Some? then Threw(c2, fieldError.value)
      else
        var (sensors, sensorError) := ReadList(SensorList(d), SensorOf);
        var c3 := c2.(modbus := c2.modbus.(sensors := c.modbus.sensors + sensors));
        if sensorError.Some? then Threw(c3, sensorError.value) else Completed(c3)
  }

  /** `parseFromMap`: the map applied, then `loadDefault` when no port was
      configured.  An exception leaves the configuration as far as the map
      had been applied, with no fallback. */
  function ParseFromMap(c: AppConfig, d: ConfigMap, windows: bool): (r: Outcome)
    ensures r.Completed? <==> MapFits(d)
    ensures r.Completed? ==> |r.config.modbus.ports| > 0
    ensures r.Threw? ==> r == ApplyMap(c, d)
    ensures r.Completed? && |c.modbus.ports| + |PortList(d)| > 0 ==> r == ApplyMap(c, d)
    ensures r.Completed? && |c.modbus.ports| + |PortList(d)| == 0 ==> r.config == LoadDefault(ApplyMap(c, d).config, windows)
  {
    match ApplyMap(c, d)
    case Threw(p, x) => Threw(p, x)
    case Completed(applied) =>
      if |applied.modbus.ports| == 0 then Completed(LoadDefault(applied, windows)) else Completed(applied)
  }

  /** What reading and decoding the file gives `ConfigLoader.load`: no
      file, text Gson rejects, a file that decodes to null, or a map. */
  datatype Decoded = FileMissing | BadJson | NullJson | Decoded(data: ConfigMap)

  /** `ConfigLoader.load`: the built-in configuration when there is no map;
      otherwise the map read into a fresh configuration, and when that
      throws, `loadDefault` applied to whatever it had read. */
  function Load(f: Decoded, windows: bool): (c: AppConfig)
    ensures |c.modbus.ports| > 0
    ensures !f.Decoded? ==> c == LoadDefault(NewAppConfig(), windows)
    ensures f.Decoded? && MapFits(f.data) ==> c == ParseFromMap(NewAppConfig(), f.data, windows).config
    ensures f.Decoded? && !MapFits(f.data) ==> c == LoadDefault(ApplyMap(NewAppConfig(), f.data).partial, windows)
  {
    match f
    case Decoded(d) =>
      (match ParseFromMap(NewAppConfig(), d, windows)
       case Completed(c) => c
       case Threw(p, _) => LoadDefault(p, windows))
    case _ => LoadDefault(NewAppConfig(), windows)
  }

  /** A map whose casts all succeed and that lists at least one port, read
      into a fresh configuration, keeps exactly the parsed ports, sensors,
      interval and storage type: no defaults are added. */
  lemma ParsedPortsAreKept(d: ConfigMap, windows: bool)
    requires MapFits(d) && |PortList(d)| > 0
    ensures var r := Load(Decoded(d), windows);
            && r.modbus.ports == ReadList(PortList(d), PortOf).0
            && r.modbus.sensors == ReadList(SensorList(d), SensorOf).0
            && r.modbus.readInterval == IntRead(d.fields, "read_interval", 0)
            && r.storage.storageType == StringRead(d.fields, "storage_type", None)
  {
    assert StorageField(NewAppConfig().storage, 0) == None;
    assert STORAGE_KEYS[0] == "storage_type";
  }

  /** A map whose casts all succeed but that lists no port ends with the
      one default port, the parsed sensors followed by the default sensor
      on that port, interval 2 and the default storage, whatever the map
      said about the interval and the storage. */
  lemma FallbackOverwrites(d: ConfigMap, windows: bool)
    requires MapFits(d) && |PortList(d)| == 0
    ensures var r := Load(Decoded(d), windows);
            && r.modbus.ports == [DefaultPort(windows)]
            && r.modbus.sensors == ReadList(SensorList(d), SensorOf).0 + [DefaultSensor(DefaultPort(windows).name)]
            && r.modbus.readInterval == 2
            && r.storage == DEFAULT_STORAGE
  {
  }

  /** A port whose "baudrate" is a string throws at the cast: the ports read
      before it are kept, and `loadDefault` adds the default port and sensor
      after them, sets interval 2 and the default storage. */
  lemma WrongTypeKeepsEarlierPorts(good: map<string, Json>, windows: bool)
    requires PortFits(Obj(good))
    ensures var bad := Obj(map["baudrate" := JString("9600")]);
            var r := Load(Decoded(ConfigMap(Some([Obj(good), bad]), map[], None)), windows);
            && r.modbus.ports == [PortOf(Obj(good)).value, DefaultPort(windows)]
            && r.modbus.sensors == [DefaultSensor(DefaultPort(windows).name)]
            && r.modbus.readInterval == 2 && r.storage == DEFAULT_STORAGE
  {
    var bad := Obj(map["baudrate" := JString("9600")]);
    var es := [Obj(good), bad];
    assert !PortFits(bad);
    assert es[1..] == [bad];
    var d := ConfigMap(Some(es), map[], None);
    assert !MapFits(d) by {
      assert !PortFits(PortList(d)[1]);
    }
    assert ReadList(es[1..], PortOf).0 == [];
    assert ReadList(PortList(d), PortOf).0 == [PortOf(Obj(good)).value];
  }

  /** A null "baudrate" throws too, on the `intValue` call. */
  lemma NullNumberThrows()
    ensures PortOf(Obj(map["baudrate" := JNull])) == Failure(NullPointer)
  {
    var m := map["baudrate" := JNull];
    assert "name" !in m && "port" !in m;
  }

  /** Gson hands numbers over as doubles, and `intValue` truncates:
      a baud rate of 9600.7 is read as 9600. */
  lemma FractionalNumberTruncated()
    ensures var p := PortOf(Obj(map["baudrate" := JNumber(9600.7)]));
            p.Success? && p.value.baudrate == 9600
  {
    var m := map["baudrate" := JNumber(9600.7)];
    assert PortFits(Obj(m));
    var n := DoubleToInt(9600.7);
    assert n == 9600;
  }

  /** The storage type as `print` shows it: the four known names get their
      display spelling, any other string is shown as it is, and a missing
      type makes the `switch` throw (None). */
  function StorageTypeLabel(t: Option<string>): (shown: Option<string>)
    ensures shown.None? <==> t.None?
    ensures t.Some? && t.value !in {"sqlite", "influxdb", "csv", "none"} ==> shown == t
  {
    match t
    case None => None
    case Some(s) =>
      if s == "sqlite" then Some("SQLite")
      else if s == "influxdb" then Some("InfluxDB")
      else if s == "csv" then Some("CSV")
      else if s == "none" then Some("None")
      else Some(s)
  }

  /** `print` after loading a map whose casts succeed, that lists ports but
      no "storage_type", throws: nothing ever set the type. */
  lemma PrintWithoutTypeThrows(d: ConfigMap, windows: bool)
    requires MapFits(d) && |PortList(d)| > 0 && "storage_type" !in d.fields
    ensures StorageTypeLabel(Load(Decoded(d), windows).storage.storageType).None?
  {
    ParsedPortsAreKept(d, windows);
  }
}

=== FILE: java_sensor_reader.dfy ===
/** The Java Modbus RTU reader (`SensorReader`) and its registry of named
    serial ports (`MultiPortReader`).  Java `int` values stay `int`; the
    casts to `byte` keep the low eight bits; the CRC register is a Java
    `int` that starts at 0xFFFF and is only ever XOR-ed with a masked byte or
    0xA001 and shifted right, so it never holds more than 16 bits and is the
    `ModbusCrc.Crc` register of the C++ reader.  The serial line is an input: whether the
    whole request was written, and the bytes available after the wait. */
module JavaSensorReader {
  import opened Wrappers
  import opened ModbusCrc
  import JavaAppConfig

  /** Java's `(byte) x` and `x & 0xFF`: the low eight bits of an int. */
  function LowBits(x: int): (b: bv8)
    ensures b as int == x % 256
  {
    Bytes.ByteOf(x % 256)
  }

  // ------------------------------------------------------------ frames

  /** `createModbusRequest` as written: the quantity field is fixed at 4 and
      the humidity register is ignored. */
  function CreateModbusRequestAsWritten(slaveId: int, tempReg: int, humiReg: int): (request: seq<bv8>)
    ensures |request| == 6 && request[1] == 0x03 && request[4..] == [0x00, 0x04]
  {
    [LowBits(slaveId), 0x03, LowBits(tempReg / 256), LowBits(tempReg), 0x00, 0x04]
  }

  /** The request with the quantity the response check is written for: two
      registers, whose response carries byte count 4. */
  function CreateModbusRequest(slaveId: int, tempReg: int, humiReg: int): (request: seq<bv8>)
    ensures |request| == 6 && request[1] == 0x03 && request[4..] == [0x00, 0x02]
  {
    [LowBits(slaveId), 0x03, LowBits(tempReg / 256), LowBits(tempReg), 0x00, 0x02]
  }

  /** For a register number in 0..65535 the request carries it big-endian. */
  lemma RequestCarriesRegister(slaveId: int, tempReg: int, humiReg: int)
    requires 0 <= slaveId < 256 && 0 <= tempReg < 0x1_0000
    ensures var r := CreateModbusRequest(slaveId, tempReg, humiReg);
            r[0] as int == slaveId && r[2] as int * 256 + r[3] as int == tempReg
  {
    var r := CreateModbusRequest(slaveId, tempReg, humiReg);
    WordHalves(tempReg);
    assert r[2] as int == tempReg / 256 && r[3] as int == tempReg % 256;
  }

  /** The halves of a 16-bit value are bytes that make it up again. */
  lemma WordHalves(x: int)
    requires 0 <= x < 0x1_0000
    ensures 0 <= x / 256 < 256 && (x / 256) % 256 == x / 256 && (x % 256) % 256 == x % 256
    ensures (x / 256) * 256 + x % 256 == x
  {
  }

  /** The byte pair `sendRequest` appends: CRC low byte, then high byte. */
  function CrcBytes(request: seq<bv8>): (b: seq<bv8>)
    ensures |b| == 2
  {
    var crc := Crc(request);
    [(crc & 0xFF) as bv8, ((crc >> 8) & 0xFF) as bv8]
  }

  /** The frame `sendRequest` writes. */
  function SendRequestFrame(request: seq<bv8>): (frame: seq<bv8>)
    ensures frame == WithCrc(request)
  {
    CrcBytesAreStandard(request);
    request + CrcBytes(request)
  }

  lemma CrcBytesAreStandard(request: seq<bv8>)
    ensures CrcBytes(request) == [LowByte(Crc(request)), HighByte(Crc(request))]
  {
    MaskedHighByte(Crc(request));
  }

  lemma MaskedHighByte(c: bv16)
    ensures ((c >> 8) & 0xFF) as bv8 == HighByte(c)
  {
  }

  /** `receivedCRC`: the last byte is the high half, the one before it the
      low half. */
  function ReceivedCrc(response: seq<bv8>): bv16
    requires |response| >= 2
  {
    ReadBe16(response[|response| - 1], response[|response| - 2])
  }

  /** `validateResponse`. */
  function ValidateResponse(response: seq<bv8>, expectedSlaveId: int): (ok: bool)
    ensures ok <==> |response| >= 5 && response[0] as int == expectedSlaveId
                    && response[1] == 0x03 && response[2] == 4
                    && response == WithCrc(response[..|response| - 2])
  {
    if |response| < 5 then false
    else
      CrcClauseIsFraming(response);
      && response[0] as int == expectedSlaveId
      && response[1] == 0x03
      && response[2] == 4
      && ReceivedCrc(response) == Crc(response[..|response| - 2])
  }

  /** The CRC clause holds exactly when the frame ends in the CRC of the
      bytes before it, low byte first. */
  lemma CrcClauseIsFraming(response: seq<bv8>)
    requires |response| >= 2
    ensures ReceivedCrc(response) == Crc(response[..|response| - 2])
            <==> response == WithCrc(response[..|response| - 2])
  {
    var body := response[..|response| - 2];
    PairMatches(response[|response| - 2], response[|response| - 1], Crc(body));
    assert response == body + [response[|response| - 2], response[|response| - 1]];
  }

  lemma PairMatches(lo: bv8, hi: bv8, c: bv16)
    ensures ReadBe16(hi, lo) == c <==> lo == LowByte(c) && hi == HighByte(c)
  {
    ReadBe16Bytes(hi, lo);
    Be16RoundTrip(c);
  }

  /** For any body, the CRC clause of `validateResponse` accepts the body
      followed by the CRC bytes `sendRequest` computes for it. */
  lemma SentCrcIsAccepted(body: seq<bv8>)
    ensures ReceivedCrc(SendRequestFrame(body)) == Crc(body)
  {
    var frame := SendRequestFrame(body);
    assert frame[..|frame| - 2] == body;
    CrcClauseIsFraming(frame);
  }

  // ------------------------------------------------------------ reading

  datatype ReadError =
    | PortNotOpen
    | SendFailed
    | IncompleteResponse
    | BadFrame
    | ReadException
    | PortNotFound(port: Option<string>)
    | PortClosed(port: Option<string>)

  /** The two raw register values of a successful read, before scaling. */
  datatype Raw = Raw(temperature: bv16, humidity: bv16)

  /** One exchange: whether `writeBytes` wrote the whole frame, and the bytes
      available once the reader has waited. */
  datatype Line = Line(writeOk: bool, available: seq<bv8>)

  /** `readResponse`: null when fewer than five bytes are available. */
  function ReadResponse(available: seq<bv8>): (r: Option<seq<bv8>>)
    ensures r.Some? <==> |available| >= 5
    ensures r.Some? ==> r.value == available
  {
    if |available| < 5 then None else Some(available)
  }

  /** `readSensorData` without scaling.  A frame that passes validation but
      is shorter than seven bytes makes the decoding index past its end; the
      exception is caught and reported. */
  function ReadSensorData(isOpen: bool, slaveId: int, tempReg: int, humiReg: int, line: Line): (res: Result<Raw, ReadError>)
    ensures !isOpen ==> res == Failure(PortNotOpen)
    ensures res.Success? <==> line.writeOk && isOpen && ValidateResponse(line.available, slaveId) && |line.available| >= 7
    ensures res.Success? ==>
              res.value == Raw(ReadBe16(line.available[3], line.available[4]), ReadBe16(line.available[5], line.available[6]))
    ensures isOpen && !line.writeOk ==> res == Failure(SendFailed)
    ensures isOpen && line.writeOk && |line.available| < 5 ==> res == Failure(IncompleteResponse)
    ensures isOpen && line.writeOk && |line.available| >= 5 && !ValidateResponse(line.available, slaveId) ==>
              res == Failure(BadFrame)
    ensures isOpen && line.writeOk && ValidateResponse(line.available, slaveId) && |line.available| < 7 ==>
              res == Failure(ReadException)
  {
    if !isOpen then Failure(PortNotOpen)
    else if !line.writeOk then Failure(SendFailed)
    else match ReadResponse(line.available)
      case None => Failure(IncompleteResponse)
      case Some(r) =>
        if !ValidateResponse(r, slaveId) then Failure(BadFrame)
        else if |r| < 7 then Failure(ReadException)
        else Success(Raw(ReadBe16(r[3], r[4]), ReadBe16(r[5], r[6])))
  }

  /** A normal two-register response from the addressed slave decodes to the
      values the slave encoded. */
  lemma ReadSensorDataRoundTrip(slave: bv8, tempReg: int, humiReg: int, temperature: bv16, humidity: bv16)
    ensures ReadSensorData(true, slave as int, tempReg, humiReg, Line(true, TwoRegisterResponse(slave, temperature, humidity)))
            == Success(Raw(temperature, humidity))
  {
    var f := TwoRegisterResponse(slave, temperature, humidity);
    TwoRegisterResponseFields(slave, temperature, humidity);
    assert f[..|f| - 2] == f[..7];
    assert f == WithCrc(f[..7]);
  }

  /** A response whose CRC bytes do not match is rejected. */
  lemma CorruptCrcRejected(slaveId: int, tempReg: int, humiReg: int, body: seq<bv8>, lo: bv8, hi: bv8)
    requires [lo, hi] != [LowByte(Crc(body)), HighByte(Crc(body))]
    ensures ReadSensorData(true, slaveId, tempReg, humiReg, Line(true, body + [lo, hi])).Failure?
  {
    var r := body + [lo, hi];
    assert r[..|r| - 2] == body;
    assert r[|body|..] == [lo, hi];
    assert WithCrc(body)[|body|..] == [LowByte(Crc(body)), HighByte(Crc(body))];
  }

  /** A five-byte frame [slave, 3, 4, CRC] passes validation, and decoding it
      throws. */
  lemma ShortValidFrameThrows(slave: bv8, tempReg: int, humiReg: int)
    ensures ReadSensorData(true, slave as int, tempReg, humiReg, Line(true, WithCrc([slave, 0x03, 4])))
            == Failure(ReadException)
  {
    var f := WithCrc([slave, 0x03, 4]);
    assert f[..|f| - 2] == [slave, 0x03, 4];
  }

  /** Four registers, as a device answers the request as written: byte count
      8 and eight data bytes. */
  function FourRegisterResponse(slave: bv8, a: bv16, b: bv16, c: bv16, d: bv16): (frame: seq<bv8>)
    ensures |frame| == 13 && frame[2] == 8
  {
    WithCrc([slave, 0x03, 8] + Be16Bytes(a) + Be16Bytes(b) + Be16Bytes(c) + Be16Bytes(d))
  }

  /** The request as written asks for four registers; the device's correct
      answer carries byte count 8, which `validateResponse` rejects, so no
      read against a conforming device succeeds. */
  lemma AsWrittenRequestAnswerRejected(slave: bv8, tempReg: int, humiReg: int, a: bv16, b: bv16, c: bv16, d: bv16)
    ensures var q := CreateModbusRequestAsWritten(slave as int, tempReg, humiReg);
            ReadBe16(q[4], q[5]) == 4
            && ReadSensorData(true, slave as int, tempReg, humiReg, Line(true, FourRegisterResponse(slave, a, b, c, d)))
               == Failure(BadFrame)
  {
  }

  /** The corrected request asks for two registers, and the device's correct
      answer to it is accepted and decoded. */
  lemma CorrectedRequestAnswerAccepted(slave: bv8, tempReg: int, humiReg: int, t: bv16, h: bv16)
    ensures var q := CreateModbusRequest(slave as int, tempReg, humiReg);
            ReadBe16(q[4], q[5]) == 2
            && ReadSensorData(true, slave as int, tempReg, humiReg, Line(true, TwoRegisterResponse(slave, t, h)))
               == Success(Raw(t, h))
  {
    ReadSensorDataRoundTrip(slave, tempReg, humiReg, t, h);
  }

  // ------------------------------------------------------------ registry

  /** A registered reader: its serial settings and whether it is open. */
  datatype Reader = Reader(device: Option<string>, baudrate: int, dataBits: int, stopBits: int,
                           parity: char, timeout: int, isOpen: bool)

  /** `MultiPortReader`: the readers, their names in order, and the map from
      name to position (a `HashMap`, so null is a possible key). */
  datatype Registry = Registry(readers: seq<Reader>, portNames: seq<Option<string>>, portMap: map<Option<string>, nat>)

  const MAX_PORTS: nat := 16

  /** The registry's invariant: one name per reader, at most sixteen,
      names distinct, and the map sends each name to its position. */
  ghost predicate Valid(g: Registry) {
    && |g.readers| == |g.portNames| <= MAX_PORTS
    && (forall i, j :: 0 <= i < j < |g.portNames| ==> g.portNames[i] != g.portNames[j])
    && (forall n :: n in g.portMap <==> n in g.portNames)
    && (forall n :: n in g.portMap ==> g.portMap[n] < |g.portNames| && g.portNames[g.portMap[n]] == n)
  }

  function EmptyRegistry(): (g: Registry)
    ensures Valid(g) && |g.readers| == 0
  {
    Registry([], [], map[])
  }

  /** `addPort(name, port, ...)`: refuses a seventeenth port and a name that
      is already registered; otherwise appends a closed reader. */
  function AddPort(g: Registry, name: Option<string>, device: Option<string>, baudrate: int, dataBits: int,
                   stopBits: int, parity: char, timeout: int): (r: (Registry, bool))
    ensures r.1 <==> |g.readers| < MAX_PORTS && name !in g.portMap
    ensures r.1 ==> r.0 == Registry(g.readers + [Reader(device, baudrate, dataBits, stopBits, parity, timeout, false)],
                                    g.portNames + [name], g.portMap[name := |g.readers|])
    ensures !r.1 ==> r.0 == g
  {
    if |g.readers| >= MAX_PORTS then (g, false)
    else if name in g.portMap then (g, false)
    else (Registry(g.readers + [Reader(device, baudrate, dataBits, stopBits, parity, timeout, false)],
                   g.portNames + [name], g.portMap[name := |g.readers|]), true)
  }

  /** Registering keeps the invariant. */
  lemma AddPortKeepsValid(g: Registry, name: Option<string>, device: Option<string>, baudrate: int,
                          dataBits: int, stopBits: int, parity: char, timeout: int)
    requires Valid(g)
    ensures Valid(AddPort(g, name, device, baudrate, dataBits, stopBits, parity, timeout).0)
  {
    var (h, ok) := AddPort(g, name, device, baudrate, dataBits, stopBits, parity, timeout);
    if ok {
      assert name !in g.portNames;
      forall n | n in h.portMap
        ensures h.portMap[n] < |h.portNames| && h.portNames[h.portMap[n]] == n
      {
        if n != name {
          assert n in g.portMap;
        }
      }
    }
  }

  /** The parity character of `addPort(PortConfig)`: the first character,
      or 'N' when the parity is null or empty. */
  function ParityChar(parity: Option<string>): (c: char)
    ensures parity.Some? && |parity.value| > 0 ==> c == parity.value[0]
    ensures parity.None? || |parity.value| == 0 ==> c == 'N'
  {
    if parity.Some? && |parity.value| > 0 then parity.value[0] else 'N'
  }

  /** `addPort(PortConfig)`: the timeout is given in seconds and passed on in
      milliseconds. */
  function AddPortConfig(g: Registry, config: JavaAppConfig.PortConfig): (r: (Registry, bool))
    ensures r == AddPort(g, config.name, config.port, config.baudrate, config.dataBits, config.stopBits,
                         ParityChar(config.parity), JavaAppConfig.DoubleToInt(config.timeout * 1000.0))
  {
    AddPort(g, config.name, config.port, config.baudrate, config.dataBits, config.stopBits,
            ParityChar(config.parity), JavaAppConfig.DoubleToInt(config.timeout * 1000.0))
  }

  /** `isPortConnected`: false for an unknown name. */
  function IsPortConnected(g: Registry, name: Option<string>): (b: bool)
    requires Valid(g)
    ensures b <==> exists i :: 0 <= i < |g.portNames| && g.portNames[i] == name && g.readers[i].isOpen
  {
    if name in g.portMap then
      var i := g.portMap[name];
      assert forall j :: 0 <= j < |g.portNames| && g.portNames[j] == name ==> j == i;
      g.readers[i].isOpen
    else false
  }

  /** `getPortCount`. */
  function PortCount(g: Registry): (n: nat)
    requires Valid(g)
    ensures n == |g.portNames| <= MAX_PORTS
  {
    |g.readers|
  }

  /** `getPortName`: null outside 0..size-1. */
  function GetPortName(g: Registry, index: int): (name: Option<Option<string>>)
    ensures name.Some? <==> 0 <= index < |g.portNames|
    ensures name.Some? ==> name.value == g.portNames[index]
  {
    if 0 <= index < |g.portNames| then Some(g.portNames[index]) else None
  }

  /** Each registered name leads back to its position. */
  lemma NameLookupRoundTrip(g: Registry, index: nat)
    requires Valid(g) && index < |g.portNames|
    ensures GetPortName(g, index).Some? && g.portMap[GetPortName(g, index).value] == index
  {
    var n := g.portNames[index];
    assert n in g.portMap;
  }

  /** One entry of `readAllSensors`' result. */
  datatype Reading = Reading(name: Option<string>, result: Result<Raw, ReadError>)

  /** `readAllSensors` for one sensor. */
  function ReadOne(g: Registry, s: JavaAppConfig.SensorConfig, line: Line): (r: Reading)
    requires Valid(g)
    ensures r.name == s.name
    ensures s.portName !in g.portMap ==> r.result == Failure(PortNotFound(s.portName))
    ensures s.portName in g.portMap && !g.readers[g.portMap[s.portName]].isOpen
            ==> r.result == Failure(PortClosed(s.portName))
    ensures s.portName in g.portMap && g.readers[g.portMap[s.portName]].isOpen
            ==> r.result == ReadSensorData(true, s.slaveId, s.tempReg, s.humiReg, line)
  {
    if s.portName !in g.portMap then Reading(s.name, Failure(PortNotFound(s.portName)))
    else
      var reader := g.readers[g.portMap[s.portName]];
      if !reader.isOpen then Reading(s.name, Failure(PortClosed(s.portName)))
      else Reading(s.name, ReadSensorData(reader.isOpen, s.slaveId, s.tempReg, s.humiReg, line))
  }

  /** `readAllSensors`: one reading per sensor, in order. */
  function ReadAllSensors(g: Registry, sensors: seq<JavaAppConfig.SensorConfig>, lines: seq<Line>): (rs: seq<Reading>)
    requires Valid(g) && |lines| == |sensors|
    ensures |rs| == |sensors|
    ensures forall k :: 0 <= k < |sensors| ==> rs[k] == ReadOne(g, sensors[k], lines[k])
  {
    if |sensors| == 0 then []
    else [ReadOne(g, sensors[0], lines[0])] + ReadAllSensors(g, sensors[1..], lines[1..])
  }

  /** A sensor gets values only through a registered, open port. */
  lemma ValuesNeedOpenPort(g: Registry, s: JavaAppConfig.SensorConfig, line: Line)
    requires Valid(g) && ReadOne(g, s, line).result.Success?
    ensures IsPortConnected(g, s.portName)
  {
  }
}

=== FILE: js_number.dfy ===
/** The JavaScript number operations the time, register and cluster code relies
    on, written out over unbounded integers: `parseInt`, the ToInt32 wrap of the
    bitwise operators, the truncating `%`, and `Math.round` of a quotient. */
module JsNumber {
  import opened Wrappers
  import opened Text

  const TWO32: int := 0x1_0000_0000
  const TWO31: int := 0x8000_0000

  /** ToInt32: reduce modulo 2^32 into the signed range, as every JavaScript
      bitwise operator does to its operands and result. */
  function ToInt32(x: int): (r: int)
    ensures -TWO31 <= r < TWO31
    ensures (r - x) % TWO32 == 0
  {
    var m := x % TWO32;
    if m >= TWO31 then m - TWO32 else m
  }

  /** ToInt32 leaves values already in the signed 32-bit range alone. */
  lemma ToInt32Identity(x: int)
    requires -TWO31 <= x < TWO31
    ensures ToInt32(x) == x
  {
  }

  /** JavaScript `a % b` on integers: the remainder of truncating division,
      carrying the sign of the dividend. */
  function JsRem(a: int, b: int): (r: int)
    requires b != 0
    ensures Abs(b) > 0
    ensures a >= 0 ==> r == a % Abs(b) && 0 <= r < Abs(b)
    ensures a < 0 ==> r == -((-a) % Abs(b)) && -Abs(b) < r <= 0
  {
    var q := Abs(a) % Abs(b);
    if a >= 0 then q else -q
  }

  function Abs(x: int): int {
    if x >= 0 then x else -x
  }

  /** `Math.round(n / d)` for a non-negative quotient: halves round up. */
  function RoundDiv(n: nat, d: nat): (r: nat)
    requires d > 0
    ensures 2 * n < (2 * r + 1) * d
    ensures (2 * r - 1) * d <= 2 * n
  {
    (2 * n + d) / (2 * d)
  }

  /** Cancelling a positive factor from both sides of an inequality. */
  lemma MulCancel(a: int, b: int, c: int)
    requires c > 0
    ensures a * c <= b * c ==> a <= b
    ensures a * c < b * c ==> a < b
  {
    if a > b {
      assert a * c - b * c == (a - b) * c;
    }
  }

  /** A rounded quotient n/d lies between a and b whenever n/d does. */
  lemma RoundDivBetween(n: nat, d: nat, a: int, b: int)
    requires d > 0 && a * d <= n <= b * d
    ensures a <= RoundDiv(n, d) <= b
  {
    var r := RoundDiv(n, d);
    assert (2 * r - 1) * d <= 2 * n <= (2 * b) * d;
    MulCancel(2 * r - 1, 2 * b, d);
    assert (2 * a) * d <= 2 * n < (2 * r + 1) * d;
    MulCancel(2 * a, 2 * r + 1, d);
  }

  /** A string white-space character in the sense of ECMAScript
      StrWhiteSpaceChar: WhiteSpace (the Zs category, TAB, VT, FF, ZWNBSP) and
      LineTerminator. */
  predicate IsJsSpace(c: char) {
    c == '\t' || c == '\n' || c == '\U{000B}' || c == '\U{000C}' || c == '\r' || c == ' '
    || c == '\U{00A0}' || c == '\U{1680}' || ('\U{2000}' <= c <= '\U{200A}')
    || c == '\U{2028}' || c == '\U{2029}' || c == '\U{202F}' || c == '\U{205F}'
    || c == '\U{3000}' || c == '\U{FEFF}'
  }

  /** The string with its leading white space removed. */
  function TrimStart(s: string): (t: string)
    ensures |t| <= |s| && t == s[|s| - |t|..]
    ensures |t| > 0 ==> !IsJsSpace(t[0])
    ensures forall k :: 0 <= k < |s| - |t| ==> IsJsSpace(s[k])
  {
    if |s| > 0 && IsJsSpace(s[0]) then TrimStart(s[1..]) else s
  }

  /** The value of a digit in radix 10 or 16, if it is one. */
  function RadixDigit(c: char, radix: nat): (d: Option<nat>)
    requires radix == 10 || radix == 16
    ensures d.Some? ==> d.value < radix
    ensures radix == 10 ==> (d.Some? <==> '0' <= c <= '9')
  {
    if '0' <= c <= '9' then Some(c as int - '0' as int)
    else if radix == 16 && 'a' <= c <= 'f' then Some(c as int - 'a' as int + 10)
    else if radix == 16 && 'A' <= c <= 'F' then Some(c as int - 'A' as int + 10)
    else None
  }

  /** The length of the longest prefix of `s` made of radix digits. */
  function DigitRun(s: string, radix: nat): (n: nat)
    requires radix == 10 || radix == 16
    ensures n <= |s|
    ensures forall k :: 0 <= k < n ==> RadixDigit(s[k], radix).Some?
    ensures n < |s| ==> RadixDigit(s[n], radix).None?
  {
    if |s| > 0 && RadixDigit(s[0], radix).Some? then 1 + DigitRun(s[1..], radix) else 0
  }

  /** The value of a run of radix digits, most significant first. */
  function RadixValue(s: string, radix: nat): nat
    requires radix == 10 || radix == 16
    requires forall k :: 0 <= k < |s| ==> RadixDigit(s[k], radix).Some?
  {
    if |s| == 0 then 0
    else RadixValue(s[..|s| - 1], radix) * radix + RadixDigit(s[|s| - 1], radix).value
  }

  /** JavaScript `parseInt(s)` with no radix argument, None standing for NaN:
      skip leading white space, take an optional sign, switch to base 16 after
      a "0x"/"0X" prefix, then read the longest run of digits; no digit at all
      is NaN.  Trailing text is ignored. */
  function ParseInt(s: string): (r: Option<int>)
    ensures r.Some? ==> exists i | 0 <= i < |s| :: '0' <= s[i] <= '9'
  {
    var (negative, u) := TakeSign(TrimStart(s));
    var (radix, v) := TakeRadix(u);
    var n := DigitRun(v, radix);
    if n == 0 then None
    else
      DigitBeforeRun(s, TrimStart(s), u);
      var magnitude: int := RadixValue(v[..n], radix);
      Some(if negative then -magnitude else magnitude)
  }

  /** A run of digits after the white space, sign and prefix starts at a
      decimal digit of the text: the first digit itself, or the '0' of "0x". */
  lemma DigitBeforeRun(s: string, t: string, u: string)
    requires t == TrimStart(s) && u == TakeSign(t).1
    requires DigitRun(TakeRadix(u).1, TakeRadix(u).0) > 0
    ensures exists i | 0 <= i < |s| :: '0' <= s[i] <= '9'
  {
    RunStartsWithDigit(u);
    var k := |s| - |u|;
    assert s[k] == u[0];
  }

  /** A digit run after the prefix needs a decimal digit first. */
  lemma RunStartsWithDigit(u: string)
    requires DigitRun(TakeRadix(u).1, TakeRadix(u).0) > 0
    ensures |u| > 0 && '0' <= u[0] <= '9'
  {
    var (radix, v) := TakeRadix(u);
    if radix == 10 {
      assert RadixDigit(v[0], 10).Some?;
    }
  }

  /** An optional leading sign: whether it was '-', and the text after it. */
  function TakeSign(t: string): (r: (bool, string))
    ensures r.0 <==> |t| > 0 && t[0] == '-'
    ensures r.1 == if |t| > 0 && (t[0] == '-' || t[0] == '+') then t[1..] else t
  {
    if |t| > 0 && (t[0] == '-' || t[0] == '+') then (t[0] == '-', t[1..]) else (false, t)
  }

  /** Base 16 after a "0x"/"0X" prefix, which is dropped; base 10 otherwise. */
  function TakeRadix(u: string): (r: (nat, string))
    ensures r.0 == 10 || r.0 == 16
    ensures r.0 == 16 <==> |u| >= 2 && u[0] == '0' && (u[1] == 'x' || u[1] == 'X')
    ensures r.1 == if r.0 == 16 then u[2..] else u
  {
    if |u| >= 2 && u[0] == '0' && (u[1] == 'x' || u[1] == 'X') then (16, u[2..]) else (10, u)
  }

  /** Decimal digits agree with the decimal reading of the text module. */
  lemma {:induction false} RadixValueDecimal(s: string)
    requires IsDigits(s)
    ensures forall k :: 0 <= k < |s| ==> RadixDigit(s[k], 10).Some?
    ensures RadixValue(s, 10) == DigitsValue(s)
    decreases |s|
  {
    if |s| > 0 {
      RadixValueDecimal(s[..|s| - 1]);
    }
  }

  /** `parseInt(String(n)) == n` for every natural number. */
  lemma ParseIntNatToString(n: nat)
    ensures ParseInt(NatToString(n)) == Some(n)
  {
    var s := NatToString(n);
    assert !IsJsSpace(s[0]);
    assert TrimStart(s) == s;
    assert TakeSign(s) == (false, s);
    assert |s| >= 2 ==> s[1] != 'x' && s[1] != 'X';
    assert TakeRadix(s) == (10, s);
    DigitRunAll(s);
    assert s[..|s|] == s;
    RadixValueDecimal(s);
    DigitsValueOfNatToString(n);
  }

  /** A string of decimal digits is read to its end. */
  lemma {:induction false} DigitRunAll(s: string)
    requires IsDigits(s)
    ensures DigitRun(s, 10) == |s|
    decreases |s|
  {
    if |s| > 0 {
      DigitRunAll(s[1..]);
    }
  }

  /** Text that, after white space and sign, does not start with a digit is NaN. */
  lemma ParseIntNoDigit(s: string)
    requires var t := TrimStart(s);
             var u := if |t| > 0 && (t[0] == '-' || t[0] == '+') then t[1..] else t;
             |u| == 0 || !('0' <= u[0] <= '9')
    ensures ParseInt(s) == None
  {
  }

  /** A parsed value is never negative unless the text carries a minus sign. */
  lemma ParseIntSign(s: string)
    requires ParseInt(s).Some? && ParseInt(s).value < 0
    ensures var t := TrimStart(s); |t| > 0 && t[0] == '-'
  {
  }

  // ------------------------------------------------------------ bitwise operators

  function Pow2(n: nat): (p: nat)
    ensures p >= 1
  {
    if n == 0 then 1 else 2 * Pow2(n - 1)
  }

  lemma Pow2Byte()
    ensures Pow2(8) == 256
  {
  }

  /** Bitwise OR of two non-negative integers, one bit at a time. */
  function NatOr(a: nat, b: nat): (r: nat)
    ensures a == 0 ==> r == b
    ensures b == 0 ==> r == a
  {
    if a == 0 then b
    else if b == 0 then a
    else 2 * NatOr(a / 2, b / 2) + (if a % 2 == 1 || b % 2 == 1 then 1 else 0)
  }

  /** OR-ing a value below 2^n into a multiple of 2^n is adding it. */
  lemma {:induction false} OrBelowShift(a: nat, b: nat, n: nat)
    requires b < Pow2(n)
    ensures NatOr(a * Pow2(n), b) == a * Pow2(n) + b
    decreases n
  {
    var hi := a * Pow2(n);
    if hi != 0 && b != 0 {
      assert n > 0;
      var half := a * Pow2(n - 1);
      assert hi == 2 * half;
      assert hi / 2 == half && hi % 2 == 0;
      OrBelowShift(a, b / 2, n - 1);
    }
  }

  /** `x << n` for 0 <= n < 32: the operand and the result both wrapped by ToInt32. */
  function ShiftLeft(x: int, n: nat): (r: int)
    requires n < 32
    ensures -TWO31 <= r < TWO31
    ensures 0 <= x && x * Pow2(n) < TWO31 ==> r == x * Pow2(n)
  {
    var wrapped := ToInt32(x);
    if 0 <= x && x * Pow2(n) < TWO31 then
      assert x <= x * Pow2(n);
      ToInt32Identity(x);
      ToInt32Identity(x * Pow2(n));
      ToInt32(wrapped * Pow2(n))
    else ToInt32(wrapped * Pow2(n))
  }

  /** `x >> n`, the sign-propagating shift: floor division of the wrapped operand. */
  function ShiftRight(x: int, n: nat): (r: int)
    ensures 0 <= x < TWO31 ==> r == x / Pow2(n)
  {
    if 0 <= x < TWO31 then
      ToInt32Identity(x);
      ToInt32(x) / Pow2(n)
    else ToInt32(x) / Pow2(n)
  }

  /** `x & (2^n - 1)`: the low n bits of the wrapped operand's two's complement. */
  function AndMask(x: int, n: nat): (r: nat)
    requires n <= 31
    ensures r < Pow2(n)
    ensures 0 <= x < TWO31 ==> r == x % Pow2(n)
  {
    if 0 <= x < TWO31 then
      ToInt32Identity(x);
      ToInt32(x) % Pow2(n)
    else ToInt32(x) % Pow2(n)
  }
}

=== FILE: modbus_crc.dfy ===
/** The Modbus RTU error check of section 6.2.2 of the Modbus over Serial
    Line specification v1.02: CRC-16 with the reflected polynomial 0xA001,
    preset 0xFFFF, transmitted low byte first.  Also the frame layout of
    function 0x03, Read Holding Registers, from section 6.3 of the Modbus
    Application Protocol specification v1.1b3. */
module ModbusCrc {
  import opened Bytes

  /** One shift of the register: shift right, and XOR in the polynomial when
      the bit shifted out was 1. */
  function ShiftOnce(crc: bv16): bv16 {
    if crc & 1 != 0 then (crc >> 1) ^ 0xA001 else crc >> 1
  }

  /** The eight shifts that follow each byte. */
  function Shift8(crc: bv16): bv16 {
    ShiftOnce(ShiftOnce(ShiftOnce(ShiftOnce(ShiftOnce(ShiftOnce(ShiftOnce(ShiftOnce(crc))))))))
  }

  /** Folding one byte into the register: XOR it into the low byte, then
      shift eight times. */
  function CrcByte(crc: bv16, b: bv8): bv16 {
    Shift8(crc ^ (b as bv16))
  }

  /** `calculateCRC`: the register after folding in every byte, starting
      from 0xFFFF. */
  function Crc(data: seq<bv8>): (crc: bv16)
    ensures |data| == 0 ==> crc == 0xFFFF
  {
    if |data| == 0 then 0xFFFF else CrcByte(Crc(data[..|data| - 1]), data[|data| - 1])
  }

  function LowByte(x: bv16): bv8 {
    (x & 0xFF) as bv8
  }

  function HighByte(x: bv16): bv8 {
    (x >> 8) as bv8
  }

  /** A frame with its CRC appended, low byte first. */
  function WithCrc(body: seq<bv8>): (frame: seq<bv8>)
    ensures |frame| == |body| + 2 && frame[..|body|] == body
  {
    var crc := Crc(body);
    body + [LowByte(crc), HighByte(crc)]
  }

  /** Eight shifts of a register whose low byte is zero only move it down. */
  lemma Shift8OfLowZero(x: bv16)
    requires x & 0xFF == 0
    ensures Shift8(x) == x >> 8
  {
  }

  /** The low and high byte of a register rebuild it. */
  lemma SplitBytes(x: bv16)
    ensures x ^ (LowByte(x) as bv16) == (HighByte(x) as bv16) << 8
    ensures (x >> 8) == HighByte(x) as bv16
  {
  }

  /** Folding in the register's own low byte leaves its high byte. */
  lemma FoldLowByte(c: bv16)
    ensures CrcByte(c, LowByte(c)) == HighByte(c) as bv16
  {
    SplitBytes(c);
    Shift8OfLowZero(c ^ (LowByte(c) as bv16));
  }

  /** Folding a byte into a register holding just that byte clears it. */
  lemma FoldSameByte(b: bv8)
    ensures CrcByte(b as bv16, b) == 0
  {
  }

  /** The CRC of a frame extended by one byte folds that byte in. */
  lemma CrcAppend(data: seq<bv8>, b: bv8)
    ensures Crc(data + [b]) == CrcByte(Crc(data), b)
  {
    assert (data + [b])[..|data|] == data;
  }

  /** The receiver's check: the CRC over a frame with its own CRC appended is
      zero, for every frame. */
  lemma CrcOfFramedIsZero(body: seq<bv8>)
    ensures Crc(WithCrc(body)) == 0
  {
    var crc := Crc(body);
    var withLow := body + [LowByte(crc)];
    assert WithCrc(body) == withLow + [HighByte(crc)];
    CrcAppend(body, LowByte(crc));
    FoldLowByte(crc);
    CrcAppend(withLow, HighByte(crc));
    FoldSameByte(HighByte(crc));
  }

  /** The check value of the CRC-16/MODBUS catalogue entry: the ASCII text
      "123456789" gives 0x4B37. */
  lemma CheckValue()
    ensures Crc([0x31, 0x32, 0x33, 0x34, 0x35, 0x36, 0x37, 0x38, 0x39]) == 0x4B37
  {
    CheckPrefix6();
    assert CrcByte(0x32E4, 0x37) == 0x9D73 by { }
    CrcStep([0x31, 0x32, 0x33, 0x34, 0x35, 0x36], 0x37, 0x32E4, 0x9D73, [0x31, 0x32, 0x33, 0x34, 0x35, 0x36, 0x37]);
    assert CrcByte(0x9D73, 0x38) == 0x37DD by { }
    CrcStep([0x31, 0x32, 0x33, 0x34, 0x35, 0x36, 0x37], 0x38, 0x9D73, 0x37DD,
            [0x31, 0x32, 0x33, 0x34, 0x35, 0x36, 0x37, 0x38]);
    assert CrcByte(0x37DD, 0x39) == 0x4B37 by { }
    CrcStep([0x31, 0x32, 0x33, 0x34, 0x35, 0x36, 0x37, 0x38], 0x39, 0x37DD, 0x4B37,
            [0x31, 0x32, 0x33, 0x34, 0x35, 0x36, 0x37, 0x38, 0x39]);
  }

  /** The register after the digits "123456". */
  lemma CheckPrefix6()
    ensures Crc([0x31, 0x32, 0x33, 0x34, 0x35, 0x36]) == 0x32E4
  {
    CheckPrefix3();
    assert CrcByte(0x7A75, 0x34) == 0x30BA by { }
    CrcStep([0x31, 0x32, 0x33], 0x34, 0x7A75, 0x30BA, [0x31, 0x32, 0x33, 0x34]);
    assert CrcByte(0x30BA, 0x35) == 0xA471 by { }
    CrcStep([0x31, 0x32, 0x33, 0x34], 0x35, 0x30BA, 0xA471, [0x31, 0x32, 0x33, 0x34, 0x35]);
    assert CrcByte(0xA471, 0x36) == 0x32E4 by { }
    CrcStep([0x31, 0x32, 0x33, 0x34, 0x35], 0x36, 0xA471, 0x32E4, [0x31, 0x32, 0x33, 0x34, 0x35, 0x36]);
  }

  /** The register after the digits "123". */
  lemma CheckPrefix3()
    ensures Crc([0x31, 0x32, 0x33]) == 0x7A75
  {
    assert CrcByte(0xFFFF, 0x31) == 0x947E by { }
    CrcStep([], 0x31, 0xFFFF, 0x947E, [0x31]);
    assert CrcByte(0x947E, 0x32) == 0xF595 by { }
    CrcStep([0x31], 0x32, 0x947E, 0xF595, [0x31, 0x32]);
    assert CrcByte(0xF595, 0x33) == 0x7A75 by { }
    CrcStep([0x31, 0x32], 0x33, 0xF595, 0x7A75, [0x31, 0x32, 0x33]);
  }

  /** One byte more: the register of the longer data from the register of
      the shorter. */
  lemma CrcStep(data: seq<bv8>, b: bv8, prev: bv16, next: bv16, longer: seq<bv8>)
    requires Crc(data) == prev && CrcByte(prev, b) == next && longer == data + [b]
    ensures Crc(longer) == next
  {
    CrcAppend(data, b);
  }

  // ------------------------------------------------------------ frames

  /** A 16-bit register address or count, as its two bytes, high first. */
  function Be16Bytes(x: bv16): (r: seq<bv8>)
    ensures |r| == 2
  {
    [HighByte(x), LowByte(x)]
  }

  /** The big-endian 16-bit value of two bytes. */
  function ReadBe16(hi: bv8, lo: bv8): bv16 {
    ((hi as bv16) << 8) | (lo as bv16)
  }

  /** Writing and reading a 16-bit value are inverse. */
  lemma Be16RoundTrip(x: bv16)
    ensures ReadBe16(HighByte(x), LowByte(x)) == x
  {
  }

  /** Reading two bytes and splitting the value again gives the bytes back. */
  lemma ReadBe16Bytes(hi: bv8, lo: bv8)
    ensures HighByte(ReadBe16(hi, lo)) == hi && LowByte(ReadBe16(hi, lo)) == lo
  {
  }

  /** A request frame of sections 6.3 and 6.2.2: slave, function, address
      and count (each high byte first), then the CRC. */
  function RequestFrame(slave: bv8, func: bv8, address: bv16, count: bv16): (frame: seq<bv8>)
    ensures |frame| == 8
  {
    WithCrc([slave, func] + Be16Bytes(address) + Be16Bytes(count))
  }

  /** A request frame carries its fields where the receiver reads them, and
      passes the receiver's CRC check. */
  lemma RequestFrameFields(slave: bv8, func: bv8, address: bv16, count: bv16)
    ensures var f := RequestFrame(slave, func, address, count);
            f[0] == slave && f[1] == func
            && ReadBe16(f[2], f[3]) == address && ReadBe16(f[4], f[5]) == count
            && Crc(f) == 0
  {
    Be16RoundTrip(address);
    Be16RoundTrip(count);
    CrcOfFramedIsZero([slave, func] + Be16Bytes(address) + Be16Bytes(count));
  }

  /** The normal response to Read Holding Registers for two registers:
      slave, 0x03, byte count 4, the two values high byte first, and the CRC. */
  function TwoRegisterResponse(slave: bv8, first: bv16, second: bv16): (frame: seq<bv8>)
    ensures |frame| == 9
  {
    WithCrc([slave, 0x03, 4] + Be16Bytes(first) + Be16Bytes(second))
  }

  /** The fields of a two-register response sit where the readers look. */
  lemma TwoRegisterResponseFields(slave: bv8, first: bv16, second: bv16)
    ensures var f := TwoRegisterResponse(slave, first, second);
            f[0] == slave && f[1] == 0x03 && f[2] == 4
            && ReadBe16(f[3], f[4]) == first && ReadBe16(f[5], f[6]) == second
            && f[7..] == [LowByte(Crc(f[..7])), HighByte(Crc(f[..7]))]
  {
    Be16RoundTrip(first);
    Be16RoundTrip(second);
  }
}

=== FILE: modbus_manager.dfy ===
/** The web server's Modbus collection manager (`modbusManager`): the client
    cache keyed by connection, the read dispatch by data type, which devices
    get a collection timer, the teardown, and the IP-address register write.
    The Modbus client library is not modelled: whether a connection attempt
    succeeds and what a read returns are inputs, and a timer is represented
    by the interval it was started with. */
module ModbusManager {
  import opened Wrappers
  import opened Text
  import DeviceInitializer

  /** A row of the devices table. */
  datatype Device = Device(
    id: int, name: string, enabled: bool, connectionType: string,
    ipAddress: string, tcpPort: int, port: string, baudrate: int, slaveId: int,
    dataType: string, registerAddress: int, registerCount: int, interval: int)

  /** A cached client: whether its connection is open, and the unit id last set. */
  datatype Client = Client(isOpen: bool, unitId: int)

  /** The client table: one handle per key, and the next handle to hand out. */
  datatype Clients = Clients(handles: map<string, nat>, state: map<nat, Client>, next: nat)

  ghost predicate ClientsValid(t: Clients) {
    && (forall k :: k in t.handles ==> t.handles[k] < t.next && t.handles[k] in t.state)
    && (forall k1, k2 :: k1 in t.handles && k2 in t.handles && k1 != k2 ==> t.handles[k1] != t.handles[k2])
  }

  // ------------------------------------------------------------ client cache

  /** `getClient`'s key: `tcp_<ip>_<port>` for TCP devices, `rtu_<port>_<baud>`
      for every other connection type. */
  function ClientKey(d: Device): (key: string)
    ensures d.connectionType == "tcp" ==> key == "tcp_" + d.ipAddress + "_" + IntToString(d.tcpPort)
    ensures d.connectionType != "tcp" ==> key == "rtu_" + d.port + "_" + IntToString(d.baudrate)
  {
    if d.connectionType == "tcp" then "tcp_" + d.ipAddress + "_" + IntToString(d.tcpPort)
    else "rtu_" + d.port + "_" + IntToString(d.baudrate)
  }

  /** A TCP key and a serial key never coincide: they differ in their first
      character. */
  lemma KeysSeparateTransports(tcp: Device, rtu: Device)
    requires tcp.connectionType == "tcp" && rtu.connectionType != "tcp"
    ensures ClientKey(tcp) != ClientKey(rtu)
  {
    assert ClientKey(tcp)[0] == 't' && ClientKey(rtu)[0] == 'r';
  }

  /** `getClient`: the cached handle for the device's key, or a fresh one
      (a new, closed client) stored under that key. */
  function GetClient(t: Clients, d: Device): (r: (nat, Clients))
    requires ClientsValid(t)
    ensures ClientsValid(r.1)
    ensures ClientKey(d) in r.1.handles && r.1.handles[ClientKey(d)] == r.0
    ensures ClientKey(d) in t.handles ==> r == (t.handles[ClientKey(d)], t)
    ensures ClientKey(d) !in t.handles ==>
              r.1.handles == t.handles[ClientKey(d) := r.0]
              && (forall k :: k in t.handles ==> t.handles[k] != r.0)
              && r.0 in r.1.state && !r.1.state[r.0].isOpen
  {
    var key := ClientKey(d);
    if key in t.handles then (t.handles[key], t)
    else (t.next, Clients(t.handles[key := t.next], t.state[t.next := Client(false, 0)], t.next + 1))
  }

  /** Two devices with equal keys share one client: asking for the second
      after the first returns the same handle and changes nothing. */
  lemma EqualKeysShareClient(t: Clients, d1: Device, d2: Device)
    requires ClientsValid(t) && ClientKey(d1) == ClientKey(d2)
    ensures var (h1, t1) := GetClient(t, d1);
            GetClient(t1, d2) == (h1, t1)
  {
  }

  /** Devices with different keys get different handles. */
  lemma DistinctKeysDistinctClients(t: Clients, d1: Device, d2: Device)
    requires ClientsValid(t) && ClientKey(d1) != ClientKey(d2)
    ensures var (h1, t1) := GetClient(t, d1);
            GetClient(t1, d2).0 != h1
  {
    var (h1, t1) := GetClient(t, d1);
    var (h2, t2) := GetClient(t1, d2);
    if ClientKey(d2) in t1.handles {
      assert ClientKey(d2) in t.handles;
    }
  }

  // ------------------------------------------------------------ connecting and reading

  /** `connectDevice`: an open client is reused as it is; a closed one is
      connected (the attempt's outcome is an input), and a failure is thrown.
      The unit id is then set to the device's slave id. */
  function ConnectDevice(c: Client, d: Device, connectOk: bool): (r: Option<Client>)
    ensures r.Some? <==> c.isOpen || connectOk
    ensures r.Some? ==> r.value == Client(true, d.slaveId)
  {
    if !c.isOpen && !connectOk then None else Some(Client(true, d.slaveId))
  }

  /** The client call `readData` issues. */
  datatype ReadCall =
    | ReadCoils(address: int, count: int)
    | ReadDiscreteInputs(address: int, count: int)
    | ReadInputRegisters(address: int, count: int)
    | ReadHoldingRegisters(address: int, count: int)

  /** `readData`'s switch on `data_type`: "coil", "discrete" and "input"
      select their own call, and every other type reads holding registers;
      each call reads the device's register range. */
  function ReadCallOf(d: Device): (call: ReadCall)
    ensures call.address == d.registerAddress && call.count == d.registerCount
    ensures call.ReadCoils? <==> d.dataType == "coil"
    ensures call.ReadDiscreteInputs? <==> d.dataType == "discrete"
    ensures call.ReadInputRegisters? <==> d.dataType == "input"
    ensures call.ReadHoldingRegisters? <==> d.dataType !in {"coil", "discrete", "input"}
  {
    if d.dataType == "coil" then ReadCoils(d.registerAddress, d.registerCount)
    else if d.dataType == "discrete" then ReadDiscreteInputs(d.registerAddress, d.registerCount)
    else if d.dataType == "input" then ReadInputRegisters(d.registerAddress, d.registerCount)
    else ReadHoldingRegisters(d.registerAddress, d.registerCount)
  }

  /** What `readData` returns: `null` after any error, `undefined` when the
      reply holds no value, otherwise its first value. */
  datatype ReadValue = Null | Undefined | Value(v: int)

  /** `readData`: connect, issue the call, return `result.data[0]`.  A
      failed connection or a failed call (`reply` None) gives null. */
  function ReadData(c: Client, d: Device, connectOk: bool, reply: Option<seq<int>>): (v: ReadValue)
    ensures v.Value? <==> (c.isOpen || connectOk) && reply.Some? && |reply.value| > 0
    ensures v.Value? ==> v.v == reply.value[0]
    ensures v.Null? <==> (!c.isOpen && !connectOk) || reply.None?
  {
    match ConnectDevice(c, d, connectOk)
    case None => Null
    case Some(_) =>
      match reply
      case None => Null
      case Some(data) => if |data| > 0 then Value(data[0]) else Undefined
  }

  /** The collection timer saves a value unless it is `null`, so an empty
      reply (undefined) is saved too. */
  predicate Saved(v: ReadValue) {
    v != Null
  }

  lemma EmptyReplyIsSaved(c: Client, d: Device)
    requires c.isOpen
    ensures ReadData(c, d, false, Some([])) == Undefined && Saved(ReadData(c, d, false, Some([])))
  {
  }

  // ------------------------------------------------------------ collection timers

  /** This node's view of the cluster, when a cluster manager is set. */
  datatype ClusterView = ClusterView(isConnected: bool, nodeId: string)

  /** Whether `startCollection` starts a timer for the device: it must be
      enabled, and in a connected cluster the device must be assigned to
      this node (`assignedTo` stands for the cluster's `assignTask`). */
  predicate Collects(d: Device, cluster: Option<ClusterView>, assignedTo: int -> string) {
    d.enabled
    && (cluster.None? || !cluster.value.isConnected || assignedTo(d.id) == cluster.value.nodeId)
  }

  /** No device of the list from position `from` on with this id is
      collected. */
  predicate NoneCollectedFrom(ds: seq<Device>, from: nat, id: int, cluster: Option<ClusterView>,
                              assignedTo: int -> string) {
    forall j :: from <= j < |ds| && ds[j].id == id ==> !Collects(ds[j], cluster, assignedTo)
  }

  /** `startCollection` over the device list: each collected device's timer,
      keyed by id, replaces any earlier timer for that id, so an id ends
      with the interval of its last collected device; an id no device
      collects keeps its timer.  A failed device query (`devices` None)
      starts nothing. */
  function StartCollection(timers: map<int, int>, devices: Option<seq<Device>>,
                           cluster: Option<ClusterView>, assignedTo: int -> string): (r: map<int, int>)
    ensures devices.None? ==> r == timers
    ensures devices.Some? ==>
              (forall id :: id in r <==> (id in timers
                 || exists i :: 0 <= i < |devices.value| && devices.value[i].id == id
                                && Collects(devices.value[i], cluster, assignedTo)))
    ensures devices.Some? ==>
              forall id :: id in timers && id in r && r[id] != timers[id] ==>
                exists i :: 0 <= i < |devices.value| && devices.value[i].id == id
                            && Collects(devices.value[i], cluster, assignedTo)
    ensures devices.Some? ==>
              forall id :: id in timers && NoneCollectedFrom(devices.value, 0, id, cluster, assignedTo) ==>
                id in r && r[id] == timers[id]
    ensures devices.Some? ==>
              forall i :: 0 <= i < |devices.value| && Collects(devices.value[i], cluster, assignedTo)
                          && NoneCollectedFrom(devices.value, i + 1, devices.value[i].id, cluster, assignedTo) ==>
                devices.value[i].id in r && r[devices.value[i].id] == devices.value[i].interval
  {
    match devices
    case None => timers
    case Some(ds) => StartEach(timers, ds, cluster, assignedTo)
  }

  function StartEach(timers: map<int, int>, ds: seq<Device>,
                     cluster: Option<ClusterView>, assignedTo: int -> string): (r: map<int, int>)
    ensures forall id :: id in r <==> (id in timers
              || exists i :: 0 <= i < |ds| && ds[i].id == id && Collects(ds[i], cluster, assignedTo))
    ensures forall id :: id in timers && id in r && r[id] != timers[id] ==>
              exists i :: 0 <= i < |ds| && ds[i].id == id && Collects(ds[i], cluster, assignedTo)
    ensures forall id :: id in timers && NoneCollectedFrom(ds, 0, id, cluster, assignedTo) ==>
              id in r && r[id] == timers[id]
    ensures forall i :: 0 <= i < |ds| && Collects(ds[i], cluster, assignedTo)
                        && NoneCollectedFrom(ds, i + 1, ds[i].id, cluster, assignedTo) ==>
              ds[i].id in r && r[ds[i].id] == ds[i].interval
    decreases |ds|
  {
    if |ds| == 0 then timers
    else
      var d := ds[0];
      var next := if Collects(d, cluster, assignedTo) then timers[d.id := d.interval] else timers;
      var r := StartEach(next, ds[1..], cluster, assignedTo);
      NoneCollectedInTail(ds, cluster, assignedTo);
      r
  }

  /** What holds of a list from a position on holds of its tail from the
      position before. */
  lemma NoneCollectedInTail(ds: seq<Device>, cluster: Option<ClusterView>, assignedTo: int -> string)
    requires |ds| > 0
    ensures forall id :: NoneCollectedFrom(ds, 0, id, cluster, assignedTo) ==>
              NoneCollectedFrom(ds[1..], 0, id, cluster, assignedTo)
    ensures forall i :: 1 <= i < |ds| && NoneCollectedFrom(ds, i + 1, ds[i].id, cluster, assignedTo) ==>
              NoneCollectedFrom(ds[1..], i, ds[i].id, cluster, assignedTo)
  {
    assert forall i :: 0 <= i < |ds[1..]| ==> ds[1..][i] == ds[i + 1];
  }

  /** A disabled device never gets a timer it did not already have. */
  lemma DisabledDeviceSkipped(timers: map<int, int>, ds: seq<Device>, cluster: Option<ClusterView>,
                              assignedTo: int -> string, id: int)
    requires id !in timers
    requires forall i :: 0 <= i < |ds| && ds[i].id == id ==> !ds[i].enabled
    ensures id !in StartCollection(timers, Some(ds), cluster, assignedTo)
  {
  }

  /** In a connected cluster, a device assigned to another node gets no
      timer, whatever else it is. */
  lemma OtherNodesDeviceSkipped(timers: map<int, int>, ds: seq<Device>, nodeId: string,
                                assignedTo: int -> string, id: int)
    requires id !in timers && assignedTo(id) != nodeId
    ensures id !in StartCollection(timers, Some(ds), Some(ClusterView(true, nodeId)), assignedTo)
  {
  }

  /** `stopCollection`: every timer is cleared, every open client is closed,
      and both tables end empty.  The result's third part is the set of
      handles closed. */
  function StopCollection(timers: map<int, int>, t: Clients): (r: (map<int, int>, Clients, set<nat>))
    ensures |r.0| == 0 && |r.1.handles| == 0 && ClientsValid(r.1)
    ensures forall h :: h in r.2 <==> exists k :: k in t.handles && t.handles[k] == h
                                                  && t.handles[k] in t.state && t.state[t.handles[k]].isOpen
  {
    var closed := set k | k in t.handles && t.handles[k] in t.state && t.state[t.handles[k]].isOpen :: t.handles[k];
    (map[], Clients(map[], t.state, t.next), closed)
  }

  // ------------------------------------------------------------ IP address write

  datatype ManagerError = InvalidAddress | ConnectFailed

  /** `ipParts[hi] * 256 + ipParts[lo]` in JavaScript arithmetic: NaN when
      either part is NaN. */
  function Product(hi: Option<int>, lo: Option<int>): (v: Option<int>)
    ensures v.Some? <==> hi.Some? && lo.Some?
    ensures v.Some? ==> v.value == hi.value * 256 + lo.value
  {
    if hi.Some? && lo.Some? then Some(hi.value * 256 + lo.value) else None
  }

  /** The two register values of four parts. */
  function ArithmeticEncode(p: seq<Option<int>>): (regs: seq<Option<int>>)
    requires |p| == 4
    ensures regs == [Product(p[0], p[1]), Product(p[2], p[3])]
  {
    [Product(p[0], p[1]), Product(p[2], p[3])]
  }

  /** The write `writeDeviceIP` issues. */
  datatype RegisterWrite = RegisterWrite(address: int, values: seq<Option<int>>)

  /** `writeDeviceIP`: the initializer's split, parse and range check, then
      arithmetic encoding, then a multiple-register write through
      `connectDevice`. */
  function WriteDeviceIP(c: Client, d: Device, connectOk: bool, text: string, register: int)
    : (r: Result<RegisterWrite, ManagerError>)
    ensures !DeviceInitializer.ValidParts(DeviceInitializer.Parts(text)) ==> r == Failure(InvalidAddress)
    ensures DeviceInitializer.ValidParts(DeviceInitializer.Parts(text)) ==>
              (r.Success? <==> c.isOpen || connectOk)
    ensures r.Success? ==> r.value == RegisterWrite(register, ArithmeticEncode(DeviceInitializer.Parts(text)))
  {
    var parts := DeviceInitializer.Parts(text);
    if !DeviceInitializer.ValidParts(parts) then Failure(InvalidAddress)
    else if ConnectDevice(c, d, connectOk).None? then Failure(ConnectFailed)
    else Success(RegisterWrite(register, ArithmeticEncode(parts)))
  }

  /** For numeric parts that pass the check, the manager's arithmetic and the
      initializer's shift encoding write the same two values. */
  lemma SameEncodingAsInitializer(p: seq<Option<int>>)
    requires DeviceInitializer.ValidParts(p) && forall i :: 0 <= i < 4 ==> p[i].Some?
    ensures var regs := DeviceInitializer.EncodeParts(p);
            ArithmeticEncode(p) == [Some(regs[0]), Some(regs[1])]
  {
    assert p[0].Some? && p[1].Some? && p[2].Some? && p[3].Some?;
    var regs := DeviceInitializer.EncodeParts(p);
    assert regs[0] == p[0].value * 256 + p[1].value && regs[1] == p[2].value * 256 + p[3].value;
  }

  /** A non-numeric part passes both checks, but the two encodings then
      differ: the manager writes NaN where the initializer shifts in 0. */
  lemma NonNumericPartDiverges(p: seq<Option<int>>)
    requires DeviceInitializer.ValidParts(p) && p[0].None?
    ensures ArithmeticEncode(p)[0].None?
    ensures DeviceInitializer.EncodeParts(p)[0] == p[1].GetOr(0)
  {
  }
}

=== FILE: ntp_server.dfy ===
/** The NTP server of the web service: it answers 48-byte NTPv4 client
    datagrams with a server reply whose header follows section 7.3 of RFC 5905
    and whose timestamps use the format of section 6 of RFC 5905 (seconds since
    1900 and a 32-bit binary fraction).  Datagram transport, the clock and the
    time-sync manager are inputs: a request arrives as bytes together with the
    wall-clock instant and the current time the manager reports. */
module NtpServer {
  import opened Wrappers
  import opened Bytes
  import opened JsNumber
  import opened Calendar

  /** Seconds between the NTP era-0 epoch (1900) and the Unix epoch (1970). */
  const NTP_EPOCH_OFFSET: int := 2208988800
  const PACKET_SIZE: nat := 48

  /** Constructor options; None is an option the caller did not pass. */
  datatype Options = Options(
    port: Option<int>,
    clockSource: Option<string>,
    stratum: Option<int>,
    precision: Option<int>)

  /** The effective configuration.  `precision` is kept but never read: the
      advertised precision depends on the clock source alone. */
  datatype Config = Config(port: int, clockSource: string, stratum: int, precision: int)

  datatype Server = Server(
    config: Config,
    isRunning: bool,
    requestCount: nat,
    lastRequestTime: Option<int>)

  /** The fields of an NTP packet, as the server decodes them. */
  datatype Packet = Packet(
    leapIndicator: bv8,
    version: bv8,
    mode: bv8,
    stratum: bv8,
    poll: bv8,
    precision: bv8,
    rootDelay: int,
    rootDispersion: nat,
    referenceId: nat,
    referenceTimestamp: int,
    originateTimestamp: int,
    receiveTimestamp: int,
    transmitTimestamp: int)

  /** `writeUInt32BE` throws a RangeError for values outside 0..2^32-1. */
  datatype RangeError = RangeError(value: int)

  /** The constructor: each option the caller passed wins, even a falsy one,
      because the caller's object is spread over the defaults; absent options
      take port 123, source "local", stratum 1 and precision -20. */
  function NewServer(opts: Options): (s: Server)
    ensures s.config.port == (if opts.port.Some? then opts.port.value else 123)
    ensures s.config.clockSource == (if opts.clockSource.Some? then opts.clockSource.value else "local")
    ensures s.config.stratum == (if opts.stratum.Some? then opts.stratum.value else 1)
    ensures !s.isRunning && s.requestCount == 0 && s.lastRequestTime.None?
  {
    Server(
      Config(opts.port.GetOr(123), opts.clockSource.GetOr("local"),
             opts.stratum.GetOr(1), opts.precision.GetOr(-20)),
      false, 0, None)
  }

  predicate IsGpsSource(source: string) {
    source == "gps" || source == "gps-pps"
  }

  /** The stratum advertised in byte 1 of every reply. */
  function Stratum(c: Config): (r: int)
    ensures IsGpsSource(c.clockSource) ==> r == 1
    ensures !IsGpsSource(c.clockSource) && c.stratum != 0 ==> r == c.stratum
    ensures !IsGpsSource(c.clockSource) && c.stratum == 0 ==> r == 10
  {
    if IsGpsSource(c.clockSource) then 1
    else if c.stratum != 0 then c.stratum
    else 10
  }

  /** The precision, as a power-of-two exponent, advertised in byte 3. */
  function Precision(c: Config): (r: int)
    ensures r < 0
    ensures r == -20 <==> c.clockSource == "gps-pps"
    ensures r == -10 <==> c.clockSource == "gps"
    ensures c.clockSource != "gps-pps" && c.clockSource != "gps" ==> r == -6
  {
    match c.clockSource
    case "gps-pps" => -20
    case "gps" => -10
    case _ => -6
  }

  /** The four reference-identifier bytes at offset 12. */
  function ReferenceId(c: Config): (r: seq<bv8>)
    ensures |r| == 4
    ensures IsGpsSource(c.clockSource) ==> r == [0x47, 0x50, 0x53, 0x00]
    ensures !IsGpsSource(c.clockSource) ==> r == [0x4C, 0x4F, 0x43, 0x4C]
  {
    if IsGpsSource(c.clockSource) then [0x47, 0x50, 0x53, 0x00] else [0x4C, 0x4F, 0x43, 0x4C]
  }

  /** Storing a number into a Buffer element keeps it modulo 256. */
  function ToUint8(x: int): (b: bv8)
    ensures (b as int - x) % 256 == 0
  {
    ByteOf(x % 256)
  }

  /** `readUInt32BE`. */
  function ReadU32(msg: seq<bv8>, off: nat): (n: nat)
    requires off + 4 <= |msg|
    ensures n < TWO32
  {
    ((msg[off] as int * 256 + msg[off + 1] as int) * 256 + msg[off + 2] as int) * 256 + msg[off + 3] as int
  }

  /** `readInt32BE`: the same four bytes read as two's complement. */
  function ReadI32(msg: seq<bv8>, off: nat): (n: int)
    requires off + 4 <= |msg|
    ensures -TWO32 / 2 <= n < TWO32 / 2
    ensures n == ReadU32(msg, off) || n == ReadU32(msg, off) - TWO32
  {
    var u := ReadU32(msg, off);
    if u >= TWO32 / 2 then u - TWO32 else u
  }

  /** The big-endian bytes of a 32-bit unsigned value. */
  function U32Bytes(n: nat): (r: seq<bv8>)
    requires n < TWO32
    ensures |r| == 4
    ensures ReadU32(r, 0) == n
  {
    var q1 := n / 256;
    var q2 := q1 / 256;
    [ByteOf(q2 / 256), ByteOf(q2 % 256), ByteOf(q1 % 256), ByteOf(n % 256)]
  }

  /** Reading a word depends only on its four bytes. */
  lemma ReadU32Slice(msg: seq<bv8>, off: nat)
    requires off + 4 <= |msg|
    ensures ReadU32(msg, off) == ReadU32(msg[off..off + 4], 0)
  {
    var w := msg[off..off + 4];
    assert w[0] == msg[off] && w[1] == msg[off + 1] && w[2] == msg[off + 2] && w[3] == msg[off + 3];
  }

  /** Reading a timestamp depends only on its eight bytes. */
  lemma ReadTimestampSlice(msg: seq<bv8>, off: nat)
    requires off + 8 <= |msg|
    ensures ReadTimestamp(msg, off) == ReadTimestamp(msg[off..off + 8], 0)
  {
    var w := msg[off..off + 8];
    ReadU32Slice(msg, off);
    ReadU32Slice(msg, off + 4);
    ReadU32Slice(w, 0);
    ReadU32Slice(w, 4);
    assert w[0..4] == msg[off..off + 4];
    assert w[4..8] == msg[off + 4..off + 8];
  }

  /** `readTimestamp`: NTP seconds and fraction at `off` to Unix milliseconds. */
  function ReadTimestamp(msg: seq<bv8>, off: nat): int
    requires off + 8 <= |msg|
  {
    TimestampMillis(ReadU32(msg, off), ReadU32(msg, off + 4))
  }

  /** Seconds since 1900 and a binary fraction as Unix milliseconds, the
      fraction rounded to the nearest millisecond with halves up. */
  function TimestampMillis(seconds: nat, fraction: nat): int
    requires fraction < TWO32
  {
    (seconds - NTP_EPOCH_OFFSET) * 1000 + (2000 * fraction + 0x1_0000_0000) / 0x2_0000_0000
  }

  /** `writeTimestamp`: the eight bytes for Unix time `t`, or the RangeError
      `writeUInt32BE` raises when seconds or fraction leave 0..2^32-1.
      Seconds are floor(t / 1000) plus the era offset; the fraction is the
      millisecond remainder scaled by 2^32/1000 and rounded, halves up. */
  function WriteTimestamp(t: int): (r: Result<seq<bv8>, RangeError>)
    ensures r.Success? ==> |r.value| == 8
    ensures r.Success? <==> t >= -NTP_EPOCH_OFFSET * 1000 && t / 1000 + NTP_EPOCH_OFFSET < TWO32
                            && (t >= 0 || JsRem(t, 1000) == 0)
  {
    var seconds := t / 1000 + NTP_EPOCH_OFFSET;
    var fraction := MsFraction(JsRem(t, 1000));
    if seconds < 0 || seconds >= TWO32 then Failure(RangeError(seconds))
    else if fraction < 0 then Failure(RangeError(fraction))
    else Success(U32Bytes(seconds) + U32Bytes(fraction))
  }

  /** The fraction word of a millisecond remainder: scaled by 2^32/1000 and
      rounded, halves up.  It is a valid 32-bit value exactly when the
      remainder is not negative. */
  function MsFraction(ms: int): (fraction: int)
    requires -1000 < ms < 1000
    ensures fraction < TWO32 && (fraction >= 0 <==> ms >= 0)
  {
    (2 * ms * 0x1_0000_0000 + 1000) / 2000
  }

  /** `writeTimestamp` of a Date: its time value, or for an invalid Date
      (time value NaN) two zero words.  NaN passes the range check of
      `writeUInt32BE`, since both comparisons with it are false, and each
      byte written from it, `NaN >>> k`, is 0. */
  function WriteDate(d: JsDate): (r: Result<seq<bv8>, RangeError>)
    ensures d.Valid? ==> r == WriteTimestamp(d.ms)
    ensures d.Invalid? ==> r == Success(U32Bytes(0) + U32Bytes(0))
    ensures r.Success? ==> |r.value| == 8
  {
    match d
    case Valid(t) => WriteTimestamp(t)
    case Invalid => Success(U32Bytes(0) + U32Bytes(0))
  }

  /** The bytes written for an instant from 1970 until the 2036 rollover. */
  lemma WriteTimestampValue(t: int)
    requires 0 <= t && t / 1000 + NTP_EPOCH_OFFSET < TWO32
    ensures 0 <= MsFraction(t % 1000) < TWO32
    ensures WriteTimestamp(t) == Success(U32Bytes(t / 1000 + NTP_EPOCH_OFFSET) + U32Bytes(MsFraction(t % 1000)))
  {
    assert JsRem(t, 1000) == t % 1000;
  }

  /** Timestamp round trip: every instant from 1970 until the NTP era rolls
      over in 2036 is written and read back to the same millisecond. */
  lemma TimestampRoundTrip(t: int)
    requires 0 <= t && t / 1000 + NTP_EPOCH_OFFSET < TWO32
    ensures WriteTimestamp(t).Success?
    ensures ReadTimestamp(WriteTimestamp(t).value, 0) == t
  {
    var seconds := t / 1000 + NTP_EPOCH_OFFSET;
    var fraction := MsFraction(t % 1000);
    WriteTimestampValue(t);
    ReadWords(seconds, fraction);
    MillisBack(t);
  }

  /** The eight bytes of two words read back as the timestamp of those words. */
  lemma ReadWords(seconds: nat, fraction: nat)
    requires seconds < TWO32 && fraction < TWO32
    ensures ReadTimestamp(U32Bytes(seconds) + U32Bytes(fraction), 0) == TimestampMillis(seconds, fraction)
  {
    var hi := U32Bytes(seconds);
    var lo := U32Bytes(fraction);
    var bytes := hi + lo;
    assert bytes[0..4] == hi && bytes[4..8] == lo;
    ReadU32Slice(bytes, 0);
    ReadU32Slice(bytes, 4);
  }

  /** The words written for an instant read back as that instant. */
  lemma MillisBack(t: int)
    requires 0 <= t
    ensures 0 <= MsFraction(t % 1000) < TWO32
    ensures TimestampMillis(t / 1000 + NTP_EPOCH_OFFSET, MsFraction(t % 1000)) == t
  {
    RoundBack(t % 1000, MsFraction(t % 1000));
  }

  /** Reading back a rounded fraction gives the millisecond it came from. */
  lemma RoundBack(ms: int, fraction: int)
    requires 0 <= ms < 1000
    requires fraction == MsFraction(ms)
    ensures (2000 * fraction + 0x1_0000_0000) / 0x2_0000_0000 == ms
  {
    assert 2000 * fraction <= 2 * ms * 0x1_0000_0000 + 1000 < 2000 * fraction + 2000;
    var x := 2 * fraction * 1000 + TWO32;
    assert ms * (2 * 0x1_0000_0000) <= x < (ms + 1) * (2 * 0x1_0000_0000);
  }

  /** `parseNTPPacket`: LI from bits 7-6, VN from bits 5-3 and mode from bits
      2-0 of byte 0, then the header words and the four timestamps. */
  function ParsePacket(msg: seq<bv8>): (p: Packet)
    requires |msg| >= PACKET_SIZE
    ensures p.leapIndicator < 4 && p.version < 8 && p.mode < 8
    ensures (p.leapIndicator << 6) | (p.version << 3) | p.mode == msg[0]
    ensures p.stratum == msg[1] && p.poll == msg[2] && p.precision == msg[3]
  {
    Packet(
      (msg[0] >> 6) & 3, (msg[0] >> 3) & 7, msg[0] & 7,
      msg[1], msg[2], msg[3],
      ReadI32(msg, 4), ReadU32(msg, 8), ReadU32(msg, 12),
      ReadTimestamp(msg, 16), ReadTimestamp(msg, 24),
      ReadTimestamp(msg, 32), ReadTimestamp(msg, 40))
  }

  /** The 48-byte reply: header, zero root delay and dispersion, reference
      id, then the reference, origin, receive and transmit timestamps. */
  function Layout(header: seq<bv8>, refId: seq<bv8>, now: seq<bv8>, origin: seq<bv8>): (r: seq<bv8>)
    requires |header| == 4 && |refId| == 4 && |now| == 8 && |origin| == 8
    ensures |r| == PACKET_SIZE
    ensures r[..4] == header && r[4..12] == seq(8, _ => 0 as bv8) && r[12..16] == refId
    ensures r[16..24] == now && r[24..32] == origin && r[32..40] == now && r[40..48] == now
  {
    var zeros := seq(8, _ => 0 as bv8);
    var p16 := header + zeros + refId;
    var p24 := p16 + now;
    var p32 := p24 + origin;
    var p40 := p32 + now;
    var r := p40 + now;
    assert r[..4] == header && r[4..12] == zeros && r[12..16] == refId by {
      assert r[..16] == p16;
    }
    assert r[16..24] == now by { assert r[..24] == p24; }
    assert r[24..32] == origin by { assert r[..32] == p32; }
    assert r[32..40] == now by { assert r[..40] == p40; }
    r
  }

  /** Bytes 0-3 of a reply: LI 0, VN 4 and mode 4 packed as 0x24, the
      stratum, the poll exponent and the precision. */
  function Header(c: Config, poll: bv8): (h: seq<bv8>)
    ensures |h| == 4
  {
    [0x24, ToUint8(Stratum(c)), if poll == 0 then 6 else poll, ToUint8(Precision(c))]
  }

  /** `buildNTPResponse`: a zero-filled 48-byte buffer with the header, zero
      root delay and dispersion, the reference id and the four timestamps;
      a timestamp out of range aborts with the RangeError of `writeUInt32BE`. */
  function BuildResponse(c: Config, request: Packet, currentTime: JsDate): (r: Result<seq<bv8>, RangeError>)
    ensures r.Success? ==> |r.value| == PACKET_SIZE
    ensures r.Success? <==> WriteDate(currentTime).Success? && WriteTimestamp(request.transmitTimestamp).Success?
  {
    var now :- WriteDate(currentTime);
    var origin :- WriteTimestamp(request.transmitTimestamp);
    Success(Layout(Header(c, request.poll), ReferenceId(c), now, origin))
  }

  /** `handleRequest`: a datagram shorter than 48 bytes is dropped without a
      trace; otherwise the request is counted and stamped with the arrival
      instant before the reply is built, so a reply that fails to build is
      still counted. */
  function HandleRequest(s: Server, msg: seq<bv8>, arrival: int, currentTime: JsDate): (r: (Server, Option<seq<bv8>>))
    ensures |msg| < PACKET_SIZE ==> r.0 == s && r.1.None?
    ensures |msg| >= PACKET_SIZE ==>
              r.0 == s.(requestCount := s.requestCount + 1, lastRequestTime := Some(arrival))
    ensures r.1.Some? ==> |msg| >= PACKET_SIZE && |r.1.value| == PACKET_SIZE
    ensures |msg| >= PACKET_SIZE ==>
              (r.1.Some? <==> BuildResponse(s.config, ParsePacket(msg), currentTime).Success?)
    ensures r.1.Some? ==> r.1.value == BuildResponse(s.config, ParsePacket(msg), currentTime).value
  {
    if |msg| < PACKET_SIZE then (s, None)
    else
      var request := ParsePacket(msg);
      var s' := s.(requestCount := s.requestCount + 1, lastRequestTime := Some(arrival));
      match BuildResponse(s.config, request, currentTime)
      case Success(reply) => (s', Some(reply))
      case Failure(_) => (s', None)
  }

  /** The reply built from both timestamps, named. */
  lemma BuildResponseValue(c: Config, request: Packet, currentTime: JsDate)
    requires WriteDate(currentTime).Success? && WriteTimestamp(request.transmitTimestamp).Success?
    ensures BuildResponse(c, request, currentTime).value
            == Layout(Header(c, request.poll), ReferenceId(c),
                      WriteDate(currentTime).value, WriteTimestamp(request.transmitTimestamp).value)
  {
  }

  /** A reply decodes as a server packet: LI 0, version 4, mode 4, stratum and
      precision as configured, the request's poll (or 6), zero root delay and
      dispersion, and the source's reference id. */
  lemma ReplyHeader(c: Config, request: Packet, currentTime: JsDate)
    requires BuildResponse(c, request, currentTime).Success?
    ensures var reply := BuildResponse(c, request, currentTime).value;
            var p := ParsePacket(reply);
            && p.leapIndicator == 0 && p.version == 4 && p.mode == 4
            && p.stratum == ToUint8(Stratum(c))
            && p.poll == (if request.poll == 0 then 6 else request.poll)
            && p.precision == ToUint8(Precision(c))
            && p.rootDelay == 0 && p.rootDispersion == 0
            && reply[12..16] == ReferenceId(c)
  {
    var reply := BuildResponse(c, request, currentTime).value;
    BuildResponseValue(c, request, currentTime);
    LayoutHeader(Header(c, request.poll), ReferenceId(c), WriteDate(currentTime).value,
                 WriteTimestamp(request.transmitTimestamp).value, reply);
  }

  /** The header fields a laid-out reply decodes to. */
  lemma LayoutHeader(header: seq<bv8>, refId: seq<bv8>, now: seq<bv8>, origin: seq<bv8>, reply: seq<bv8>)
    requires |header| == 4 && |refId| == 4 && |now| == 8 && |origin| == 8 && header[0] == 0x24
    requires reply == Layout(header, refId, now, origin)
    ensures ParsePacket(reply).leapIndicator == 0 && ParsePacket(reply).version == 4 && ParsePacket(reply).mode == 4
    ensures ParsePacket(reply).stratum == header[1] && ParsePacket(reply).poll == header[2]
    ensures ParsePacket(reply).precision == header[3]
    ensures ParsePacket(reply).rootDelay == 0 && ParsePacket(reply).rootDispersion == 0
    ensures reply[12..16] == refId
  {
    assert reply[..4] == header;
    assert reply[0] == 0x24 && reply[1] == header[1] && reply[2] == header[2] && reply[3] == header[3];
    assert reply[4..8] == [0, 0, 0, 0] by { assert reply[4..8] == reply[4..12][..4]; }
    assert reply[8..12] == [0, 0, 0, 0] by { assert reply[8..12] == reply[4..12][4..]; }
    ReadU32Slice(reply, 4);
    ReadU32Slice(reply, 8);
  }

  /** The reference, receive and transmit timestamps of a reply all read back
      as the current time, for any current time from 1970 to the 2036 rollover. */
  lemma ReplyTimestamps(c: Config, request: Packet, currentTime: int)
    requires 0 <= currentTime && currentTime / 1000 + NTP_EPOCH_OFFSET < TWO32
    requires WriteTimestamp(request.transmitTimestamp).Success?
    ensures BuildResponse(c, request, Valid(currentTime)).Success?
    ensures var reply := BuildResponse(c, request, Valid(currentTime)).value;
            ReadTimestamp(reply, 16) == currentTime
            && ReadTimestamp(reply, 32) == currentTime
            && ReadTimestamp(reply, 40) == currentTime
  {
    TimestampRoundTrip(currentTime);
    var reply := BuildResponse(c, request, Valid(currentTime)).value;
    BuildResponseValue(c, request, Valid(currentTime));
    ReadTimestampSlice(reply, 16);
    ReadTimestampSlice(reply, 32);
    ReadTimestampSlice(reply, 40);
  }

  /** The origin field carries the request's transmit time at millisecond
      precision: it reads back as the transmit timestamp the request decoded to. */
  lemma ReplyOrigin(c: Config, request: Packet, currentTime: JsDate)
    requires WriteDate(currentTime).Success?
    requires 0 <= request.transmitTimestamp && request.transmitTimestamp / 1000 + NTP_EPOCH_OFFSET < TWO32
    ensures BuildResponse(c, request, currentTime).Success?
    ensures ReadTimestamp(BuildResponse(c, request, currentTime).value, 24) == request.transmitTimestamp
  {
    TimestampRoundTrip(request.transmitTimestamp);
    var reply := BuildResponse(c, request, currentTime).value;
    BuildResponseValue(c, request, currentTime);
    ReadTimestampSlice(reply, 24);
  }

  /** Every counted request whose timestamps are in range is answered with a
      server packet carrying the current time and echoing the request's
      transmit time to the millisecond. */
  lemma ReplyDecodes(s: Server, msg: seq<bv8>, arrival: int, currentTime: int)
    requires |msg| >= PACKET_SIZE
    requires 0 <= currentTime && currentTime / 1000 + NTP_EPOCH_OFFSET < TWO32
    requires var t := ReadTimestamp(msg, 40); 0 <= t && t / 1000 + NTP_EPOCH_OFFSET < TWO32
    ensures HandleRequest(s, msg, arrival, Valid(currentTime)).1.Some?
    ensures var reply := HandleRequest(s, msg, arrival, Valid(currentTime)).1.value;
            var p := ParsePacket(reply);
            && p.version == 4 && p.mode == 4
            && p.poll == (if msg[2] == 0 then 6 else msg[2])
            && p.transmitTimestamp == currentTime
            && p.originateTimestamp == ReadTimestamp(msg, 40)
  {
    var request := ParsePacket(msg);
    TimestampRoundTrip(currentTime);
    ReplyOrigin(s.config, request, Valid(currentTime));
    ReplyHeader(s.config, request, Valid(currentTime));
    ReplyTimestamps(s.config, request, currentTime);
  }

  /** A request that arrives while the time manager's current time is an
      invalid Date is still answered: the reference, receive and transmit
      fields are zero words, which read as the start of the NTP era in 1900. */
  lemma InvalidTimeAnsweredWithZeros(s: Server, msg: seq<bv8>, arrival: int)
    requires |msg| >= PACKET_SIZE
    requires var t := ReadTimestamp(msg, 40); 0 <= t && t / 1000 + NTP_EPOCH_OFFSET < TWO32
    ensures HandleRequest(s, msg, arrival, Invalid).1.Some?
    ensures var reply := HandleRequest(s, msg, arrival, Invalid).1.value;
            var zero := U32Bytes(0) + U32Bytes(0);
            reply[16..24] == zero && reply[32..40] == zero && reply[40..48] == zero
            && ParsePacket(reply).transmitTimestamp == -NTP_EPOCH_OFFSET * 1000
  {
    var request := ParsePacket(msg);
    TimestampRoundTrip(request.transmitTimestamp);
    InvalidTimeReply(s.config, request);
  }

  /** The reply built for an invalid current time. */
  lemma InvalidTimeReply(c: Config, request: Packet)
    requires WriteTimestamp(request.transmitTimestamp).Success?
    ensures BuildResponse(c, request, Invalid).Success?
    ensures var reply := BuildResponse(c, request, Invalid).value;
            var zero := U32Bytes(0) + U32Bytes(0);
            reply[16..24] == zero && reply[32..40] == zero && reply[40..48] == zero
            && ReadTimestamp(reply, 40) == -NTP_EPOCH_OFFSET * 1000
  {
    var zero := U32Bytes(0) + U32Bytes(0);
    BuildResponseValue(c, request, Invalid);
    var reply := BuildResponse(c, request, Invalid).value;
    assert reply == Layout(Header(c, request.poll), ReferenceId(c), zero, WriteTimestamp(request.transmitTimestamp).value);
    assert reply[40..48] == zero;
    ReadTimestampSlice(reply, 40);
    ReadWords(0, 0);
    assert TimestampMillis(0, 0) == -NTP_EPOCH_OFFSET * 1000;
  }

  /** Writing the value read from four bytes gives those bytes back. */
  lemma U32BytesOfRead(w: seq<bv8>)
    requires |w| == 4
    ensures U32Bytes(ReadU32(w, 0)) == w
  {
    var r := U32Bytes(ReadU32(w, 0));
    ReadU32Injective(r, w);
  }

  /** Two words with the same big-endian value are the same four bytes. */
  lemma ReadU32Injective(r: seq<bv8>, w: seq<bv8>)
    requires |r| == 4 && |w| == 4
    requires ReadU32(r, 0) == ReadU32(w, 0)
    ensures r == w
  {
    var n := ReadU32(r, 0);
    DigitsOfU32(r, n);
    DigitsOfU32(w, n);
    SameWord(r, w);
  }

  /** The bytes of a word are the base-256 digits of its value. */
  lemma DigitsOfU32(r: seq<bv8>, n: nat)
    requires |r| == 4 && n == ReadU32(r, 0)
    ensures n % 256 == r[3] as int && (n / 256) % 256 == r[2] as int
    ensures (n / 256 / 256) % 256 == r[1] as int && n / 256 / 256 / 256 == r[0] as int
  {
    var a, b, c, d := r[0] as int, r[1] as int, r[2] as int, r[3] as int;
    var x := a * 256 + b;
    var y := x * 256 + c;
    assert n == y * 256 + d;
    DivMod256(y, d);
    assert n / 256 == y && n % 256 == d;
    DivMod256(x, c);
    assert n / 256 / 256 == x && (n / 256) % 256 == c;
    DivMod256(a, b);
    assert n / 256 / 256 / 256 == a && (n / 256 / 256) % 256 == b;
  }

  /** A fraction below half a millisecond (2^32/2000 of a second) reads as
      the whole second, and that instant is written back with a zero fraction. */
  lemma SubMillisecondRoundsDown(seconds: nat, fraction: nat)
    requires NTP_EPOCH_OFFSET <= seconds < TWO32 && fraction <= 2147483
    ensures TimestampMillis(seconds, fraction) == (seconds - NTP_EPOCH_OFFSET) * 1000
    ensures WriteTimestamp(TimestampMillis(seconds, fraction)) == Success(U32Bytes(seconds) + U32Bytes(0))
  {
    var k := seconds - NTP_EPOCH_OFFSET;
    assert (2000 * fraction + 0x1_0000_0000) / 0x2_0000_0000 == 0;
    var t := TimestampMillis(seconds, fraction);
    assert t == k * 1000;
    WholeSeconds(k);
    WriteTimestampValue(t);
    assert MsFraction(0) == 0;
  }

  /** A whole number of seconds in milliseconds has no remainder. */
  lemma WholeSeconds(k: int)
    ensures (k * 1000) % 1000 == 0 && (k * 1000) / 1000 == k
  {
  }

  /** The origin field is not a byte copy of the request's transmit field:
      when the request's fraction word is a non-zero value below half a
      millisecond, the origin keeps the seconds word but its fraction word
      becomes zero. */
  lemma OriginDropsSubMillisecond(c: Config, msg: seq<bv8>, currentTime: JsDate)
    requires |msg| >= PACKET_SIZE
    requires NTP_EPOCH_OFFSET <= ReadU32(msg, 40) && 0 < ReadU32(msg, 44) <= 2147483
    requires WriteDate(currentTime).Success?
    ensures BuildResponse(c, ParsePacket(msg), currentTime).Success?
    ensures var reply := BuildResponse(c, ParsePacket(msg), currentTime).value;
            reply[24..28] == msg[40..44] && reply[28..32] == [0, 0, 0, 0] && reply[24..32] != msg[40..48]
  {
    var request := ParsePacket(msg);
    assert request.transmitTimestamp == ReadTimestamp(msg, 40);
    OriginOfSubMillisecond(msg, request.transmitTimestamp);
    BuildResponseValue(c, request, currentTime);
    var reply := BuildResponse(c, request, currentTime).value;
    assert reply[24..32] == msg[40..44] + [0, 0, 0, 0];
    OriginWords(reply, msg);
  }

  /** A transmit timestamp whose fraction word is below half a millisecond
      is written back as its seconds word and a zero fraction word. */
  lemma OriginOfSubMillisecond(msg: seq<bv8>, transmit: int)
    requires |msg| >= PACKET_SIZE && transmit == ReadTimestamp(msg, 40)
    requires NTP_EPOCH_OFFSET <= ReadU32(msg, 40) && ReadU32(msg, 44) <= 2147483
    ensures WriteTimestamp(transmit) == Success(msg[40..44] + [0, 0, 0, 0])
  {
    var seconds, fraction := ReadU32(msg, 40), ReadU32(msg, 44);
    assert transmit == TimestampMillis(seconds, fraction);
    SubMillisecondRoundsDown(seconds, fraction);
    assert WriteTimestamp(transmit) == Success(U32Bytes(seconds) + U32Bytes(0));
    WordOfSlice(msg, 40);
    ZeroWord();
  }

  /** The word written for the value read at an offset is the four bytes
      there. */
  lemma WordOfSlice(msg: seq<bv8>, off: nat)
    requires off + 4 <= |msg|
    ensures U32Bytes(ReadU32(msg, off)) == msg[off..off + 4]
  {
    ReadU32Slice(msg, off);
    U32BytesOfRead(msg[off..off + 4]);
  }

  /** A non-zero word at an offset is not four zero bytes there. */
  lemma NonZeroAt(msg: seq<bv8>, off: nat)
    requires off + 4 <= |msg| && ReadU32(msg, off) != 0
    ensures msg[off..off + 4] != [0, 0, 0, 0]
  {
    ReadU32Slice(msg, off);
    NonZeroWord(msg[off..off + 4]);
  }

  /** A word that reads as a non-zero value is not four zero bytes. */
  lemma NonZeroWord(w: seq<bv8>)
    requires |w| == 4 && ReadU32(w, 0) != 0
    ensures w != [0, 0, 0, 0]
  {
  }

  /** An origin field holding the request's seconds word and a zero
      fraction differs from the request's transmit field when that field's
      fraction word is not zero. */
  lemma OriginWords(reply: seq<bv8>, msg: seq<bv8>)
    requires |reply| == PACKET_SIZE && |msg| >= PACKET_SIZE
    requires reply[24..32] == msg[40..44] + [0, 0, 0, 0] && ReadU32(msg, 44) != 0
    ensures reply[24..28] == msg[40..44] && reply[28..32] == [0, 0, 0, 0] && reply[24..32] != msg[40..48]
  {
    NonZeroAt(msg, 44);
    assert reply[24..28] == reply[24..32][..4] && reply[28..32] == reply[24..32][4..];
    assert msg[44..48] == msg[40..48][4..];
  }

  /** The word for zero is four zero bytes. */
  lemma ZeroWord()
    ensures U32Bytes(0) == [0, 0, 0, 0]
  {
    U32BytesOfRead([0, 0, 0, 0]);
  }

  /** `start` is a no-op on a running server; otherwise the server runs once
      the socket reports that it is listening. */
  function Start(s: Server, listening: bool): (s': Server)
    ensures s.isRunning ==> s' == s
    ensures !s.isRunning ==> s' == s.(isRunning := listening)
  {
    if s.isRunning then s else s.(isRunning := listening)
  }

  /** `stop` is a no-op on a stopped server and otherwise clears the flag. */
  function Stop(s: Server): (s': Server)
    ensures !s'.isRunning
    ensures s'.config == s.config && s'.requestCount == s.requestCount && s'.lastRequestTime == s.lastRequestTime
  {
    if !s.isRunning then s else s.(isRunning := false)
  }

  /** `updateClockSource` replaces only the clock source. */
  function UpdateClockSource(s: Server, source: string): (s': Server)
    ensures s'.config.clockSource == source
    ensures s'.config.port == s.config.port && s'.config.stratum == s.config.stratum
    ensures s'.config.precision == s.config.precision
    ensures s'.isRunning == s.isRunning && s'.requestCount == s.requestCount
    ensures s'.lastRequestTime == s.lastRequestTime
  {
    s.(config := s.config.(clockSource := source))
  }

  datatype Status = Status(
    isRunning: bool,
    port: int,
    clockSource: string,
    stratum: int,
    precision: int,
    requestCount: nat,
    lastRequestTime: Option<int>)

  /** `getStatus`: the flags and counters as they stand, with the advertised
      stratum and precision; the last request time is null before the first
      request and also when that request arrived at instant 0. */
  function GetStatus(s: Server): (st: Status)
    ensures st.isRunning == s.isRunning && st.requestCount == s.requestCount
    ensures st.port == s.config.port && st.clockSource == s.config.clockSource
    ensures st.stratum == Stratum(s.config) && st.precision == Precision(s.config)
    ensures st.lastRequestTime.Some? <==> s.lastRequestTime.Some? && s.lastRequestTime.value != 0
    ensures st.lastRequestTime.Some? ==> st.lastRequestTime == s.lastRequestTime
  {
    Status(s.isRunning, s.config.port, s.config.clockSource, Stratum(s.config), Precision(s.config),
           s.requestCount, if s.lastRequestTime.Some? && s.lastRequestTime.value != 0 then s.lastRequestTime else None)
  }

  /** A source switch changes the advertised identity as the source demands
      and nothing about the request counters. */
  lemma SwitchToGpsAdvertisesStratumOne(s: Server)
    ensures var s' := UpdateClockSource(s, "gps");
            Stratum(s'.config) == 1 && Precision(s'.config) == -10
            && ReferenceId(s'.config) == [0x47, 0x50, 0x53, 0x00]
            && s'.requestCount == s.requestCount
  {
  }
}

=== FILE: python_storage.dfy ===
/** The storage factory and the cached storage of the Python port
    (`StorageFactory.create_storage` and `CachedStorage`).  The cache table
    is the shared `CacheQueue` model; the target's answers are parameters.

    `CachedStorage` guards its flush and its batch save with one
    `threading.Lock`, which is not re-entrant: a thread that asks for it
    while already holding it waits forever.  The model keeps whether the
    calling thread holds the lock, and an operation that would wait on its
    own lock ends in `Blocked`. */
module PyStorage {
  import opened Wrappers
  import opened Text
  import opened CacheQueue

  /** The back ends of `STORAGE_TYPES` that build a store. */
  datatype Kind = SQLiteKind | InfluxKind | CsvKind

  /** A back end on its own, or behind the cache with the cache's path. */
  datatype Storage = Plain(kind: Kind) | Cached(kind: Kind, cacheDbPath: string)

  /** The `STORAGE_TYPES` key of a back end. */
  function KindName(k: Kind): (name: string)
    ensures Lower(name) == name && name != "none" && name != "disabled"
  {
    match k
    case SQLiteKind => "sqlite"
    case InfluxKind => "influxdb"
    case CsvKind => "csv"
  }

  /** The back end a lower-cased type name selects: SQLite for every name
      that is not a key. */
  function KindOfName(name: string): (k: Kind)
    ensures KindName(k) == name || (k == SQLiteKind && name != "influxdb" && name != "csv")
  {
    if name == "influxdb" then InfluxKind else if name == "csv" then CsvKind else SQLiteKind
  }

  /** The exception a constructor call raises. */
  datatype FactoryError = UnexpectedKeyword(name: string)

  /** `create_storage(storage_type, use_cache, **kwargs)` as written, with
      `cacheDbPath` the `cache_db_path` keyword argument if given.  The type
      is lower-cased and "none" and "disabled" give no storage.  Every keyword
      is then passed on to the back end's constructor, and none of them takes
      `cache_db_path`: the call raises `TypeError` whenever it is given.
      Otherwise the cache is put in front unless it is not wanted or the type
      is "csv", and it uses its default path. */
  function CreateStorageAsWritten(storageType: string, useCache: bool, cacheDbPath: Option<string>)
    : (r: Result<Option<Storage>, FactoryError>)
    ensures r.Failure? <==> cacheDbPath.Some? && Lower(storageType) != "none" && Lower(storageType) != "disabled"
    ensures r.Failure? ==> r.error == UnexpectedKeyword("cache_db_path")
    ensures r.Success? ==> (r.value.None? <==> Lower(storageType) == "none" || Lower(storageType) == "disabled")
    ensures r.Success? && r.value.Some? ==>
              r.value.value.kind == KindOfName(Lower(storageType))
              && (r.value.value.Cached? <==> useCache && Lower(storageType) != "csv")
  {
    var name := Lower(storageType);
    if name == "none" || name == "disabled" then Success(None)
    else if cacheDbPath.Some? then Failure(UnexpectedKeyword("cache_db_path"))
    else
      var kind := KindOfName(name);
      if useCache && name != "csv" then Success(Some(Cached(kind, "sensor_cache.db")))
      else Success(Some(Plain(kind)))
  }

  /** As written, a cache path given to the factory is never used: asking
      for it raises, so every cached store it builds is on
      "sensor_cache.db". */
  lemma CachePathNeverUsedAsWritten(storageType: string, useCache: bool, cacheDbPath: Option<string>)
    ensures var r := CreateStorageAsWritten(storageType, useCache, cacheDbPath);
            r.Success? && r.value.Some? && r.value.value.Cached? ==> r.value.value.cacheDbPath == "sensor_cache.db"
    ensures cacheDbPath.Some? && Lower(storageType) == "sqlite" ==>
              CreateStorageAsWritten(storageType, useCache, cacheDbPath) == Failure(UnexpectedKeyword("cache_db_path"))
  {
  }

  /** `create_storage` with `cache_db_path` kept for the cache and not passed
      to the back end's constructor.  The type is lower-cased; "none" and
      "disabled" give no storage; the cache is put in front unless it is not
      wanted or the type is "csv". */
  function CreateStorage(storageType: string, useCache: bool, cacheDbPath: Option<string>): (r: Option<Storage>)
    ensures r.None? <==> Lower(storageType) == "none" || Lower(storageType) == "disabled"
    ensures r.Some? ==> r.value.kind == KindOfName(Lower(storageType))
    ensures r.Some? ==> (r.value.Cached? <==> useCache && Lower(storageType) != "csv")
    ensures r.Some? && r.value.Cached? ==>
              r.value.cacheDbPath == (if cacheDbPath.Some? then cacheDbPath.value else "sensor_cache.db")
  {
    var name := Lower(storageType);
    if name == "none" || name == "disabled" then None
    else
      var kind := KindOfName(name);
      if useCache && name != "csv" then
        Some(Cached(kind, if cacheDbPath.Some? then cacheDbPath.value else "sensor_cache.db"))
      else Some(Plain(kind))
  }

  /** Without a `cache_db_path` keyword, and for "none" and "disabled", the
      factory as written and the corrected one build the same storage. */
  lemma CreateStorageAgreesWithoutCachePath(storageType: string, useCache: bool, cacheDbPath: Option<string>)
    requires cacheDbPath.None? || Lower(storageType) == "none" || Lower(storageType) == "disabled"
    ensures CreateStorageAsWritten(storageType, useCache, cacheDbPath)
            == Success(CreateStorage(storageType, useCache, cacheDbPath))
  {
  }

  /** The type name is case-insensitive. */
  lemma CreateStorageIgnoresCase(storageType: string, useCache: bool, cacheDbPath: Option<string>)
    ensures CreateStorage(storageType, useCache, cacheDbPath) == CreateStorage(Lower(storageType), useCache, cacheDbPath)
  {
    LowerIdempotent(storageType);
  }

  /** Every back end is built from its own key. */
  lemma CreateStorageByName(k: Kind, useCache: bool, cacheDbPath: Option<string>)
    ensures var r := CreateStorage(KindName(k), useCache, cacheDbPath);
            r.Some? && r.value.kind == k && (r.value.Cached? <==> useCache && k != CsvKind)
  {
  }

  /** The state of a `CachedStorage`: its table, its batch size and whether
      the calling thread holds `self.lock`. */
  datatype CachedState = CachedState(cache: Cache, batchSize: nat, lockHeld: bool)

  /** The end of an operation: its result, or a wait that never ends. */
  datatype Outcome<T> = Done(value: T) | Blocked

  /** A `CachedStorage` as built: an empty table, batch size 100, lock free. */
  const NEW_CACHED: CachedState := CachedState(EMPTY, 100, false)

  /** `_flush_cache`: under the lock, one flush of the table. */
  function FlushCache(s: CachedState, accepted: Row -> bool): (r: Outcome<CachedState>)
    ensures r.Blocked? <==> s.lockHeld
    ensures r.Done? ==> r.value.lockHeld == s.lockHeld && r.value.batchSize == s.batchSize
    ensures r.Done? && Valid(s.cache) ==> Valid(r.value.cache)
  {
    if s.lockHeld then Blocked
    else
      FlushValidWhenValid(s.cache, s.batchSize, accepted);
      Done(s.(cache := Flush(s.cache, s.batchSize, accepted)))
  }

  lemma FlushValidWhenValid(c: Cache, batchSize: nat, accepted: Row -> bool)
    ensures Valid(c) ==> Valid(Flush(c, batchSize, accepted))
  {
    if Valid(c) {
      FlushValid(c, batchSize, accepted);
    }
  }

  /** `save`: the cache insert comes first (`inserted` says whether it
      succeeded), then the target write (`delivered`).  It takes no lock
      and catches every exception, so it always returns. */
  function Save(s: CachedState, reading: Reading, inserted: bool, delivered: bool): (t: CachedState)
    ensures t.lockHeld == s.lockHeld && t.batchSize == s.batchSize
    ensures !inserted ==> t.cache == s.cache
    ensures inserted && !delivered ==> t.cache.rows == s.cache.rows + [Row(s.cache.nextId, reading, 0)]
    ensures inserted && delivered ==> forall q | q in t.cache.rows :: !SyncedCopy(q, reading)
    ensures inserted ==> forall q | q in s.cache.rows && !SyncedCopy(q, reading) :: q in t.cache.rows
    ensures inserted && delivered ==> forall q | q in t.cache.rows :: q in s.cache.rows
  {
    if !inserted then s
    else
      DeliveredSaveDropsCopies(s.cache, reading);
      s.(cache := SaveInserted(s.cache, reading, delivered))
  }

  /** `save_batch` as written: it takes the lock, inserts every item, and
      then calls `_flush_cache`, which asks for the same lock again. */
  function SaveBatchAsWritten(s: CachedState, items: seq<Reading>, accepted: Row -> bool): (r: Outcome<CachedState>)
    ensures s.lockHeld ==> r.Blocked?
  {
    if s.lockHeld then Blocked
    else
      var inside := CachedState(InsertAll(s.cache, items), s.batchSize, true);
      match FlushCache(inside, accepted)
      case Blocked => Blocked
      case Done(t) => Done(t.(lockHeld := false))
  }

  /** No call of `save_batch` as written returns: the thread waits on the
      lock it holds itself, even for an empty batch. */
  lemma SaveBatchAsWrittenNeverReturns(s: CachedState, items: seq<Reading>, accepted: Row -> bool)
    ensures SaveBatchAsWritten(s, items, accepted) == Blocked
  {
  }

  /** `save_batch` as intended: under the lock, insert every item, then run
      the body of exactly one flush, and release the lock. */
  function SaveBatch(s: CachedState, items: seq<Reading>, accepted: Row -> bool): (r: Outcome<CachedState>)
    ensures r.Done? <==> !s.lockHeld
    ensures r.Done? ==> !r.value.lockHeld && r.value.batchSize == s.batchSize
  {
    if s.lockHeld then Blocked
    else Done(s.(cache := Flush(InsertAll(s.cache, items), s.batchSize, accepted)))
  }

  /** What the intended `save_batch` does with each new item: its row is
      queued and then, if the one flush selects it, deleted when the target
      takes it or kept with one retry when it does not; a row the flush does
      not reach stays queued. */
  lemma SaveBatchSettlesItems(s: CachedState, items: seq<Reading>, accepted: Row -> bool, k: nat)
    requires Valid(s.cache) && !s.lockHeld && k < |items|
    ensures var inserted := InsertAll(s.cache, items);
            var q := Row(s.cache.nextId + k, items[k], 0);
            var after := SaveBatch(s, items, accepted).value.cache;
            q in inserted.rows
            && (q !in Selected(inserted.rows, s.batchSize) ==> q in after.rows)
            && (q in Selected(inserted.rows, s.batchSize) && accepted(q) ==>
                  forall p | p in after.rows :: p.id != q.id)
            && (q in Selected(inserted.rows, s.batchSize) && !accepted(q) ==> Retried(q) in after.rows)
  {
    var inserted := InsertAll(s.cache, items);
    var q := Row(s.cache.nextId + k, items[k], 0);
    assert inserted.rows[|s.cache.rows| + k] == q;
    FlushEffect(inserted, s.batchSize, accepted, q);
  }

  /** The intended `save_batch` agrees with inserting the items and then
      calling `_flush_cache` once the lock is free again. */
  lemma SaveBatchIsInsertThenFlush(s: CachedState, items: seq<Reading>, accepted: Row -> bool)
    requires !s.lockHeld
    ensures SaveBatch(s, items, accepted) == FlushCache(s.(cache := InsertAll(s.cache, items)), accepted)
  {
  }

  /** `get_cache_stats`: the row count, the rows with a failed attempt, and
      the cache path. */
  datatype CacheStats = CacheStats(totalCached: nat, failedCount: nat, cacheDb: string)

  function GetCacheStats(s: CachedState, cacheDb: string): (st: CacheStats)
    ensures st.failedCount <= st.totalCached && st.totalCached == |s.cache.rows|
    ensures st.cacheDb == cacheDb
  {
    CacheStats(|s.cache.rows|, FailedCount(s.cache), cacheDb)
  }

  /** The rows the stats do not count as failed are exactly the untried
      ones. */
  lemma StatsCountUntried(s: CachedState, cacheDb: string)
    ensures var st := GetCacheStats(s, cacheDb);
            st.totalCached - st.failedCount == |Keep(s.cache.rows, Untried)|
  {
    FailedPlusUntried(s.cache);
  }
}

=== FILE: storage_types.dfy ===
/** The four storage back ends of the C and C++ ports, with the name parser
    and printer both ports share: `string_to_storage_type` and
    `storage_type_to_string` in C, `parseStorageType` and
    `StorageFactory::storageTypeToString` in C++. */
module StorageTypes {
  import opened Text

  datatype StorageKind = SQLite | InfluxDB | CSV | NoStorage

  /** The configuration spelling of a type: exact, case-sensitive matches of
      "sqlite", "influxdb", "csv" and "none"; every other text, the empty one
      included, selects SQLite. */
  function ParseStorageName(s: string): (t: StorageKind)
    ensures t == NoStorage <==> s == "none"
    ensures t == CSV <==> s == "csv"
    ensures t == InfluxDB <==> s == "influxdb"
    ensures t == SQLite <==> s != "none" && s != "csv" && s != "influxdb"
  {
    if s == "sqlite" then SQLite
    else if s == "influxdb" then InfluxDB
    else if s == "csv" then CSV
    else if s == "none" then NoStorage
    else SQLite
  }

  /** The display name of a type. */
  function StorageName(t: StorageKind): (s: string)
    ensures |s| > 0
  {
    match t
    case SQLite => "SQLite"
    case InfluxDB => "InfluxDB"
    case CSV => "CSV"
    case NoStorage => "None"
  }

  /** Display names differ between types. */
  lemma StorageNameInjective(a: StorageKind, b: StorageKind)
    requires StorageName(a) == StorageName(b)
    ensures a == b
  {
  }

  /** Lower-casing a display name gives the configuration spelling back. */
  lemma ParseLoweredName(t: StorageKind)
    ensures ParseStorageName(Lower(StorageName(t))) == t
  {
    match t
    case SQLite =>
      assert Lower("SQLite") == "sqlite";
    case InfluxDB =>
      assert Lower("InfluxDB") == "influxdb";
    case CSV =>
      assert Lower("CSV") == "csv";
    case NoStorage =>
      assert Lower("None") == "none";
  }

  /** The display names themselves are not configuration spellings: they
      all parse as SQLite. */
  lemma DisplayNamesParseAsSQLite(t: StorageKind)
    ensures ParseStorageName(StorageName(t)) == SQLite
  {
  }
}

=== FILE: sync_monitor.dfy ===
/** The health monitor of the time service.  It counts synchronisation
    rounds, keeps a bounded history of them, averages the durations of the
    successful ones and turns the counters into a health verdict.  The clock
    and the manager's configuration are inputs. */
module SyncMonitor {
  import opened Wrappers
  import opened JsNumber
  import TimeSync

  const MAX_HISTORY: nat := 100
  const RECENT: nat := 10

  /** What a caller reports about one round; None is a field it left out. */
  datatype SyncData = SyncData(
    source: Option<string>,
    duration: Option<int>,
    ppsOffset: Option<int>,
    error: Option<string>)

  datatype Record = Record(
    timestamp: int,
    success: bool,
    source: string,
    duration: int,
    ppsOffset: Option<int>,
    error: Option<string>)

  datatype Stats = Stats(
    syncCount: nat,
    successCount: nat,
    failureCount: nat,
    lastSyncTime: Option<int>,
    lastSyncDuration: int,
    averageSyncDuration: int,
    history: seq<Record>)

  /** The counters of a fresh or reset monitor. */
  const Fresh: Stats := Stats(0, 0, 0, None, 0, 0, [])

  /** The invariant every reachable monitor keeps: each round is counted as
      exactly one of a success and a failure, and the history is bounded. */
  predicate Valid(s: Stats) {
    s.syncCount == s.successCount + s.failureCount && |s.history| <= MAX_HISTORY
  }

  /** A record counts towards the average when it succeeded and took time. */
  predicate Timed(r: Record) {
    r.success && r.duration > 0
  }

  /** The number of timed records. */
  function TimedCount(h: seq<Record>): (n: nat)
    ensures n <= |h|
  {
    if |h| == 0 then 0 else TimedCount(h[..|h| - 1]) + (if Timed(h[|h| - 1]) then 1 else 0)
  }

  /** The total duration of the timed records. */
  function TimedTotal(h: seq<Record>): (t: nat)
    ensures t >= TimedCount(h)
  {
    if |h| == 0 then 0
    else TimedTotal(h[..|h| - 1]) + (if Timed(h[|h| - 1]) then h[|h| - 1].duration else 0)
  }

  /** `calculateAverageDuration`: the rounded mean duration of the timed
      records, or the previous average when there are none. */
  function AverageDuration(h: seq<Record>, previous: int): (avg: int)
    ensures TimedCount(h) == 0 ==> avg == previous
    ensures TimedCount(h) > 0 ==>
              2 * TimedTotal(h) < (2 * avg + 1) * TimedCount(h) && (2 * avg - 1) * TimedCount(h) <= 2 * TimedTotal(h)
  {
    var n := TimedCount(h);
    if n == 0 then previous else RoundDiv(TimedTotal(h), n)
  }

  /** `recordSync`: count the round as a success or a failure, stamp it with
      the clock (failures too), append it to the history, dropping the oldest
      record beyond 100, and recompute the average. */
  function RecordSync(s: Stats, success: bool, data: SyncData, clock: int): (r: (Stats, Record))
    ensures r.0.syncCount == s.syncCount + 1
    ensures success ==> r.0.successCount == s.successCount + 1 && r.0.failureCount == s.failureCount
    ensures !success ==> r.0.failureCount == s.failureCount + 1 && r.0.successCount == s.successCount
    ensures r.0.lastSyncTime == Some(clock) && r.0.lastSyncDuration == r.1.duration
    ensures r.1.timestamp == clock && r.1.success == success
    ensures r.1.source == (if data.source.None? || data.source.value == "" then "unknown" else data.source.value)
    ensures r.1.duration == (if data.duration.None? then 0 else data.duration.value)
    ensures |s.history| < MAX_HISTORY ==> r.0.history == s.history + [r.1]
    ensures |s.history| >= MAX_HISTORY ==> r.0.history == (s.history + [r.1])[1..]
    ensures r.0.averageSyncDuration == AverageDuration(r.0.history, s.averageSyncDuration)
  {
    var record := Record(
      clock, success,
      if data.source.None? || data.source.value == "" then "unknown" else data.source.value,
      if data.duration.None? then 0 else data.duration.value,
      data.ppsOffset, data.error);
    var appended := s.history + [record];
    var history := if |appended| > MAX_HISTORY then appended[1..] else appended;
    var s' := s.(
      syncCount := s.syncCount + 1,
      successCount := if success then s.successCount + 1 else s.successCount,
      failureCount := if success then s.failureCount else s.failureCount + 1,
      lastSyncTime := Some(clock),
      lastSyncDuration := record.duration,
      history := history);
    (s'.(averageSyncDuration := AverageDuration(history, s.averageSyncDuration)), record)
  }

  /** Recording keeps the monitor's invariant. */
  lemma RecordSyncKeepsValid(s: Stats, success: bool, data: SyncData, clock: int)
    requires Valid(s)
    ensures Valid(RecordSync(s, success, data, clock).0)
  {
  }

  /** The history keeps its order: after recording, it is the old history
      with the new record last, less only the oldest entry when 100 were
      already held. */
  lemma HistoryKeepsOrder(s: Stats, success: bool, data: SyncData, clock: int)
    requires Valid(s)
    ensures var (s', rec) := RecordSync(s, success, data, clock);
            s'.history[|s'.history| - 1] == rec
            && (|s.history| < MAX_HISTORY ==> s'.history[..|s.history|] == s.history)
            && (|s.history| == MAX_HISTORY ==> s'.history[..MAX_HISTORY - 1] == s.history[1..])
  {
    var (s', rec) := RecordSync(s, success, data, clock);
    if |s.history| == MAX_HISTORY {
      assert s'.history == (s.history + [rec])[1..];
    }
  }

  /** The total of the timed durations is at most their count times any
      bound on those durations. */
  lemma {:induction false} TimedTotalBounded(h: seq<Record>, bound: int)
    requires forall i :: 0 <= i < |h| && Timed(h[i]) ==> h[i].duration <= bound
    ensures TimedTotal(h) <= TimedCount(h) * bound
  {
    if |h| > 0 {
      var p := h[..|h| - 1];
      forall i | 0 <= i < |p| && Timed(p[i]) ensures p[i].duration <= bound {
        assert p[i] == h[i];
      }
      TimedTotalBounded(p, bound);
      if Timed(h[|h| - 1]) {
        MulSucc(TimedCount(p), bound);
      }
    }
  }

  /** One more factor: the product grows by b. */
  lemma MulSucc(n: int, b: int)
    ensures (n + 1) * b == n * b + b
  {
  }

  /** The average never exceeds the longest timed duration, and is at least 1. */
  lemma AverageWithinDurations(h: seq<Record>, previous: int, longest: int)
    requires TimedCount(h) > 0
    requires forall i :: 0 <= i < |h| && Timed(h[i]) ==> h[i].duration <= longest
    ensures 1 <= AverageDuration(h, previous) <= longest
  {
    TimedTotalBounded(h, longest);
    RoundDivBetween(TimedTotal(h), TimedCount(h), 1, longest);
  }

  /** `getStats`' success rate: the rounded percentage of successful rounds,
      0 before any round. */
  function SuccessRate(s: Stats): (rate: int)
    requires Valid(s)
    ensures 0 <= rate <= 100
    ensures s.syncCount == 0 || s.successCount == 0 ==> rate == 0
    ensures s.syncCount > 0 && s.failureCount == 0 ==> rate == 100
  {
    if s.syncCount == 0 then 0
    else
      var n, d := 100 * s.successCount, s.syncCount;
      RoundDivBetween(n, d, if s.failureCount == 0 then 100 else 0, if s.successCount == 0 then 0 else 100);
      RoundDiv(n, d)
  }

  /** `getStats`' recent history: the last ten records, oldest first. */
  function RecentHistory(s: Stats): (recent: seq<Record>)
    ensures |recent| == if |s.history| < RECENT then |s.history| else RECENT
    ensures recent == s.history[|s.history| - |recent|..]
  {
    if |s.history| <= RECENT then s.history else s.history[|s.history| - RECENT..]
  }

  datatype Health = Healthy | Warning | Error

  datatype Issue = LowSuccessRate(rate: int) | NotSyncedForLong | PpsImprecise(averageNanoseconds: int)

  /** The total and the number of the PPS offsets carried by some records. */
  function OffsetTotal(h: seq<Record>): (r: (nat, nat))
  {
    if |h| == 0 then (0, 0)
    else
      var (total, n) := OffsetTotal(h[..|h| - 1]);
      match h[|h| - 1].ppsOffset
      case None => (total, n)
      case Some(o) => (total + Abs(o), n + 1)
  }

  /** The last sync is stale when it is more than two sync intervals old;
      an interval of 0 means the default hour, and a last sync at instant 0
      is never stale. */
  predicate Stale(s: Stats, clock: int, syncInterval: int) {
    s.lastSyncTime.Some? && s.lastSyncTime.value != 0
    && clock - s.lastSyncTime.value > (if syncInterval == 0 then 3600000 else syncInterval) * 2
  }

  /** For a gps-pps source, the mean absolute offset of the recent records
      carrying one exceeds 1000 ns. */
  predicate PpsImpreciseNow(s: Stats, source: string) {
    var (total, n) := OffsetTotal(RecentHistory(s));
    source == "gps-pps" && n > 0 && total > 1000 * n
  }

  /** `getHealthStatus`: warning below 80 % success, error when stale, and a
      warning for imprecise PPS that does not soften an error. */
  function HealthStatus(s: Stats, clock: int, syncInterval: int, source: string): (r: (Health, seq<Issue>))
    requires Valid(s)
    ensures r.0 == Error <==> Stale(s, clock, syncInterval)
    ensures r.0 == Warning <==> !Stale(s, clock, syncInterval) && (SuccessRate(s) < 80 || PpsImpreciseNow(s, source))
    ensures r.0 == Healthy <==> !Stale(s, clock, syncInterval) && SuccessRate(s) >= 80 && !PpsImpreciseNow(s, source)
    ensures (LowSuccessRate(SuccessRate(s)) in r.1) <==> SuccessRate(s) < 80
    ensures (NotSyncedForLong in r.1) <==> Stale(s, clock, syncInterval)
    ensures (exists a :: PpsImprecise(a) in r.1) <==> PpsImpreciseNow(s, source)
    ensures PpsImpreciseNow(s, source) ==>
              PpsImprecise(RoundDiv(OffsetTotal(RecentHistory(s)).0, OffsetTotal(RecentHistory(s)).1)) in r.1
    ensures |r.1| == (if SuccessRate(s) < 80 then 1 else 0) + (if Stale(s, clock, syncInterval) then 1 else 0)
                    + (if PpsImpreciseNow(s, source) then 1 else 0)
  {
    (Verdict(s, clock, syncInterval, source), Issues(s, clock, syncInterval, source))
  }

  /** The status of `getHealthStatus`, set by its three checks in turn. */
  function Verdict(s: Stats, clock: int, syncInterval: int, source: string): (h: Health)
    requires Valid(s)
    ensures h == Error <==> Stale(s, clock, syncInterval)
    ensures h == Healthy <==> !Stale(s, clock, syncInterval) && SuccessRate(s) >= 80 && !PpsImpreciseNow(s, source)
  {
    var h1 := if SuccessRate(s) < 80 then Warning else Healthy;
    var h2 := if Stale(s, clock, syncInterval) then Error else h1;
    if PpsImpreciseNow(s, source) then (if h2 == Error then Error else Warning) else h2
  }

  /** The issues of `getHealthStatus`, appended by its three checks in
      turn. */
  function Issues(s: Stats, clock: int, syncInterval: int, source: string): (issues: seq<Issue>)
    requires Valid(s)
    ensures (LowSuccessRate(SuccessRate(s)) in issues) <==> SuccessRate(s) < 80
    ensures (NotSyncedForLong in issues) <==> Stale(s, clock, syncInterval)
    ensures (exists a :: PpsImprecise(a) in issues) <==> PpsImpreciseNow(s, source)
    ensures PpsImpreciseNow(s, source) ==>
              PpsImprecise(RoundDiv(OffsetTotal(RecentHistory(s)).0, OffsetTotal(RecentHistory(s)).1)) in issues
    ensures |issues| == (if SuccessRate(s) < 80 then 1 else 0) + (if Stale(s, clock, syncInterval) then 1 else 0)
                    + (if PpsImpreciseNow(s, source) then 1 else 0)
  {
    var rate := SuccessRate(s);
    var i1 := if rate < 80 then [LowSuccessRate(rate)] else [];
    var i2 := if Stale(s, clock, syncInterval) then i1 + [NotSyncedForLong] else i1;
    var (total, n) := OffsetTotal(RecentHistory(s));
    if PpsImpreciseNow(s, source) then i2 + [PpsImprecise(RoundDiv(total, n))] else i2
  }

  /** A fresh monitor warns: its success rate is 0. */
  lemma FreshMonitorWarns(clock: int, syncInterval: int, source: string)
    ensures HealthStatus(Fresh, clock, syncInterval, source).0 == Warning
  {
  }

  /** A round just recorded is never stale, for a non-negative interval. */
  lemma JustRecordedIsNotStale(s: Stats, success: bool, data: SyncData, clock: int, syncInterval: int, source: string)
    requires Valid(s) && syncInterval >= 0
    ensures !Stale(RecordSync(s, success, data, clock).0, clock, syncInterval)
    ensures HealthStatus(RecordSync(s, success, data, clock).0, clock, syncInterval, source).0 != Error
  {
    RecordSyncKeepsValid(s, success, data, clock);
  }

  /** `reset`: all counters and durations back to zero, no last sync, empty
      history. */
  function Reset(s: Stats): (r: Stats)
    ensures Valid(r) && r.syncCount == 0 && r.history == [] && r.lastSyncTime.None?
    ensures r.averageSyncDuration == 0 && r.lastSyncDuration == 0
  {
    Stats(0, 0, 0, None, 0, 0, [])
  }

  /** The data of a time-synced event of the manager: its source and PPS
      offset, but never a duration. */
  function SyncedData(e: TimeSync.Event): (d: SyncData)
    requires e.TimeSynced?
    ensures d.duration.None? && d.ppsOffset == Some(e.ppsOffset) && d.source == Some(e.source)
  {
    SyncData(Some(e.source), None, Some(e.ppsOffset), None)
  }

  /** Feeding the monitor the events of the manager, which only ever reports
      successes and no durations, from a fresh start. */
  function Monitor(events: seq<TimeSync.Event>, clocks: seq<int>): (s: Stats)
    requires |clocks| == |events|
    requires forall i :: 0 <= i < |events| ==> events[i].TimeSynced?
  {
    if |events| == 0 then Fresh
    else
      RecordSync(Monitor(events[..|events| - 1], clocks[..|clocks| - 1]), true,
                 SyncedData(events[|events| - 1]), clocks[|clocks| - 1]).0
  }

  /** Fed by the manager alone, the monitor never counts a failure and its
      average duration stays 0: both are reachable only through direct
      calls that supply a failure or a duration. */
  lemma {:induction false} ManagerFedMonitor(events: seq<TimeSync.Event>, clocks: seq<int>)
    requires |clocks| == |events|
    requires forall i :: 0 <= i < |events| ==> events[i].TimeSynced?
    ensures var s := Monitor(events, clocks);
            Valid(s) && s.failureCount == 0 && s.successCount == |events| && s.averageSyncDuration == 0
            && TimedCount(s.history) == 0
  {
    if |events| > 0 {
      var prefix, cs := events[..|events| - 1], clocks[..|clocks| - 1];
      ManagerFedMonitor(prefix, cs);
      var s0 := Monitor(prefix, cs);
      var (s1, rec) := RecordSync(s0, true, SyncedData(events[|events| - 1]), clocks[|clocks| - 1]);
      assert !Timed(rec);
      UntimedAppend(s0.history, rec);
      if |s0.history| >= MAX_HISTORY {
        UntimedSuffix(s0.history + [rec], 1);
      }
    }
  }

  /** Appending an untimed record adds nothing timed. */
  lemma UntimedAppend(h: seq<Record>, r: Record)
    requires !Timed(r)
    ensures TimedCount(h + [r]) == TimedCount(h)
  {
    assert (h + [r])[..|h|] == h;
  }

  /** A history with no timed record has none in any suffix. */
  lemma {:induction false} UntimedSuffix(h: seq<Record>, k: nat)
    requires k <= |h| && TimedCount(h) == 0
    ensures TimedCount(h[k..]) == 0
    decreases |h|
  {
    if k < |h| {
      assert h[..|h| - 1][k..] == h[k..][..|h[k..]| - 1];
      UntimedSuffix(h[..|h| - 1], k);
    }
  }
}

=== FILE: text.dfy ===
/** Strings as sequences of characters: splitting on a separator, joining,
    decimal rendering of integers and prefix searches.  These are the string
    operations the JavaScript, C and C++ components lean on. */
module Text {
  import opened Wrappers

  /** JavaScript `String.prototype.split` with a one-character separator:
      the pieces between separators, always at least one. */
  function Split(s: string, sep: char): (parts: seq<string>)
    ensures |parts| >= 1
    ensures forall i :: 0 <= i < |parts| ==> sep !in parts[i]
    ensures Join(parts, sep) == s
    decreases |s|
  {
    if |s| == 0 then [""]
    else if s[0] == sep then [""] + Split(s[1..], sep)
    else
      var rest := Split(s[1..], sep);
      [[s[0]] + rest[0]] + rest[1..]
  }

  /** JavaScript `Array.prototype.join` with a one-character separator. */
  function Join(parts: seq<string>, sep: char): string
  {
    if |parts| == 0 then ""
    else if |parts| == 1 then parts[0]
    else parts[0] + [sep] + Join(parts[1..], sep)
  }

  /** Splitting a join gives the pieces back, provided no piece holds the separator. */
  lemma {:induction false} SplitJoin(parts: seq<string>, sep: char)
    requires |parts| >= 1
    requires forall i :: 0 <= i < |parts| ==> sep !in parts[i]
    ensures Split(Join(parts, sep), sep) == parts
    decreases |parts|, |parts[0]|
  {
    if |parts| == 1 {
      SplitNoSep(parts[0], sep);
    } else if |parts[0]| == 0 {
      var tail := parts[1..];
      assert Join(parts, sep) == [sep] + Join(tail, sep);
      assert forall i :: 0 <= i < |tail| ==> sep !in tail[i] by {
        forall i | 0 <= i < |tail| ensures sep !in tail[i] {
          assert tail[i] == parts[i + 1];
        }
      }
      SplitJoin(tail, sep);
      assert ([sep] + Join(tail, sep))[1..] == Join(tail, sep);
      assert parts == [""] + tail;
    } else {
      var c := parts[0][0];
      var shorter := [parts[0][1..]] + parts[1..];
      assert c != sep by { assert c == parts[0][0]; }
      assert forall i :: 0 <= i < |shorter| ==> sep !in shorter[i] by {
        forall i | 0 <= i < |shorter| ensures sep !in shorter[i] {
          if i == 0 {
            assert forall k :: 0 <= k < |parts[0][1..]| ==> parts[0][1..][k] == parts[0][k + 1];
          } else {
            assert shorter[i] == parts[i];
          }
        }
      }
      SplitJoin(shorter, sep);
      JoinCons(c, shorter, sep);
      assert [c] + parts[0][1..] == parts[0];
      var j := Join(parts, sep);
      assert j == [c] + Join(shorter, sep);
      assert j[1..] == Join(shorter, sep);
      assert parts == [[c] + shorter[0]] + shorter[1..];
    }
  }

  /** A string without the separator splits into itself alone. */
  lemma {:induction false} SplitNoSep(s: string, sep: char)
    requires sep !in s
    ensures Split(s, sep) == [s]
    decreases |s|
  {
    if |s| > 0 {
      assert s[0] != sep;
      assert sep !in s[1..];
      SplitNoSep(s[1..], sep);
      assert [s[0]] + s[1..] == s;
    }
  }

  /** Prefixing a character to the first piece prefixes it to the joined text. */
  lemma JoinCons(c: char, parts: seq<string>, sep: char)
    requires |parts| >= 1
    ensures Join([[c] + parts[0]] + parts[1..], sep) == [c] + Join(parts, sep)
  {
    var moved := [[c] + parts[0]] + parts[1..];
    if |parts| > 1 {
      assert moved[1..] == parts[1..];
    }
  }

  /** The decimal digit character for 0..9. */
  function DigitChar(d: nat): (c: char)
    requires d < 10
    ensures '0' <= c <= '9'
  {
    ('0' as int + d) as char
  }

  /** The value of a decimal digit character. */
  function DigitOf(c: char): (d: nat)
    requires '0' <= c <= '9'
    ensures d < 10
    ensures DigitChar(d) == c
  {
    c as int - '0' as int
  }

  predicate IsDigits(s: string) {
    forall i :: 0 <= i < |s| ==> '0' <= s[i] <= '9'
  }

  /** The canonical decimal text of a natural number: JavaScript `String(n)`,
      C++ `std::to_string(n)`. */
  function NatToString(n: nat): (s: string)
    ensures |s| >= 1 && IsDigits(s)
    ensures |s| > 1 ==> s[0] != '0'
    ensures n < 10 <==> |s| == 1
    decreases n
  {
    if n < 10 then [DigitChar(n)] else NatToString(n / 10) + [DigitChar(n % 10)]
  }

  /** Decimal text of any integer, with a leading '-' for negatives. */
  function IntToString(i: int): (s: string)
    ensures |s| >= 1
    ensures i >= 0 <==> s[0] != '-'
  {
    if i < 0 then "-" + NatToString(-i) else NatToString(i)
  }

  /** The value of a string of decimal digits, most significant first. */
  function DigitsValue(s: string): nat
    requires IsDigits(s)
  {
    if |s| == 0 then 0 else DigitsValue(s[..|s| - 1]) * 10 + DigitOf(s[|s| - 1])
  }

  /** Reading back the decimal text of n gives n. */
  lemma {:induction false} DigitsValueOfNatToString(n: nat)
    ensures DigitsValue(NatToString(n)) == n
    decreases n
  {
    var s := NatToString(n);
    if n >= 10 {
      DigitsValueOfNatToString(n / 10);
      assert s[..|s| - 1] == NatToString(n / 10);
      assert DigitOf(s[|s| - 1]) == n % 10;
    } else {
      assert s[..0] == "";
    }
  }

  /** Decimal rendering is injective. */
  lemma NatToStringInjective(m: nat, n: nat)
    requires NatToString(m) == NatToString(n)
    ensures m == n
  {
    DigitsValueOfNatToString(m);
    DigitsValueOfNatToString(n);
  }

  /** Signed decimal rendering is injective too. */
  lemma IntToStringInjective(i: int, j: int)
    requires IntToString(i) == IntToString(j)
    ensures i == j
  {
    if i < 0 && j < 0 {
      assert IntToString(i)[1..] == NatToString(-i);
      assert IntToString(j)[1..] == NatToString(-j);
      NatToStringInjective(-i, -j);
    } else if i >= 0 && j >= 0 {
      NatToStringInjective(i, j);
    }
  }

  /** `p` occurs in `s` at position `i`. */
  predicate MatchAt(s: string, i: nat, p: string) {
    i + |p| <= |s| && s[i..i + |p|] == p
  }

  /** The position of the first occurrence of `p` in `s` at or after `from`
      (C `strstr`, C++ `std::string::find`, JavaScript `indexOf`). */
  function FindFrom(s: string, p: string, from: nat): (r: Option<nat>)
    ensures r.Some? ==> from <= r.value && MatchAt(s, r.value, p)
    ensures r.Some? ==> forall k :: from <= k < r.value ==> !MatchAt(s, k, p)
    ensures r.None? ==> forall k :: from <= k <= |s| ==> !MatchAt(s, k, p)
    decreases |s| - from
  {
    if from > |s| then None
    else if MatchAt(s, from, p) then Some(from)
    else FindFrom(s, p, from + 1)
  }

  /** The position of the first `c` at or after `from`. */
  function FindChar(s: string, c: char, from: nat): (r: Option<nat>)
    ensures r.Some? ==> from <= r.value < |s| && s[r.value] == c
    ensures r.Some? ==> forall k :: from <= k < r.value ==> s[k] != c
    ensures r.None? ==> forall k :: from <= k < |s| ==> s[k] != c
    decreases |s| - from
  {
    if from >= |s| then None
    else if s[from] == c then Some(from)
    else FindChar(s, c, from + 1)
  }

  /** JavaScript `substring(start, end)` with both indices clamped to the length. */
  function Substring(s: string, start: nat, end: nat): (r: string)
    requires start <= end
    ensures |r| <= end - start
    ensures start + |r| <= |s| ==> forall k :: 0 <= k < |r| ==> r[k] == s[start + k]
  {
    var a := if start < |s| then start else |s|;
    var b := if end < |s| then end else |s|;
    s[a..b]
  }

  /** ASCII lower-casing (Python `str.lower`, Go `strings.ToLower` on ASCII text). */
  function Lower(s: string): (r: string)
    ensures |r| == |s|
    ensures forall i :: 0 <= i < |s| ==> ('A' <= s[i] <= 'Z' ==> r[i] as int == s[i] as int + 32)
    ensures forall i :: 0 <= i < |s| ==> (!('A' <= s[i] <= 'Z') ==> r[i] == s[i])
  {
    seq(|s|, i requires 0 <= i < |s| => if 'A' <= s[i] <= 'Z' then (s[i] as int + 32) as char else s[i])
  }

  /** Lower-casing twice is lower-casing once. */
  lemma LowerIdempotent(s: string)
    ensures Lower(Lower(s)) == Lower(s)
  {
    var l := Lower(s);
    forall i | 0 <= i < |s| ensures Lower(l)[i] == l[i] {
      assert !('A' <= l[i] <= 'Z');
    }
  }
}

=== FILE: time_sync.dfy ===
/** The time manager of the time service.  It takes UTC time from RMC
    sentences of NMEA 0183, sharpens it with PPS pulses, or reads it from an
    NTP server or the local clock; it extrapolates the last fix forward and
    switches between sources.  The serial line, the pulse device, the NTP
    client and the clock are inputs: a sentence or a pulse arrives as a value
    together with the clock reading, and one synchronisation round is given
    what arrived before its timeouts expired. */
module TimeSync {
  import opened Wrappers
  import opened Text
  import opened JsNumber
  import opened Calendar

  /** Constructor options; None is an option the caller did not pass. */
  datatype Options = Options(source: Option<string>, enablePPS: Option<bool>, syncInterval: Option<int>)

  /** The manager's state.  `currentTime` is the last time fix, `lastSync`
      the local clock reading when it was taken; `gpsClient` records whether a
      serial port was opened. */
  datatype Manager = Manager(
    source: string,
    enablePPS: bool,
    syncInterval: int,
    currentTime: Option<JsDate>,
    lastSync: Option<int>,
    gpsClient: bool,
    gpsAvailable: bool,
    ppsAvailable: bool,
    ppsOffset: int)

  /** The events the manager emits. */
  datatype Event =
    | TimeUpdated(time: JsDate, timestamp: int)
    | PpsPulse(time: JsDate, offset: int, timestamp: int)
    | TimeSynced(source: string, time: JsDate, timestamp: int, ppsOffset: int)
    | SourceChanged(oldSource: string, newSource: string, current: Option<JsDate>)

  /** What the outside world supplies during one synchronisation round: the
      clock when it starts and when it completes, the fix of the next RMC
      sentence if one arrives within 10 s, the next PPS pulse (seconds and
      nanoseconds) if one arrives within 2 s, and the NTP server's answer. */
  datatype SyncInputs = SyncInputs(
    clockAtStart: int,
    clockAtEnd: int,
    gpsFix: Option<JsDate>,
    pulse: Option<(int, int)>,
    ntpReply: Option<JsDate>)

  /** The constructor: a passed option wins even when falsy, because the
      caller's object is spread over the defaults; absent options take source
      "local", no forced PPS and an hourly interval. */
  function NewManager(opts: Options): (m: Manager)
    ensures m.source == (if opts.source.Some? then opts.source.value else "local")
    ensures m.syncInterval == (if opts.syncInterval.Some? then opts.syncInterval.value else 3600000)
    ensures m.currentTime.None? && m.lastSync.None? && m.ppsOffset == 0
    ensures !m.gpsClient && !m.gpsAvailable && !m.ppsAvailable
  {
    Manager(opts.source.GetOr("local"), opts.enablePPS.GetOr(false), opts.syncInterval.GetOr(3600000),
            None, None, false, false, false, 0)
  }

  /** The source names the HTTP layer lets through to `switchSource`. */
  predicate IsKnownSource(source: string) {
    source == "local" || source == "gps" || source == "gps-pps" || source == "ntp"
  }

  /** `lastSync` as the clock arithmetic sees it: null counts as 0. */
  function LastSyncValue(m: Manager): int {
    if m.lastSync.Some? then m.lastSync.value else 0
  }

  /** The time value of a Date moved by `delta` milliseconds. */
  function Shift(d: JsDate, delta: int): (r: JsDate)
    ensures d == Invalid ==> r == Invalid
    ensures d.Valid? && r.Valid? ==> r.ms == d.ms + delta
  {
    match d
    case Invalid => Invalid
    case Valid(t) => TimeClip(t + delta)
  }

  // ---------------------------------------------------------------- NMEA

  /** The time fix of an RMC sentence, or None when the sentence is ignored:
      it must start with '$', contain "RMC", split on ',' into at least ten
      fields, carry status "A" in field 2 and non-empty time (field 1) and date
      (field 9).  The fix is 20YY-MM-DD from field 9 and hh:mm:ss from the
      first six characters of field 1, with any fraction of a second dropped;
      a non-numeric piece makes the date invalid rather than rejecting it. */
  function RmcFix(sentence: string): (r: Option<JsDate>)
    ensures r.Some? <==>
              |sentence| > 0 && sentence[0] == '$' && FindFrom(sentence, "RMC", 0).Some?
              && var parts := Split(sentence, ',');
                 |parts| >= 10 && parts[2] == "A" && parts[1] != "" && parts[9] != ""
  {
    if |sentence| == 0 || sentence[0] != '$' then None
    else if FindFrom(sentence, "RMC", 0).None? then None
    else
      var parts := Split(sentence, ',');
      if |parts| < 10 then None
      else
        var timeStr, status, dateStr := parts[1], parts[2], parts[9];
        if status != "A" || timeStr == "" || dateStr == "" then None
        else Some(FixOf(timeStr, dateStr))
  }

  /** The UTC instant of an hhmmss time field and a ddmmyy date field. */
  function FixOf(timeStr: string, dateStr: string): JsDate {
    var year := AddNumber(2000, ParseInt(Substring(dateStr, 4, 6)));
    var month := AddNumber(-1, ParseInt(Substring(dateStr, 2, 4)));
    DateUtc(year, month, ParseInt(Substring(dateStr, 0, 2)),
            ParseInt(Substring(timeStr, 0, 2)), ParseInt(Substring(timeStr, 2, 4)),
            ParseInt(Substring(timeStr, 4, 6)))
  }

  /** Digit fields hhmmss[frac] and ddmmyy give the instant 20yy-mm-dd hh:mm:ss UTC. */
  lemma FixOfDigits(hh: nat, mm: nat, ss: nat, frac: string, dd: nat, mo: nat, yy: nat)
    requires hh < 100 && mm < 100 && ss < 100 && dd < 100 && mo < 100 && yy < 100
    ensures FixOf(TwoDigits(hh) + TwoDigits(mm) + TwoDigits(ss) + frac, TwoDigits(dd) + TwoDigits(mo) + TwoDigits(yy))
            == DateUtc(Some(2000 + yy), Some(mo - 1), Some(dd), Some(hh), Some(mm), Some(ss))
  {
    var dateStr := TwoDigits(dd) + TwoDigits(mo) + TwoDigits(yy);
    SixDigitGroups(hh, mm, ss, frac);
    SixDigitGroups(dd, mo, yy, "");
    assert dateStr + "" == dateStr;
    FixOfParsed(TwoDigits(hh) + TwoDigits(mm) + TwoDigits(ss) + frac, dateStr, hh, mm, ss, dd, mo, yy);
  }

  /** The instant of two fields whose two-digit groups parse to the given numbers. */
  lemma FixOfParsed(timeStr: string, dateStr: string, hh: int, mm: int, ss: int, dd: int, mo: int, yy: int)
    requires ParseInt(Substring(timeStr, 0, 2)) == Some(hh) && ParseInt(Substring(timeStr, 2, 4)) == Some(mm)
    requires ParseInt(Substring(timeStr, 4, 6)) == Some(ss)
    requires ParseInt(Substring(dateStr, 0, 2)) == Some(dd) && ParseInt(Substring(dateStr, 2, 4)) == Some(mo)
    requires ParseInt(Substring(dateStr, 4, 6)) == Some(yy)
    ensures FixOf(timeStr, dateStr) == DateUtc(Some(2000 + yy), Some(mo - 1), Some(dd), Some(hh), Some(mm), Some(ss))
  {
    FixOfNumbers(timeStr, dateStr, hh, mm, ss, dd, mo, yy);
    ShiftedFields(hh, mm, ss, dd, mo, yy);
  }

  lemma FixOfNumbers(timeStr: string, dateStr: string, hh: int, mm: int, ss: int, dd: int, mo: int, yy: int)
    requires ParseInt(Substring(timeStr, 0, 2)) == Some(hh) && ParseInt(Substring(timeStr, 2, 4)) == Some(mm)
    requires ParseInt(Substring(timeStr, 4, 6)) == Some(ss)
    requires ParseInt(Substring(dateStr, 0, 2)) == Some(dd) && ParseInt(Substring(dateStr, 2, 4)) == Some(mo)
    requires ParseInt(Substring(dateStr, 4, 6)) == Some(yy)
    ensures FixOf(timeStr, dateStr)
            == DateUtc(AddNumber(2000, Some(yy)), AddNumber(-1, Some(mo)), Some(dd), Some(hh), Some(mm), Some(ss))
  {
  }

  lemma ShiftedFields(hh: int, mm: int, ss: int, dd: int, mo: int, yy: int)
    ensures DateUtc(AddNumber(2000, Some(yy)), AddNumber(-1, Some(mo)), Some(dd), Some(hh), Some(mm), Some(ss))
            == DateUtc(Some(2000 + yy), Some(mo - 1), Some(dd), Some(hh), Some(mm), Some(ss))
  {
  }

  /** Adding a constant to a number that may be NaN. */
  function AddNumber(k: int, x: Option<int>): Option<int>
  {
    if x.Some? then Some(x.value + k) else None
  }

  /** `parseNMEA`: an accepted fix becomes the current time, stamped with the
      clock reading, and is announced; any other line changes nothing. */
  function ParseNmea(m: Manager, sentence: string, clock: int): (r: (Manager, seq<Event>))
    ensures RmcFix(sentence).None? ==> r.0 == m && r.1 == []
    ensures RmcFix(sentence).Some? ==>
              r.0 == m.(currentTime := RmcFix(sentence), lastSync := Some(clock))
              && r.1 == [TimeUpdated(RmcFix(sentence).value, clock)]
  {
    match RmcFix(sentence)
    case None => (m, [])
    case Some(fix) => (m.(currentTime := Some(fix), lastSync := Some(clock)), [TimeUpdated(fix, clock)])
  }

  /** The two-digit decimal text of 0..99, with a leading zero. */
  function TwoDigits(n: nat): (s: string)
    requires n < 100
    ensures |s| == 2 && IsDigits(s)
  {
    [DigitChar(n / 10), DigitChar(n % 10)]
  }

  /** Two decimal digits parse back to their value. */
  lemma ParseTwoDigits(n: nat)
    requires n < 100
    ensures ParseInt(TwoDigits(n)) == Some(n)
  {
    var s := TwoDigits(n);
    assert !IsJsSpace(s[0]);
    assert TrimStart(s) == s;
    assert TakeSign(s) == (false, s);
    assert TakeRadix(s) == (10, s);
    DigitRunAll(s);
    assert s[..2] == s;
    RadixValueDecimal(s);
    assert s[..1] == [DigitChar(n / 10)];
    assert DigitsValue(s[..1]) == n / 10 by { assert s[..1][..0] == ""; }
  }

  /** The three two-digit groups of a six-character field, read back. */
  lemma SixDigitGroups(a: nat, b: nat, c: nat, tail: string)
    requires a < 100 && b < 100 && c < 100
    ensures var f := TwoDigits(a) + TwoDigits(b) + TwoDigits(c) + tail;
            ParseInt(Substring(f, 0, 2)) == Some(a)
            && ParseInt(Substring(f, 2, 4)) == Some(b)
            && ParseInt(Substring(f, 4, 6)) == Some(c)
  {
    var f := TwoDigits(a) + TwoDigits(b) + TwoDigits(c) + tail;
    assert Substring(f, 0, 2) == TwoDigits(a);
    assert Substring(f, 2, 4) == TwoDigits(b);
    assert Substring(f, 4, 6) == TwoDigits(c);
    ParseTwoDigits(a);
    ParseTwoDigits(b);
    ParseTwoDigits(c);
  }

  /** An RMC sentence whose talker field starts with '$' and names RMC, whose
      time field is hhmmss (optionally followed by a fraction), status "A" and
      date field ddmmyy, is accepted as exactly that UTC instant. */
  lemma {:induction false} RmcRoundTrip(parts: seq<string>, hh: nat, mm: nat, ss: nat, frac: string,
                                         dd: nat, mo: nat, yy: nat)
    requires hh < 100 && mm < 100 && ss < 100 && dd < 100 && mo < 100 && yy < 100
    requires |parts| >= 10 && forall i :: 0 <= i < |parts| ==> ',' !in parts[i]
    requires |parts[0]| > 0 && parts[0][0] == '$' && FindFrom(parts[0], "RMC", 0).Some?
    requires parts[1] == TwoDigits(hh) + TwoDigits(mm) + TwoDigits(ss) + frac
    requires parts[2] == "A"
    requires parts[9] == TwoDigits(dd) + TwoDigits(mo) + TwoDigits(yy)
    ensures RmcFix(Join(parts, ',')) == Some(DateUtc(Some(2000 + yy), Some(mo - 1), Some(dd),
                                                     Some(hh), Some(mm), Some(ss)))
  {
    var sentence := Join(parts, ',');
    SplitJoin(parts, ',');
    JoinStartsWithFirst(parts, ',');
    assert sentence[0] == parts[0][0];
    var k := FindFrom(parts[0], "RMC", 0).value;
    assert sentence[k..k + 3] == parts[0][k..k + 3];
    assert MatchAt(sentence, k, "RMC");
    FixOfDigits(hh, mm, ss, frac, dd, mo, yy);
  }

  /** A joined text begins with its first piece. */
  lemma JoinStartsWithFirst(parts: seq<string>, sep: char)
    requires |parts| >= 1
    ensures |parts[0]| <= |Join(parts, sep)| && Join(parts, sep)[..|parts[0]|] == parts[0]
  {
    if |parts| > 1 {
      assert Join(parts, sep) == parts[0] + ([sep] + Join(parts[1..], sep));
    }
  }

  // ---------------------------------------------------------------- PPS

  /** `handlePPSPulse`: the pulse's nanoseconds always become the offset;
      only when a fix exists does the whole-second pulse instant replace it,
      stamped with the clock, and a pulse event go out. */
  function HandlePpsPulse(m: Manager, seconds: int, nanoseconds: int, clock: int): (r: (Manager, seq<Event>))
    ensures r.0.ppsOffset == nanoseconds
    ensures m.currentTime.None? ==> r.0 == m.(ppsOffset := nanoseconds) && r.1 == []
    ensures m.currentTime.Some? ==>
              r.0 == m.(ppsOffset := nanoseconds, currentTime := Some(TimeClip(seconds * 1000)), lastSync := Some(clock))
              && r.1 == [PpsPulse(TimeClip(seconds * 1000), nanoseconds, clock)]
  {
    var m1 := m.(ppsOffset := nanoseconds);
    if m.currentTime.None? then (m1, [])
    else
      var pulse := TimeClip(seconds * 1000);
      (m1.(currentTime := Some(pulse), lastSync := Some(clock)), [PpsPulse(pulse, nanoseconds, clock)])
  }

  // ---------------------------------------------------------------- sources

  /** `getGPSTime`: fails while GPS is unavailable; a fix taken less than
      5000 ms ago is returned as it stands; otherwise the next fix, unless
      none arrives within 10 s. */
  function GpsTime(m: Manager, inputs: SyncInputs): (r: Option<JsDate>)
    ensures !m.gpsAvailable ==> r.None?
    ensures m.gpsAvailable && m.currentTime.Some? && inputs.clockAtStart - LastSyncValue(m) < 5000 ==>
              r == m.currentTime
    ensures m.gpsAvailable && !(m.currentTime.Some? && inputs.clockAtStart - LastSyncValue(m) < 5000) ==>
              r == inputs.gpsFix
  {
    if !m.gpsAvailable then None
    else if m.currentTime.Some? && inputs.clockAtStart - LastSyncValue(m) < 5000 then m.currentTime
    else inputs.gpsFix
  }

  /** `getGPSPPSTime`: the GPS time, sharpened to the next pulse's
      whole-second instant when PPS is available and a pulse arrives within
      2 s.  The pulse is handled on the way, so its nanoseconds become the
      offset.  Returns the time and the offset. */
  function GpsPpsTime(m: Manager, inputs: SyncInputs): (r: (Option<JsDate>, int))
    ensures !m.gpsAvailable ==> r.0.None? && r.1 == m.ppsOffset
    ensures m.gpsAvailable && (!m.ppsAvailable || inputs.pulse.None? || GpsTime(m, inputs).None?) ==>
              r == (GpsTime(m, inputs), m.ppsOffset)
    ensures m.gpsAvailable && m.ppsAvailable && inputs.pulse.Some? && GpsTime(m, inputs).Some? ==>
              r == (Some(TimeClip(inputs.pulse.value.0 * 1000)), inputs.pulse.value.1)
  {
    if !m.gpsAvailable then (None, m.ppsOffset)
    else if !m.ppsAvailable then (GpsTime(m, inputs), m.ppsOffset)
    else
      match GpsTime(m, inputs)
      case None => (None, m.ppsOffset)
      case Some(gps) =>
        match inputs.pulse
        case None => (Some(gps), m.ppsOffset)
        case Some((seconds, nanoseconds)) => (Some(TimeClip(seconds * 1000)), nanoseconds)
  }

  /** The time the configured source yields in one round (None: it threw),
      with the PPS offset after the round.  "local" and any unknown source
      read the local clock. */
  function SourceTime(m: Manager, inputs: SyncInputs): (r: (Option<JsDate>, int))
    ensures m.source != "gps-pps" ==> r.1 == m.ppsOffset
    ensures m.source == "gps" ==> r.0 == GpsTime(m, inputs)
    ensures m.source == "gps-pps" ==> r == GpsPpsTime(m, inputs)
    ensures m.source == "ntp" ==> r.0 == inputs.ntpReply
    ensures m.source != "gps" && m.source != "gps-pps" && m.source != "ntp" ==>
              r.0 == Some(Valid(inputs.clockAtEnd))
  {
    match m.source
    case "gps" => (GpsTime(m, inputs), m.ppsOffset)
    case "gps-pps" => GpsPpsTime(m, inputs)
    case "ntp" => (inputs.ntpReply, m.ppsOffset)
    case _ => (Some(Valid(inputs.clockAtEnd)), m.ppsOffset)
  }

  /** `syncTime`: on success the time becomes the current time, the clock
      becomes lastSync and time-synced is emitted with the PPS offset; on
      failure the local clock becomes the current time, lastSync is kept and
      nothing is emitted.  Either way a time is returned. */
  function SyncTime(m: Manager, inputs: SyncInputs): (r: (Manager, JsDate, seq<Event>))
    ensures r.0.currentTime == Some(r.1)
    ensures r.0.source == m.source && r.0.gpsAvailable == m.gpsAvailable && r.0.ppsAvailable == m.ppsAvailable
    ensures r.0.ppsOffset == SourceTime(m, inputs).1
    ensures r.0 == m.(currentTime := r.0.currentTime, lastSync := r.0.lastSync, ppsOffset := r.0.ppsOffset)
    ensures SourceTime(m, inputs).0.Some? ==>
              r.1 == SourceTime(m, inputs).0.value && r.0.lastSync == Some(inputs.clockAtEnd)
              && r.2 == [TimeSynced(m.source, r.1, inputs.clockAtEnd, r.0.ppsOffset)]
    ensures SourceTime(m, inputs).0.None? ==>
              r.1 == Valid(inputs.clockAtEnd) && r.0.lastSync == m.lastSync && r.2 == []
  {
    var (time, offset) := SourceTime(m, inputs);
    var m1 := m.(ppsOffset := offset);
    match time
    case Some(t) =>
      (m1.(currentTime := Some(t), lastSync := Some(inputs.clockAtEnd)), t,
       [TimeSynced(m.source, t, inputs.clockAtEnd, offset)])
    case None =>
      var local := Valid(inputs.clockAtEnd);
      (m1.(currentTime := Some(local)), local, [])
  }

  /** `getCurrentTime`: the last fix moved forward by the clock time elapsed
      since it was taken, when there is a fix and a non-zero lastSync;
      otherwise the local clock. */
  function CurrentTime(m: Manager, clock: int): (r: JsDate)
    ensures m.currentTime.Some? && m.lastSync.Some? && m.lastSync.value != 0 ==>
              r == Shift(m.currentTime.value, clock - m.lastSync.value)
    ensures !(m.currentTime.Some? && m.lastSync.Some? && m.lastSync.value != 0) ==> r == Valid(clock)
  {
    if m.currentTime.Some? && m.lastSync.Some? && m.lastSync.value != 0 then
      Shift(m.currentTime.value, clock - m.lastSync.value)
    else Valid(clock)
  }

  /** After a successful round that returned time t at clock c (c non-zero),
      the current time read at a later clock c' is t + (c' - c): the manager
      extrapolates its fix at the rate of the local clock. */
  lemma SyncedTimeAdvancesWithClock(m: Manager, inputs: SyncInputs, clock: int)
    requires SourceTime(m, inputs).0.Some? && SourceTime(m, inputs).0.value.Valid?
    requires inputs.clockAtEnd != 0
    requires var t := SourceTime(m, inputs).0.value.ms + clock - inputs.clockAtEnd;
             -MAX_TIME_VALUE <= t <= MAX_TIME_VALUE
    ensures var (m', time, _) := SyncTime(m, inputs);
            CurrentTime(m', clock) == Valid(time.ms + (clock - inputs.clockAtEnd))
  {
  }

  /** With PPS unavailable, or no pulse in time, a gps-pps round degrades to
      a plain GPS round: the same time and the offset untouched. */
  lemma GpsPpsDegradesToGps(m: Manager, inputs: SyncInputs)
    requires m.source == "gps-pps"
    requires !m.ppsAvailable || inputs.pulse.None?
    ensures var (m', time, events) := SyncTime(m, inputs);
            var (g', gtime, gevents) := SyncTime(m.(source := "gps"), inputs);
            time == gtime && m'.ppsOffset == m.ppsOffset && m'.currentTime == g'.currentTime
            && m'.lastSync == g'.lastSync
  {
  }

  /** `initGPS`: opening the serial port records the client; if it throws
      the manager falls back to the local clock.  GPS becomes available only
      when the port later reports that it is open. */
  function InitGps(m: Manager, portOpens: bool): (r: Manager)
    ensures portOpens ==> r == m.(gpsClient := true)
    ensures !portOpens ==> r == m.(source := "local")
  {
    if portOpens then m.(gpsClient := true) else m.(source := "local")
  }

  /** The serial port's open and error events. */
  function GpsPortEvent(m: Manager, isOpen: bool): (r: Manager)
    ensures r.gpsAvailable == isOpen
    ensures r == m.(gpsAvailable := isOpen)
  {
    m.(gpsAvailable := isOpen)
  }

  /** `initPPS`: a missing pulse device leaves everything as it was;
      otherwise the pulse monitor starts and PPS counts as available. */
  function InitPps(m: Manager, devicePresent: bool): (r: Manager)
    ensures !devicePresent ==> r == m
    ensures devicePresent ==> r == m.(ppsAvailable := true)
  {
    if devicePresent then m.(ppsAvailable := true) else m
  }

  /** `init`: for a GPS source open the port and, when the source is still
      gps-pps after that (or PPS is forced), the pulse device; then one
      synchronisation round.  A GPS port that fails to open leaves the
      manager on the local clock. */
  function Init(m: Manager, portOpens: bool, devicePresent: bool, inputs: SyncInputs): (r: (Manager, JsDate, seq<Event>))
    ensures (m.source == "gps" || m.source == "gps-pps") && !portOpens ==> r.0.source == "local"
    ensures !(m.source == "gps" || m.source == "gps-pps") ==> r == SyncTime(m, inputs)
  {
    var m1 :=
      if m.source == "gps" || m.source == "gps-pps" then
        var g := InitGps(m, portOpens);
        if g.source == "gps-pps" || g.enablePPS then InitPps(g, devicePresent) else g
      else m;
    SyncTime(m1, inputs)
  }

  /** Whether switching to `newSource` opens a GPS port that fails, which
      sends the manager back to the local clock. */
  predicate GpsFallback(m: Manager, newSource: string, portOpens: bool) {
    (newSource == "gps" || newSource == "gps-pps") && !m.gpsClient && !portOpens
  }

  /** The first steps of `switchSource`: store the new source, open the GPS
      port if a GPS source needs one and none is open, and start the pulse
      device for gps-pps if PPS is not yet available. */
  function SwitchPrepare(m: Manager, newSource: string, portOpens: bool, devicePresent: bool): (p: Manager)
    ensures p.source == if GpsFallback(m, newSource, portOpens) then "local" else newSource
    ensures p.gpsClient <==> m.gpsClient || ((newSource == "gps" || newSource == "gps-pps") && portOpens)
    ensures p.ppsAvailable <==> m.ppsAvailable || (newSource == "gps-pps" && devicePresent)
    ensures p == m.(source := p.source, gpsClient := p.gpsClient, ppsAvailable := p.ppsAvailable)
  {
    var m1 := m.(source := newSource);
    var m2 := if (newSource == "gps" || newSource == "gps-pps") && !m1.gpsClient then InitGps(m1, portOpens) else m1;
    if newSource == "gps-pps" && !m2.ppsAvailable then InitPps(m2, devicePresent) else m2
  }

  /** `switchSource`: the first steps, then one synchronisation round, then
      the change announced with the source names as requested.  A GPS source
      whose port has to be opened and fails leaves the manager on "local";
      otherwise the new source sticks. */
  function SwitchSource(m: Manager, newSource: string, portOpens: bool, devicePresent: bool,
                        inputs: SyncInputs): (r: (Manager, seq<Event>))
    requires IsKnownSource(newSource)
    ensures GpsFallback(m, newSource, portOpens) ==> r.0.source == "local"
    ensures !GpsFallback(m, newSource, portOpens) ==> r.0.source == newSource
    ensures var round := SyncTime(SwitchPrepare(m, newSource, portOpens, devicePresent), inputs);
            r.0 == round.0 && r.1 == round.2 + [SourceChanged(m.source, newSource, round.0.currentTime)]
  {
    var (m4, _, events) := SyncTime(SwitchPrepare(m, newSource, portOpens, devicePresent), inputs);
    (m4, events + [SourceChanged(m.source, newSource, m4.currentTime)])
  }

  /** A switch to a GPS source whose port cannot be opened ends on the local
      clock: the round that follows reads it and counts as a synchronisation. */
  lemma FailedGpsSwitchReadsLocalClock(m: Manager, newSource: string, portOpens: bool, devicePresent: bool,
                                       inputs: SyncInputs)
    requires IsKnownSource(newSource) && GpsFallback(m, newSource, portOpens)
    ensures var (m', events) := SwitchSource(m, newSource, portOpens, devicePresent, inputs);
            m'.source == "local" && m'.currentTime == Some(Valid(inputs.clockAtEnd))
            && m'.lastSync == Some(inputs.clockAtEnd)
            && events[0] == TimeSynced("local", Valid(inputs.clockAtEnd), inputs.clockAtEnd, m.ppsOffset)
  {
  }

  /** Switching to a source other than GPS always takes effect, and the round
      that follows reads that source. */
  lemma SwitchToNonGpsTakesEffect(m: Manager, newSource: string, portOpens: bool, devicePresent: bool,
                                  inputs: SyncInputs)
    requires newSource == "local" || newSource == "ntp"
    ensures var (m', events) := SwitchSource(m, newSource, portOpens, devicePresent, inputs);
            m'.source == newSource
            && m'.currentTime == Some(SyncTime(m.(source := newSource), inputs).1)
  {
  }

  /** The manager never reports a failed round: every event of a round is a
      time-synced event, and there is one exactly when the source delivered. */
  lemma SyncNeverEmitsFailure(m: Manager, inputs: SyncInputs)
    ensures var events := SyncTime(m, inputs).2;
            |events| <= 1 && (|events| == 1 <==> SourceTime(m, inputs).0.Some?)
            && forall e :: e in events ==> e.TimeSynced?
  {
  }

  datatype Status = Status(
    source: string,
    currentTime: JsDate,
    lastSync: Option<int>,
    gpsAvailable: bool,
    ppsAvailable: bool,
    ppsOffset: int,
    syncInterval: int)

  /** `getStatus`: the flags as they stand, the extrapolated current time,
      and lastSync, reported as null when it is 0. */
  function GetStatus(m: Manager, clock: int): (st: Status)
    ensures st.source == m.source && st.currentTime == CurrentTime(m, clock)
    ensures st.lastSync.Some? <==> m.lastSync.Some? && m.lastSync.value != 0
    ensures st.lastSync.Some? ==> st.lastSync == m.lastSync
    ensures st.gpsAvailable == m.gpsAvailable && st.ppsAvailable == m.ppsAvailable && st.ppsOffset == m.ppsOffset
    ensures st.syncInterval == m.syncInterval
  {
    Status(m.source, CurrentTime(m, clock),
           if m.lastSync.Some? && m.lastSync.value != 0 then m.lastSync else None,
           m.gpsAvailable, m.ppsAvailable, m.ppsOffset, m.syncInterval)
  }

  /** The status read at the end of a successful round reports that round:
      its time (an invalid one stays invalid), the end clock as last sync,
      the round's pulse offset, and the source and interval unchanged. */
  lemma StatusAfterSync(m: Manager, inputs: SyncInputs)
    requires SourceTime(m, inputs).0.Some? && inputs.clockAtEnd != 0
    ensures var (m', time, _) := SyncTime(m, inputs);
            var st := GetStatus(m', inputs.clockAtEnd);
            && (time.Invalid? ==> st.currentTime == Invalid)
            && (time.Valid? && -MAX_TIME_VALUE <= time.ms <= MAX_TIME_VALUE ==> st.currentTime == time)
            && st.lastSync == Some(inputs.clockAtEnd)
            && st.ppsOffset == SourceTime(m, inputs).1
            && st.source == m.source && st.syncInterval == m.syncInterval
  {
  }
}

=== FILE: wrappers.dfy ===
/** Failure-compatible wrappers shared by every module of the model. */
module Wrappers {

  /** A value that may be absent: JavaScript `null`/`undefined`, C `NULL`, Java `null`. */
  datatype Option<+T> = None | Some(value: T) {
    predicate IsFailure() {
      None?
    }

    function PropagateFailure<U>(): Option<U>
      requires None?
    {
      None
    }

    function Extract(): T
      requires Some?
    {
      value
    }

    function GetOr(default: T): T {
      match this
      case Some(v) => v
      case None => default
    }
  }

  /** The outcome of an operation that either yields a value or reports an error
      (a thrown exception, a `false` return, a Go `error`). */
  datatype Result<+R, +E> = Success(value: R) | Failure(error: E) {
    predicate IsFailure() {
      Failure?
    }

    function PropagateFailure<U>(): Result<U, E>
      requires Failure?
    {
      Failure(error)
    }

    function Extract(): R
      requires Success?
    {
      value
    }
  }
}
